=== FILE: README.md ===
# svn2git_tools in Dafny

The svn2git_tools scripts move Subversion projects, and the Mantis issues
that go with them, to Git repositories on GitHub. Most of their work is done
by `svn`, `git`, SQLite and the GitHub API. Between those calls the scripts
run a body of pure text and record logic:

- path, URL and branch-name handling;
- parsers for the output of `svn log -v`, `svn:externals`, `git status
  --porcelain`, `git commit` and a MySQL dump;
- the revision-history records with their previous links and Git hashes;
- the decisions made about Mantis issues;
- small helpers: the `Comparable` mix-in, the attribute dictionary and the
  tree comparison;
- the filter and selection loops of the driver scripts.

This project models that logic and proves properties of it.

Outside calls become inputs:

- A tool's output is a sequence of lines.
- A database is an in-memory map, or a sequence in insertion order where
  the script relies on dictionary order.
- A regular expression match, `urlparse`/`urlunparse` and a GitHub
  response are function parameters. These are oracles, and the proofs hold
  for every choice of them.
- A Python exception is an `Err` of the `Result` type in `wrappers.dfy`.
  A Python `None` is `None`.

One module per source file, in the source's own terms:

| module | source file |
|---|---|
| `Wrappers`, `StrUtil`, `Seqs`, `Sorting` | shared helpers: Python strings, searching, `sorted` |
| `SvnLog`, `SvnExternals`, `SvnMetadata` | svn.py |
| `ConvertSvnToGit`, `Porcelain` | convert_svn_to_git.py (with the porcelain reader also used by svn_and_mantis_to_github.py) |
| `Git` | git.py |
| `SvnMantisToGithub` | svn_and_mantis_to_github.py |
| `SvnProjects` | save_svn_to_db.py and the project helpers of svn_and_mantis_to_github.py |
| `SvnDb` | svndb.py |
| `ProjectDb` | project_db.py |
| `MySqlDump` | mysqldump.py |
| `MantisDump` | mantisdump.py |
| `MantisConverter` | mantis_converter.py |
| `Comparable` | i3helper.py |
| `DictObjects` | dictobject.py |
| `CmpTree` | cmptree.py |
| `RepoStatus` | repostatus.py |
| `CrossCheck` | crosscheck.py |
| `PdaqDb` | pdaqdb.py |
| `DomhubRewrite` | rewrite_domhub_tools_repo.py |
| `Checkpoint` | convert_from_checkpoint.py and the checkpoint naming in convert_svn_to_git.py |
| `PylintProblems` | pylint_problems.py |

All the `.dfy` files form one program and are verified together, for
example with

    dafny verify --resource-limit 2000000 --verification-time-limit 0 --warn-contradictory-assumptions *.dfy

A resource limit rather than a time limit keeps the verdict the same from
machine to machine.

Two behaviours of the scripts are worth stating plainly:

- A conversion is resumed through the skip filters of
  convert_from_checkpoint.py (`Checkpoint`): branches before the test
  branch and revisions below the test revision are passed over.
- When GitHub keeps answering 403, `add_issues` in mantis_converter.py
  gives up on that one issue after six attempts, with a warning, and
  carries on (`MantisConverter.CreateIssueSchedule`).

Where a script does something its authors evidently did not intend, an
`...AsWritten` member keeps the behaviour as written. A corrected member,
used by the rest of the project, carries the intended behaviour and its
proof. See "## Findings".

## Model

| member | source | states |
|---|---|---|
| SvnLog.AddFiledata | svn.py:65-67 | a changed path is appended to the entry's file list and the message lines are untouched |
| SvnLog.AddLog | svn.py:69-71 | a message line is appended without its trailing whitespace, so every stored line stays stripped |
| SvnLog.CleanLines | svn.py:73-77 | the result is a prefix of the lines that ends in a non-empty line, and only empty lines were removed |
| SvnLog.CleanKeepsInterior | svn.py:73-77 | every line up to the last non-empty one survives cleaning, interior blank lines included |
| SvnLog.CleanIdempotent | svn.py:73-77 | cleaning a cleaned message changes nothing |
| SvnLog.CleanData | svn.py:73-77 | an entry's message is cleaned and its file list kept |
| SvnLog.Step | svn.py:597-682 | one line of `svn log -v` output moves the parser between the five states and keeps every yielded entry finished |
| SvnLog.Finish | svn.py:684-686 | at end of output an open entry is cleaned and yielded, and a parser waiting for its first dash line fails |
| SvnLog.RunAppend | svn.py:563-682 | feeding two runs of output one after the other equals feeding their concatenation |
| SvnLog.StripAll | svn.py:598 | every line is read without its trailing whitespace |
| SvnLog.SvnLog | svn.py:504-697 | a successful parse yields only cleaned entries whose lines are stripped |
| SvnLog.FirstLineMustBeDashes | svn.py:599-611 | output whose first line is not a dash line is rejected |
| SvnLog.FailedStaysFailed | svn.py:590-591 | once the parse has failed, no later line changes the outcome |
| SvnLog.StoppedStaysStopped | svn.py:614-615 | once the parse has stopped, no later line is read |
| SvnLog.EmptyAfterDashesStops | svn.py:613-615 | an empty line right after a dash line ends the parse with the entries so far |
| SvnLog.BadHeaderRejected | svn.py:617-624 | a non-empty line after a dash line that the header pattern rejects is an error |
| SvnLog.RunBlock | svn.py:613-679 | the lines `svn log -v` prints for one entry take the parser from one dash line to the next and yield exactly that entry |
| SvnLog.RenderThenParse | svn.py:504-697 | the output printed for a sequence of entries parses back to exactly those entries |
| SvnLog.LogArgs | svn.py:529-544 | an end revision without a start revision is an error; otherwise the arguments are `svn log -v`, then `-r<rev>` or `-r<rev>:<end>` when a start revision is given (a number or a word such as "HEAD"), then `-l<n>` when a limit is given, then `--stop-on-copy` when asked for, then the URL |
| SvnExternals.ExternalsLine | svn.py:221-252 | an empty line is skipped, and a yielded external's URL is the field that starts with "http" |
| SvnExternals.ExternalsAsWritten | svn.py:218-252 | the generator as written yields at most one external per line |
| SvnExternals.Externals | svn.py:218-252 | with the revision reset on every line, at most one external per line is yielded |
| SvnExternals.TwoFields | svn.py:226-229 | a two-field line has no revision and takes whichever field starts with "http" as the URL; otherwise the error message's own formatting fails |
| SvnExternals.ThirdFieldRejected | svn.py:239-241 | a third field that is not a "-r" revision is a bad definition |
| SvnExternals.UrlOnlyLine | svn.py:230-245 | a line holding only a URL yields that URL with whatever revision the variable holds and no subdirectory |
| SvnExternals.FormatThenRead | svn.py:226-248 | a written external definition reads back as the same external, whatever the revision held before |
| SvnExternals.WriteThenRead | svn.py:218-252 | the property text written for a list of externals reads back as that list |
| SvnExternals.UrlOnlyFirstLineFails | svn.py:230-244 | as written, a URL-only first line reads a revision that was never bound and fails |
| SvnExternals.UrlOnlyInheritsRevision | svn.py:230-244 | as written, a URL-only line takes the revision of the line before it |
| SvnExternals.UrlOnlyHasNoRevision | svn.py:226-244 | with the revision reset per line, a URL-only line has no revision |
| SvnExternals.NoRevisionTokenMeansNone | svn.py:230-244 | with the revision reset per line, a line without a "-r" field has no revision |
| SvnMetadata.SetLayout | svn.py:1208-1222 | only the three fixed type names are accepted, and each renames its own directory only |
| SvnMetadata.SetLayoutRestores | svn.py:1208-1222 | setting a type back to its old name restores the layout |
| SvnMetadata.CutAt | svn.py:1102-1109 | the directory that cuts the URL is the first of trunk, branches and tags that occurs after a '/', and none cuts when none occurs |
| SvnMetadata.CutRel | svn.py:1102-1109 | after a cut the relative URL is the part before it, a '/', and a branch that starts with the directory name |
| SvnMetadata.LoadMetadata | svn.py:1095-1118 | the relative URL must start with "^/", and loading succeeds exactly when what remains before the cut holds a '/' |
| SvnMetadata.LoadWithoutBranch | svn.py:1102-1118 | without a directory name the branch is trunk and the relative URL is "^/" base "/" name |
| SvnMetadata.LoadWithBranch | svn.py:1102-1118 | with a cut the relative URL is "^/" base "/" name "/" branch, and the branch starts with the directory name |
| SvnMetadata.TrunkFirst | svn.py:1104-1109 | a trunk name anywhere wins over branches and tags that come earlier |
| SvnMetadata.LoadOfBuilt | svn.py:1095-1118 | a URL built from a base, a name and a branch loads back as those three |
| SvnMetadata.FetchSubdirs | svn.py:1059-1078 | only directory entries count; trunk defaults to "", and branches and tags are found exactly when listed |
| ConvertSvnToGit.FirstDiff | convert_svn_to_git.py:454-458 | the scan finds nothing exactly when the strings agree on their common length, and otherwise the first index where they differ, with equal text before it |
| ConvertSvnToGit.DiffAtStartCollapses | convert_svn_to_git.py:460-461 | as written, two strings that differ in their first character but end alike both reduce to their last character, so the difference is hidden |
| ConvertSvnToGit.DiffStrings | convert_svn_to_git.py:445-466 | the two pieces are tails of the inputs cut at one shared position after a common prefix; they are both empty exactly when the strings are equal and differ whenever the strings do |
| ConvertSvnToGit.DiffKeepsOneCharacter | convert_svn_to_git.py:460-461 | where the strings first differ past the start, both pieces begin one shared character before the difference, as in the code |
| ConvertSvnToGit.DiffOfPrefix | convert_svn_to_git.py:463-466 | when one string extends the other, the pieces are the empty string and the extra tail |
| ConvertSvnToGit.FixStatusFilename | convert_svn_to_git.py:520-525 | one pair of matching surrounding quotes is removed and nothing else; any other name comes back unchanged |
| ConvertSvnToGit.FixQuoted | convert_svn_to_git.py:520-525 | quoting a name with either quote character and then fixing it gives the name back |
| ConvertSvnToGit.ClassifyModification | convert_svn_to_git.py:535-580 | for each list, exactly the status codes that land in it: staged for a blank work-tree column, added for "??" or 'A', deleted for 'D', modified for 'M' or 'T', with the index column one of blank, 'A' or 'M' |
| ConvertSvnToGit.GatherModificationsSpec | convert_svn_to_git.py:528-582 | gathering succeeds exactly when every non-blank line is classified, and each of the four lists holds, in order, the unquoted paths of exactly the lines of its kind |
| Porcelain.GatherSpec | convert_svn_to_git.py:528-582 | the shared gathering loop succeeds exactly when every non-blank line is classified, and each list is absent when empty and otherwise holds the paths of its lines in order |
| Porcelain.PickedPartition | convert_svn_to_git.py:541-580 | every line lands in at most one list, so the lists' lengths add up to at most the number of lines |
| ConvertSvnToGit.RevertOneAsWritten | convert_svn_to_git.py:735-743 | as written, a URL without the forked name is left alone, and a replacement puts the original name in place of the first occurrence |
| ConvertSvnToGit.ForkAtStartWraps | convert_svn_to_git.py:739-743 | as written, a forked name at the very start of a URL ending in '/' is replaced, because index -1 reads the URL's last character; the corrected item leaves it alone |
| ConvertSvnToGit.ForkAtEndRaises | convert_svn_to_git.py:740-741 | as written, a URL that ends in a forked name right after a '/' reads past its end and raises |
| ConvertSvnToGit.RevertOne | convert_svn_to_git.py:735-743 | a forked name is replaced exactly when its first occurrence is bounded by '/' on both sides, and then only that occurrence changes |
| ConvertSvnToGit.RevertFrom | convert_svn_to_git.py:734-745 | the items are tried in order: the result is the replacement made by the first item whose name is a bounded component, and nothing (no revert) exactly when no item's name is one |
| ConvertSvnToGit.RevertForkedUrl | convert_svn_to_git.py:731-745 | "oldtrigger" as a bounded component becomes "trigger"; failing that, "pdaq-user" becomes "pdaq-icecube"; a URL where neither is a bounded component is not reverted |
| ConvertSvnToGit.RevertComponent | convert_svn_to_git.py:731-745 | a URL with the forked trigger project as a whole path component gets the original project name there, as written and corrected alike |
| ConvertSvnToGit.GitBranch | convert_svn_to_git.py:1031-1048 | the branch is "main" exactly for the designated trunk branch (or the trunk when none is designated); the trunk becomes "not_trunk" when another branch is designated; any other branch is named by its last path component, and the call fails exactly when that component is "HEAD" or "main" |
| ConvertSvnToGit.BranchNamedByLastComponent | convert_svn_to_git.py:1045-1048 | a branch path that is not the trunk or the designated trunk branch gets its last component as its Git name |
| ConvertSvnToGit.RewritePdaq | convert_svn_to_git.py:1267-1409 | "fabric_common" is renamed "fabric-common"; projects without a rule keep their URL and revision; only four projects can have their URL changed |
| ConvertSvnToGit.PyDomRange | convert_svn_to_git.py:1273-1275 | every PyDOM revision from 14379 up to 17161 is moved to 14222, and no other is |
| ConvertSvnToGit.RewriteRevisionIdempotent | convert_svn_to_git.py:1267-1409 | every revision rule maps into revisions that no rule moves again |
| ConvertSvnToGit.RewrittenUrlsSettle | convert_svn_to_git.py:1284-1365 | a URL produced by a rewriting rule is not matched by any URL rule again |
| ConvertSvnToGit.RewriteIdempotent | convert_svn_to_git.py:1267-1409 | rewriting a rewritten reference changes nothing |
| Git.AddArgs | git.py:26-37 | the command is "git add" followed by exactly the given paths, in order |
| Git.RemoveArgs | git.py:360-374 | the command is "git rm -r" followed by exactly the given paths, in order |
| Git.OnePathIsSingleton | git.py:30-33 | a single path and a one-element list holding it give the same add and remove commands |
| Git.PushArgs | git.py:309-321 | the command starts "git push" and grows by two words for an upstream and one for a remote |
| Git.PushArgsRoundTrip | git.py:309-321 | the push command determines the remote and upstream it was built from |
| Git.CheckoutArgs | git.py:61-73 | the command starts "git checkout" and grows by one word for a new branch and one for a start point |
| Git.CheckoutArgsRoundTrip | git.py:61-73 | the checkout command determines branch, start point and the new-branch flag, for any branch not itself called "-b" |
| Git.CheckoutArgsAmbiguous | git.py:66-73 | a branch called "-b" with a start point gives the same command as creating the start point as a new branch |
| Git.StatusArgs | git.py:398-406 | the status command holds "--porcelain" exactly when porcelain output is asked for |
| Git.ResetArgsAsWritten | git.py:381-390 | as written, the reset command ends in the start point after "git reset" and optional flags |
| Git.ResetFalseIsHard | git.py:381-388 | as written, the default `hard=False` resets hard, exactly like `hard=True` |
| Git.ResetArgs | git.py:381-390 | corrected, the reset command holds "--hard" exactly when a hard reset is asked for, and otherwise is just "git reset" and the start point |
| Git.CommitArgs | git.py:123-134 | the commit command opens with "git commit -F FILE", puts the author first when given, ends with the listed files when given, and otherwise carries "-a" exactly when committing all |
| Git.HandleStderr | git.py:50-58 | a stream of stderr lines is accepted exactly when the handler accepts every line |
| Git.CheckoutStderr | git.py:50-58 | a checkout stderr line is accepted exactly when it starts with one of the three switch messages |
| Git.CheckoutMessages | git.py:50-58 | the messages of a branch creation, a switch and a no-op checkout are accepted, a pathspec error is not |
| Git.CloneStderr | git.py:81-89 | a clone stderr line is accepted exactly when it is a progress line or holds the empty-repository warning |
| Git.CloneEmptyWarning | git.py:84-85 | the empty-repository warning is accepted wherever it stands in the line |
| Git.RemoveStderrLine | git.py:349-357 | a removal stderr line is accepted exactly when it reports an unmatched pathspec, and then it marks the failure as expected |
| Git.RemoveStderrSpec | git.py:340-357 | removal stderr is accepted exactly when every line reports an unmatched pathspec, and the failure is expected once such a line was seen |
| Git.RemoveOutcomeSpec | git.py:340-374 | a removal succeeds exactly when every stderr line reports an unmatched pathspec and either the return code is zero or such a line excused it |
| Git.CommitStderrLine | git.py:173-184 | before the auto-pack notice a stderr line is accepted exactly when it is that notice, and after it every line is accepted |
| Git.CommitStderrSpec | git.py:173-184 | a commit's stderr is accepted exactly when it is empty or opens with the auto-pack notice |
| Git.TopMatch | git.py:158-160 | the branch and hash taken from a commit's first line are single words |
| Git.TopOfTopLine | git.py:158-160 | the branch and hash of a commit's first line are read back from it |
| Git.TopOfRootTopLine | git.py:158-160 | the same holds for a root commit, whose "(root-commit)" word is passed over |
| Git.ChgMatch | git.py:162 | a matched summary line ends with the text captured after "changed" |
| Git.ChgOfSummaryLine | git.py:162 | the number of files and the rest of a summary line are read back from it |
| Git.CountBeforeFinds | git.py:163-166 | the count search succeeds exactly when the text holds a space, a number and the word |
| Git.CountHere | git.py:163-166 | a space, a number and the word yield that number |
| Git.InsertionsOfChangeCounts | git.py:163-164 | the insertion search finds the insertion count of a summary line |
| Git.DeletionsOfChangeCounts | git.py:165-166 | the deletion search finds the deletion count of a summary line |
| Git.CommitSpec | git.py:186-198 | no output gives no values; otherwise reading succeeds exactly when the first line matches, which fixes branch and hash, and the counts come from the first summary line |
| Git.ReadAfterSummary | git.py:201-223 | once all three counts are known, later lines change nothing |
| Git.ReadAfterTop | git.py:201-219 | after the first line, the first summary line alone sets the counts |
| Git.AsWrittenCopiesFiles | git.py:204-217 | as written, insertions and deletions are each either 0 or the number of files changed |
| Git.CountsAreFound | git.py:204-217 | corrected, the insertion and deletion counts are the numbers the searches find, and 0 where they find none |
| Git.CommitOfSummary | git.py:186-217 | for Git's output of a commit, as written every count is the number of files, and corrected the counts are the true insertions and deletions |
| SvnMantisToGithub.ProjectBranch | svn_and_mantis_to_github.py:177-201 | a URL is accepted exactly when, after the base URL and '/', it is the project name alone or the project name followed by '/'; the first is the trunk and the second names the branch after that '/'; the file prefix is the text after the base URL, with a '/' added unless it ends in one |
| SvnMantisToGithub.TrunkOfProjectUrl | svn_and_mantis_to_github.py:177-201 | the project's own URL is the trunk, with the project name plus '/' as its file prefix |
| SvnMantisToGithub.BranchOfProjectUrl | svn_and_mantis_to_github.py:177-201 | a URL below the project yields the branch path whole, and the prefix starts with project/branch |
| SvnMantisToGithub.GitBranchName | svn_and_mantis_to_github.py:268 | the Git branch is the part of the Subversion branch after its last '/', holds no '/', and is either the whole name or is preceded by a '/' |
| SvnMantisToGithub.ClassifyChange | svn_and_mantis_to_github.py:425-461 | a status line is accepted exactly when it has at least four characters, a blank third one, and a known pair of status letters; lines with a blank second letter are skipped, and nothing is ever treated as staged |
| SvnMantisToGithub.GatherChangesSpec | svn_and_mantis_to_github.py:419-463 | gathering succeeds exactly when every non-blank line is accepted, and each list holds, in order, the paths of exactly the lines of its kind |
| SvnMantisToGithub.ChangesAgreeWithConverter | svn_and_mantis_to_github.py:439-460 | every line this script files as an addition, deletion or modification is filed the same way by the Subversion-to-Git converter |
| SvnMantisToGithub.IssueNumbers | svn_and_mantis_to_github.py:508-510 | the issue list shows each issue number in decimal, one entry per issue, in order |
| SvnMantisToGithub.CommitMessage | svn_and_mantis_to_github.py:495-510 | without issues the message is the loglines joined by newlines (none for no loglines); with issues there is always a message |
| SvnMantisToGithub.MessageLines | svn_and_mantis_to_github.py:495-501 | splitting an issue-free message at its newlines gives the original loglines back |
| SvnMantisToGithub.MessageAfterTag | svn_and_mantis_to_github.py:503-510 | the text before the first ':' of an issue message is the issue tag, and what follows ": " is the plain message |
| SvnMantisToGithub.MapRevision | svn_and_mantis_to_github.py:341-351 | recording succeeds exactly when the revision is not yet mapped; it adds that one key, maps it to the commit, and keeps every old entry |
| SvnMantisToGithub.NeverRemapped | svn_and_mantis_to_github.py:341-346 | a revision once recorded can never be recorded again, whatever commit the second attempt names |
| SvnMantisToGithub.CommittedAncestor | svn_and_mantis_to_github.py:237-243 | the walk stops at the first ancestor already committed, passing only uncommitted ones, and fails exactly when no ancestor in the chain is committed |
| SvnMantisToGithub.CloseMessage | svn_and_mantis_to_github.py:318-326 | the closing message starts with '[' exactly when something was committed; with no commit it is "Nothing commited to git repo!", and otherwise it is the bracketed branch and hash followed by the changed, inserted and deleted counts, all three shown as 0 when any count is missing |
| SvnMantisToGithub.CountsTextInjective | svn_and_mantis_to_github.py:325-326 | the counts text reads back: two count triples with the same text are equal |
| SvnMantisToGithub.CloseMessageCounts | svn_and_mantis_to_github.py:320-326 | two commits on the same branch and hash with the same closing message show the same counts; these are the commit's own counts when all three are known and 0, 0, 0 when any is missing |
| SvnDb.LogMessage | svndb.py:160-168 | there is no message exactly when there are no lines |
| SvnDb.LogMessageLines | svndb.py:160-168 | splitting the message at newlines gives back the log lines, when none holds a newline |
| SvnDb.CompareKeyEqual | svndb.py:143-149 | two entries' keys are equal exactly when tag, branch, revision and previous revision agree |
| SvnDb.CheckDuplicateAsWritten | svndb.py:97-140 | as written, a candidate is a duplicate only when revision, author, date and line count agree and it has no previous link at all |
| SvnDb.CopyIsNotDuplicate | svndb.py:130-138 | as written, an entry is not a duplicate of an exact copy of itself |
| SvnDb.CheckDuplicate | svndb.py:97-140 | corrected, a candidate is a duplicate when the four fields agree and, if it has a previous link, the links agree too |
| SvnDb.CopyIsDuplicate | svndb.py:97-140 | corrected, every entry is a duplicate of its own copy, and both readings agree on candidates without a previous link |
| SvnDb.SetPreviousAsWritten | svndb.py:175-203 | as written, relinking fails exactly when the current link is higher than the new one and itself has no previous link |
| SvnDb.RelinkBelowFirstRaises | svndb.py:184-193 | an entry linked to a first revision and relinked lower makes the warning read an unset variable |
| SvnDb.SetPrevious | svndb.py:175-203 | corrected, only the relinked entry can change, and only in its previous link |
| SvnDb.PreviousNeverDecreases | svndb.py:175-203 | a previous link is never lowered, is set to the new entry exactly when that is not lower, and agrees with the code as written wherever that does not fail |
| SvnDb.IgnoreProject | svndb.py:388-397 | a tag is ignored exactly when it contains one of the ignored markers |
| SvnDb.IgnoreProjectIsIgnoreTag | svndb.py:388-397 | the database's filter is the same test as the loader's `ignore_tag` |
| SvnDb.SaveRevision | svndb.py:834-865 | a hash of seven characters or fewer, or an unknown revision, is an error; otherwise only that revision's branch and hash change |
| SvnDb.SaveRevisionIdempotent | svndb.py:848-855 | saving what is already stored changes nothing, and saving twice is saving once |
| SvnDb.FindPreviousRevision | svndb.py:616-639 | the walk fails exactly when no revision along the chain is committed, and otherwise returns the first committed one with its branch and hash |
| SvnProjects.IgnoreTag | save_svn_to_db.py:161-166 | a tag is skipped exactly when "_rc" or "_debug" occurs anywhere in it |
| SvnProjects.BuildBaseSuffix | svn_and_mantis_to_github.py:112-128 | stripping succeeds exactly when the URL is the base URL and a '/', and the base, the '/' and the result rebuild the URL |
| SvnProjects.BaseSuffixOf | svn_and_mantis_to_github.py:112-128 | stripping the base from a URL built on it gives back the suffix |
| SvnProjects.ProjectBaseSuffix | save_svn_to_db.py:62-78 | the same check, and the result is the suffix with a '/' added unless it already ends in one |
| SvnProjects.ParseMakeKey | save_svn_to_db.py:132-133 | a key reads back as the root URL and revision it was made from |
| SvnProjects.MakeKeyInjective | save_svn_to_db.py:132-133 | different root URL and revision pairs never share a key |
| SvnProjects.GetEntry | save_svn_to_db.py:126-130 | an entry is found exactly when its key is in the log, and it is the one stored under the key |
| SvnProjects.AddEntry | save_svn_to_db.py:106-112 | adding fails exactly when the key is already present, and otherwise appends the entry |
| SvnProjects.AddThenGet | save_svn_to_db.py:106-130 | after an add the key reads back as its entry, every other key reads as before, and keys stay distinct |
| SvnProjects.AddTwiceFails | save_svn_to_db.py:106-111 | a second entry for a key is always refused |
| SvnProjects.EntryPairs | save_svn_to_db.py:120-124 | the pairs are a reordering of the log, in date-string order |
| SvnProjects.EntryPairsInOrder | save_svn_to_db.py:120-124 | a log added in date order is listed in that order, since the sort is stable |
| SvnProjects.AddedCount | save_svn_to_db.py:205-221 | the number saved is exactly the number of pairs whose key is not yet in the database (`Unsaved`); so it is zero exactly when every key was already there and equals the total exactly when none was |
| SvnProjects.SaveReport | save_svn_to_db.py:216-221 | the report starts with "No entries added" exactly when nothing was added, and then ends with the total; otherwise the number read back after "Added " is the count added, and the report ends with the total when not every entry was new |
| SvnProjects.SaveReportAllNew | save_svn_to_db.py:216-221 | the report is "Added N entries" with N the total exactly when every entry was new and there was at least one |
| SvnProjects.SaveReportOfRun | save_svn_to_db.py:205-221 | for a save run, the report says "No entries added" exactly when no pair's key was missing from the database, and "Added N entries" exactly when there were pairs and none of their keys was in the database |
| DictObjects.GetAttr | dictobject.py:8-12 | a read gives the stored value, or an attribute error for an unknown name |
| DictObjects.SetAttr | dictobject.py:14-15 | a write stores the value under the name, overwriting any old one |
| DictObjects.SetValue | dictobject.py:22-24 | `set_value` is the same as an attribute write |
| DictObjects.DelAttr | dictobject.py:17-20 | a delete removes only that name, and fails when it is absent |
| DictObjects.GetAfterSet | dictobject.py:8-15 | a read after a write of the same name returns what was written |
| DictObjects.OtherNamesUnchanged | dictobject.py:8-20 | writing or deleting one name leaves every other name's read unchanged |
| DictObjects.DeleteThenRead | dictobject.py:8-20 | after a delete the name reads as unknown and a second delete fails |
| ProjectDb.GetAuthor | project_db.py:34-45 | looking up an author succeeds exactly when the authors are loaded and the user is known, and gives that user's author |
| ProjectDb.HasAuthor | project_db.py:48-55 | the question is an error exactly before loading, and is answered yes exactly when looking the author up would succeed |
| ProjectDb.LastDefiner | project_db.py:74-90 | the line found names the user and no later line does; none is found exactly when no line names the user |
| ProjectDb.AuthorMapSpec | project_db.py:74-90 | a user is in the author map exactly when some line names it, and maps to what the last such line gives |
| ProjectDb.LoadAuthors | project_db.py:58-93 | the first load records the file name, and any later load changes nothing |
| ProjectDb.LoadAuthorsOnce | project_db.py:58-93 | after the first load a user has an author exactly when some line names it, the one the last such line gives, and a second load changes nothing |
| ProjectDb.LogMessage | project_db.py:206-219 | the message is the loglines joined by newlines, and the empty string when there are none |
| ProjectDb.LogMessageLines | project_db.py:206-219 | splitting a non-empty message at its newlines gives the loglines back |
| ProjectDb.ClearSaved | project_db.py:177-183 | the saved flag, the previous link and the Git branch and hash are cleared, and nothing else changes |
| ProjectDb.TagName | project_db.py:405-409 | a branch without '/' is its own tag; otherwise the tag is what follows the first '/' |
| ProjectDb.TagNameOf | project_db.py:405-409 | the tag of a directory, '/' and a name is the name, even when it holds a '/' itself |
| ProjectDb.NumEntries | project_db.py:693-710 | the count is -1 exactly before loading, every entry without a branch, and with a branch a number between 0 and the total that is 0 exactly when no entry is on it; that number is the number of positions whose entry is on the branch |
| ProjectDb.CountOnPositions | project_db.py:705-710 | counting the entries whose branch matches gives the number of positions holding such an entry |
| ProjectDb.Lookup | project_db.py:752-756 | the position found holds the revision, and none is found exactly when no entry has it |
| ProjectDb.SaveRevision | project_db.py:742-776 | saving succeeds exactly when the entries are loaded, the hash is longer than seven characters, the revision is known and its entry is saved or has a file list; it then marks that entry saved with the branch and hash and leaves every other entry alone |
| ProjectDb.SaveRevisionIdempotent | project_db.py:742-776 | saving the same revision twice is saving it once, and the revisions stay one per entry |
| ProjectDb.EntriesAsWritten | project_db.py:470-481 | as written, the entries can be listed exactly when they are loaded |
| ProjectDb.NoFilterYieldsNothing | project_db.py:479-481 | as written, without an ignore function nothing is listed, whatever is loaded |
| ProjectDb.Entries | project_db.py:470-481 | corrected, the listing is in revision order and holds exactly the loaded entries on the branch (the trunk when none is named) that the ignore function, if any, does not reject |
| ProjectDb.EntriesAgreeWithFilter | project_db.py:470-481 | with an ignore function the written and corrected listings agree |
| ProjectDb.FindFirstRevision | project_db.py:483-493 | finding the first revision is an error exactly before loading; what it finds once loaded is stated by ProjectDb.FindFirstRevisionSpec |
| ProjectDb.FindFirstRevisionSpec | project_db.py:483-493 | the first revision is that of an entry on the branch dated no later than any other entry on it, and there is none exactly when no entry is on the branch |
| RepoStatus.BranchPrefix | repostatus.py:52-55 | a branch is shown as its name and '/', and no branch as nothing |
| RepoStatus.GitField | repostatus.py:52-59 | the Git half starts with the branch prefix and the hash, and ends with the status in parentheses exactly when the status is neither absent nor blank; then it is exactly prefix, hash and "(status)" |
| RepoStatus.SvnField | repostatus.py:61-68 | the Subversion half starts with the branch prefix and the revision, and ends with the date in brackets exactly when there is one; then it is exactly prefix, revision and "[date]" |
| RepoStatus.Render | repostatus.py:51-71 | the printed status is "git ", the Git half, " svn " and the Subversion half |
| RepoStatus.RenderSplits | repostatus.py:51-71 | a status whose pieces hold no spaces prints as four words: "git", the Git half, "svn" and the Subversion half |
| RepoStatus.BlankStatusOmitted | repostatus.py:56-59 | a blank status prints exactly like a missing one |
| RepoStatus.ExtractBranch | repostatus.py:74-89 | a branch is found exactly when the project name occurs and is followed by the end or by '/' and at least one character; the end gives "trunk", and otherwise the branch is what follows the '/' |
| RepoStatus.ExtractBranchOf | repostatus.py:74-89 | a URL with the project followed by '/' and a branch gives that branch back |
| RepoStatus.ExtractTrunkOf | repostatus.py:74-85 | a URL ending in the project gives the trunk |
| RepoStatus.Lookup | repostatus.py:133 | a project is found exactly when the sandbox holds it, with its recorded status |
| RepoStatus.Missing | repostatus.py:122-126 | the missing projects are exactly those in the Subversion sandbox, not in the Git one, and not the metaproject |
| RepoStatus.ScanGit | repostatus.py:128-144 | the scan fails exactly when a shared project lacks a hash; otherwise the extra projects are exactly the Git-only ones other than the metaproject, and a project is mismatched exactly when the Subversion hash does not start with the Git hash |
| RepoStatus.Compare | repostatus.py:120-153 | the comparison reports exactly the missing and extra projects, mismatches only among shared projects, and fails exactly when a shared project lacks a hash |
| RepoStatus.CompareMismatch | repostatus.py:133-134 | with one entry per project, a shared project is reported exactly when its hashes disagree |
| MySqlDump.QuoteString | mysqldump.py:393-405 | quoting fails exactly when the text holds both quote characters; otherwise the text is wrapped in a quote it does not contain, '"' whenever possible |
| MySqlDump.DefaultString | mysqldump.py:410-417 | the default clause starts " DEFAULT " and then carries an already quoted default as it is, any other default quoted, or "None" when it cannot be quoted |
| MySqlDump.UseTable | mysqldump.py:826-840 | a table is read exactly when it is on the include list (if any) and not on the omit list (if any) |
| MySqlDump.YieldedTables | mysqldump.py:847-888 | the tables yielded are exactly the names of every table but the last that the filter accepts, in order, followed by the last table's name when it has data and the filter accepts it |
| MySqlDump.YieldedTablesOf | mysqldump.py:853-888 | of the accepted tables every one but the last is yielded whether or not it has data, and the last only if it has data |
| MySqlDump.Absorb | mysqldump.py:743-756 | a piece taken into a pending field leaves it ending in a comma; as written the comma is added only when the text does not already end in one, corrected it is always added |
| MySqlDump.Step | mysqldump.py:704-823 | every pass that does not finish the row consumes part of it, so splitting ends |
| MySqlDump.SplitRowAsWritten | mysqldump.py:702-823 | as written, every row splits into at least one field |
| MySqlDump.SplitRow | mysqldump.py:702-823 | corrected, every row splits into at least one field |
| MySqlDump.NoCommaOneField | mysqldump.py:710-724 | text with no comma is one field: whatever was pending, then the text |
| MySqlDump.PlainFieldEnds | mysqldump.py:727-823 | a field not opened by a quote ends at the next comma, unless an odd run of backslashes escapes the character before that comma, in which case it is held |
| MySqlDump.ClosingPiece | mysqldump.py:768-785 | a piece that closes a pending quoted field yields the whole field, less any trailing comma |
| MySqlDump.ContinuingPiece | mysqldump.py:787-803 | a piece that continues a quoted field is taken into the pending segment with its comma |
| MySqlDump.PlainPiece | mysqldump.py:805-823 | a plain field is yielded at its comma or at the end of the row |
| MySqlDump.SplitRowOfJoin | mysqldump.py:702-823 | splitting undoes joining well-formed fields with commas: a row written field by field reads back as exactly those fields, as written and corrected |
| MySqlDump.DoubledCommaSplitsAsWritten | mysqldump.py:743-803 | as written, the quoted text 'a,,b' is cut into two fields at its doubled comma |
| MySqlDump.DoubledCommaCut | mysqldump.py:743-803 | as written, a row made of a quote and one character that is not a quote, comma or backslash, then ",,", then comma-free text ending in a quote, is cut in two at the doubled comma |
| MySqlDump.DoubledCommaKept | mysqldump.py:743-803 | corrected, the quoted text 'a,,b' stays one field |
| MySqlDump.Unquote | mysqldump.py:673-676 | a value wrapped in single quotes loses them (as written only when longer than two characters), and any other value is kept |
| MySqlDump.DecodeValue | mysqldump.py:650-687 | decoding fails exactly for an unknown column type; within the model a value is skipped only when an integer column holds text that is neither a number nor NULL (float text is not checked, see "## Left out"); a number column stores null exactly for "NULL" |
| MySqlDump.IntFieldRoundTrip | mysqldump.py:652-659 | an integer column reads back any number written in decimal |
| MySqlDump.TextFieldRoundTrip | mysqldump.py:670-678 | corrected, a text column reads back any backslash-free text written quoted and escaped, the empty text included |
| MySqlDump.EmptyTextKeepsQuotes | mysqldump.py:673-676 | as written, the empty text '' is stored as two quote characters |
| MySqlDump.UnquoteAgrees | mysqldump.py:673-676 | the written and corrected unquoting differ only on values of exactly two characters |
| MySqlDump.DecodeFields | mysqldump.py:627-691 | decoding fails exactly when some field fails for its column; otherwise the values stored are exactly `StoredPairs`: for each field in order whose value is stored, its column's name and that value. They are named after columns and at most as many as the fields |
| MySqlDump.ParseDataRow | mysqldump.py:622-699 | a row fails exactly when some field within the column count fails to decode; otherwise it stores exactly `StoredPairs` of the fields that have a column, so never more values than there are columns |
| MySqlDump.SetDataTable | mysqldump.py:552-559 | a data table is set exactly when none was set before, and nothing else in the definition changes |
| MySqlDump.DataTableSetOnce | mysqldump.py:552-559 | once set, the data table can never be replaced, not even by itself |
| MantisDump.AddTable | mantisdump.py:318-323 | a table is attached exactly when it is a dependency; it then sits under its name, every other attachment is kept, and only dependencies are ever attached |
| MantisDump.CreateDataTable | mantisdump.py:355-366 | the main table gets an issue table, a dependency a plain table, any other name nothing, and a warning is due exactly for names neither known nor ignored |
| MantisDump.CreatedTablesAttach | mantisdump.py:318-366 | every plain table the dump creates can be attached to the issue table |
| MantisDump.Unknown | mantisdump.py:262-263 | an unlisted code is shown between question marks |
| MantisDump.UnknownReadsBack | mantisdump.py:262-263 | an unlisted code's shown name reads back as the code |
| MantisDump.Status | mantisdump.py:285-305 | the status name starts with '?' exactly when the code is not one of the seven listed ones |
| MantisDump.StatusCode | mantisdump.py:285-305 | a shown status starting with '?' never stands for a listed code |
| MantisDump.StatusReadsBack | mantisdump.py:285-305 | every status code, listed or not, is read back from the name shown for it |
| MantisDump.StatusInjective | mantisdump.py:285-305 | different status codes are shown under different names |
| MantisDump.Priority | mantisdump.py:246-264 | the priority name starts with '?' exactly when the code is not one of the six listed ones |
| MantisDump.PriorityCode | mantisdump.py:246-264 | a shown priority starting with '?' never stands for a listed code |
| MantisDump.PriorityReadsBack | mantisdump.py:246-264 | every priority code, listed or not, is read back from the name shown for it |
| MantisDump.PriorityInjective | mantisdump.py:246-264 | different priority codes are shown under different names |
| MantisDump.IsClosed | mantisdump.py:221-222 | an issue is closed exactly when its status reads "closed" |
| MantisDump.IsResolved | mantisdump.py:225-226 | an issue is resolved exactly when its status reads "resolved" |
| MantisDump.NeverClosedAndResolved | mantisdump.py:221-226 | no issue is both closed and resolved |
| MantisDump.Matches | mantisdump.py:121-122 | the match count is at most the number of rows, and zero exactly when no row has the id |
| MantisDump.ScanNamesSpec | mantisdump.py:118-128 | the scan fails exactly when two matches are seen, finds nothing exactly when none is, and a name found comes from a row with the id |
| MantisDump.FindNameSpec | mantisdump.py:118-129 | the lookup fails exactly when two rows have the id, finds nothing exactly when none has it, and otherwise gives the one row's name |
| MantisDump.Reporter | mantisdump.py:273-284 | with no user table the reporter is "user" and the id |
| MantisDump.ReporterFallback | mantisdump.py:273-284 | a reporter with no user row gets the fallback name, one with a single row gets that row's name, and two rows are an error |
| MantisDump.FixSqlText | mantisdump.py:130-137 | no text stays absent, and a repaired text never ends in white space |
| MantisDump.UnescapeCrLf | mantisdump.py:134-136 | replacing the escape of a line break undoes escaping for any backslash-free text |
| MantisDump.FixSqlTextOfEscaped | mantisdump.py:130-137 | repairing the dump of a backslash-free text gives the text back, less its trailing white space |
| MantisDump.NewNote | mantisdump.py:42-52 | a new note has no text |
| MantisDump.SetText | mantisdump.py:74-81 | setting a note's text succeeds exactly when a text is given and none was set, and changes nothing else |
| MantisDump.TextWrittenOnce | mantisdump.py:74-81 | after a note's text is set it reads as set and every further setting fails |
| MantisConverter.Pluralize | mantis_converter.py:19-21 | the suffix is empty exactly for a count of one, and "s" otherwise |
| MantisConverter.Referenced | mantis_converter.py:141-150 | the referenced numbers are exactly those some revision's list holds, the `None` entries left out |
| MantisConverter.ProjectNumbers | mantis_converter.py:154-162 | the project numbers are exactly those of the issues in the converted projects (all issues when no project is named) |
| MantisConverter.IssueOrder | mantis_converter.py:137-171 | the order is strictly ascending and holds exactly the numbers referenced from Subversion and those of the issues in the converted projects |
| MantisConverter.IssueOrderUnique | mantis_converter.py:137-171 | any strictly ascending list of exactly those numbers is the order, so it depends only on which numbers occur |
| MantisConverter.SelectIssues | mantis_converter.py:323-348 | every issue selected is in the window, not on GitHub yet, and known; every number recorded missing is in the window, not on GitHub, unknown and not recorded before |
| MantisConverter.SelectionAscending | mantis_converter.py:323-348 | over an ascending list both the selected issues and the newly missing numbers are ascending |
| MantisConverter.SelectsWholeWindow | mantis_converter.py:323-348 | over an ascending list, every number in the window that is known and not on GitHub yet is selected |
| MantisConverter.MissingOnce | mantis_converter.py:336-338 | the missing list never repeats a number |
| MantisConverter.Title | mantis_converter.py:179-203 | the title ends with the summary (else the description, else "Mantis issue N"); when either text is given it is exactly the reporter tag, ": ", the foreign project and ": " when there is one, and that text; otherwise it is the foreign-project segment and "Mantis issue N" |
| MantisConverter.AddField | mantis_converter.py:205-212 | an empty field leaves the body alone; a given one becomes "field: text", which is the whole body when there was none and otherwise follows the old body and a blank line |
| MantisConverter.Body | mantis_converter.py:183-212 | the body is exactly the pieces of `BodyPieces` joined by blank lines (none when there are none): the description when the summary took the title, then "Steps to Reproduce: ..." and "Additional Information: ..." when given. So there is no body exactly when summary and description are not both given and neither extra field is |
| MantisConverter.AddFieldPieces | mantis_converter.py:205-212 | adding a field to a body made of pieces gives the body made of those pieces and the field's line |
| MantisConverter.BodyIsParagraphs | mantis_converter.py:183-212 | the description and the two fields added in turn give the paragraphs of `BodyPieces` |
| MantisConverter.FieldsKeepStart | mantis_converter.py:205-212 | adding the extra fields keeps what the body started with |
| MantisConverter.IssueStrings | mantis_converter.py:174-214 | the title is exactly the one `Title` states, with the foreign-project segment, and the body is exactly the paragraphs of `BodyPieces`, absent exactly in the case `Body` names |
| MantisConverter.Milestone | mantis_converter.py:261-265 | there is no milestone exactly when both versions are empty; otherwise it is the fixed-in version when given, else the target version |
| MantisConverter.StatusLabel | mantis_converter.py:254-258 | an issue gets a label exactly when it is not closed and every status is preserved or it is a preserved resolved one; the label is its status and never "closed" |
| MantisConverter.LabelHasColor | mantis_converter.py:100-104 | a label has a colour exactly when it names a listed status, so an unlisted status code makes label creation fail |
| MantisConverter.Pauses | mantis_converter.py:293-297 | the pauses before successive retries are one, two, three minutes and so on |
| MantisConverter.FirstAnswer | mantis_converter.py:275-300 | the attempt that ends the loop is the first one GitHub does not refuse with 403; when there is none, every attempt was refused |
| MantisConverter.CreateIssueSchedule | mantis_converter.py:275-300 | opening an issue ends at the first attempt not refused with 403; it gives up exactly when all six are refused, after pauses of 60 to 300 seconds |
| MantisConverter.OpenEach | mantis_converter.py:493-530 | the loop brings back, in reference order, the issue of each known number that is already on GitHub or that opening gives; unknown numbers and failed openings bring nothing, so no more issues come back than numbers were referenced |
| MantisConverter.IssuesForMembers | mantis_converter.py:493-530 | an issue is among those brought back exactly when some referenced number gives it |
| MantisConverter.OpenGithubIssues | mantis_converter.py:488-532 | nothing comes back for a revision that references no issue; otherwise a list comes back exactly when some referenced number gives an issue, and it holds the issues of the revision's numbers in reference order |
| MantisConverter.AnyIssue | mantis_converter.py:522-532 | some issue comes back exactly when some referenced number gives one |
| Comparable.Eq | i3helper.py:38-41 | an object is never equal to None, and equals another object exactly when their keys are equal |
| Comparable.Ne | i3helper.py:60-61 | inequality is the negation of equality |
| Comparable.Lt | i3helper.py:57-60 | an object is below None, and below another object exactly when its key is smaller |
| Comparable.Gt | i3helper.py:46-49 | an object is never above None, and above another object exactly when its key is larger |
| Comparable.Ge | i3helper.py:43-44 | `>=` is the negation of `<` |
| Comparable.Le | i3helper.py:54-55 | `<=` is the negation of `>` |
| Comparable.KeyLtTrichotomy | i3helper.py:38-60 | two keys are equal or exactly one is the smaller, so key comparison is a strict total order |
| Comparable.OperatorsConsistent | i3helper.py:38-61 | against another object exactly one of `<`, `==`, `>` holds, and `<=`, `>=` are the expected disjunctions |
| Comparable.AgainstNone | i3helper.py:38-61 | against None an object is unequal, below under `<`, satisfies `<=` and fails `>=` |
| Comparable.EqualObjectsHashEqually | i3helper.py:38-52 | objects that compare equal have the same hash |
| CmpTree.Code | cmptree.py:11-14 | a path's source is one of the three codes 1, 2 and 3 |
| CmpTree.ExactlyOneSide | cmptree.py:11-52 | every tree path is exactly one of left, right or both, and the code 1, 2 or 3 tells which of the three sources it came from |
| CmpTree.TreePath.Repr | cmptree.py:24-32 | the repr starts with "LeftPath(", "RightPath(" or "BothPath(" exactly when the path is of that side, and ends with the file name and ')' |
| CmpTree.ReprText | cmptree.py:24-32 | the repr text starts with the one class name it was built from followed by '(', and with none of the other two, and ends with the file name and ')' |
| CmpTree.ReprNamesSide | cmptree.py:24-32 | two paths with the same repr come from the same side |
| CmpTree.Extension | cmptree.py:117-119 | the extension is empty or a final '.'-started piece of the name with no further '.', and never the whole of a name that is all dots before it |
| CmpTree.IgnoredSuffix | cmptree.py:73 | a name with a real stem and a ".pyc" or ".class" extension is ignored |
| CmpTree.ExtractSubdir | cmptree.py:163-170 | the subdirectory is found exactly when the full path is the base path or the base path followed by the separator, and then base, separator and result make up the full path |
| CmpTree.AddToList | cmptree.py:88-92 | the value is appended to the list, which is created when absent |
| CmpTree.AddNames | cmptree.py:115-157 | one side's names are appended in order: every name not skipped (an ignored extension, or a directory the empty-directory test passes over) is recorded as a path of that side, nothing else is added, the old list is kept as a prefix, and an absent list stays absent exactly when every name is skipped |
| CmpTree.CompareNode | cmptree.py:94-161 | comparing a node and its subdirectories down to the depth only grows the lists, keeps each list absent or non-empty with paths of its own side, records every name reported and not skipped in the node and the subdirectories reached, and fails exactly when a node reached lies outside the base directories |
| CmpTree.Compare | cmptree.py:94-161 | a full comparison at depth 99 from empty lists fails exactly when a node reached lies outside the base directories; otherwise added paths come only from the right, deleted ones only from the left and changed ones from both, and every name reported and not skipped is recorded |
| CmpTree.CoveredExtends | cmptree.py:94-161 | a comparison recorded in the lists stays recorded as the lists grow, which is what lets later nodes append to the shared lists |
| CmpTree.NonEmptyDirSkippedAsWritten | cmptree.py:121-125 | as written, with `ignore_empty_dirs` set, a directory that holds entries is passed over and the corrected test would record it |
| CmpTree.EmptyDirSkipped | cmptree.py:172-176 | corrected, with `ignore_empty_dirs` set, an empty directory is passed over, while the test as written records it |
| CmpTree.IsModified | cmptree.py:210-219 | the trees are modified exactly when some list has been started |
| CmpTree.ModifiedIffRecorded | cmptree.py:210-219 | with well-formed lists, modified means at least one path was recorded |
| CmpTree.TopDir | cmptree.py:230-234 | the top directory holds no separator and is either the whole directory or its part before the first separator |
| CmpTree.Tally | cmptree.py:228-239 | every top directory seen gets a count, and each count is the number of times it was seen |
| CmpTree.CountsSumToTotal | cmptree.py:228-239 | the counts of all top directories add up to the number of recorded paths |
| CmpTree.ModifiedTrees | cmptree.py:220-241 | every recorded path's top directory is a key, and each key's count is the positive number of recorded paths below it |
| CrossCheck.FmtRev | crosscheck.py:82-83 | no revision is shown as "HEAD" and nothing else is; a revision is shown as "rev " and a number that reads back as the revision |
| CrossCheck.PruneUrl | crosscheck.py:114-133 | a URL without "projects/" is kept; otherwise the result is the URL, the trunk, or a tail of the URL that follows a '/' |
| CrossCheck.PruneTrunkOf | crosscheck.py:119-121 | a project's own URL under "projects/" prunes to the trunk |
| CrossCheck.PruneBranchOf | crosscheck.py:127-133 | a URL naming the project and a branch under "projects/" prunes to the branch |
| CrossCheck.PruneOtherName | crosscheck.py:119-125 | under "projects/", a lone name other than the project's gives back the URL unchanged |
| CrossCheck.PruneOtherBranch | crosscheck.py:119-131 | under "projects/", a name other than the project's followed by '/' and a branch gives back the URL unchanged |
| CrossCheck.KeepProjects | crosscheck.py:299-308 | an entry is kept exactly when its name, with the trailing '/' put back, is listed and is a project directory, and it is kept without that '/' |
| CrossCheck.KeepProjectsOrdered | crosscheck.py:299-308 | the kept entries of a listing sorted by date and name keep that order, comparing each with its '/' put back |
| CrossCheck.KeepProjectsCounts | crosscheck.py:299-308 | every project directory is kept exactly as many times as the listing holds it |
| CrossCheck.ListProjects | crosscheck.py:296-308 | the projects listed are exactly the listed directories, other than "./", that are not release or debug builds, without their '/', each as many times as it is listed, ordered by date and then by the name with its '/' |
| CrossCheck.ReleaseCandidateDropped | crosscheck.py:304-306 | a release candidate directory is never listed when its "_rc" marker does not start the name |
| CrossCheck.LeadingMarkerKept | crosscheck.py:304-306 | a directory whose name starts with "_rc" is listed, since the markers count only after the first character |
| CrossCheck.CompareWorkspaces | crosscheck.py:246-269 | there is nothing to report exactly when the trees are unmodified or every modified tree is ignored; otherwise the report is non-empty and holds exactly the modified trees not ignored, with their counts |
| CrossCheck.ModifiedPathReported | crosscheck.py:246-269 | a recorded path outside the ignored trees is always reported, under its top directory with a positive count |
| PdaqDb.ProjectFromPath | pdaqdb.py:126-131 | the project name holds no '/' and ends the path that is kept |
| PdaqDb.TrunkPathProject | pdaqdb.py:126-131 | a trunk URL's project is the component before "trunk" and its path loses the "/trunk"; a path without "trunk" keeps its last component as the project |
| PdaqDb.ProjectData | pdaqdb.py:106-138 | no name or "pdaq" is the metaproject; either spelling of fabric-common lives under "svn/projects"; any other name without '/' lives under "daq/projects"; a successful result names a project without '/' |
| PdaqDb.FindSlash | pdaqdb.py:115 | the search for '/' fails exactly when the name holds no '/' |
| PdaqDb.PathPrefix | pdaqdb.py:55-74 | the prefix is found exactly when the URL starts with the base URL and '/', and then base URL, '/' and prefix make up the URL |
| PdaqDb.PathPrefixOf | pdaqdb.py:55-74 | the prefix of the base URL, '/' and a path is the path |
| PdaqDb.IgnoreProject | pdaqdb.py:169-183 | the empty name is never ignored, and any other name is ignored exactly when it holds one of the markers |
| PdaqDb.IgnoresMoreThanDatabase | pdaqdb.py:169-183 | every name the database's own filter ignores is ignored here too |
| PdaqDb.NamedProjectPath | pdaqdb.py:115-122 | a project named without a URL sits at "daq/projects/" and its name below the repository root |
| PdaqDb.Get | pdaqdb.py:192-205 | a project comes back exactly when its name resolves; a name seen before gets its cached object and leaves the cache alone, and a new name is added built from the resolved URL |
| PdaqDb.GetIsCached | pdaqdb.py:192-205 | two requests that resolve to the same name get the same object, whatever was asked in between |
| PdaqDb.GetAllKeeps | pdaqdb.py:192-205 | a cached project stays cached, unchanged, through any run of requests |
| DomhubRewrite.Place | rewrite_domhub_tools_repo.py:39-73 | a path outside the project prefix is dropped, and so is one whose rest holds "Attic" or lies in the moat or domapp tree; a path inside it is placed as its rest after the prefix is; a file of the trunk is the prefix, "trunk/" and a development directory's name; a deeper path is the prefix, one of the known subdirectories and the rest |
| DomhubRewrite.PlacePath | rewrite_domhub_tools_repo.py:47-73 | an unwanted path ("Attic" anywhere, or the moat or domapp tree) is dropped; a trunk file is "trunk/" and a development directory's name; a deeper path is a known subdirectory followed by the rest, which is empty only for "trunk" itself and otherwise starts with '/' |
| DomhubRewrite.DeepPlacement | rewrite_domhub_tools_repo.py:47-73 | a path is placed below development directory d with rest t exactly when it is wanted, is "trunk/", d and t, and t starts with '/' |
| DomhubRewrite.DeepPathKept | rewrite_domhub_tools_repo.py:56-73 | a wanted path below "trunk/" and a development directory is placed under that directory, with the '/' and the rest after it |
| DomhubRewrite.MoatDropped | rewrite_domhub_tools_repo.py:48-51 | every path in the moat and domapp trees is dropped |
| DomhubRewrite.DevFileKept | rewrite_domhub_tools_repo.py:56-68 | a change to "trunk/" and a development directory's name is kept as a file of the trunk |
| DomhubRewrite.DevPathWanted | rewrite_domhub_tools_repo.py:48-51 | "trunk/" and a development directory's name is never an unwanted path |
| DomhubRewrite.SubdirOf | rewrite_domhub_tools_repo.py:60-71 | "trunk/" and any development directory's name is one of the subdirectories a deeper path can belong to |
| DomhubRewrite.NoteSubdir | rewrite_domhub_tools_repo.py:70-71 | noting a subdirectory adds exactly it to those seen and keeps them free of repeats |
| DomhubRewrite.CarryOne | rewrite_domhub_tools_repo.py:39-73 | each change is carried at most once, and it is dropped exactly when its path is |
| DomhubRewrite.SeenAfter | rewrite_domhub_tools_repo.py:70-71 | after a change, the subdirectories seen are the earlier ones plus the one the change names, without repeats |
| DomhubRewrite.CarryChanges | rewrite_domhub_tools_repo.py:36-73 | the carried files are the kept changes, in log order, each carried under the directory and name its placement gives; a subdirectory is to be updated exactly when it was already noted or some change of the entry lies below it, and the list stays free of repeats |
| DomhubRewrite.UpdateFromStatus | rewrite_domhub_tools_repo.py:499-530 | the update stops exactly when a line has cruft in columns 1 to 6; the workspace is modified exactly when any line was seen; exactly the '?' files are added and the '!' and 'D' files removed |
| DomhubRewrite.FixMakefile | rewrite_domhub_tools_repo.py:241-262 | every line is kept, right-stripped, except that a SUBDIRS line naming moat or domapp is replaced; the file is fixed exactly when such a line exists |
| DomhubRewrite.FixedLineIsFixed | rewrite_domhub_tools_repo.py:251-254 | the replacement SUBDIRS line is not replaced again |
| DomhubRewrite.FixMakefileIdempotent | rewrite_domhub_tools_repo.py:241-262 | fixing a fixed Makefile changes nothing |
| Checkpoint.ShortBranch | convert_from_checkpoint.py:118 | the short name is the branch path's last component: it holds no '/' and ends the path, and a path without '/' is its own short name |
| Checkpoint.Remote | convert_from_checkpoint.py:124-130 | trunk goes to "master"; any other branch goes to its short name, and the conversion stops exactly when that name is "HEAD" or "master" |
| Checkpoint.SkipToBranch | convert_from_checkpoint.py:119-122 | with a test branch, exactly the branches before the first one whose short name matches are skipped, and every branch from there on is kept; without one nothing is skipped |
| Checkpoint.RunEntries | convert_from_checkpoint.py:133-144 | every converted revision is one of the branch's and not an ignored one; the test revision survives to the next branch only when every revision of this branch was below it, and then nothing was converted |
| Checkpoint.RunBranches | convert_from_checkpoint.py:109-144 | the run stops exactly when some kept branch has a questionable remote; otherwise every step is a revision of a kept branch, pushed to that branch's remote, and not ignored |
| Checkpoint.DoAll | convert_from_checkpoint.py:100-174 | the conversion stops exactly when a branch past the branch filter has a questionable remote; every converted branch lies at or after the first branch matching the test branch |
| Checkpoint.SkipBelow | convert_from_checkpoint.py:134-138 | the revision filter drops exactly the leading revisions below the test revision and keeps the rest, in order |
| Checkpoint.Unignored | convert_from_checkpoint.py:140-143 | a revision survives exactly when it is not one of the project's ignored revisions |
| Checkpoint.RunEntriesIsFlat | convert_from_checkpoint.py:133-144 | one branch's loop converts exactly its revisions past the revision filter without the ignored ones, and hands on the test revision the filter still holds |
| Checkpoint.RunBranchesIsFlat | convert_from_checkpoint.py:109-144 | the nested loops convert exactly the branch-tagged revisions of all kept branches, taken as one list, past one revision filter that carries across branches, without the ignored ones |
| Checkpoint.CheckpointName | convert_svn_to_git.py:1417-1418 | a checkpoint's base name starts with the project name and '_' |
| Checkpoint.CheckpointNameRevision | convert_svn_to_git.py:1417-1418 | the revision reads back from the text after the base name's last '_', following an 'r' |
| Checkpoint.WorkspaceArchive | convert_svn_to_git.py:1415-1419 | the sandbox archive is the base name followed by ".tgz" |
| Checkpoint.RepoArchive | convert_svn_to_git.py:1441 | the repository archive is "repo_", the base name and ".tgz" |
| Checkpoint.RestoreFindsSaved | convert_from_checkpoint.py:212-218 | restoring with a branch's short name finds the archives saved for it, and restoring with the full path does so exactly when the path has no '/' |
| PylintProblems.NewProblems | pylint_problems.py:16-20 | a new collection has no filed locations and no descriptions |
| PylintProblems.FileLoc | pylint_problems.py:64-67 | a location is the name, ':' and the line, followed by " (char N)" exactly when the character position is not 0 |
| PylintProblems.Append | pylint_problems.py:69-72 | the location is added at the end of its id's list and no other id's list changes; a new id gets a list of its own, and ids stay distinct |
| PylintProblems.AddProblem | pylint_problems.py:51-72 | an ignored id changes nothing; otherwise the first description of an id stays, the location is filed under the id, and a conflict is reported exactly when a known id arrives with another description and is not one whose message varies |
| PylintProblems.AddLines | pylint_problems.py:32-72 | the blacklist and ignored ids never change, and ids stay distinct |
| PylintProblems.AddFile | pylint_problems.py:22-72 | a blacklisted file changes nothing; any other file adds its lines |
| PylintProblems.AnyOccurs | pylint_problems.py:23-26 | a file is blacklisted exactly when one of the entries occurs in its name |
| PylintProblems.AddLinesLocations | pylint_problems.py:32-72 | after a file, each id's locations are those already there followed by exactly the locations of its kept lines, in order |
| PylintProblems.AddLinesDescription | pylint_problems.py:56-57 | an id's description is the one it already had, else that of its first kept line, and the id has one exactly when either exists |
| PylintProblems.IgnoredNeverFiled | pylint_problems.py:52-54 | an ignored id gets no new locations |
| PylintProblems.ByCountIdIsPreorder | pylint_problems.py:83-84 | ordering by count, then by id, is a total preorder |
| PylintProblems.Describe | pylint_problems.py:85-88 | a known id is shown with its description, an unknown one with "?? unknown ??" |
| PylintProblems.RowsOf | pylint_problems.py:78-90 | one row per filed id, with its number of locations and its description |
| PylintProblems.SortedLocations | pylint_problems.py:92-94 | the verbose listing holds the same locations, in ascending order |
| PylintProblems.Report | pylint_problems.py:74-96 | the rows are a permutation of one row per id, sorted by count then id, and the total is the sum of their counts |
| PylintProblems.TotalCountsLocations | pylint_problems.py:77-81 | the reported total is the number of filed locations |

## Left out

- Running `svn`, `git`, `mysqldump` and `pylint`, SQLite, the GitHub API, tar archives, the file system, sleeping and printing: these are I/O. Their output enters the model as lines or maps, and the messages printed to standard error are not modelled.
- The directory test of `CmpTree.Compare`: whether a path is a directory, and how many entries it holds, is a function parameter (`DirEntries`). Its flag `asWritten` chooses between the test as written and the corrected one.
- CmpTree.CompareNode: states that every name reported and not skipped is recorded, but not the converse (that every recorded path comes from such a name in a node reached). The converse is proved one node at a time by `CmpTree.AddNames` and is not carried through the walk, because it would need a second invariant across the mutual recursion.
- CmpTree.Compare: the same as for `CmpTree.CompareNode`; only completeness of the recorded lists is stated, not that they hold nothing else.
- Regular expressions, `urlparse`/`urlunparse` and `int()` on matched digits: each is a function parameter (an oracle) that returns what the match would capture. The proofs hold for every such function, and the model does not check that a parameter behaves like the real regular expression.
- Command-line parsing, `main` functions and `read_input` prompts: these are interactive or argument plumbing.
- `convert_revision`, `__commit_to_git` and the other per-revision drivers: they are sequences of tool calls. Only their pure decisions are modelled (branch names, status lines, commit messages, the revision map).
- `__mantis_note_to_string` (svn_and_mantis_to_github.py): it needs the commit-finder regular expression and the database. Only the note-text bookkeeping of `MantisNote` is modelled.
- The issue opening and closing loop of `MantisConverter.add_issues`, and its pauses: this is GitHub I/O. The selection of issues, their text, milestone and label, and the 403 retry schedule are modelled.
- MantisConverter.OpenEach: opening an issue also runs `add_issues` for the issues before it, which can put later referenced numbers on GitHub. The model leaves that loop out, so such a later number is opened through the oracle rather than reopened.
- `PylintProblems.check_all`, `check_one`, `is_newer_file` and `run_pylint`: these are file-system walks and subprocess calls.
- `PylintProblems.AddLines`: a line arrives already matched, with its description already taken out of the trailing parentheses by the second pattern, because both patterns are regular expressions.
- `SvnLog.SvnLog`: the end of the command's output is the end of the line sequence. At end of file the source's `readline` returns "" again and again. Right after a dash line that ends the loop, and before the first dash line or "Changed paths" it raises, as the model's `Finish` does. But output cut short inside a path list or a message never ends: "" moves the file list to the message, and the message then calls `add_log("")` forever. For that case the model's `Finish` yields the pending entry, which the source never does.
- `SvnLog.SvnLog`: the date field is kept as the text `svn log` printed. Python's `SVNDate` conversion is not modelled.
- `CrossCheck.ListProjects`: the dates of an `svn list --verbose` listing arrive as integer timestamps. Parsing the month/day/year text is not modelled.
- The `> 0` tests of `list_projects` are kept as written: a release marker at the very start of a name does not count (`CrossCheck.LeadingMarkerKept`). This looks deliberate enough not to be called a finding.
- `CrossCheck.CompareWorkspaces`: the result is a map, so the order in which the source's dictionary lists the trees is not kept.
- `DomhubRewrite.FixMakefile`: reading and rewriting the Makefile, and the `SystemExit` when it is missing, are file I/O. The model takes the lines and returns the new lines.
- `DomhubRewrite.Place`: a change to the bare path "trunk" is carried as a trunk file with an empty name, as the source's slicing gives.
- `Checkpoint.DoAll`: saving and deleting checkpoint archives is file I/O. A failure in `convert_revision` ends the source's loop with a prompt; the model lists every revision the loop would reach.
- `convert_from_checkpoint.py` calls `save_checkpoint_files` with five arguments, while its definition (convert_svn_to_git.py:1412-1413) takes six. The call would raise a `TypeError` whenever checkpointing is on. The model covers only the archive names and leaves the call out.
- `ProjectDb.Entries`: entries are listed from the loaded cache. Loading it from SQLite is not modelled, and reading before loading (an attribute error in the source) is an `Err`.
- MySqlDump.DecodeValue: a float or double column keeps its text as given (`Float(vstr)`). The source's `float(vstr)` raises `ValueError` on text that is not a number, and the field is then skipped with a message. Floating-point parsing is not modelled, so the model never skips a float or double field.
- ProjectDb.FindFirstRevision: entries are compared by their date text. The source compares `SVNDate` datetimes. The two orders agree only while every date has the same fixed-width layout that `svn log` prints.
- ProjectDb.FindFirstRevisionSpec: states the text order of ProjectDb.FindFirstRevision, not the datetime order, for the same reason.
- Comparable.Lt: keys that mix None, numbers and strings are ordered as Python 2 orders them (None first, then numbers, then strings). svndb.py and svn_and_mantis_to_github.py run under Python 3, where comparing such keys raises `TypeError`. The mixed case is not modelled as an error.
- Comparable.Gt: the same Python 2 order of mixed keys as Comparable.Lt.
- Comparable.KeyLtTrichotomy: the trichotomy covers mixed keys only under the Python 2 order; Python 3 raises on them.
- Comparable.OperatorsConsistent: the operators agree on mixed keys only under the Python 2 order; Python 3 raises on them.
- StrUtil.RStrip: only the ASCII whitespace and separator characters (codes 9 to 13 and 28 to 32) are stripped. Python strips every Unicode whitespace character.
- StrUtil.ParseInt: accepts an optional '-' or '+' sign and ASCII digits only. Python's `int()` also accepts surrounding whitespace, underscores between digits and non-ASCII digits.
- Sorting.SortBy: the contract states order and permutation but not stability in general. Where Python's stable `sorted` keeps ties in their original order and a caller depends on it, the order is proved for that caller alone.
- Integers are unbounded throughout, as Python's are.

## Findings

| source | as written | input that shows it | evidently intended | confidence | as-written member | corrected member |
|---|---|---|---|---|---|---|
| convert_svn_to_git.py:460-461 | both strings are sliced from `diff-1`, which is index -1 when they differ at index 0 | "abc" and "xbc" give ("c", "c"), which hides the difference | slicing from 0 when the strings differ at once, giving ("abc", "xbc") | not executed | ConvertSvnToGit.DiffAtStartCollapses | ConvertSvnToGit.DiffStrings |
| svn.py:230-244 | `rev` is assigned only when a `-r` token is seen, so a line without one reuses the revision of the line before | the lines "-r5 http://a dir" and "http://b" give the second external revision 5 | an external without `-r` has no pinned revision | not executed | SvnExternals.UrlOnlyInheritsRevision | SvnExternals.UrlOnlyHasNoRevision |
| convert_svn_to_git.py:740-741 | `orig_url[idx+flen]` is read even when the forked name ends the URL | "http://x/oldtrigger" raises `IndexError` | a name at the end of the URL is not a bounded component, so the URL is left alone | not executed | ConvertSvnToGit.ForkAtEndRaises | ConvertSvnToGit.RevertForkedUrl |
| convert_svn_to_git.py:740 | `orig_url[idx-1]` is read even when the forked name starts the URL, and index -1 is the last character | "oldtrigger/x/" becomes "trigger/x/" | a name at the start of the URL has no '/' before it, so the URL is left alone | not executed | ConvertSvnToGit.ForkAtStartWraps | ConvertSvnToGit.RevertOne |
| git.py:205-215 | the insertion and deletion counts read `mtch.group(1)`, the files-changed number, instead of the number found by the search | "1 file changed, 3 insertions(+), 2 deletions(-)" records 1 insertion and 1 deletion | 3 insertions and 2 deletions | not executed | Git.AsWrittenCopiesFiles | Git.CommitOfSummary |
| git.py:387-388 | `--hard` is added whenever `hard is not None`, and the default is `False` | `git_reset("abc")` runs "git reset --hard abc" | "--hard" only when `hard` is true | not executed | Git.ResetFalseIsHard | Git.ResetArgs |
| svndb.py:184-193 | when the current previous entry has no previous of its own, the loop never runs and `prev.revision` is read from `None` | an entry linked to revision 10, which has no previous, relinked to revision 5 raises `AttributeError` | refusing the relink and keeping the link, as the other refusals do | not executed | SvnDb.RelinkBelowFirstRaises | SvnDb.PreviousNeverDecreases |
| svndb.py:130-138 | `return False` sits outside the `if` that compares the previous links | an entry compared with an exact copy of itself is not a duplicate | a duplicate when the previous links agree | not executed | SvnDb.CopyIsNotDuplicate | SvnDb.CopyIsDuplicate |
| mysqldump.py:743-803 | when a comma inside a quoted field comes straight after another, `rowstr[idx-1]` with `idx` 0 reads the row's last character, a quote, so the field is closed early and the second comma is lost | the row "'a,,b'" splits into "'a" and "b'" | one field "'a,,b'" | not executed | MySqlDump.DoubledCommaSplitsAsWritten | MySqlDump.DoubledCommaKept |
| mysqldump.py:673-676 | quotes are removed only when the value is longer than two characters | the text value '' is stored as two quote characters | the empty string | not executed | MySqlDump.EmptyTextKeepsQuotes | MySqlDump.TextFieldRoundTrip |
| cmptree.py:172-176 | `__is_empty_dir` returns True as soon as the directory has one entry, so `ignore_empty_dirs` passes over directories with contents and keeps empty ones | with `ignore_empty_dirs` set, an added directory holding one file is left out of the added list, while an added empty directory is listed | true for a directory with no entries | not executed | CmpTree.NonEmptyDirSkippedAsWritten | CmpTree.EmptyDirSkipped |
| project_db.py:479-481 | an entry is yielded only when an ignore function exists and does not ignore it | with no ignore function, `entries()` yields nothing | with no ignore function, every entry of the branch is yielded | not executed | ProjectDb.NoFilterYieldsNothing | ProjectDb.Entries |

=== FILE: checkpoint.dfy ===
/**
 * The selection loop of the checkpoint driver: which branch URLs and
 * which revisions are converted again after restoring a checkpoint, the
 * Git remote each branch is pushed to, and how checkpoint archives are
 * named.
 */
module Checkpoint {
  import opened Wrappers
  import opened StrUtil
  import SvnMetadata

  /** Revisions never converted, per project. */
  const IgnoredRevisions: map<string, set<int>> :=
    map["pdaq" := {14044, 14045, 14046, 14047, 14048, 14049, 14050, 14051}]

  predicate IsIgnored(project: string, revision: int)
  {
    project in IgnoredRevisions && revision in IgnoredRevisions[project]
  }

  /** `branch_name.rsplit("/")[-1]`: the last component of a branch path. */
  function ShortBranch(branch: string): (r: string)
    ensures '/' !in r && EndsWith(branch, r)
    ensures '/' !in branch ==> r == branch
  {
    LastSegment(branch, '/')
  }

  /**
   * The Git remote a branch is pushed to: "master" for trunk, else the
   * short branch name, which may not itself be "HEAD" or "master".
   */
  function Remote(branch: string): (r: Result<string>)
    ensures branch == SvnMetadata.DirTrunk ==> r == Ok("master")
    ensures branch != SvnMetadata.DirTrunk ==> (r.Ok? <==> ShortBranch(branch) !in {"HEAD", "master"})
    ensures r.Ok? && branch != SvnMetadata.DirTrunk ==> r.value == ShortBranch(branch) && r.value != "master"
  {
    if branch == SvnMetadata.DirTrunk then Ok("master")
    else
      var short := ShortBranch(branch);
      if short in {"HEAD", "master"} then Err("Questionable branch name \"" + short + "\"")
      else Ok(short)
  }

  /**
   * The branch filter: with a test branch, branch paths are skipped until
   * the first whose short name is the test branch; from there on every
   * branch is kept.
   */
  function SkipToBranch(branches: seq<string>, test: Option<string>): (r: seq<string>)
    ensures |r| <= |branches| && r == branches[|branches| - |r|..]
    ensures test.None? ==> r == branches
    ensures test.Some? && r != [] ==> ShortBranch(r[0]) == test.value
    ensures test.Some? ==> forall i :: 0 <= i < |branches| - |r| ==> ShortBranch(branches[i]) != test.value
    decreases |branches|
  {
    if test.None? || branches == [] then branches
    else if ShortBranch(branches[0]) == test.value then branches
    else
      var r := SkipToBranch(branches[1..], test);
      assert branches[1..][|branches| - 1 - |r|..] == branches[|branches| - |r|..];
      assert forall i :: 1 <= i < |branches| - |r| ==> branches[i] == branches[1..][i - 1];
      r
  }

  /** One revision to convert: the branch it is on, the remote it goes to, and the revision. */
  datatype Step = Step(branch: string, remote: string, revision: int)

  /**
   * The inner loop over one branch's revisions: with a test revision,
   * revisions below it are skipped until the first one at or above it,
   * which switches the test off for good; ignored revisions are then
   * skipped.  The second result is the test revision the next branch
   * sees.
   */
  function RunEntries(project: string, branch: string, remote: string, revisions: seq<int>,
                      test: Option<int>): (r: (seq<Step>, Option<int>))
    ensures forall s :: s in r.0 ==>
              s.branch == branch && s.remote == remote && s.revision in revisions && !IsIgnored(project, s.revision)
    ensures r.1.Some? ==> r.1 == test && r.0 == [] && forall k :: 0 <= k < |revisions| ==> revisions[k] < test.value
    decreases |revisions|
  {
    if revisions == [] then ([], test)
    else
      var revision := revisions[0];
      if test.Some? && revision < test.value then
        var r := RunEntries(project, branch, remote, revisions[1..], test);
        assert forall k :: 1 <= k < |revisions| ==> revisions[k] == revisions[1..][k - 1];
        r
      else
        var (more, after) := RunEntries(project, branch, remote, revisions[1..], None);
        if IsIgnored(project, revision) then (more, after)
        else ([Step(branch, remote, revision)] + more, after)
  }

  /**
   * The outer loop over the kept branches: each branch's remote is worked
   * out before its revisions, and a questionable one stops the run.
   */
  function RunBranches(project: string, branches: seq<string>, revisionsOf: string -> seq<int>,
                       test: Option<int>): (r: Result<seq<Step>>)
    ensures r.Err? <==> exists k :: 0 <= k < |branches| && Remote(branches[k]).Err?
    ensures r.Ok? ==> forall s :: s in r.value ==>
              s.branch in branches && Remote(s.branch) == Ok(s.remote) &&
              s.revision in revisionsOf(s.branch) && !IsIgnored(project, s.revision)
    decreases |branches|
  {
    if branches == [] then Ok([])
    else
      var branch := branches[0];
      match Remote(branch)
      case Err(e) => Err(e)
      case Ok(remote) =>
        var (steps, after) := RunEntries(project, branch, remote, revisionsOf(branch), test);
        var tail := RunBranches(project, branches[1..], revisionsOf, after);
        assert forall k :: 1 <= k < |branches| ==> branches[k] == branches[1..][k - 1];
        match tail
        case Err(e) => Err(e)
        case Ok(rest) => Ok(steps + rest)
  }

  /**
   * `do_all_the_things` without its side effects: the branches, in date
   * order, after the branch filter, and for each the revisions to convert.
   */
  function DoAll(project: string, branches: seq<string>, revisionsOf: string -> seq<int>,
                 testBranch: Option<string>, testRevision: Option<int>): (r: Result<seq<Step>>)
    ensures r.Err? <==> exists b :: b in SkipToBranch(branches, testBranch) && Remote(b).Err?
    ensures r.Ok? ==> forall s :: s in r.value ==>
              s.branch in branches && Remote(s.branch) == Ok(s.remote) && !IsIgnored(project, s.revision)
    ensures r.Ok? && testBranch.Some? ==> forall s :: s in r.value ==>
              exists i :: 0 <= i < |branches| && ShortBranch(branches[i]) == testBranch.value && s.branch in branches[i..]
  {
    var kept := SkipToBranch(branches, testBranch);
    var r := RunBranches(project, kept, revisionsOf, testRevision);
    InKept(kept);
    if r.Ok? && testBranch.Some? then
      KeptAfterTest(branches, testBranch.value, kept, r.value);
      r
    else r
  }

  lemma InKept(kept: seq<string>)
    ensures (exists b :: b in kept && Remote(b).Err?) <==> exists k :: 0 <= k < |kept| && Remote(kept[k]).Err?
  {
  }

  lemma KeptAfterTest(branches: seq<string>, test: string, kept: seq<string>, steps: seq<Step>)
    requires kept == SkipToBranch(branches, Some(test))
    requires forall s :: s in steps ==> s.branch in kept
    ensures forall s :: s in steps ==>
              exists i :: 0 <= i < |branches| && ShortBranch(branches[i]) == test && s.branch in branches[i..]
  {
    if steps != [] {
      assert steps[0].branch in kept;
      var i := |branches| - |kept|;
      assert 0 <= i < |branches| && kept == branches[i..];
      assert ShortBranch(branches[i]) == test by {
        assert kept[0] == branches[i];
      }
      forall s | s in steps
        ensures exists i :: 0 <= i < |branches| && ShortBranch(branches[i]) == test && s.branch in branches[i..]
      {
        assert s.branch in branches[i..];
      }
    }
  }

  // ----- the same selection, as one pass over the flattened log -----

  /** Every (branch, revision) pair of the branches, in loop order. */
  function Pairs(branches: seq<string>, revisionsOf: string -> seq<int>): seq<(string, int)>
    decreases |branches|
  {
    if branches == [] then [] else Tag(branches[0], revisionsOf(branches[0])) + Pairs(branches[1..], revisionsOf)
  }

  function Tag(branch: string, revisions: seq<int>): (r: seq<(string, int)>)
    ensures |r| == |revisions|
    ensures forall k :: 0 <= k < |r| ==> r[k] == (branch, revisions[k])
  {
    seq(|revisions|, k requires 0 <= k < |revisions| => (branch, revisions[k]))
  }

  /** The pairs from the first one at or above the test revision on. */
  function SkipBelow(pairs: seq<(string, int)>, test: Option<int>): (r: seq<(string, int)>)
    ensures |r| <= |pairs| && r == pairs[|pairs| - |r|..]
    ensures test.None? ==> r == pairs
    ensures test.Some? && r != [] ==> r[0].1 >= test.value
    ensures test.Some? ==> forall i :: 0 <= i < |pairs| - |r| ==> pairs[i].1 < test.value
    decreases |pairs|
  {
    if test.None? || pairs == [] || pairs[0].1 >= test.value then pairs
    else
      var r := SkipBelow(pairs[1..], test);
      assert pairs[1..][|pairs| - 1 - |r|..] == pairs[|pairs| - |r|..];
      r
  }

  /** The test revision still in force after a run of pairs. */
  function After(pairs: seq<(string, int)>, test: Option<int>): Option<int>
  {
    if SkipBelow(pairs, test) == [] then test else None
  }

  /** The pairs whose revision is not ignored. */
  function Unignored(project: string, pairs: seq<(string, int)>): (r: seq<(string, int)>)
    ensures forall p :: p in r <==> p in pairs && !IsIgnored(project, p.1)
    decreases |pairs|
  {
    if pairs == [] then []
    else
      var rest := Unignored(project, pairs[1..]);
      assert forall p :: p in pairs <==> p == pairs[0] || p in pairs[1..];
      if IsIgnored(project, pairs[0].1) then rest else [pairs[0]] + rest
  }

  /** The (branch, revision) pair of each step. */
  function PairsOf(steps: seq<Step>): (r: seq<(string, int)>)
    ensures |r| == |steps|
    ensures forall k :: 0 <= k < |r| ==> r[k] == (steps[k].branch, steps[k].revision)
  {
    seq(|steps|, k requires 0 <= k < |steps| => (steps[k].branch, steps[k].revision))
  }

  lemma {:induction false} SkipBelowAppend(a: seq<(string, int)>, b: seq<(string, int)>, test: Option<int>)
    ensures SkipBelow(a + b, test) == SkipBelow(a, test) + SkipBelow(b, After(a, test))
    decreases |a|
  {
    if a == [] {
      assert a + b == b;
    } else if test.None? || a[0].1 >= test.value {
      KeepAppend(a, b, test);
    } else {
      var ab := a + b;
      assert ab[0] == a[0];
      assert ab[1..] == a[1..] + b;
      SkipFirst(a, test);
      SkipFirst(ab, test);
      SkipBelowAppend(a[1..], b, test);
    }
  }

  lemma KeepAppend(a: seq<(string, int)>, b: seq<(string, int)>, test: Option<int>)
    requires a != [] && (test.None? || a[0].1 >= test.value)
    ensures SkipBelow(a + b, test) == SkipBelow(a, test) + SkipBelow(b, After(a, test))
  {
    var ab := a + b;
    assert ab[0] == a[0];
    KeepFirst(a, test);
    KeepFirst(ab, test);
    assert SkipBelow(b, None) == b;
  }

  lemma {:induction false} UnignoredAppend(project: string, a: seq<(string, int)>, b: seq<(string, int)>)
    ensures Unignored(project, a + b) == Unignored(project, a) + Unignored(project, b)
    decreases |a|
  {
    if a == [] {
      assert a + b == b;
    } else {
      assert (a + b)[0] == a[0];
      assert (a + b)[1..] == a[1..] + b;
      UnignoredAppend(project, a[1..], b);
    }
  }

  /** One branch's inner loop is the flat pass over that branch's pairs. */
  lemma {:induction false} RunEntriesIsFlat(project: string, branch: string, remote: string, revisions: seq<int>,
                                            test: Option<int>)
    ensures RunEntries(project, branch, remote, revisions, test).1 == After(Tag(branch, revisions), test)
    ensures PairsOf(RunEntries(project, branch, remote, revisions, test).0) ==
            Unignored(project, SkipBelow(Tag(branch, revisions), test))
    decreases |revisions|
  {
    var pairs := Tag(branch, revisions);
    if revisions != [] {
      assert Tag(branch, revisions[1..]) == pairs[1..];
      var revision := revisions[0];
      var r := RunEntries(project, branch, remote, revisions, test);
      if test.Some? && revision < test.value {
        RunEntriesIsFlat(project, branch, remote, revisions[1..], test);
        SkipFirst(pairs, test);
      } else {
        RunEntriesIsFlat(project, branch, remote, revisions[1..], None);
        KeepFirst(pairs, test);
        var more := RunEntries(project, branch, remote, revisions[1..], None).0;
        ReachedStep(project, branch, remote, revision, more, pairs, r.0);
      }
    }
  }

  lemma SkipFirst(pairs: seq<(string, int)>, test: Option<int>)
    requires pairs != [] && test.Some? && pairs[0].1 < test.value
    ensures SkipBelow(pairs, test) == SkipBelow(pairs[1..], test)
    ensures After(pairs, test) == After(pairs[1..], test)
  {
  }

  lemma KeepFirst(pairs: seq<(string, int)>, test: Option<int>)
    requires pairs != [] && (test.None? || pairs[0].1 >= test.value)
    ensures SkipBelow(pairs, test) == pairs && SkipBelow(pairs[1..], None) == pairs[1..]
    ensures After(pairs, test) == None && After(pairs[1..], None) == None
  {
  }

  lemma ReachedStep(project: string, branch: string, remote: string, revision: int, more: seq<Step>,
                    pairs: seq<(string, int)>, steps: seq<Step>)
    requires pairs != [] && pairs[0] == (branch, revision)
    requires PairsOf(more) == Unignored(project, pairs[1..])
    requires steps == if IsIgnored(project, revision) then more else [Step(branch, remote, revision)] + more
    ensures PairsOf(steps) == Unignored(project, pairs)
  {
    UnignoredStep(project, pairs);
    if !IsIgnored(project, revision) {
      PairsOfCons(Step(branch, remote, revision), more);
    }
  }

  /** One step of `Unignored`: the head is kept unless its revision is ignored. */
  lemma UnignoredStep(project: string, pairs: seq<(string, int)>)
    requires pairs != []
    ensures Unignored(project, pairs) ==
            if IsIgnored(project, pairs[0].1) then Unignored(project, pairs[1..])
            else [pairs[0]] + Unignored(project, pairs[1..])
  {
  }

  lemma PairsOfCons(s: Step, more: seq<Step>)
    ensures PairsOf([s] + more) == [(s.branch, s.revision)] + PairsOf(more)
  {
    var l, r := PairsOf([s] + more), [(s.branch, s.revision)] + PairsOf(more);
    assert |l| == |r|;
    forall k | 0 <= k < |l| ensures l[k] == r[k] {
      if k > 0 {
        assert ([s] + more)[k] == more[k - 1];
      }
    }
  }

  /**
   * The nested loops with their shared test revision convert exactly
   * the pairs of one flat pass: skip below the test revision across
   * branch boundaries, then drop the ignored revisions.
   */
  lemma {:induction false} RunBranchesIsFlat(project: string, branches: seq<string>, revisionsOf: string -> seq<int>,
                                             test: Option<int>)
    requires RunBranches(project, branches, revisionsOf, test).Ok?
    ensures PairsOf(RunBranches(project, branches, revisionsOf, test).value) ==
            Unignored(project, SkipBelow(Pairs(branches, revisionsOf), test))
    decreases |branches|
  {
    if branches != [] {
      var branch := branches[0];
      var remote := Remote(branch).value;
      var head := Tag(branch, revisionsOf(branch));
      var (steps, after) := RunEntries(project, branch, remote, revisionsOf(branch), test);
      RunEntriesIsFlat(project, branch, remote, revisionsOf(branch), test);
      RunBranchesIsFlat(project, branches[1..], revisionsOf, after);
      var rest := RunBranches(project, branches[1..], revisionsOf, after).value;
      assert RunBranches(project, branches, revisionsOf, test).value == steps + rest;
      assert Pairs(branches, revisionsOf) == head + Pairs(branches[1..], revisionsOf);
      FlatStep(project, steps, rest, head, Pairs(branches[1..], revisionsOf), test, after);
    }
  }

  lemma FlatStep(project: string, steps: seq<Step>, rest: seq<Step>, head: seq<(string, int)>,
                 tail: seq<(string, int)>, test: Option<int>, after: Option<int>)
    requires after == After(head, test)
    requires PairsOf(steps) == Unignored(project, SkipBelow(head, test))
    requires PairsOf(rest) == Unignored(project, SkipBelow(tail, after))
    ensures PairsOf(steps + rest) == Unignored(project, SkipBelow(head + tail, test))
  {
    SkipBelowAppend(head, tail, test);
    UnignoredAppend(project, SkipBelow(head, test), SkipBelow(tail, after));
    PairsOfAppend(steps, rest);
  }

  lemma PairsOfAppend(a: seq<Step>, b: seq<Step>)
    ensures PairsOf(a + b) == PairsOf(a) + PairsOf(b)
  {
    assert forall k :: 0 <= k < |a| + |b| ==> (PairsOf(a) + PairsOf(b))[k] == PairsOf(a + b)[k];
  }

  // ----- checkpoint archive names -----

  /** `<project>_<short branch>_r<revision>`: the base name of a checkpoint. */
  function CheckpointName(project: string, branchPath: string, revision: int): (r: string)
    ensures StartsWith(r, project + "_")
  {
    var r := project + "_" + ShortBranch(branchPath) + "_r" + IntToString(revision);
    assert r == (project + "_") + (ShortBranch(branchPath) + "_r" + IntToString(revision));
    Affixes(project + "_", ShortBranch(branchPath) + "_r" + IntToString(revision));
    r
  }

  /** The sandbox archive of a checkpoint. */
  function WorkspaceArchive(name: string): (r: string)
    ensures EndsWith(r, ".tgz") && r[..|r| - 4] == name
  {
    Affixes(name, ".tgz");
    name + ".tgz"
  }

  /** The repository archive of a checkpoint. */
  function RepoArchive(name: string): (r: string)
    ensures |r| == |name| + 9 && StartsWith(r, "repo_") && EndsWith(r, ".tgz") && r[5..|r| - 4] == name
  {
    Affixes("repo_" + name, ".tgz");
    Affixes("repo_", name);
    assert ("repo_" + name + ".tgz")[..|name| + 5] == "repo_" + name;
    "repo_" + name + ".tgz"
  }

  /**
   * `init_from_checkpoint` names the archives from the test branch as
   * given; for a branch saved under its short name the names agree.
   */
  function RestoreName(project: string, branch: string, revision: int): string
  {
    project + "_" + branch + "_r" + IntToString(revision)
  }

  /** Restoring with a saved branch's short name finds the archives that were saved. */
  lemma RestoreFindsSaved(project: string, branchPath: string, revision: int)
    ensures RestoreName(project, ShortBranch(branchPath), revision) == CheckpointName(project, branchPath, revision)
    ensures RestoreName(project, branchPath, revision) == CheckpointName(project, branchPath, revision) <==> '/' !in branchPath
  {
    var short := ShortBranch(branchPath);
    if RestoreName(project, branchPath, revision) == CheckpointName(project, branchPath, revision) {
      var tail := "_r" + IntToString(revision);
      assert (project + "_" + branchPath) + tail == (project + "_" + short) + tail;
      assert project + "_" + branchPath == project + "_" + short;
      assert branchPath == (project + "_" + branchPath)[|project| + 1..];
      assert short == (project + "_" + short)[|project| + 1..];
    }
  }

  /** The revision reads back from the text after a checkpoint name's last '_'. */
  lemma CheckpointNameRevision(project: string, branchPath: string, revision: int)
    ensures var seg := LastSegment(CheckpointName(project, branchPath, revision), '_');
            |seg| > 0 && seg[0] == 'r' && ParseInt(seg[1..]) == Some(revision)
  {
    var digits := IntToString(revision);
    NoUnderscore(revision);
    var b := "r" + digits;
    assert CheckpointName(project, branchPath, revision) == project + "_" + ShortBranch(branchPath) + ['_'] + b;
    LastSegmentAfter(project + "_" + ShortBranch(branchPath), '_', b);
    assert b[1..] == digits;
    IntToStringThenParse(revision);
  }

  lemma NoUnderscore(n: int)
    ensures '_' !in "r" + IntToString(n)
  {
    var digits := if n >= 0 then NatToString(n) else NatToString(-n);
    assert forall k :: 0 <= k < |digits| ==> IsDigit(digits[k]);
  }
}

=== FILE: cmptree.dfy ===
/**
 * Comparison of two directory trees.  The `filecmp.dircmp` walk itself is
 * an input: a tree of `DirCmp` nodes holding the names found only on the
 * left, only on the right, and on both sides with different contents.
 * The model records those names as added/changed/deleted tree paths,
 * skipping ignored extensions, and tallies them per top-level directory.
 */
module CmpTree {
  import opened Wrappers
  import opened StrUtil

  const Sep: char := '/'

  /** Which side of the comparison a path came from (TreePath.LEFT/RIGHT/BOTH). */
  datatype PathSrc = LeftSrc | RightSrc | BothSrc
  {
    function Code(): (c: int)
      ensures 1 <= c <= 3
    {
      match this
      case LeftSrc => 1
      case RightSrc => 2
      case BothSrc => 3
    }
  }

  datatype TreePath = TreePath(src: PathSrc, directory: string, filename: string)
  {
    predicate IsLeft() { src.Code() == 1 }
    predicate IsRight() { src.Code() == 2 }
    predicate IsBoth() { src.Code() == 3 }

    /** The class name `__repr__` picks from the source code. */
    function ClassName(): string
    {
      if src.Code() == 1 then "LeftPath"
      else if src.Code() == 2 then "RightPath"
      else "BothPath"
    }

    /** `LeftPath(dir, file)`, `RightPath(dir, file)` or `BothPath(dir, file)`. */
    function Repr(): (r: string)
      ensures StartsWith(r, "LeftPath(") <==> IsLeft()
      ensures StartsWith(r, "RightPath(") <==> IsRight()
      ensures StartsWith(r, "BothPath(") <==> IsBoth()
      ensures EndsWith(r, ", " + filename + ")")
    {
      ReprText(ClassName(), directory, filename);
      ClassName() + ("(" + directory + ", " + filename + ")")
    }
  }

  /** The repr text of a path: which class name it starts with, and the file name closing it. */
  lemma ReprText(name: string, directory: string, filename: string)
    requires name == "LeftPath" || name == "RightPath" || name == "BothPath"
    ensures var r := name + ("(" + directory + ", " + filename + ")");
      && (StartsWith(r, "LeftPath(") <==> name == "LeftPath")
      && (StartsWith(r, "RightPath(") <==> name == "RightPath")
      && (StartsWith(r, "BothPath(") <==> name == "BothPath")
      && EndsWith(r, ", " + filename + ")")
  {
    var args := "(" + directory + ", " + filename + ")";
    assert args[0] == '(';
    ReprStarts(name, args);
    ReprEnds(name, directory, filename);
  }

  /** The class name a repr starts with is told apart by its first letter. */
  lemma ReprStarts(name: string, args: string)
    requires name == "LeftPath" || name == "RightPath" || name == "BothPath"
    requires args != [] && args[0] == '('
    ensures StartsWith(name + args, "LeftPath(") <==> name == "LeftPath"
    ensures StartsWith(name + args, "RightPath(") <==> name == "RightPath"
    ensures StartsWith(name + args, "BothPath(") <==> name == "BothPath"
  {
    NamedStart(name, args, "LeftPath");
    NamedStart(name, args, "RightPath");
    NamedStart(name, args, "BothPath");
  }

  /** A repr ends with the file name and the closing parenthesis. */
  lemma ReprEnds(name: string, directory: string, filename: string)
    ensures EndsWith(name + ("(" + directory + ", " + filename + ")"), ", " + filename + ")")
  {
    var args := "(" + directory + ", " + filename + ")";
    Affixes("(" + directory, ", " + filename + ")");
    Affixes(name, args);
    EndsWithTrans(name + args, args, ", " + filename + ")");
  }

  /** A class name followed by its argument list starts with another name's "(" exactly when the names agree. */
  lemma NamedStart(name: string, args: string, other: string)
    requires args != [] && args[0] == '(' && name != [] && other != []
    requires name == other || name[0] != other[0]
    ensures StartsWith(name + args, other + "(") <==> name == other
  {
    if name == other {
      Affixes(name, args);
      StartsWithThen(name + args, name, '(');
    } else {
      OtherStart(name + args, other + "(");
    }
  }

  /** Each tree path is exactly one of left, right or both, and the code says which constructor it is. */
  lemma ExactlyOneSide(p: TreePath)
    ensures p.IsLeft() || p.IsRight() || p.IsBoth()
    ensures !(p.IsLeft() && p.IsRight()) && !(p.IsLeft() && p.IsBoth()) && !(p.IsRight() && p.IsBoth())
    ensures p.IsLeft() <==> p.src == LeftSrc
    ensures p.IsRight() <==> p.src == RightSrc
    ensures p.IsBoth() <==> p.src == BothSrc
  {
  }

  /** Two paths with the same repr come from the same side. */
  lemma ReprNamesSide(p: TreePath, q: TreePath)
    requires p.Repr() == q.Repr()
    ensures p.src == q.src
  {
    ExactlyOneSide(p);
    ExactlyOneSide(q);
  }

  /** The extension `os.path.splitext` reports for a bare file name. */
  function Extension(name: string): (r: string)
    ensures r == [] || (r[0] == '.' && EndsWith(name, r) && '.' !in r[1..])
    ensures r != [] ==> exists i :: 0 <= i < |name| - |r| && name[i] != '.'
  {
    var tail := LastSegment(name, '.');
    if |tail| == |name| then ""
    else
      var stem := name[..|name| - |tail| - 1];
      if forall i :: 0 <= i < |stem| ==> stem[i] == '.' then ""
      else
        assert EndsWith(name, "." + tail) by {
          assert name == stem + "." + tail;
        }
        "." + tail
  }

  const IgnoreExt: seq<string> := [".pyc", ".class"]

  predicate IgnoredName(name: string)
  {
    Extension(name) in IgnoreExt
  }

  /** A name such as `Foo.class` or `x.pyc` has an ignored extension. */
  lemma IgnoredSuffix(stem: string, ext: string)
    requires ext in IgnoreExt
    requires exists i :: 0 <= i < |stem| && stem[i] != '.'
    ensures IgnoredName(stem + ext)
  {
    var name := stem + ext;
    var tail := ext[1..];
    assert '.' !in tail by {
      assert ext == ".pyc" || ext == ".class";
    }
    assert "." + tail == ext;
    assert name == stem + ['.'] + tail;
    LastSegmentAfter(stem, '.', tail);
    var cut := name[..|name| - |tail| - 1];
    assert cut == stem;
    var i :| 0 <= i < |stem| && stem[i] != '.';
    assert cut[i] != '.';
    assert Extension(name) == ext;
  }

  /** Python's `__extract_subdir`: the part of `fullPath` below `basePath`. */
  function ExtractSubdir(fullPath: string, basePath: string): (r: Result<string>)
    ensures r.Ok? <==> StartsWith(fullPath, basePath) && (|fullPath| == |basePath| || fullPath[|basePath|] == Sep)
    ensures r.Ok? && |fullPath| == |basePath| ==> r.value == ""
    ensures r.Ok? && |fullPath| > |basePath| ==> basePath + [Sep] + r.value == fullPath
  {
    var plen := |basePath|;
    if !StartsWith(fullPath, basePath) || (|fullPath| > plen && fullPath[plen] != Sep) then
      Err("directory does not start with its base path")
    else if |fullPath| == plen then Ok("")
    else Ok(fullPath[plen + 1..])
  }

  /** One node of the `filecmp.dircmp` walk. */
  datatype DirCmp = DirCmp(left: string, right: string, leftOnly: seq<string>,
                           rightOnly: seq<string>, diffFiles: seq<string>,
                           subdirs: seq<DirCmp>)

  /** The three lists, each `None` until its first append. */
  datatype Lists = Lists(added: Option<seq<TreePath>>, changed: Option<seq<TreePath>>,
                         deleted: Option<seq<TreePath>>)

  function AddToList(list: Option<seq<TreePath>>, value: TreePath): (r: Option<seq<TreePath>>)
    ensures r.Some? && |r.value| > 0 && r.value[|r.value| - 1] == value
    ensures r.value[..|r.value| - 1] == (if list.None? then [] else list.value)
  {
    match list
    case None => Some([value])
    case Some(l) => Some(l + [value])
  }

  /** A list is `None` or non-empty, and every path in it has the given side and an accepted extension. */
  predicate GoodList(list: Option<seq<TreePath>>, src: PathSrc)
  {
    list.Some? ==>
      (|list.value| > 0 &&
       forall k :: 0 <= k < |list.value| ==>
         list.value[k].src == src && !IgnoredName(list.value[k].filename))
  }

  predicate GoodLists(l: Lists)
  {
    GoodList(l.added, RightSrc) && GoodList(l.changed, BothSrc) && GoodList(l.deleted, LeftSrc)
  }

  /**
   * What the file system says of a path: `None` when it is not a
   * directory, otherwise the number of entries the directory holds.
   */
  type DirEntries = string -> Option<nat>

  /** `__is_empty_dir` as written: true for a directory that has at least one entry. */
  predicate HasEntriesDir(entries: DirEntries, path: string)
  {
    entries(path).Some? && entries(path).value > 0
  }

  /** An empty directory, which `ignore_empty_dirs` evidently means to pass over. */
  predicate EmptyDir(entries: DirEntries, path: string)
  {
    entries(path) == Some(0)
  }

  /**
   * The directory test used when skipping: as written it holds for a
   * directory with entries, corrected it holds for an empty directory.
   */
  predicate DirTest(entries: DirEntries, path: string, asWritten: bool)
  {
    if asWritten then HasEntriesDir(entries, path) else EmptyDir(entries, path)
  }

  /** A name left out of its list: an ignored extension, or (when asked) a directory passing the test. */
  predicate Skipped(name: string, dir: string, skipDirs: bool, entries: DirEntries, asWritten: bool)
  {
    IgnoredName(name) || (skipDirs && DirTest(entries, dir + [Sep] + name, asWritten))
  }

  /**
   * As written, `ignore_empty_dirs` passes over a directory that holds
   * entries and records an empty one; corrected, it is the other way round.
   */
  lemma NonEmptyDirSkippedAsWritten(name: string, dir: string, entries: DirEntries, n: nat)
    requires !IgnoredName(name) && n > 0
    requires entries(dir + [Sep] + name) == Some(n)
    ensures Skipped(name, dir, true, entries, true)
    ensures !Skipped(name, dir, true, entries, false)
  {
  }

  /** Corrected, an empty directory is passed over, while as written it is recorded. */
  lemma EmptyDirSkipped(name: string, dir: string, entries: DirEntries)
    requires !IgnoredName(name)
    requires entries(dir + [Sep] + name) == Some(0)
    ensures Skipped(name, dir, true, entries, false)
    ensures !Skipped(name, dir, true, entries, true)
  {
  }

  predicate AllSkipped(names: seq<string>, dir: string, skipDirs: bool, entries: DirEntries, asWritten: bool)
  {
    forall k :: 0 <= k < |names| ==> Skipped(names[k], dir, skipDirs, entries, asWritten)
  }

  lemma AllSkippedCons(names: seq<string>, dir: string, skipDirs: bool, entries: DirEntries, asWritten: bool)
    requires |names| > 0
    ensures AllSkipped(names, dir, skipDirs, entries, asWritten) <==>
            Skipped(names[0], dir, skipDirs, entries, asWritten) && AllSkipped(names[1..], dir, skipDirs, entries, asWritten)
  {
    if Skipped(names[0], dir, skipDirs, entries, asWritten) && AllSkipped(names[1..], dir, skipDirs, entries, asWritten) {
      forall k | 0 <= k < |names| ensures Skipped(names[k], dir, skipDirs, entries, asWritten) {
        if k > 0 {
          assert names[k] == names[1..][k - 1];
        }
      }
    }
  }

  /** One name of `AddNames`: appended as a path of its side unless it is skipped. */
  function AddName(list: Option<seq<TreePath>>, name: string, src: PathSrc, subdir: string, skip: bool): (r: Option<seq<TreePath>>)
    requires GoodList(list, src)
    requires !skip ==> !IgnoredName(name)
    ensures GoodList(r, src)
    ensures OrEmpty(list) <= OrEmpty(r)
    ensures r.None? <==> list.None? && skip
    ensures !skip ==> OrEmpty(r) == OrEmpty(list) + [TreePath(src, subdir, name)]
    ensures skip ==> r == list
  {
    if skip then list
    else AddToList(list, TreePath(src, subdir, name))
  }

  /**
   * Append the names of one side, skipping ignored extensions and
   * (optionally) directories that pass the test: the list grows by
   * exactly the names not skipped, as paths of that side, in order.
   */
  function AddNames(list: Option<seq<TreePath>>, names: seq<string>, src: PathSrc, subdir: string,
                    dir: string, skipDirs: bool, entries: DirEntries, asWritten: bool): (r: Option<seq<TreePath>>)
    requires GoodList(list, src)
    ensures GoodList(r, src)
    ensures OrEmpty(list) <= OrEmpty(r)
    ensures list.Some? ==> r.Some? && |r.value| >= |list.value|
    ensures r.None? <==> list.None? && AllSkipped(names, dir, skipDirs, entries, asWritten)
    ensures forall k :: 0 <= k < |names| && !Skipped(names[k], dir, skipDirs, entries, asWritten) ==>
              TreePath(src, subdir, names[k]) in OrEmpty(r)
    ensures forall p :: p in OrEmpty(r) ==>
              p in OrEmpty(list) ||
              exists k :: 0 <= k < |names| && !Skipped(names[k], dir, skipDirs, entries, asWritten) &&
                          p == TreePath(src, subdir, names[k])
    decreases |names|
  {
    if |names| == 0 then list
    else
      AllSkippedCons(names, dir, skipDirs, entries, asWritten);
      var list' := AddName(list, names[0], src, subdir, Skipped(names[0], dir, skipDirs, entries, asWritten));
      var r := AddNames(list', names[1..], src, subdir, dir, skipDirs, entries, asWritten);
      AddNamesStep(list, list', r, names, src, subdir, dir, skipDirs, entries, asWritten);
      r
  }

  /** The names recorded after the first one, together with the first, are those of the whole run. */
  lemma AddNamesStep(list: Option<seq<TreePath>>, list': Option<seq<TreePath>>, r: Option<seq<TreePath>>,
                     names: seq<string>, src: PathSrc, subdir: string, dir: string, skipDirs: bool,
                     entries: DirEntries, asWritten: bool)
    requires |names| > 0
    requires !Skipped(names[0], dir, skipDirs, entries, asWritten) ==>
               OrEmpty(list') == OrEmpty(list) + [TreePath(src, subdir, names[0])]
    requires Skipped(names[0], dir, skipDirs, entries, asWritten) ==> list' == list
    requires OrEmpty(list') <= OrEmpty(r)
    requires forall k :: 0 <= k < |names[1..]| && !Skipped(names[1..][k], dir, skipDirs, entries, asWritten) ==>
               TreePath(src, subdir, names[1..][k]) in OrEmpty(r)
    requires forall p :: p in OrEmpty(r) ==>
               p in OrEmpty(list') ||
               exists k :: 0 <= k < |names[1..]| && !Skipped(names[1..][k], dir, skipDirs, entries, asWritten) &&
                           p == TreePath(src, subdir, names[1..][k])
    ensures forall k :: 0 <= k < |names| && !Skipped(names[k], dir, skipDirs, entries, asWritten) ==>
              TreePath(src, subdir, names[k]) in OrEmpty(r)
    ensures forall p :: p in OrEmpty(r) ==>
              p in OrEmpty(list) ||
              exists k :: 0 <= k < |names| && !Skipped(names[k], dir, skipDirs, entries, asWritten) &&
                          p == TreePath(src, subdir, names[k])
  {
    var tail := names[1..];
    forall k | 0 <= k < |names| && !Skipped(names[k], dir, skipDirs, entries, asWritten)
      ensures TreePath(src, subdir, names[k]) in OrEmpty(r)
    {
      if k == 0 {
        assert OrEmpty(list')[|OrEmpty(list)|] == TreePath(src, subdir, names[0]);
        assert OrEmpty(r)[|OrEmpty(list)|] == TreePath(src, subdir, names[0]);
      } else {
        assert names[k] == tail[k - 1];
      }
    }
    forall p | p in OrEmpty(r)
      ensures p in OrEmpty(list) ||
              exists k :: 0 <= k < |names| && !Skipped(names[k], dir, skipDirs, entries, asWritten) &&
                          p == TreePath(src, subdir, names[k])
    {
      if p !in OrEmpty(list') {
        var k :| 0 <= k < |tail| && !Skipped(tail[k], dir, skipDirs, entries, asWritten) &&
                 p == TreePath(src, subdir, tail[k]);
        assert names[k + 1] == tail[k];
      } else if p !in OrEmpty(list) {
        assert p == TreePath(src, subdir, names[0]);
      }
    }
  }

  /** Each of the three lists of `a` is a prefix of the same list of `b`. */
  predicate Extends(a: Lists, b: Lists)
  {
    OrEmpty(a.added) <= OrEmpty(b.added) && OrEmpty(a.changed) <= OrEmpty(b.changed) &&
    OrEmpty(a.deleted) <= OrEmpty(b.deleted)
  }

  lemma ExtendsTrans(a: Lists, b: Lists, c: Lists)
    requires Extends(a, b) && Extends(b, c)
    ensures Extends(a, c)
  {
  }

  /** Every name one node reports that is not skipped is recorded, as a path of its side. */
  predicate NodeRecorded(d: DirCmp, leftSub: string, rightSub: string, skipDirs: bool,
                         entries: DirEntries, asWritten: bool, l: Lists)
  {
    (forall k :: 0 <= k < |d.rightOnly| && !Skipped(d.rightOnly[k], d.right, skipDirs, entries, asWritten) ==>
       TreePath(RightSrc, rightSub, d.rightOnly[k]) in OrEmpty(l.added)) &&
    (forall k :: 0 <= k < |d.diffFiles| && !Skipped(d.diffFiles[k], d.left, false, entries, asWritten) ==>
       TreePath(BothSrc, leftSub, d.diffFiles[k]) in OrEmpty(l.changed)) &&
    (forall k :: 0 <= k < |d.leftOnly| && !Skipped(d.leftOnly[k], d.left, skipDirs, entries, asWritten) ==>
       TreePath(LeftSrc, leftSub, d.leftOnly[k]) in OrEmpty(l.deleted))
  }

  /**
   * The comparison of `d` and of its subdirectories down to `depth` levels
   * is recorded in `l`: every name reported and not skipped is there.
   */
  predicate Covered(d: DirCmp, leftDir: string, rightDir: string, skipDirs: bool,
                    entries: DirEntries, asWritten: bool, depth: int, l: Lists)
    decreases d
  {
    ExtractSubdir(d.left, leftDir).Ok? && ExtractSubdir(d.right, rightDir).Ok? &&
    NodeRecorded(d, ExtractSubdir(d.left, leftDir).value, ExtractSubdir(d.right, rightDir).value,
                 skipDirs, entries, asWritten, l) &&
    (depth > 0 ==> forall i :: 0 <= i < |d.subdirs| ==>
                     Covered(d.subdirs[i], leftDir, rightDir, skipDirs, entries, asWritten, depth - 1, l))
  }

  /** Recorded names stay recorded as the lists grow. */
  lemma {:induction false} CoveredExtends(d: DirCmp, leftDir: string, rightDir: string, skipDirs: bool,
                                          entries: DirEntries, asWritten: bool, depth: int, l: Lists, l': Lists)
    requires Covered(d, leftDir, rightDir, skipDirs, entries, asWritten, depth, l) && Extends(l, l')
    ensures Covered(d, leftDir, rightDir, skipDirs, entries, asWritten, depth, l')
    decreases d
  {
    NodeRecordedExtends(d, ExtractSubdir(d.left, leftDir).value, ExtractSubdir(d.right, rightDir).value,
                        skipDirs, entries, asWritten, l, l');
    if depth > 0 {
      forall i | 0 <= i < |d.subdirs|
        ensures Covered(d.subdirs[i], leftDir, rightDir, skipDirs, entries, asWritten, depth - 1, l')
      {
        CoveredExtends(d.subdirs[i], leftDir, rightDir, skipDirs, entries, asWritten, depth - 1, l, l');
      }
    }
  }

  lemma PrefixMembers(a: seq<TreePath>, b: seq<TreePath>)
    requires a <= b
    ensures forall p :: p in a ==> p in b
  {
    forall p | p in a ensures p in b {
      var i :| 0 <= i < |a| && a[i] == p;
      assert b[i] == p;
    }
  }

  /**
   * `__compare_trees` on one node and (while depth lasts) its
   * subdirectories: the lists only grow, and every name reported and not
   * skipped, in this node and in the subdirectories the depth reaches, is
   * recorded as a path of its side.
   */
  function CompareNode(d: DirCmp, leftDir: string, rightDir: string, skipDirs: bool,
                       entries: DirEntries, asWritten: bool, depth: int, acc: Lists): (r: Result<Lists>)
    requires GoodLists(acc)
    ensures r.Ok? ==> GoodLists(r.value)
    ensures r.Ok? ==> Extends(acc, r.value)
    ensures r.Ok? ==> Covered(d, leftDir, rightDir, skipDirs, entries, asWritten, depth, r.value)
    ensures r.Ok? <==> PathsMatch(d, leftDir, rightDir, depth)
    decreases d, |d.subdirs| + 1, 2
  {
    var left := ExtractSubdir(d.left, leftDir);
    var right := ExtractSubdir(d.right, rightDir);
    if left.Err? then Err(left.error)
    else if right.Err? then Err(right.error)
    else CompareHere(d, leftDir, rightDir, skipDirs, entries, asWritten, depth, acc)
  }

  /** One node whose two directories lie below the base directories: its names, then its subdirectories. */
  function CompareHere(d: DirCmp, leftDir: string, rightDir: string, skipDirs: bool,
                       entries: DirEntries, asWritten: bool, depth: int, acc: Lists): (r: Result<Lists>)
    requires GoodLists(acc)
    requires ExtractSubdir(d.left, leftDir).Ok? && ExtractSubdir(d.right, rightDir).Ok?
    ensures r.Ok? ==> GoodLists(r.value)
    ensures r.Ok? ==> Extends(acc, r.value)
    ensures r.Ok? ==> Covered(d, leftDir, rightDir, skipDirs, entries, asWritten, depth, r.value)
    ensures r.Ok? <==> PathsMatch(d, leftDir, rightDir, depth)
    decreases d, |d.subdirs| + 1, 1
  {
    var leftSub := ExtractSubdir(d.left, leftDir).value;
    var rightSub := ExtractSubdir(d.right, rightDir).value;
    var added := AddNames(acc.added, d.rightOnly, RightSrc, rightSub, d.right, skipDirs, entries, asWritten);
    var changed := AddNames(acc.changed, d.diffFiles, BothSrc, leftSub, d.left, false, entries, asWritten);
    var deleted := AddNames(acc.deleted, d.leftOnly, LeftSrc, leftSub, d.left, skipDirs, entries, asWritten);
    var here := Lists(added, changed, deleted);
    HereRecorded(d, leftSub, rightSub, skipDirs, entries, asWritten, acc, here);
    CompareBelow(d, leftDir, rightDir, skipDirs, entries, asWritten, depth, acc, here)
  }

  /** A node whose own names are recorded in `here`: its subdirectories are compared after them. */
  function CompareBelow(d: DirCmp, leftDir: string, rightDir: string, skipDirs: bool,
                        entries: DirEntries, asWritten: bool, depth: int, acc: Lists, here: Lists): (r: Result<Lists>)
    requires ExtractSubdir(d.left, leftDir).Ok? && ExtractSubdir(d.right, rightDir).Ok?
    requires GoodLists(here) && Extends(acc, here)
    requires NodeRecorded(d, ExtractSubdir(d.left, leftDir).value, ExtractSubdir(d.right, rightDir).value,
                          skipDirs, entries, asWritten, here)
    ensures r.Ok? ==> GoodLists(r.value)
    ensures r.Ok? ==> Extends(acc, r.value)
    ensures r.Ok? ==> Covered(d, leftDir, rightDir, skipDirs, entries, asWritten, depth, r.value)
    ensures r.Ok? <==> PathsMatch(d, leftDir, rightDir, depth)
    decreases d, |d.subdirs| + 1, 0
  {
    var r := if depth > 0 then CompareChildren(d, 0, leftDir, rightDir, skipDirs, entries, asWritten, depth - 1, here)
             else Ok(here);
    NodeResult(d, leftDir, rightDir, skipDirs, entries, asWritten, depth, acc, here, r);
    r
  }

  lemma NodeRecordedExtends(d: DirCmp, leftSub: string, rightSub: string, skipDirs: bool,
                            entries: DirEntries, asWritten: bool, l: Lists, l': Lists)
    requires NodeRecorded(d, leftSub, rightSub, skipDirs, entries, asWritten, l) && Extends(l, l')
    ensures NodeRecorded(d, leftSub, rightSub, skipDirs, entries, asWritten, l')
  {
    PrefixMembers(OrEmpty(l.added), OrEmpty(l'.added));
    PrefixMembers(OrEmpty(l.changed), OrEmpty(l'.changed));
    PrefixMembers(OrEmpty(l.deleted), OrEmpty(l'.deleted));
  }

  /** Every node the walk reaches, down to `depth` levels, lies below the two base directories. */
  predicate PathsMatch(d: DirCmp, leftDir: string, rightDir: string, depth: int)
    decreases d
  {
    ExtractSubdir(d.left, leftDir).Ok? && ExtractSubdir(d.right, rightDir).Ok? &&
    (depth > 0 ==> forall i :: 0 <= i < |d.subdirs| ==> PathsMatch(d.subdirs[i], leftDir, rightDir, depth - 1))
  }

  /** The names of one node, appended to the lists, are recorded there, and the lists only grow. */
  lemma HereRecorded(d: DirCmp, leftSub: string, rightSub: string, skipDirs: bool,
                     entries: DirEntries, asWritten: bool, acc: Lists, here: Lists)
    requires GoodLists(acc)
    requires here.added == AddNames(acc.added, d.rightOnly, RightSrc, rightSub, d.right, skipDirs, entries, asWritten)
    requires here.changed == AddNames(acc.changed, d.diffFiles, BothSrc, leftSub, d.left, false, entries, asWritten)
    requires here.deleted == AddNames(acc.deleted, d.leftOnly, LeftSrc, leftSub, d.left, skipDirs, entries, asWritten)
    ensures GoodLists(here) && Extends(acc, here)
    ensures NodeRecorded(d, leftSub, rightSub, skipDirs, entries, asWritten, here)
  {
  }

  /** A node whose own names are recorded, with its subdirectories compared after them, is covered. */
  lemma NodeResult(d: DirCmp, leftDir: string, rightDir: string, skipDirs: bool, entries: DirEntries,
                   asWritten: bool, depth: int, acc: Lists, here: Lists, r: Result<Lists>)
    requires ExtractSubdir(d.left, leftDir).Ok? && ExtractSubdir(d.right, rightDir).Ok?
    requires GoodLists(here) && Extends(acc, here)
    requires NodeRecorded(d, ExtractSubdir(d.left, leftDir).value, ExtractSubdir(d.right, rightDir).value,
                          skipDirs, entries, asWritten, here)
    requires depth <= 0 ==> r == Ok(here)
    requires depth > 0 && r.Ok? ==> GoodLists(r.value) && Extends(here, r.value)
    requires depth > 0 && r.Ok? ==>
               forall j :: 0 <= j < |d.subdirs| ==>
                 Covered(d.subdirs[j], leftDir, rightDir, skipDirs, entries, asWritten, depth - 1, r.value)
    requires depth > 0 ==> (r.Ok? <==> forall j :: 0 <= j < |d.subdirs| ==> PathsMatch(d.subdirs[j], leftDir, rightDir, depth - 1))
    ensures r.Ok? ==> GoodLists(r.value) && Extends(acc, r.value)
    ensures r.Ok? ==> Covered(d, leftDir, rightDir, skipDirs, entries, asWritten, depth, r.value)
    ensures r.Ok? <==> PathsMatch(d, leftDir, rightDir, depth)
  {
    if r.Ok? {
      NodeRecordedExtends(d, ExtractSubdir(d.left, leftDir).value, ExtractSubdir(d.right, rightDir).value,
                          skipDirs, entries, asWritten, here, r.value);
    }
  }

  /** The subdirectories of `d` from the `i`-th on, each compared in turn. */
  function CompareChildren(d: DirCmp, i: nat, leftDir: string, rightDir: string, skipDirs: bool,
                           entries: DirEntries, asWritten: bool, depth: int, acc: Lists): (r: Result<Lists>)
    requires i <= |d.subdirs|
    requires GoodLists(acc)
    ensures r.Ok? ==> GoodLists(r.value)
    ensures r.Ok? ==> Extends(acc, r.value)
    ensures r.Ok? ==> forall j :: i <= j < |d.subdirs| ==>
                        Covered(d.subdirs[j], leftDir, rightDir, skipDirs, entries, asWritten, depth, r.value)
    ensures r.Ok? <==> forall j :: i <= j < |d.subdirs| ==> PathsMatch(d.subdirs[j], leftDir, rightDir, depth)
    decreases d, |d.subdirs| - i
  {
    if i == |d.subdirs| then Ok(acc)
    else
      var acc' :- CompareNode(d.subdirs[i], leftDir, rightDir, skipDirs, entries, asWritten, depth, acc);
      var r := CompareChildren(d, i + 1, leftDir, rightDir, skipDirs, entries, asWritten, depth, acc');
      ChildrenStep(d, i, leftDir, rightDir, skipDirs, entries, asWritten, depth, acc, acc', r);
      r
  }

  /** The first remaining subdirectory, compared before the rest, is covered and matched with them. */
  lemma ChildrenStep(d: DirCmp, i: nat, leftDir: string, rightDir: string, skipDirs: bool,
                     entries: DirEntries, asWritten: bool, depth: int, acc: Lists, acc': Lists, r: Result<Lists>)
    requires i < |d.subdirs|
    requires PathsMatch(d.subdirs[i], leftDir, rightDir, depth)
    requires Extends(acc, acc') && Covered(d.subdirs[i], leftDir, rightDir, skipDirs, entries, asWritten, depth, acc')
    requires r.Ok? ==> Extends(acc', r.value)
    requires r.Ok? ==> forall j :: i + 1 <= j < |d.subdirs| ==>
                         Covered(d.subdirs[j], leftDir, rightDir, skipDirs, entries, asWritten, depth, r.value)
    requires r.Ok? <==> forall j :: i + 1 <= j < |d.subdirs| ==> PathsMatch(d.subdirs[j], leftDir, rightDir, depth)
    ensures r.Ok? ==> Extends(acc, r.value)
    ensures r.Ok? ==> forall j :: i <= j < |d.subdirs| ==>
                        Covered(d.subdirs[j], leftDir, rightDir, skipDirs, entries, asWritten, depth, r.value)
    ensures r.Ok? <==> forall j :: i <= j < |d.subdirs| ==> PathsMatch(d.subdirs[j], leftDir, rightDir, depth)
  {
    if r.Ok? {
      CoveredExtends(d.subdirs[i], leftDir, rightDir, skipDirs, entries, asWritten, depth, acc', r.value);
    }
  }

  /**
   * The full comparison, starting from empty lists at depth 99: it fails
   * exactly when a node reached lies outside the base directories, and
   * otherwise records every name reported and not skipped down to that
   * depth.
   */
  function Compare(d: DirCmp, leftDir: string, rightDir: string, skipDirs: bool,
                   entries: DirEntries, asWritten: bool): (r: Result<Lists>)
    ensures r.Ok? ==> GoodLists(r.value)
    ensures r.Ok? <==> PathsMatch(d, leftDir, rightDir, 99)
    ensures r.Ok? ==> Covered(d, leftDir, rightDir, skipDirs, entries, asWritten, 99, r.value)
  {
    CompareNode(d, leftDir, rightDir, skipDirs, entries, asWritten, 99, Lists(None, None, None))
  }

  /** `is_modified`: some list has been started. */
  function IsModified(l: Lists): (r: bool)
    ensures r <==> l.added.Some? || l.changed.Some? || l.deleted.Some?
  {
    l.added.Some? || l.changed.Some? || l.deleted.Some?
  }

  /** With well-formed lists, modified means at least one path was recorded. */
  lemma ModifiedIffRecorded(l: Lists)
    requires GoodLists(l)
    ensures IsModified(l) <==> |AllPaths(l)| > 0
  {
  }

  function OrEmpty(list: Option<seq<TreePath>>): seq<TreePath>
  {
    if list.None? then [] else list.value
  }

  /** The recorded paths in the order `modified_trees` visits them. */
  function AllPaths(l: Lists): seq<TreePath>
  {
    OrEmpty(l.added) + OrEmpty(l.deleted) + OrEmpty(l.changed)
  }

  /** The first component of a directory, or the whole directory. */
  function TopDir(directory: string): (r: string)
    ensures Sep !in r
    ensures r == directory || StartsWith(directory, r + [Sep])
  {
    match SplitOnce(directory, Sep)
    case None => directory
    case Some((top, _)) => top
  }

  /** How many entries of `tops` equal `k`. */
  function CountOf(tops: seq<string>, k: string): nat
  {
    if |tops| == 0 then 0
    else CountOf(tops[..|tops| - 1], k) + (if tops[|tops| - 1] == k then 1 else 0)
  }

  lemma {:induction false} CountOfAbsent(tops: seq<string>, k: string)
    requires k !in tops
    ensures CountOf(tops, k) == 0
  {
    if |tops| > 0 {
      CountOfAbsent(tops[..|tops| - 1], k);
    }
  }

  lemma {:induction false} CountOfPresent(tops: seq<string>, k: string)
    requires k in tops
    ensures CountOf(tops, k) > 0
  {
    if tops[|tops| - 1] != k {
      assert k in tops[..|tops| - 1];
      CountOfPresent(tops[..|tops| - 1], k);
    }
  }

  /** Count how many times each top-level directory occurs. */
  function Tally(tops: seq<string>): (r: map<string, nat>)
    ensures forall t :: t in tops <==> t in r
    ensures forall k :: k in r ==> r[k] == CountOf(tops, k)
  {
    if |tops| == 0 then map[]
    else
      var init := tops[..|tops| - 1];
      var k := tops[|tops| - 1];
      var m := Tally(init);
      if k in m then m[k := m[k] + 1]
      else
        CountOfAbsent(init, k);
        m[k := 1]
  }

  /** The sum of the counts of `keys`. */
  function SumCounts(keys: seq<string>, tops: seq<string>): nat
  {
    if |keys| == 0 then 0 else CountOf(tops, keys[0]) + SumCounts(keys[1..], tops)
  }

  /** How many entries of `keys` equal `t`. */
  function Occurrences(keys: seq<string>, t: string): nat
  {
    if |keys| == 0 then 0 else (if keys[0] == t then 1 else 0) + Occurrences(keys[1..], t)
  }

  lemma {:induction false} SumCountsAppend(keys: seq<string>, init: seq<string>, t: string)
    ensures SumCounts(keys, init + [t]) == SumCounts(keys, init) + Occurrences(keys, t)
    decreases |keys|
  {
    var tops := init + [t];
    assert tops[..|tops| - 1] == init;
    if |keys| > 0 {
      SumCountsAppend(keys[1..], init, t);
    }
  }

  lemma {:induction false} OccursOnce(keys: seq<string>, t: string)
    requires forall i, j :: 0 <= i < j < |keys| ==> keys[i] != keys[j]
    requires t in keys
    ensures Occurrences(keys, t) == 1
    decreases |keys|
  {
    if keys[0] == t {
      OccursNever(keys[1..], t);
    } else {
      OccursOnce(keys[1..], t);
    }
  }

  lemma {:induction false} OccursNever(keys: seq<string>, t: string)
    requires t !in keys
    ensures Occurrences(keys, t) == 0
    decreases |keys|
  {
    if |keys| > 0 {
      OccursNever(keys[1..], t);
    }
  }

  /**
   * Listing every distinct top-level directory once, the counts add up to
   * the number of recorded paths.
   */
  lemma {:induction false} CountsSumToTotal(keys: seq<string>, tops: seq<string>)
    requires forall i, j :: 0 <= i < j < |keys| ==> keys[i] != keys[j]
    requires forall t :: t in tops ==> t in keys
    ensures SumCounts(keys, tops) == |tops|
    decreases |tops|
  {
    if |tops| == 0 {
      SumOfZero(keys);
    } else {
      var init := tops[..|tops| - 1];
      var t := tops[|tops| - 1];
      assert tops == init + [t];
      CountsSumToTotal(keys, init);
      SumCountsAppend(keys, init, t);
      OccursOnce(keys, t);
    }
  }

  lemma {:induction false} SumOfZero(keys: seq<string>)
    ensures SumCounts(keys, []) == 0
    decreases |keys|
  {
    if |keys| > 0 {
      SumOfZero(keys[1..]);
    }
  }

  /** `modified_trees`: recorded paths counted under their top-level directory. */
  function ModifiedTrees(l: Lists): (r: map<string, nat>)
    ensures forall p :: p in AllPaths(l) ==> TopDir(p.directory) in r
    ensures forall k :: k in r ==> r[k] == CountOf(TopDirs(AllPaths(l)), k) && r[k] > 0
  {
    var paths := AllPaths(l);
    var tops := TopDirs(paths);
    forall k | k in tops
      ensures CountOf(tops, k) > 0
    {
      CountOfPresent(tops, k);
    }
    TopsCover(paths);
    Tally(tops)
  }

  lemma TopsCover(paths: seq<TreePath>)
    ensures forall p :: p in paths ==> TopDir(p.directory) in TopDirs(paths)
  {
    var tops := TopDirs(paths);
    forall p | p in paths ensures TopDir(p.directory) in tops {
      var i :| 0 <= i < |paths| && paths[i] == p;
      assert tops[i] == TopDir(p.directory);
    }
  }

  function TopDirs(paths: seq<TreePath>): (r: seq<string>)
    ensures |r| == |paths|
    ensures forall k :: 0 <= k < |r| ==> r[k] == TopDir(paths[k].directory)
  {
    if |paths| == 0 then [] else TopDirs(paths[..|paths| - 1]) + [TopDir(paths[|paths| - 1].directory)]
  }
}

=== FILE: comparable.dfy ===
/**
 * The `Comparable` mix-in: every rich comparison is derived from a
 * `compare_key` tuple, with `None` on the right-hand side handled
 * specially (an object is never equal to `None`, is below `None` under
 * `<`, and is never above it under `>`).
 */
module Comparable {
  import opened Wrappers
  import StrUtil

  /** One component of a comparison key. */
  datatype KeyItem = KNone | KInt(i: int) | KStr(s: string)

  /** A comparison key: values in order of importance, compared like a tuple. */
  type Key = seq<KeyItem>

  /**
   * Order on key components: within a kind the natural order; across
   * kinds None < numbers < strings (the ordering Python 2 uses for mixed
   * types).
   */
  predicate ItemLt(a: KeyItem, b: KeyItem)
  {
    match (a, b)
    case (KNone, KNone) => false
    case (KNone, _) => true
    case (KInt(x), KInt(y)) => x < y
    case (KInt(_), KStr(_)) => true
    case (KStr(x), KStr(y)) => StrUtil.StrLt(x, y)
    case _ => false
  }

  /** Tuple order: the first differing component decides; a proper prefix is smaller. */
  predicate KeyLt(a: Key, b: Key)
    decreases |a|
  {
    if |a| == 0 then |b| > 0
    else if |b| == 0 then false
    else if a[0] != b[0] then ItemLt(a[0], b[0])
    else KeyLt(a[1..], b[1..])
  }

  function Eq(self: Key, other: Option<Key>): (r: bool)
    ensures other.None? ==> !r
    ensures other.Some? ==> (r <==> self == other.value)
  {
    match other
    case None => false
    case Some(k) => self == k
  }

  function Ne(self: Key, other: Option<Key>): (r: bool)
    ensures r <==> !Eq(self, other)
  {
    !Eq(self, other)
  }

  function Lt(self: Key, other: Option<Key>): (r: bool)
    ensures other.None? ==> r
    ensures other.Some? ==> (r <==> KeyLt(self, other.value))
  {
    match other
    case None => true
    case Some(k) => KeyLt(self, k)
  }

  function Gt(self: Key, other: Option<Key>): (r: bool)
    ensures other.None? ==> !r
    ensures other.Some? ==> (r <==> KeyLt(other.value, self))
  {
    match other
    case None => false
    case Some(k) => KeyLt(k, self)
  }

  function Ge(self: Key, other: Option<Key>): (r: bool)
    ensures r <==> !Lt(self, other)
  {
    !Lt(self, other)
  }

  function Le(self: Key, other: Option<Key>): (r: bool)
    ensures r <==> !Gt(self, other)
  {
    !Gt(self, other)
  }

  /** `hash(compare_key)`, with the hash of a key left as a parameter. */
  function Hash(self: Key, hashOf: Key -> int): (r: int)
  {
    hashOf(self)
  }

  lemma ItemLtTrichotomy(a: KeyItem, b: KeyItem)
    ensures a == b || ItemLt(a, b) || ItemLt(b, a)
    ensures !(ItemLt(a, b) && ItemLt(b, a))
  {
    match (a, b)
    case (KStr(x), KStr(y)) =>
      StrUtil.StrLtTrichotomy(x, y);
      if StrUtil.StrLt(x, y) {
        StrUtil.StrLtAsymmetric(x, y);
      }
    case _ =>
  }

  lemma {:induction false} KeyLtIrreflexive(a: Key)
    ensures !KeyLt(a, a)
    decreases |a|
  {
    if |a| > 0 {
      KeyLtIrreflexive(a[1..]);
    }
  }

  lemma {:induction false} KeyLtTrichotomy(a: Key, b: Key)
    ensures a == b || KeyLt(a, b) || KeyLt(b, a)
    ensures !(KeyLt(a, b) && KeyLt(b, a))
    decreases |a|
  {
    if |a| > 0 && |b| > 0 {
      if a[0] == b[0] {
        KeyLtTrichotomy(a[1..], b[1..]);
        if a[1..] == b[1..] {
          assert a == [a[0]] + a[1..] && b == [b[0]] + b[1..];
        }
      } else {
        ItemLtTrichotomy(a[0], b[0]);
      }
    }
  }

  /**
   * Against another object, exactly one of `<`, `==`, `>` holds, and
   * `<=`/`>=` are the expected disjunctions: the derived operators order
   * objects exactly as their keys are ordered.
   */
  lemma OperatorsConsistent(self: Key, other: Key)
    ensures Lt(self, Some(other)) || Eq(self, Some(other)) || Gt(self, Some(other))
    ensures !(Lt(self, Some(other)) && Gt(self, Some(other)))
    ensures Eq(self, Some(other)) ==> !Lt(self, Some(other)) && !Gt(self, Some(other))
    ensures Le(self, Some(other)) <==> Lt(self, Some(other)) || Eq(self, Some(other))
    ensures Ge(self, Some(other)) <==> Gt(self, Some(other)) || Eq(self, Some(other))
  {
    KeyLtTrichotomy(self, other);
    if self == other {
      KeyLtIrreflexive(self);
    }
  }

  /** Against None: not equal, below under `<`, `<=` holds and `>=` does not. */
  lemma AgainstNone(self: Key)
    ensures !Eq(self, None) && Ne(self, None)
    ensures Lt(self, None) && !Gt(self, None)
    ensures Le(self, None) && !Ge(self, None)
  {
  }

  /** Objects that compare equal hash equally. */
  lemma EqualObjectsHashEqually(a: Key, b: Key, hashOf: Key -> int)
    requires Eq(a, Some(b))
    ensures Hash(a, hashOf) == Hash(b, hashOf)
  {
  }
}

=== FILE: convert.dfy ===
/**
 * The string logic of the SVN-to-Git converter: the difference of two
 * strings shown in messages, porcelain status reading, forked-project
 * URLs, the choice of the Git branch for an SVN branch, and the fixed
 * table of broken pDAQ URLs and revisions.
 */
module ConvertSvnToGit {
  import opened Wrappers
  import opened StrUtil
  import opened Porcelain

  // ----- __diff_strings -----

  /** The first index below both lengths where the strings differ. */
  function FirstDiff(s1: string, s2: string): (r: Option<nat>)
    ensures r.None? <==> forall i :: 0 <= i < |s1| && i < |s2| ==> s1[i] == s2[i]
    ensures r.Some? ==> r.value < |s1| && r.value < |s2| && s1[r.value] != s2[r.value] &&
                        s1[..r.value] == s2[..r.value]
  {
    FirstDiffFrom(s1, s2, 0)
  }

  function FirstDiffFrom(s1: string, s2: string, i: nat): (r: Option<nat>)
    requires i <= |s1| && i <= |s2| && s1[..i] == s2[..i]
    ensures r.None? <==> forall j :: i <= j < |s1| && j < |s2| ==> s1[j] == s2[j]
    ensures r.Some? ==> i <= r.value < |s1| && r.value < |s2| && s1[r.value] != s2[r.value] &&
                        s1[..r.value] == s2[..r.value]
    decreases |s1| - i
  {
    if i == |s1| || i == |s2| then None
    else if s1[i] != s2[i] then Some(i)
    else
      assert s1[..i + 1] == s1[..i] + [s1[i]] && s2[..i + 1] == s2[..i] + [s2[i]];
      FirstDiffFrom(s1, s2, i + 1)
  }

  /**
   * `__diff_strings` as written: from the first difference `d` both strings
   * are sliced at `d-1`, which for `d == 0` is Python's index -1, keeping
   * only the last character.
   */
  function DiffStringsAsWritten(s1: string, s2: string): (r: (string, string))
  {
    var minlen := if |s1| < |s2| then |s1| else |s2|;
    match FirstDiff(s1, s2)
    case Some(d) => (PySliceFrom(s1, d - 1), PySliceFrom(s2, d - 1))
    case None => if |s1| == |s2| then ("", "") else (s1[minlen..], s2[minlen..])
  }

  /** As written, two strings differing in the first character but ending alike give equal pieces. */
  lemma DiffAtStartCollapses(s1: string, s2: string)
    requires |s1| > 0 && |s2| > 0 && s1[0] != s2[0] && s1[|s1| - 1] == s2[|s2| - 1]
    ensures DiffStringsAsWritten(s1, s2) == ([s1[|s1| - 1]], [s1[|s1| - 1]])
  {
    assert FirstDiff(s1, s2) == Some(0);
    assert s1[|s1| - 1..] == [s1[|s1| - 1]] && s2[|s2| - 1..] == [s2[|s2| - 1]];
  }

  /** `__diff_strings` with the context index kept at 0 when the strings differ at once. */
  function DiffStrings(s1: string, s2: string): (r: (string, string))
    ensures EndsWith(s1, r.0) && EndsWith(s2, r.1)
    ensures |s1| - |r.0| == |s2| - |r.1|
    ensures s1[..|s1| - |r.0|] == s2[..|s2| - |r.1|]
    ensures s1 == s2 <==> r == ("", "")
    ensures s1 != s2 ==> r.0 != r.1
    ensures FirstDiff(s1, s2).Some? ==> |s1| - |r.0| + 1 >= FirstDiff(s1, s2).value
  {
    var minlen := if |s1| < |s2| then |s1| else |s2|;
    match FirstDiff(s1, s2)
    case Some(d) =>
      var k := if d == 0 then 0 else d - 1;
      assert s1[..k] == s1[..d][..k] && s2[..k] == s2[..d][..k];
      assert s1[k..][d - k] != s2[k..][d - k];
      (s1[k..], s2[k..])
    case None =>
      if |s1| == |s2| then
        assert s1 == s2;
        ("", "")
      else
        assert s1[..minlen] == s2[..minlen];
        assert |s1[minlen..]| != |s2[minlen..]|;
        (s1[minlen..], s2[minlen..])
  }

  /** Where the strings first differ at `d >= 1`, both pieces keep one shared character of context. */
  lemma DiffKeepsOneCharacter(s1: string, s2: string)
    requires FirstDiff(s1, s2).Some? && FirstDiff(s1, s2).value >= 1
    ensures var d := FirstDiff(s1, s2).value;
            DiffStrings(s1, s2) == DiffStringsAsWritten(s1, s2) == (s1[d - 1..], s2[d - 1..]) &&
            s1[d - 1] == s2[d - 1]
  {
    var d := FirstDiff(s1, s2).value;
    assert s1[..d][d - 1] == s2[..d][d - 1];
  }

  /** When one string extends the other, both pieces are the tails past the shorter length. */
  lemma DiffOfPrefix(s1: string, s2: string)
    requires |s1| <= |s2| && s2[..|s1|] == s1
    ensures DiffStrings(s1, s2) == DiffStringsAsWritten(s1, s2) == ("", s2[|s1|..])
  {
    assert FirstDiff(s1, s2).None? by {
      forall i | 0 <= i < |s1|
        ensures s1[i] == s2[i]
      {
        assert s2[..|s1|][i] == s2[i];
      }
    }
  }

  // ----- porcelain status -----

  /** `__fix_status_filename`: drop one pair of matching surrounding quotes. */
  function FixStatusFilename(f: string): (r: string)
    ensures |r| == |f| || |r| == |f| - 2
    ensures |f| >= 2 && f[0] == f[|f| - 1] && (f[0] == '"' || f[0] == '\'') ==> r == f[1..|f| - 1]
    ensures !(|f| >= 2 && f[0] == f[|f| - 1] && (f[0] == '"' || f[0] == '\'')) ==> r == f
  {
    if |f| >= 2 && f[0] == f[|f| - 1] && (f[0] == '"' || f[0] == '\'') then f[1..|f| - 1] else f
  }

  /** Quoting a name and then fixing it gives the name back. */
  lemma FixQuoted(q: char, name: string)
    requires q == '"' || q == '\''
    ensures FixStatusFilename([q] + name + [q]) == name
  {
    assert ([q] + name + [q])[1..|name| + 1] == name;
  }

  /** The path of a status line: everything after "XY ". */
  function StatusPath(line: string): string
  {
    if |line| >= 3 then FixStatusFilename(line[3..]) else ""
  }

  /**
   * `__gather_modifications`' treatment of one non-blank line: staged when
   * the work-tree column is blank, added for "??", and for an index column
   * of ' ', 'A' or 'M' added/deleted/modified by the work-tree column.
   */
  function ClassifyModification(line: string): (r: Result<Bucket>)
    ensures r.Ok? ==> |line| >= 4 && (line[2] == ' ' || line[2] == 'M')
    ensures r == Ok(Staged) <==> |line| >= 4 && (line[2] == ' ' || line[2] == 'M') && line[1] == ' '
    ensures r == Ok(Added) <==> |line| >= 4 && (line[2] == ' ' || line[2] == 'M') &&
                                ((line[0] == '?' && line[1] == '?') || (line[0] in " AM" && line[1] == 'A'))
    ensures r == Ok(Deleted) <==> |line| >= 4 && (line[2] == ' ' || line[2] == 'M') &&
                                  line[0] in " AM" && line[1] == 'D'
    ensures r == Ok(Modified) <==> |line| >= 4 && (line[2] == ' ' || line[2] == 'M') &&
                                   line[0] in " AM" && (line[1] == 'M' || line[1] == 'T')
    ensures r != Ok(Ignored)
  {
    if |line| < 4 then Err("Short porcelain status line \"" + line + "\"")
    else if line[2] != ' ' && line[2] != 'M' then Err("Bad porcelain status line \"" + line + "\"")
    else if line[1] == ' ' then Ok(Staged)
    else if line[0] == '?' && line[1] == '?' then Ok(Added)
    else if line[0] == ' ' || line[0] == 'A' || line[0] == 'M' then
      if line[1] == 'A' then Ok(Added)
      else if line[1] == 'D' then Ok(Deleted)
      else if line[1] == 'M' || line[1] == 'T' then Ok(Modified)
      else Err("Unknown porcelain line \"" + line + "\"")
    else Err("Unknown porcelain line \"" + line + "\"")
  }

  /** `__gather_modifications` over the lines of `git status --porcelain`. */
  function GatherModifications(lines: seq<string>): Result<StatusLists>
  {
    Gather(lines, ClassifyModification, StatusPath)
  }

  /**
   * Every non-blank line's path lands in exactly the list its codes select,
   * in order; the gatherer fails exactly when some non-blank line cannot be
   * classified.
   */
  lemma GatherModificationsSpec(lines: seq<string>)
    ensures GatherModifications(lines).Ok? <==> AllClassified(lines, ClassifyModification)
    ensures var r := GatherModifications(lines);
            r.Ok? ==> r.value.additions == AsList(Picked(lines, ClassifyModification, StatusPath, Added)) &&
                      r.value.deletions == AsList(Picked(lines, ClassifyModification, StatusPath, Deleted)) &&
                      r.value.modifications == AsList(Picked(lines, ClassifyModification, StatusPath, Modified)) &&
                      r.value.staged == AsList(Picked(lines, ClassifyModification, StatusPath, Staged))
  {
    GatherSpec(lines, ClassifyModification, StatusPath);
  }

  // ----- __revert_forked_url -----

  /** Forked projects and the names they were forked from, in dictionary order. */
  const ForkedProjects: seq<(string, string)> := [("oldtrigger", "trigger"), ("pdaq-user", "pdaq-icecube")]

  /**
   * One dictionary item as written: only the first occurrence is examined;
   * the character before it is read with Python indexing (index -1 when the
   * name starts the URL) and the one after it raises `IndexError` when the
   * name ends the URL.  `Ok(None)` means "try the next item".
   */
  function RevertOneAsWritten(url: string, fork: string, orig: string): (r: Result<Option<string>>)
    requires |fork| > 0
    ensures Find(url, fork) < 0 ==> r == Ok(None)
    ensures r.Ok? && r.value.Some? ==>
              var idx := Find(url, fork);
              idx >= 0 && r.value.value == url[..idx] + orig + url[idx + |fork|..]
  {
    var idx := Find(url, fork);
    if idx < 0 then Ok(None)
    else if PyAt(url, idx - 1) != Some('/') then Ok(None)
    else
      match PyAt(url, idx + |fork|)
      case None => Err("string index out of range")
      case Some(c) => if c != '/' then Ok(None) else Ok(Some(url[..idx] + orig + url[idx + |fork|..]))
  }

  function RevertFromAsWritten(url: string, items: seq<(string, string)>): (r: Result<Option<string>>)
    requires forall k :: 0 <= k < |items| ==> |items[k].0| > 0
  {
    if |items| == 0 then Ok(None)
    else
      var one :- RevertOneAsWritten(url, items[0].0, items[0].1);
      if one.Some? then Ok(one) else RevertFromAsWritten(url, items[1..])
  }

  /** `__revert_forked_url` as written. */
  function RevertForkedUrlAsWritten(url: string): Result<Option<string>>
  {
    RevertFromAsWritten(url, ForkedProjects)
  }

  /** As written, a URL ending in a forked name right after a '/' raises instead of returning `None`. */
  lemma ForkAtEndRaises(a: string)
    requires Find(a + "/oldtrigger", "oldtrigger") == |a| + 1
    ensures RevertForkedUrlAsWritten(a + "/oldtrigger").Err?
  {
    var url := a + "/oldtrigger";
    assert url[|a|] == '/';
  }

  /**
   * As written, a forked name at the very start of the URL has its "previous"
   * character read from the end of the URL (index -1), so a URL that ends in
   * '/' counts as bounded there; the corrected item refuses it.
   */
  lemma ForkAtStartWraps(b: string)
    ensures RevertForkedUrlAsWritten("oldtrigger/" + b + "/") == Ok(Some("trigger/" + b + "/"))
    ensures RevertOne("oldtrigger/" + b + "/", "oldtrigger", "trigger").None?
  {
    var url := "oldtrigger/" + b + "/";
    assert url[..10] == "oldtrigger";
    FindIs(url, "oldtrigger", 0);
    assert Find(url, "oldtrigger") == 0;
    assert PyAt(url, -1) == Some('/');
    assert PyAt(url, 10) == Some('/');
    assert url[..0] + "trigger" + url[10..] == "trigger/" + b + "/";
    assert RevertOneAsWritten(url, "oldtrigger", "trigger") == Ok(Some("trigger/" + b + "/"));
    assert ForkedProjects[0] == ("oldtrigger", "trigger");
  }

  /**
   * The first occurrence of `fork` in `url` is a whole path component with
   * something before it: a '/' on both sides, and neither end of the URL.
   */
  predicate Bounded(url: string, fork: string)
  {
    var idx := Find(url, fork);
    1 <= idx && idx + |fork| < |url| && url[idx - 1] == '/' && url[idx + |fork|] == '/'
  }

  /** `url` with the first occurrence of `fork` replaced by `orig`. */
  function Replaced(url: string, fork: string, orig: string): string
    requires Bounded(url, fork)
  {
    var idx := Find(url, fork);
    url[..idx] + orig + url[idx + |fork|..]
  }

  /** One item, bounded on both sides by '/' (a name at either end of the URL is not bounded). */
  function RevertOne(url: string, fork: string, orig: string): (r: Option<string>)
    requires |fork| > 0
    ensures Find(url, fork) < 0 ==> r.None?
    ensures r.Some? <==> var idx := Find(url, fork);
                         1 <= idx && idx + |fork| < |url| && url[idx - 1] == '/' && url[idx + |fork|] == '/'
    ensures r.Some? ==> var idx := Find(url, fork); r.value == url[..idx] + orig + url[idx + |fork|..]
  {
    var idx := Find(url, fork);
    if 1 <= idx && idx + |fork| < |url| && url[idx - 1] == '/' && url[idx + |fork|] == '/' then
      Some(url[..idx] + orig + url[idx + |fork|..])
    else None
  }

  /**
   * The items are tried in order and the first one whose name is a bounded
   * component decides the result; with none, the URL is not reverted.
   */
  function RevertFrom(url: string, items: seq<(string, string)>): (r: Option<string>)
    requires forall k :: 0 <= k < |items| ==> |items[k].0| > 0
    ensures (forall k :: 0 <= k < |items| ==> Find(url, items[k].0) < 0) ==> r.None?
    ensures r.None? <==> forall k :: 0 <= k < |items| ==> !Bounded(url, items[k].0)
    ensures r.Some? ==> exists k :: 0 <= k < |items| && Bounded(url, items[k].0) &&
                                    (forall j :: 0 <= j < k ==> !Bounded(url, items[j].0)) &&
                                    r.value == Replaced(url, items[k].0, items[k].1)
    decreases |items|
  {
    if |items| == 0 then None
    else
      var one := RevertOne(url, items[0].0, items[0].1);
      if one.Some? then
        assert Bounded(url, items[0].0);
        one
      else
        var rest := RevertFrom(url, items[1..]);
        RevertFromTail(url, items, rest);
        rest
  }

  /** The result for the items after an unbounded first one is the result for all of them. */
  lemma RevertFromTail(url: string, items: seq<(string, string)>, rest: Option<string>)
    requires |items| > 0 && !Bounded(url, items[0].0)
    requires rest.None? <==> forall k :: 0 <= k < |items| - 1 ==> !Bounded(url, items[1..][k].0)
    requires rest.Some? ==> exists k :: 0 <= k < |items| - 1 && Bounded(url, items[1..][k].0) &&
                                        (forall j :: 0 <= j < k ==> !Bounded(url, items[1..][j].0)) &&
                                        rest.value == Replaced(url, items[1..][k].0, items[1..][k].1)
    ensures rest.None? <==> forall k :: 0 <= k < |items| ==> !Bounded(url, items[k].0)
    ensures rest.Some? ==> exists k :: 0 <= k < |items| && Bounded(url, items[k].0) &&
                                       (forall j :: 0 <= j < k ==> !Bounded(url, items[j].0)) &&
                                       rest.value == Replaced(url, items[k].0, items[k].1)
  {
    NoneBoundedShift(url, items);
    if rest.Some? {
      var k :| 0 <= k < |items| - 1 && Bounded(url, items[1..][k].0) &&
               (forall j :: 0 <= j < k ==> !Bounded(url, items[1..][j].0)) &&
               rest.value == Replaced(url, items[1..][k].0, items[1..][k].1);
      FirstBoundedShift(url, items, k);
    }
  }

  /** With the first item unbounded, no item is bounded exactly when none after it is. */
  lemma NoneBoundedShift(url: string, items: seq<(string, string)>)
    requires |items| > 0 && !Bounded(url, items[0].0)
    ensures (forall k :: 0 <= k < |items| ==> !Bounded(url, items[k].0)) <==>
            (forall k :: 0 <= k < |items| - 1 ==> !Bounded(url, items[1..][k].0))
  {
    var tail := items[1..];
    assert forall k :: 0 <= k < |tail| ==> tail[k] == items[k + 1];
    if forall k :: 0 <= k < |tail| ==> !Bounded(url, tail[k].0) {
      forall k | 0 <= k < |items| ensures !Bounded(url, items[k].0) {
        if k > 0 { assert items[k] == tail[k - 1]; }
      }
    }
  }

  /** The first bounded item after an unbounded first one is the first bounded item of all. */
  lemma FirstBoundedShift(url: string, items: seq<(string, string)>, k: nat)
    requires |items| > 0 && !Bounded(url, items[0].0)
    requires k < |items| - 1 && forall j :: 0 <= j < k ==> !Bounded(url, items[1..][j].0)
    ensures items[k + 1] == items[1..][k]
    ensures forall j :: 0 <= j < k + 1 ==> !Bounded(url, items[j].0)
  {
    var tail := items[1..];
    forall j | 0 <= j < k + 1 ensures !Bounded(url, items[j].0) {
      if j > 0 { assert items[j] == tail[j - 1]; }
    }
  }

  /**
   * `__revert_forked_url` with the boundary test made total: the trigger
   * fork is tried first, then the pDAQ user fork, and a URL in which
   * neither is a bounded component is not reverted.
   */
  function RevertForkedUrl(url: string): (r: Option<string>)
    ensures Find(url, "oldtrigger") < 0 && Find(url, "pdaq-user") < 0 ==> r.None?
    ensures r.None? <==> !Bounded(url, "oldtrigger") && !Bounded(url, "pdaq-user")
    ensures Bounded(url, "oldtrigger") ==> r == Some(Replaced(url, "oldtrigger", "trigger"))
    ensures !Bounded(url, "oldtrigger") && Bounded(url, "pdaq-user") ==>
              r == Some(Replaced(url, "pdaq-user", "pdaq-icecube"))
  {
    var r := RevertFrom(url, ForkedProjects);
    assert ForkedProjects[0] == ("oldtrigger", "trigger");
    assert ForkedProjects[1] == ("pdaq-user", "pdaq-icecube");
    r
  }

  /** A URL with the forked name as a whole path component gets the original name there. */
  lemma RevertComponent(a: string, b: string)
    requires Find(a + "/oldtrigger/" + b, "oldtrigger") == |a| + 1
    ensures RevertForkedUrl(a + "/oldtrigger/" + b) == Some(a + "/trigger/" + b)
    ensures RevertForkedUrlAsWritten(a + "/oldtrigger/" + b) == Ok(Some(a + "/trigger/" + b))
  {
    var url := a + "/oldtrigger/" + b;
    var i := |a| + 1;
    assert url[i - 1] == '/' && url[i + 10] == '/';
    assert url[..i] + "trigger" + url[i + 10..] == a + "/trigger/" + b by {
      assert url[..i] == a + "/";
      assert url[i + 10..] == "/" + b;
    }
  }

  // ----- the Git branch for an SVN branch -----

  const MainBranch: string := "main"
  const DemotedBranch: string := "not_trunk"

  /**
   * The Git branch chosen for an SVN branch path (`None` standing for the
   * trunk): with no designated trunk branch the trunk becomes "main"; with
   * one, a path ending in it becomes "main" and the trunk "not_trunk";
   * every other path is named by its last component, which may not be
   * "HEAD" or "main".
   */
  function GitBranch(branchPath: Option<string>, trunkBranch: Option<string>, trunkName: string): (r: Result<string>)
    ensures r.Ok? ==> r.value != "HEAD"
    ensures r == Ok(MainBranch) <==>
              var path := branchPath.UnwrapOr(trunkName);
              if trunkBranch.Some? then EndsWith(path, trunkBranch.value) else path == trunkName
    ensures r.Ok? && r.value != MainBranch && r.value != DemotedBranch ==>
              r.value == LastSegment(branchPath.UnwrapOr(trunkName), '/')
    ensures var path := branchPath.UnwrapOr(trunkName);
            trunkBranch.Some? && path == trunkName && !EndsWith(path, trunkBranch.value) ==> r == Ok(DemotedBranch)
    ensures r.Err? <==>
              var path := branchPath.UnwrapOr(trunkName);
              var name := LastSegment(path, '/');
              !(trunkBranch.Some? && EndsWith(path, trunkBranch.value)) && path != trunkName &&
              (name == "HEAD" || name == MainBranch)
  {
    var path := branchPath.UnwrapOr(trunkName);
    if trunkBranch.Some? && EndsWith(path, trunkBranch.value) then Ok(MainBranch)
    else if trunkBranch.Some? && path == trunkName then Ok(DemotedBranch)
    else if trunkBranch.None? && path == trunkName then Ok(MainBranch)
    else
      var name := LastSegment(path, '/');
      if name == "HEAD" || name == MainBranch then Err("Questionable branch name \"" + name + "\"")
      else Ok(name)
  }

  /** A branch other than the designated ones keeps its last path component as its name. */
  lemma BranchNamedByLastComponent(a: string, name: string, trunkBranch: Option<string>, trunkName: string)
    requires '/' !in name && name != "HEAD" && name != MainBranch
    requires a + "/" + name != trunkName
    requires trunkBranch.Some? ==> !EndsWith(a + "/" + name, trunkBranch.value)
    ensures GitBranch(Some(a + "/" + name), trunkBranch, trunkName) == Ok(name)
  {
    LastSegmentAfter(a, '/', name);
  }

  // ----- rewrite_pdaq -----

  /** The projects `rewrite_pdaq` has a rule for. */
  const RewrittenProjects: set<string> :=
    {"PyDOM", "StringHub", "cluster-config", "daq-common", "daq-integration-test", "daq-io", "daq-log",
     "daq-moni-tool", "daq-pom-config", "daq-request-filler", "dash", "eventBuilder-prod", "juggler",
     "payload", "pdaq", "secondaryBuilders", "splicer", "trigger"}

  /** The projects whose revision is fixed without looking at the URL, one rule each. */
  datatype RevRule =
    | PyDomRule | StringHubRule | DaqCommonRule | DaqIntegrationTestRule | DaqIoRule | DaqMoniToolRule
    | DaqPomConfigRule | DaqRequestFillerRule | EventBuilderProdRule | JugglerRule | PayloadRule
    | SecondaryBuildersRule | SplicerRule | TriggerRule | NoRule

  /** Which branch of the name tests in `rewrite_pdaq` a project takes. */
  function RuleOf(name: string): RevRule
  {
    if name == "PyDOM" then PyDomRule
    else if name == "StringHub" then StringHubRule
    else if name == "daq-common" then DaqCommonRule
    else if name == "daq-integration-test" then DaqIntegrationTestRule
    else if name == "daq-io" then DaqIoRule
    else if name == "daq-moni-tool" then DaqMoniToolRule
    else if name == "daq-pom-config" then DaqPomConfigRule
    else if name == "daq-request-filler" then DaqRequestFillerRule
    else if name == "eventBuilder-prod" then EventBuilderProdRule
    else if name == "juggler" then JugglerRule
    else if name == "payload" then PayloadRule
    else if name == "secondaryBuilders" then SecondaryBuildersRule
    else if name == "splicer" then SplicerRule
    else if name == "trigger" then TriggerRule
    else NoRule
  }

  /** The revision a rule gives. */
  function ApplyRule(rule: RevRule, rev: int): int
  {
    match rule
    case PyDomRule => if 14379 <= rev < 17161 then 14222 else rev
    case StringHubRule => if rev == 13771 then 13770 else if rev == 14379 then 14355 else if rev == 14388 then 14384 else rev
    case DaqCommonRule => if rev == 1362 then 1326 else if rev == 14431 then 14168 else if rev == 16087 then 16080 else rev
    case DaqIntegrationTestRule => if rev == 14431 then 13886 else rev
    case DaqIoRule => if rev == 14431 then 14365 else if rev == 17421 then 17420 else rev
    case DaqMoniToolRule => if rev == 14379 || rev == 14388 then 14361 else if rev == 14431 then 14403 else rev
    case DaqPomConfigRule => if rev == 14379 || rev == 14388 || rev == 14431 then 12772 else rev
    case DaqRequestFillerRule => if 14379 <= rev <= 14431 then 14293 else rev
    case EventBuilderProdRule => if 14379 <= rev <= 14431 then 14293 else if rev == 16087 then 16079 else rev
    case JugglerRule => if rev == 14431 then 14365 else rev
    case PayloadRule => if rev == 4815 then 4811 else if rev == 14388 then 14386 else if rev == 14431 then 14293 else rev
    case SecondaryBuildersRule => if 14379 <= rev < 14431 then 13964 else if rev == 16087 then 16079 else rev
    case SplicerRule => if rev == 14431 then 14156 else rev
    case TriggerRule => if rev == 13624 then 13622 else if rev == 14431 then 14372 else rev
    case NoRule => rev
  }

  /** The revision rules that do not look at the URL. */
  function RewriteRevision(name: string, rev: int): int
  {
    ApplyRule(RuleOf(name), rev)
  }

  /**
   * `rewrite_pdaq`: rename "fabric_common", then fix the URL and revision
   * of the few broken references, returning (name, url, revision).
   */
  function RewritePdaq(project: string, url: string, rev: int): (r: (string, string, int))
    ensures r.0 == if project == "fabric_common" then "fabric-common" else project
    ensures r.0 !in RewrittenProjects ==> r.1 == url && r.2 == rev
    ensures r.1 != url ==> r.0 in {"cluster-config", "daq-log", "dash", "pdaq"}
  {
    var name := if project == "fabric_common" then "fabric-common" else project;
    if name == "cluster-config" && EndsWith(url, "/trunk") && rev == 1156 then
      (name, url[..|url| - 6] + "/releases/V10-00-02", 1156)
    else if name == "daq-log" && EndsWith(url, "/trunk") && rev == 875 then
      (name, url[..|url| - 6] + "/releases/V10-00-00", 877)
    else if name == "daq-log" then (name, url, if 14379 <= rev < 14519 then 14108 else rev)
    else if name == "dash" && EndsWith(url, "branches/Potosi") && rev == 16575 then
      (name, url[..|url| - 15] + "trunk", 16561)
    else if name == "dash" then
      (name, url, if rev == 2216 then 2218 else if rev == 4836 then 4830
                  else if rev == 14388 then 14380 else if rev == 14431 then 14412 else rev)
    else if name == "pdaq" && EndsWith(url, "releases/Karben4") then
      (name, if rev <= 15469 then url + "_rc1" else url, rev)
    else if name == "pdaq" && EndsWith(url, "releases/Urban_Harvest7") then
      (name, if rev <= 17562 then url + "_rc1" else url, rev)
    else (name, url, RewriteRevision(name, rev))
  }

  /** PyDOM revisions from 14379 up to (not including) 17161 all become 14222. */
  lemma PyDomRange(url: string, rev: int)
    ensures RewritePdaq("PyDOM", url, rev).2 == if 14379 <= rev < 17161 then 14222 else rev
  {
  }

  /** Every revision rule maps into revisions it leaves alone. */
  lemma RewriteRevisionIdempotent(name: string, rev: int)
    ensures RewriteRevision(name, RewriteRevision(name, rev)) == RewriteRevision(name, rev)
  {
    RuleIdempotent(RuleOf(name), rev);
  }

  lemma RuleIdempotent(rule: RevRule, rev: int)
    ensures ApplyRule(rule, ApplyRule(rule, rev)) == ApplyRule(rule, rev)
  {
  }

  /** A URL the rules produced is not matched by a URL rule again. */
  lemma RewrittenUrlsSettle(url: string)
    ensures |url| >= 6 ==> !EndsWith(url[..|url| - 6] + "/releases/V10-00-02", "/trunk")
    ensures |url| >= 6 ==> !EndsWith(url[..|url| - 6] + "/releases/V10-00-00", "/trunk")
    ensures |url| >= 15 ==> !EndsWith(url[..|url| - 15] + "trunk", "branches/Potosi")
    ensures !EndsWith(url + "_rc1", "releases/Karben4") && !EndsWith(url + "_rc1", "releases/Urban_Harvest7")
  {
    if |url| >= 6 {
      var u := url[..|url| - 6] + "/releases/V10-00-02";
      assert u[|u| - 1] != 'k';
      var v := url[..|url| - 6] + "/releases/V10-00-00";
      assert v[|v| - 1] != 'k';
    }
    if |url| >= 15 {
      var u := url[..|url| - 15] + "trunk";
      assert u[|u| - 1] != 'i';
    }
    var w := url + "_rc1";
    assert w[|w| - 1] == '1';
  }

  /** Rewriting is idempotent: a rewritten reference is left alone. */
  lemma RewriteIdempotent(project: string, url: string, rev: int)
    ensures var r := RewritePdaq(project, url, rev);
            RewritePdaq(r.0, r.1, r.2) == r
  {
    var name := if project == "fabric_common" then "fabric-common" else project;
    assert RewritePdaq(project, url, rev) == RewritePdaq(name, url, rev);
    RewrittenUrlsSettle(url);
    if name == "cluster-config" {
      RewriteClusterSettles(url, rev);
    } else if name == "daq-log" {
      RewriteDaqLogSettles(url, rev);
    } else if name == "dash" {
      RewriteDashSettles(url, rev);
    } else if name == "pdaq" {
      RewritePdaqSettles(url, rev);
    } else {
      RewriteOtherSettles(name, url, rev);
    }
  }

  lemma RewriteClusterSettles(url: string, rev: int)
    ensures var r := RewritePdaq("cluster-config", url, rev);
            RewritePdaq(r.0, r.1, r.2) == r
  {
    RewrittenUrlsSettle(url);
  }

  lemma RewriteDaqLogSettles(url: string, rev: int)
    ensures var r := RewritePdaq("daq-log", url, rev);
            RewritePdaq(r.0, r.1, r.2) == r
  {
    RewrittenUrlsSettle(url);
  }

  lemma RewriteDashSettles(url: string, rev: int)
    ensures var r := RewritePdaq("dash", url, rev);
            RewritePdaq(r.0, r.1, r.2) == r
  {
    RewrittenUrlsSettle(url);
  }

  lemma RewritePdaqSettles(url: string, rev: int)
    ensures var r := RewritePdaq("pdaq", url, rev);
            RewritePdaq(r.0, r.1, r.2) == r
  {
    RewrittenUrlsSettle(url);
    RewriteRevisionIdempotent("pdaq", rev);
  }

  /** A project without a URL rule only has its revision rewritten. */
  lemma RewriteOtherSettles(name: string, url: string, rev: int)
    requires name !in {"fabric_common", "cluster-config", "daq-log", "dash", "pdaq"}
    ensures var r := RewritePdaq(name, url, rev);
            RewritePdaq(r.0, r.1, r.2) == r
  {
    assert RewritePdaq(name, url, rev) == (name, url, RewriteRevision(name, rev));
    RewriteRevisionIdempotent(name, rev);
  }
}

=== FILE: crosscheck.dfy ===
/**
 * The text helpers and selection loops of the Git/Subversion cross-check
 * driver: how a revision and a project URL are shown, which entries of a
 * release listing are projects, and what a comparison of two workspaces
 * reports.
 */
module CrossCheck {
  import opened Wrappers
  import opened StrUtil
  import Sorting
  import CmpTree
  import SvnMetadata

  /** `__fmt_rev`: "HEAD" for no revision, else "rev N". */
  function FmtRev(revision: Option<int>): (r: string)
    ensures revision.None? <==> r == "HEAD"
    ensures revision.Some? ==> StartsWith(r, "rev ") && ParseInt(r[4..]) == revision
  {
    match revision
    case None => "HEAD"
    case Some(n) =>
      var r := "rev " + IntToString(n);
      assert r[4..] == IntToString(n);
      IntToStringThenParse(n);
      r
  }

  const ProjectsDir := "projects/"

  /**
   * `__prune_url`: the URL itself unless it holds "projects/"; after the
   * first "projects/", the project name alone is the trunk, and
   * "<project>/<branch>" gives the branch.  Any other name or shape gives
   * back the URL.
   */
  function PruneUrl(url: string, project: string): (r: string)
    ensures Find(url, ProjectsDir) < 0 ==> r == url
    ensures r == url || r == SvnMetadata.DirTrunk || EndsWith(url, "/" + r)
  {
    var idx := Find(url, ProjectsDir);
    if idx < 0 then url
    else
      var rest := url[idx + |ProjectsDir|..];
      match SplitOnce(rest, '/')
      case None => if rest == project then SvnMetadata.DirTrunk else url
      case Some((name, branch)) =>
        if name != project then url
        else
          BranchEndsUrl(url, idx + |ProjectsDir|, name, branch);
          branch
  }

  lemma BranchEndsUrl(url: string, at: nat, name: string, branch: string)
    requires at <= |url| && url[at..] == name + "/" + branch
    ensures EndsWith(url, "/" + branch)
  {
    assert url == url[..at] + (name + "/" + branch);
    assert url == (url[..at] + name) + ("/" + branch);
    Affixes(url[..at] + name, "/" + branch);
  }

  /** Nothing before the prefix's end looks like "projects/". */
  predicate FirstProjectsAt(url: string, prefix: string)
  {
    forall j :: 0 <= j < |prefix| ==> !OccursAt(url, ProjectsDir, j)
  }

  /** A project's own URL under "projects/" is its trunk. */
  lemma PruneTrunkOf(prefix: string, project: string)
    requires '/' !in project
    requires FirstProjectsAt(prefix + ProjectsDir + project, prefix)
    ensures PruneUrl(prefix + ProjectsDir + project, project) == SvnMetadata.DirTrunk
  {
    var url := prefix + ProjectsDir + project;
    assert url[|prefix|..|prefix| + |ProjectsDir|] == ProjectsDir;
    FindIs(url, ProjectsDir, |prefix|);
    assert url[|prefix| + |ProjectsDir|..] == project;
    assert SplitOnce(project, '/').None?;
  }

  /** "<project>/<branch>" under "projects/" gives the branch. */
  lemma PruneBranchOf(prefix: string, project: string, branch: string)
    requires '/' !in project
    requires FirstProjectsAt(prefix + ProjectsDir + project + "/" + branch, prefix)
    ensures PruneUrl(prefix + ProjectsDir + project + "/" + branch, project) == branch
  {
    var url := prefix + ProjectsDir + project + "/" + branch;
    assert url[|prefix|..|prefix| + |ProjectsDir|] == ProjectsDir;
    FindIs(url, ProjectsDir, |prefix|);
    assert url[|prefix| + |ProjectsDir|..] == project + "/" + branch;
    SplitOnceAfter(project, '/', branch);
  }

  /** Under "projects/", a lone name other than the project's gives back the URL. */
  lemma PruneOtherName(prefix: string, name: string, project: string)
    requires '/' !in name && name != project
    requires FirstProjectsAt(prefix + ProjectsDir + name, prefix)
    ensures PruneUrl(prefix + ProjectsDir + name, project) == prefix + ProjectsDir + name
  {
    var url := prefix + ProjectsDir + name;
    assert url[|prefix|..|prefix| + |ProjectsDir|] == ProjectsDir;
    FindIs(url, ProjectsDir, |prefix|);
    assert url[|prefix| + |ProjectsDir|..] == name;
    assert SplitOnce(name, '/').None?;
  }

  /** Under "projects/", another project's branch gives back the URL. */
  lemma PruneOtherBranch(prefix: string, name: string, branch: string, project: string)
    requires '/' !in name && name != project
    requires FirstProjectsAt(prefix + ProjectsDir + name + "/" + branch, prefix)
    ensures PruneUrl(prefix + ProjectsDir + name + "/" + branch, project) == prefix + ProjectsDir + name + "/" + branch
  {
    var url := prefix + ProjectsDir + name + "/" + branch;
    assert url[|prefix|..|prefix| + |ProjectsDir|] == ProjectsDir;
    FindIs(url, ProjectsDir, |prefix|);
    assert url[|prefix| + |ProjectsDir|..] == name + "/" + branch;
    SplitOnceAfter(name, '/', branch);
  }

  // ----- list_projects -----

  /** One verbose listing entry: its date as a timestamp and its file name. */
  datatype Listed = Listed(date: int, filename: string)

  /** `sorted(..., key=lambda x: (x[2], x[3]))`: by date, then by name. */
  function ByDateName(): (Listed, Listed) -> bool
  {
    (a: Listed, b: Listed) => a.date < b.date || (a.date == b.date && StrLe(a.filename, b.filename))
  }

  lemma ByDateNameIsPreorder()
    ensures Sorting.IsTotalPreorder(ByDateName())
  {
    forall a: Listed, b: Listed ensures ByDateName()(a, b) || ByDateName()(b, a) {
      StrLtTrichotomy(a.filename, b.filename);
    }
    forall a: Listed, b: Listed, c: Listed | ByDateName()(a, b) && ByDateName()(b, c)
      ensures ByDateName()(a, c)
    {
      if a.date == b.date == c.date && StrLt(a.filename, b.filename) && StrLt(b.filename, c.filename) {
        StrLtTransitive(a.filename, b.filename, c.filename);
      }
    }
  }

  /** Release and debug builds are not projects; the markers count only after the first character. */
  predicate IsReleaseName(filename: string)
  {
    Find(filename, "_rc") > 0 || Find(filename, "-RC") > 0 || Find(filename, "_debug") > 0 ||
    EndsWith(filename, "dbg/")
  }

  /** A listed directory, other than "./", that is not a release or debug build. */
  predicate IsProjectDir(filename: string)
  {
    EndsWith(filename, "/") && filename != "./" && !IsReleaseName(filename)
  }

  /** The loop of `list_projects` over the sorted listing. */
  function KeepProjects(sorted: seq<Listed>): (r: seq<Listed>)
    ensures forall e :: e in r <==> Listed(e.date, e.filename + "/") in sorted && IsProjectDir(e.filename + "/")
    decreases |sorted|
  {
    if sorted == [] then []
    else
      var head := sorted[0];
      var rest := KeepProjects(sorted[1..]);
      assert forall e :: e in sorted <==> e == head || e in sorted[1..];
      if IsProjectDir(head.filename) then
        var name := head.filename[..|head.filename| - 1];
        assert name + "/" == head.filename;
        TrimmedUnique(head.filename, name);
        [Listed(head.date, name)] + rest
      else rest
  }

  lemma TrimmedUnique(filename: string, name: string)
    requires name + "/" == filename
    ensures forall n :: n + "/" == filename ==> n == name
  {
    forall n | n + "/" == filename ensures n == name {
      assert n == (n + "/")[..|n|];
      assert name == (name + "/")[..|name|];
    }
  }

  /** A kept entry as it was listed, with its trailing '/' put back. */
  function AsListed(e: Listed): Listed
  {
    Listed(e.date, e.filename + "/")
  }

  /** Entries whose listed forms are in `sorted(..., key=lambda x: (x[2], x[3]))` order. */
  predicate ListedOrder(s: seq<Listed>)
  {
    forall i, j :: 0 <= i < j < |s| ==> ByDateName()(AsListed(s[i]), AsListed(s[j]))
  }

  /** The kept entries of a sorted listing keep the listing's order. */
  lemma {:induction false} KeepProjectsOrdered(sorted: seq<Listed>)
    requires Sorting.SortedBy(sorted, ByDateName())
    ensures ListedOrder(KeepProjects(sorted))
    decreases |sorted|
  {
    if sorted != [] {
      Sorting.SortedTail(sorted, ByDateName());
      KeepProjectsOrdered(sorted[1..]);
      KeepStep(sorted);
      if IsProjectDir(sorted[0].filename) {
        KeptHeadOrdered(sorted);
      }
    }
  }

  /** A kept head goes in front of the kept rest without breaking the order. */
  lemma KeptHeadOrdered(sorted: seq<Listed>)
    requires sorted != [] && Sorting.SortedBy(sorted, ByDateName())
    requires IsProjectDir(sorted[0].filename) && ListedOrder(KeepProjects(sorted[1..]))
    ensures ListedOrder(KeepProjects(sorted))
  {
    var f := sorted[0].filename;
    var h := Listed(sorted[0].date, f[..|f| - 1]);
    assert f[..|f| - 1] + "/" == f;
    HeadInFront(sorted, h);
    KeptHeadStep(sorted, h);
  }

  /** A kept head is the trimmed first entry, in front of the kept rest. */
  lemma KeptHeadStep(sorted: seq<Listed>, h: Listed)
    requires sorted != [] && IsProjectDir(sorted[0].filename)
    requires h == Listed(sorted[0].date, sorted[0].filename[..|sorted[0].filename| - 1])
    ensures KeepProjects(sorted) == [h] + KeepProjects(sorted[1..])
  {
    KeepStep(sorted);
  }

  /** The listed head of a sorted listing can go in front of its kept rest. */
  lemma HeadInFront(sorted: seq<Listed>, h: Listed)
    requires sorted != [] && Sorting.SortedBy(sorted, ByDateName())
    requires AsListed(h) == sorted[0] && ListedOrder(KeepProjects(sorted[1..]))
    ensures ListedOrder([h] + KeepProjects(sorted[1..]))
  {
    HeadBelowRest(sorted, h);
    ConsListedOrder(h, KeepProjects(sorted[1..]));
  }

  /** One step of `KeepProjects`: the head is kept, trimmed, exactly when it is a project directory. */
  lemma KeepStep(sorted: seq<Listed>)
    requires |sorted| > 0
    ensures var f := sorted[0].filename;
            IsProjectDir(f) ==> KeepProjects(sorted) == [Listed(sorted[0].date, f[..|f| - 1])] + KeepProjects(sorted[1..])
    ensures !IsProjectDir(sorted[0].filename) ==> KeepProjects(sorted) == KeepProjects(sorted[1..])
  {
  }

  /** An entry listed no later than every entry of an ordered sequence keeps it ordered in front. */
  lemma ConsListedOrder(h: Listed, rest: seq<Listed>)
    requires ListedOrder(rest)
    requires forall j :: 0 <= j < |rest| ==> ByDateName()(AsListed(h), AsListed(rest[j]))
    ensures ListedOrder([h] + rest)
  {
    var s := [h] + rest;
    forall i, j | 0 <= i < j < |s| ensures ByDateName()(AsListed(s[i]), AsListed(s[j])) {
      assert s[j] == rest[j - 1];
      if i > 0 {
        assert s[i] == rest[i - 1];
      }
    }
  }

  /** The head of a sorted listing comes no later than anything kept from its tail. */
  lemma HeadBelowRest(sorted: seq<Listed>, h: Listed)
    requires |sorted| > 0 && Sorting.SortedBy(sorted, ByDateName())
    requires AsListed(h) == sorted[0]
    ensures forall j :: 0 <= j < |KeepProjects(sorted[1..])| ==>
              ByDateName()(AsListed(h), AsListed(KeepProjects(sorted[1..])[j]))
  {
    var rest := KeepProjects(sorted[1..]);
    forall j | 0 <= j < |rest| ensures ByDateName()(AsListed(h), AsListed(rest[j])) {
      HeadFirst(sorted, rest[j]);
    }
  }

  lemma HeadFirst(sorted: seq<Listed>, e: Listed)
    requires |sorted| > 0 && Sorting.SortedBy(sorted, ByDateName())
    requires e in KeepProjects(sorted[1..])
    ensures ByDateName()(sorted[0], AsListed(e))
  {
    var k :| 0 <= k < |sorted[1..]| && sorted[1..][k] == AsListed(e);
    assert ByDateName()(sorted[0], sorted[k + 1]);
  }

  /** Every project directory is kept as often as it is listed. */
  lemma {:induction false} KeepProjectsCounts(sorted: seq<Listed>, e: Listed)
    requires IsProjectDir(e.filename + "/")
    ensures multiset(KeepProjects(sorted))[e] == multiset(sorted)[AsListed(e)]
    decreases |sorted|
  {
    if sorted != [] {
      var h, tail := sorted[0], sorted[1..];
      KeepProjectsCounts(tail, e);
      KeepStep(sorted);
      assert sorted == [h] + tail;
      assert multiset(sorted) == multiset([h]) + multiset(tail);
      if IsProjectDir(h.filename) {
        KeptHeadCount(h, e, KeepProjects(tail));
      } else {
        assert h != AsListed(e);
      }
    }
  }

  /** The trimmed head of a listing is the entry `e` exactly when the head is `e` as listed. */
  lemma KeptHeadCount(h: Listed, e: Listed, rest: seq<Listed>)
    requires EndsWith(h.filename, "/")
    ensures var kept := Listed(h.date, h.filename[..|h.filename| - 1]);
            multiset([kept] + rest)[e] == (if h == AsListed(e) then 1 else 0) + multiset(rest)[e]
  {
    var f := h.filename;
    assert f[..|f| - 1] + "/" == f;
    TrimmedUnique(f, f[..|f| - 1]);
  }

  /**
   * `list_projects`: the project directories of a listing, without their
   * trailing '/', each as often as it is listed, in the order of the
   * listing sorted by date and then by name with its '/'.
   */
  function ListProjects(listing: seq<Listed>): (r: seq<Listed>)
    ensures forall e :: e in r <==> Listed(e.date, e.filename + "/") in listing && IsProjectDir(e.filename + "/")
    ensures forall e: Listed :: IsProjectDir(e.filename + "/") ==> multiset(r)[e] == multiset(listing)[AsListed(e)]
    ensures ListedOrder(r)
    ensures forall i, j :: 0 <= i < j < |r| ==> r[i].date <= r[j].date
  {
    ByDateNameIsPreorder();
    var sorted := Sorting.SortBy(listing, ByDateName());
    assert forall e :: e in sorted <==> e in listing by {
      assert forall e :: e in sorted <==> e in multiset(sorted);
    }
    KeepProjectsOrdered(sorted);
    forall e: Listed | IsProjectDir(e.filename + "/")
      ensures multiset(KeepProjects(sorted))[e] == multiset(listing)[AsListed(e)]
    {
      KeepProjectsCounts(sorted, e);
    }
    KeepProjects(sorted)
  }

  /** A release candidate is never listed, provided its marker does not start the name. */
  lemma ReleaseCandidateDropped(listing: seq<Listed>, date: int, project: string)
    requires |project| > 0 && project[0] != '_'
    ensures Listed(date, project + "_rc1") !in ListProjects(listing)
  {
    var f := project + "_rc1" + "/";
    assert f[|project|..|project| + 3] == "_rc";
    assert OccursAt(f, "_rc", |project|);
    assert f[..3][0] == f[0] == project[0];
    assert !OccursAt(f, "_rc", 0);
    assert Find(f, "_rc") > 0;
    assert !IsProjectDir(f);
  }

  /** The markers count only after the first character: a listed "_rc1/" is a project. */
  lemma LeadingMarkerKept(listing: seq<Listed>, date: int)
    requires Listed(date, "_rc1/") in listing
    ensures Listed(date, "_rc1") in ListProjects(listing)
  {
    LeadingMarkerIsProjectDir();
    assert "_rc1" + "/" == "_rc1/";
  }

  lemma LeadingMarkerIsProjectDir()
    ensures IsProjectDir("_rc1/")
  {
    var f := "_rc1/";
    assert Find(f, "_rc") == 0 by {
      assert OccursAt(f, "_rc", 0);
    }
    FindWithoutFirst(f, "-RC");
    assert Find(f, "_debug") < 0;
    assert !EndsWith(f, "dbg/") by {
      assert f[|f| - 4..][0] == 'r';
    }
  }

  // ----- compare_workspaces -----

  predicate Ignored(ignored: Option<set<string>>, name: string)
  {
    ignored.Some? && name in ignored.value
  }

  /**
   * `compare_workspaces`: nothing for unmodified trees; else the per-tree
   * counts without the ignored names, or nothing when none remain.
   */
  function CompareWorkspaces(l: CmpTree.Lists, ignored: Option<set<string>>): (r: Option<map<string, nat>>)
    ensures r.None? <==> !CmpTree.IsModified(l) || forall k :: k in CmpTree.ModifiedTrees(l) ==> Ignored(ignored, k)
    ensures r.Some? ==> r.value != map[]
    ensures r.Some? ==> forall k :: k in r.value <==> k in CmpTree.ModifiedTrees(l) && !Ignored(ignored, k)
    ensures r.Some? ==> forall k :: k in r.value ==> r.value[k] == CmpTree.ModifiedTrees(l)[k]
  {
    if !CmpTree.IsModified(l) then None
    else
      var trees := CmpTree.ModifiedTrees(l);
      if forall k :: k in trees ==> Ignored(ignored, k) then None
      else
        var counts := map k | k in trees && !Ignored(ignored, k) :: trees[k];
        NonEmptyCounts(trees, ignored, counts);
        Some(counts)
  }

  lemma NonEmptyCounts(trees: map<string, nat>, ignored: Option<set<string>>, counts: map<string, nat>)
    requires !forall k :: k in trees ==> Ignored(ignored, k)
    requires forall k :: k in counts <==> k in trees && !Ignored(ignored, k)
    ensures counts != map[]
  {
    var k :| k in trees && !Ignored(ignored, k);
    assert k in counts;
  }

  /** A recorded path outside the ignored trees is always reported, with its tree's count. */
  lemma ModifiedPathReported(l: CmpTree.Lists, ignored: Option<set<string>>, p: CmpTree.TreePath)
    requires p in CmpTree.AllPaths(l)
    requires !Ignored(ignored, CmpTree.TopDir(p.directory))
    ensures var r := CompareWorkspaces(l, ignored);
            && r.Some?
            && CmpTree.TopDir(p.directory) in r.value
            && r.value[CmpTree.TopDir(p.directory)] > 0
  {
    assert p in CmpTree.OrEmpty(l.added) || p in CmpTree.OrEmpty(l.deleted) || p in CmpTree.OrEmpty(l.changed);
    assert CmpTree.IsModified(l);
    var k := CmpTree.TopDir(p.directory);
    assert k in CmpTree.ModifiedTrees(l);
  }
}

=== FILE: dictobject.dfy ===
/**
 * A dictionary whose keys double as attributes: reading an absent
 * attribute and deleting an absent attribute are errors, setting one
 * stores it.
 */
module DictObjects {
  import opened Wrappers

  datatype DictObject<V> = DictObject(fields: map<string, V>)
  {
    /** Attribute read: the stored value, or AttributeError for an unknown name. */
    function GetAttr(name: string): (r: Result<V>)
      ensures r.Ok? <==> name in fields
      ensures r.Ok? ==> r.value == fields[name]
    {
      if name in fields then Ok(fields[name])
      else Err("AttributeError: unknown attribute " + name)
    }

    /** Attribute write: stores `value` under `name`, overwriting any old value. */
    function SetAttr(name: string, value: V): (r: DictObject<V>)
      ensures r.fields.Keys == fields.Keys + {name}
      ensures name in r.fields && r.fields[name] == value
      ensures forall k :: k in fields && k != name ==> k in r.fields && r.fields[k] == fields[k]
    {
      DictObject(fields[name := value])
    }

    /** `set_value` is another spelling of attribute assignment. */
    function SetValue(attribute: string, value: V): (r: DictObject<V>)
      ensures r.GetAttr(attribute) == Ok(value)
      ensures forall k :: k != attribute ==> r.GetAttr(k) == GetAttr(k)
    {
      DictObject(fields[attribute := value])
    }

    /** Attribute delete: removes only `name`; AttributeError when it is absent. */
    function DelAttr(name: string): (r: Result<DictObject<V>>)
      ensures r.Ok? <==> name in fields
      ensures r.Ok? ==> r.value.fields.Keys == fields.Keys - {name}
      ensures r.Ok? ==> forall k :: k in r.value.fields ==> r.value.fields[k] == fields[k]
    {
      if name in fields then Ok(DictObject(fields - {name}))
      else Err("AttributeError: unknown attribute " + name)
    }
  }

  /** A read after a write of the same name returns what was written. */
  lemma GetAfterSet<V>(d: DictObject<V>, name: string, value: V)
    ensures d.SetAttr(name, value).GetAttr(name) == Ok(value)
    ensures d.SetAttr(name, value) == d.SetValue(name, value)
  {
  }

  /** Writing or deleting one name leaves the reads of every other name alone. */
  lemma OtherNamesUnchanged<V>(d: DictObject<V>, name: string, other: string, value: V)
    requires other != name
    ensures d.SetAttr(name, value).GetAttr(other) == d.GetAttr(other)
    ensures d.DelAttr(name).Ok? ==> d.DelAttr(name).value.GetAttr(other) == d.GetAttr(other)
  {
  }

  /** After a delete the name reads as unknown, and deleting it again fails. */
  lemma DeleteThenRead<V>(d: DictObject<V>, name: string)
    requires name in d.fields
    ensures d.DelAttr(name).Ok?
    ensures d.DelAttr(name).value.GetAttr(name).Err?
    ensures d.DelAttr(name).value.DelAttr(name).Err?
  {
  }
}

=== FILE: domhub.dfy ===
/**
 * The pure steps of the domhub-tools repository rewrite: which changed
 * paths of a Subversion log entry are carried over and under which
 * directory, how `svn status` output turns into files to add and remove,
 * and how a stale `SUBDIRS` line of the Makefile is replaced.
 */
module DomhubRewrite {
  import opened Wrappers
  import opened StrUtil
  import SvnLog
  import Seqs

  const LogfilePrefix := "/projects/domhub-tools/"
  const DevDirs: set<string> := {"trunk", "rel-100", "rel-200"}

  /** Where a changed path ends up: dropped, a file directly under "trunk", or a file below a development directory. */
  datatype Placement = Dropped | TrunkFile(name: string) | InSubdir(subdir: string, rest: string)

  /** Paths in the attic and in the moat and domapp trees are never carried over. */
  predicate Unwanted(path: string)
  {
    Contains(path, "Attic") || StartsWith(path, "trunk/moat/") || StartsWith(path, "trunk/domapp/")
  }

  /** The directories a deeper path can belong to: "trunk" itself and its development directories. */
  const Subdirs: set<string> := {"trunk", "trunk/trunk", "trunk/rel-100", "trunk/rel-200"}

  /**
   * The body of the loop over an entry's changed paths in
   * `__add_revisions`: the project prefix is cut off; unwanted paths,
   * paths outside "trunk" and paths outside a development directory are
   * dropped; a two-component path is a file of "trunk"; a deeper path
   * belongs to the directory its first two components name, and "trunk"
   * alone to "trunk" with nothing after it.
   */
  function Place(prefix: string, filename: string): (r: Placement)
    ensures !StartsWith(filename, prefix) ==> r == Dropped
    ensures r.TrunkFile? ==> filename == prefix + "trunk/" + r.name && r.name in DevDirs
    ensures r.InSubdir? ==> filename == prefix + r.subdir + r.rest && r.subdir in Subdirs
    ensures StartsWith(filename, prefix) && Unwanted(filename[|prefix|..]) ==> r == Dropped
    ensures StartsWith(filename, prefix) ==> r == PlacePath(filename[|prefix|..])
  {
    if !StartsWith(filename, prefix) then Dropped
    else
      var path := filename[|prefix|..];
      assert filename == prefix + path;
      var r := PlacePath(path);
      Prefixed(prefix, path, r);
      r
  }

  /** The placement of a path read back with the prefix put in front. */
  lemma Prefixed(prefix: string, path: string, r: Placement)
    requires r.TrunkFile? ==> path == "trunk/" + r.name
    requires r.InSubdir? ==> path == r.subdir + r.rest
    ensures r.TrunkFile? ==> prefix + path == prefix + "trunk/" + r.name
    ensures r.InSubdir? ==> prefix + path == prefix + r.subdir + r.rest
  {
    if r.TrunkFile? {
      assert prefix + ("trunk/" + r.name) == prefix + "trunk/" + r.name;
    } else if r.InSubdir? {
      assert prefix + (r.subdir + r.rest) == prefix + r.subdir + r.rest;
    }
  }

  /** `Place` on the path left after the project prefix. */
  function PlacePath(path: string): (r: Placement)
    ensures Unwanted(path) ==> r == Dropped
    ensures r.TrunkFile? ==> path == "trunk/" + r.name && r.name in DevDirs
    ensures r.InSubdir? ==> path == r.subdir + r.rest && r.subdir in Subdirs
    ensures r.InSubdir? ==> (path == "trunk" && r.rest == "") || (r.subdir != "trunk" && StartsWith(r.rest, "/"))
  {
    if Unwanted(path) then Dropped
    else
      var parts := Split(path, '/');
      if parts[0] != "trunk" then Dropped
      else if |parts| >= 2 && parts[1] !in DevDirs then Dropped
      else if |parts| == 1 then
        OnePart(path, parts);
        InSubdir("trunk", "")
      else if |parts| == 2 then
        TwoParts(path, parts);
        TrunkFile(parts[1])
      else
        var subdir := parts[0] + "/" + parts[1];
        DeepParts(path, parts);
        SubdirOf(parts[1]);
        InSubdir(subdir, path[|subdir|..])
  }

  lemma OnePart(path: string, parts: seq<string>)
    requires path == Join(parts, "/") && |parts| == 1 && parts[0] == "trunk"
    ensures path == "trunk" + "" && path == "trunk" && "trunk" in Subdirs
  {
    assert "trunk" + "" == "trunk";
  }

  lemma TwoParts(path: string, parts: seq<string>)
    requires path == Join(parts, "/") && |parts| == 2 && parts[0] == "trunk"
    ensures path == "trunk/" + parts[1]
  {
    assert Join(parts[1..], "/") == parts[1];
    assert "trunk" + "/" == "trunk/";
  }

  lemma DeepParts(path: string, parts: seq<string>)
    requires path == Join(parts, "/") && |parts| >= 3
    ensures var subdir := parts[0] + "/" + parts[1];
            |subdir| <= |path| && path == subdir + path[|subdir|..] && StartsWith(path[|subdir|..], "/")
  {
    var tail := Join(parts[2..], "/");
    assert parts[1..][1..] == parts[2..];
    assert Join(parts[1..], "/") == parts[1] + "/" + tail;
    assert path == (parts[0] + "/" + parts[1]) + ("/" + tail);
  }

  /**
   * A path is placed below development directory `d` of "trunk", with
   * `rest` after it, exactly when it is wanted and is "trunk/", `d`, and
   * a `rest` that starts with '/'.
   */
  lemma DeepPlacement(path: string, d: string, rest: string)
    requires d in DevDirs
    ensures PlacePath(path) == InSubdir("trunk/" + d, rest) <==>
              !Unwanted(path) && path == "trunk/" + d + rest && StartsWith(rest, "/")
  {
    if !Unwanted(path) && path == "trunk/" + d + rest && StartsWith(rest, "/") {
      assert rest == "/" + rest[1..];
      assert path == "trunk/" + d + "/" + rest[1..];
      DeepPathKept(d, rest[1..]);
    }
  }

  /** A wanted file below a development directory is placed under that directory. */
  lemma DeepPathKept(d: string, tail: string)
    requires d in DevDirs && !Unwanted("trunk/" + d + "/" + tail)
    ensures PlacePath("trunk/" + d + "/" + tail) == InSubdir("trunk/" + d, "/" + tail)
  {
    var path := "trunk/" + d + "/" + tail;
    var parts := Split(path, '/');
    DeepSplit(d, tail);
    assert parts[0] == "trunk" && parts[1] == d && |parts| >= 3;
    DeepRest(d, tail);
  }

  lemma DeepSplit(d: string, tail: string)
    requires d in DevDirs
    ensures Split("trunk/" + d + "/" + tail, '/') == ["trunk", d] + Split(tail, '/')
  {
    DevDirFacts(d);
    assert "trunk/" + d + "/" + tail == "trunk" + ['/'] + (d + ['/'] + tail);
    SplitAfter("trunk", '/', d + ['/'] + tail);
    SplitAfter(d, '/', tail);
  }

  lemma DeepRest(d: string, tail: string)
    ensures var subdir := "trunk" + "/" + d;
            subdir == "trunk/" + d && ("trunk/" + d + "/" + tail)[|subdir|..] == "/" + tail
  {
  }

  /** Files of the moat and domapp trees are dropped, wherever they are. */
  lemma MoatDropped(path: string)
    ensures Place(LogfilePrefix, LogfilePrefix + "trunk/moat/" + path) == Dropped
    ensures Place(LogfilePrefix, LogfilePrefix + "trunk/domapp/" + path) == Dropped
  {
    Affixes(LogfilePrefix, "trunk/moat/" + path);
    Affixes("trunk/moat/", path);
    Affixes(LogfilePrefix, "trunk/domapp/" + path);
    Affixes("trunk/domapp/", path);
    assert (LogfilePrefix + "trunk/moat/" + path)[|LogfilePrefix|..] == "trunk/moat/" + path;
    assert (LogfilePrefix + "trunk/domapp/" + path)[|LogfilePrefix|..] == "trunk/domapp/" + path;
  }

  /** A file directly in a development directory is carried over as a file of "trunk". */
  lemma DevFileKept(prefix: string, dir: string)
    requires dir in DevDirs
    ensures Place(prefix, prefix + "trunk/" + dir) == TrunkFile(dir)
  {
    var path := "trunk/" + dir;
    assert prefix + "trunk/" + dir == prefix + path;
    Affixes(prefix, path);
    assert (prefix + path)[|prefix|..] == path;
    DevPathKept(dir);
  }

  lemma DevPathKept(dir: string)
    requires dir in DevDirs
    ensures PlacePath("trunk/" + dir) == TrunkFile(dir)
  {
    var path := "trunk/" + dir;
    DevPathWanted(dir);
    assert path == Join(["trunk", dir], "/");
    DevDirFacts(dir);
    SplitOfJoin(["trunk", dir], '/');
  }

  lemma DevPathWanted(dir: string)
    requires dir in DevDirs
    ensures !Unwanted("trunk/" + dir)
  {
    var path := "trunk/" + dir;
    DevDirFacts(dir);
    assert 'A' !in path;
    FindWithoutFirst(path, "Attic");
    assert path[6] == dir[0];
    assert !StartsWith(path, "trunk/moat/") by {
      assert |path| >= 11 ==> path[..11][6] == path[6];
    }
    assert !StartsWith(path, "trunk/domapp/") by {
      assert |path| >= 13 ==> path[..13][6] == path[6];
    }
  }

  lemma SubdirOf(dir: string)
    requires dir in DevDirs
    ensures "trunk" + "/" + dir in Subdirs
  {
    if dir == "trunk" {
      assert "trunk" + "/" + dir == "trunk/trunk";
    } else if dir == "rel-100" {
      assert "trunk" + "/" + dir == "trunk/rel-100";
    } else {
      assert "trunk" + "/" + dir == "trunk/rel-200";
    }
  }

  lemma DevDirFacts(dir: string)
    requires dir in DevDirs
    ensures '/' !in dir && 'A' !in dir && |dir| > 0 && dir[0] != 'm' && dir[0] != 'd'
  {
  }

  /** A changed path as the log reports it, and one as it is carried over. */
  datatype Change = Change(modtype: string, filename: string)
  datatype Carried = Carried(modtype: string, dir: string, name: string)

  /** The subdirectories seen so far, once each, in the order first seen. */
  function NoteSubdir(subdirs: seq<string>, subdir: string): (r: seq<string>)
    ensures forall s :: s in r <==> s in subdirs || s == subdir
    ensures (forall i, j :: 0 <= i < j < |subdirs| ==> subdirs[i] != subdirs[j]) ==>
              forall i, j :: 0 <= i < j < |r| ==> r[i] != r[j]
  {
    if subdir in subdirs then subdirs else subdirs + [subdir]
  }

  /** `f` is what change `c` is carried over as. */
  predicate Carries(prefix: string, c: Change, f: Carried)
  {
    c.modtype == f.modtype &&
    ((f.dir == "trunk" && Place(prefix, c.filename) == TrunkFile(f.name)) ||
     Place(prefix, c.filename) == InSubdir(f.dir, f.name))
  }

  /** What one changed path is carried over as: nothing, or one file. */
  function CarryOne(prefix: string, c: Change): (r: seq<Carried>)
    ensures |r| <= 1
    ensures forall f :: f in r ==> Carries(prefix, c, f)
    ensures r == [] <==> Place(prefix, c.filename) == Dropped
  {
    match Place(prefix, c.filename)
    case Dropped => []
    case TrunkFile(name) => [Carried(c.modtype, "trunk", name)]
    case InSubdir(subdir, rest) => [Carried(c.modtype, subdir, rest)]
  }

  /** Change `c` is carried over below directory `s`. */
  predicate NotesSubdir(prefix: string, c: Change, s: string)
  {
    Place(prefix, c.filename).InSubdir? && Place(prefix, c.filename).subdir == s
  }

  /** The subdirectory dictionary after one changed path. */
  function SeenAfter(prefix: string, c: Change, subdirs: seq<string>): (r: seq<string>)
    ensures forall s :: s in r <==> s in subdirs || NotesSubdir(prefix, c, s)
    ensures (forall i, j :: 0 <= i < j < |subdirs| ==> subdirs[i] != subdirs[j]) ==>
              forall i, j :: 0 <= i < j < |r| ==> r[i] != r[j]
  {
    if Place(prefix, c.filename).InSubdir? then NoteSubdir(subdirs, Place(prefix, c.filename).subdir) else subdirs
  }

  /** A run of distinct names. */
  predicate Distinct(s: seq<string>)
  {
    forall i, j :: 0 <= i < j < |s| ==> s[i] != s[j]
  }

  /** What a kept change is carried over as (a dropped one is carried over as nothing). */
  function CarriedAs(prefix: string, c: Change): Carried
  {
    match Place(prefix, c.filename)
    case Dropped => Carried(c.modtype, "", c.filename)
    case TrunkFile(name) => Carried(c.modtype, "trunk", name)
    case InSubdir(subdir, rest) => Carried(c.modtype, subdir, rest)
  }

  /** The changes whose paths are kept. */
  function KeptBy(prefix: string): Change -> bool
  {
    (c: Change) => Place(prefix, c.filename) != Dropped
  }

  /** `out` is the kept changes of `changes`, each as it is carried over, in order. */
  predicate CarriedInOrder(prefix: string, changes: seq<Change>, out: seq<Carried>)
  {
    var kept := Seqs.Filter(changes, KeptBy(prefix));
    |out| == |kept| && forall i :: 0 <= i < |out| ==> out[i] == CarriedAs(prefix, kept[i])
  }

  /** `s` is among `subdirs` or is the directory some change is carried over below. */
  predicate SeenIn(prefix: string, changes: seq<Change>, subdirs: seq<string>, s: string)
  {
    s in subdirs || exists k :: 0 <= k < |changes| && NotesSubdir(prefix, changes[k], s)
  }

  /**
   * One entry's changed paths, with the subdirectory dictionary carried
   * over from earlier entries: the kept changes, carried over in log
   * order, and the subdirectories to update, each once: those given and
   * those some kept change lies below.
   */
  function CarryChanges(prefix: string, changes: seq<Change>, subdirs: seq<string>): (r: (seq<Carried>, seq<string>))
    ensures |r.0| <= |changes|
    ensures forall f :: f in r.0 ==> exists k :: 0 <= k < |changes| && Carries(prefix, changes[k], f)
    ensures CarriedInOrder(prefix, changes, r.0)
    ensures forall s :: s in subdirs ==> s in r.1
    ensures forall s :: s in r.1 <==> SeenIn(prefix, changes, subdirs, s)
    ensures Distinct(subdirs) ==> Distinct(r.1)
    decreases |changes|
  {
    if changes == [] then ([], subdirs)
    else
      var c := changes[0];
      var seen := SeenAfter(prefix, c, subdirs);
      var (more, after) := CarryChanges(prefix, changes[1..], seen);
      CarryStep(prefix, changes, more);
      CarryOrderStep(prefix, changes, more);
      SeenStep(prefix, changes, subdirs, seen, after);
      (CarryOne(prefix, c) + more, after)
  }

  lemma CarryStep(prefix: string, changes: seq<Change>, more: seq<Carried>)
    requires |changes| > 0
    requires forall f :: f in more ==> exists k :: 0 <= k < |changes[1..]| && Carries(prefix, changes[1..][k], f)
    ensures forall f :: f in CarryOne(prefix, changes[0]) + more ==>
              exists k :: 0 <= k < |changes| && Carries(prefix, changes[k], f)
  {
    forall f | f in CarryOne(prefix, changes[0]) + more
      ensures exists k :: 0 <= k < |changes| && Carries(prefix, changes[k], f)
    {
      if f in more {
        var k :| 0 <= k < |changes[1..]| && Carries(prefix, changes[1..][k], f);
        assert changes[k + 1] == changes[1..][k];
      } else {
        assert Carries(prefix, changes[0], f);
      }
    }
  }

  /** Carrying the first change in front of the rest, carried in order, keeps the order. */
  lemma CarryOrderStep(prefix: string, changes: seq<Change>, more: seq<Carried>)
    requires |changes| > 0 && CarriedInOrder(prefix, changes[1..], more)
    ensures CarriedInOrder(prefix, changes, CarryOne(prefix, changes[0]) + more)
  {
    var c := changes[0];
    var keptTail := Seqs.Filter(changes[1..], KeptBy(prefix));
    var pre := if KeptBy(prefix)(c) then [c] else [];
    assert Seqs.Filter(changes, KeptBy(prefix)) == pre + keptTail;
    var one := CarryOne(prefix, c);
    assert |one| == |pre| && forall i :: 0 <= i < |one| ==> one[i] == CarriedAs(prefix, pre[i]);
    Seqs.ImageConcat(pre, keptTail, one, more, (e: Change) => CarriedAs(prefix, e));
  }

  /** The subdirectories seen after all the changes, from those seen after the first. */
  lemma SeenStep(prefix: string, changes: seq<Change>, subdirs: seq<string>, seen: seq<string>, after: seq<string>)
    requires |changes| > 0
    requires forall s :: s in seen <==> s in subdirs || NotesSubdir(prefix, changes[0], s)
    requires forall s :: s in after <==> SeenIn(prefix, changes[1..], seen, s)
    ensures forall s :: s in after <==> SeenIn(prefix, changes, subdirs, s)
  {
    forall s ensures s in after <==> SeenIn(prefix, changes, subdirs, s) {
      if exists k :: 0 <= k < |changes[1..]| && NotesSubdir(prefix, changes[1..][k], s) {
        var k :| 0 <= k < |changes[1..]| && NotesSubdir(prefix, changes[1..][k], s);
        assert changes[k + 1] == changes[1..][k];
      }
      if exists k :: 0 <= k < |changes| && NotesSubdir(prefix, changes[k], s) {
        var k :| 0 <= k < |changes| && NotesSubdir(prefix, changes[k], s);
        if k > 0 {
          assert changes[1..][k - 1] == changes[k];
        }
      }
    }
  }

  // ----- __update_workspace_from_status -----

  /** What `svn status` asks of the new workspace. */
  datatype StatusWork = StatusWork(added: seq<string>, removed: seq<string>, modified: bool)

  /** A status line is usable when it has a code and columns 1 to 6 are blank. */
  predicate Usable(line: string)
  {
    |line| > 0 && AllSpace(line[1..if |line| < 7 then |line| else 7])
  }

  function FileOf(line: string): string
  {
    if |line| < 8 then "" else line[8..]
  }

  /**
   * `__update_workspace_from_status`: unknown files ('?') are added,
   * missing or deleted ones ('!', 'D') are removed, and the workspace is
   * modified when any line was seen.  An empty line or cruft in columns
   * 1 to 6 stops the rewrite.
   */
  function UpdateFromStatus(lines: seq<string>): (r: Result<StatusWork>)
    ensures r.Err? <==> exists k :: 0 <= k < |lines| && !Usable(lines[k])
    ensures r.Ok? ==> (r.value.modified <==> lines != [])
    ensures r.Ok? ==> |r.value.added| + |r.value.removed| <= |lines|
    ensures r.Ok? ==> forall f :: f in r.value.added <==>
                        exists k :: 0 <= k < |lines| && lines[k][0] == '?' && FileOf(lines[k]) == f
    ensures r.Ok? ==> forall f :: f in r.value.removed <==>
                        exists k :: 0 <= k < |lines| && lines[k][0] in {'!', 'D'} && FileOf(lines[k]) == f
    decreases |lines|
  {
    if lines == [] then Ok(StatusWork([], [], false))
    else
      var line := lines[0];
      if !Usable(line) then Err("Found extra cruft in SVN STATUS line: " + line)
      else
        var rest :- UpdateFromStatus(lines[1..]);
        assert forall k :: 1 <= k < |lines| ==> lines[k] == lines[1..][k - 1];
        var file := FileOf(line);
        if line[0] == '?' then Ok(StatusWork([file] + rest.added, rest.removed, true))
        else if line[0] in {'!', 'D'} then Ok(StatusWork(rest.added, [file] + rest.removed, true))
        else Ok(rest.(modified := true))
  }

  // ----- __fix_makefile -----

  const FixedSubdirs := "SUBDIRS=\"domhub-tools domhub-testing\""

  /** A `SUBDIRS` line that still names the moat or domapp trees. */
  predicate StaleSubdirs(line: string)
  {
    StartsWith(line, "SUBDIRS") && (Find(line, "moat") > 0 || Find(line, "domapp") > 0)
  }

  function FixLine(raw: string): (r: string)
  {
    var line := RStrip(raw);
    if StaleSubdirs(line) then FixedSubdirs else line
  }

  /**
   * `__fix_makefile` on the Makefile's lines: every line loses its
   * trailing whitespace, each stale `SUBDIRS` line is replaced, and the
   * flag says whether any was.
   */
  function FixMakefile(lines: seq<string>): (r: (seq<string>, bool))
    ensures |r.0| == |lines|
    ensures forall k :: 0 <= k < |lines| ==>
              r.0[k] == (if StaleSubdirs(RStrip(lines[k])) then FixedSubdirs else RStrip(lines[k]))
    ensures r.1 <==> exists k :: 0 <= k < |lines| && StaleSubdirs(RStrip(lines[k]))
    decreases |lines|
  {
    if lines == [] then ([], false)
    else
      var (rest, fixed) := FixMakefile(lines[1..]);
      FixedCons(lines, rest, fixed);
      ([FixLine(lines[0])] + rest, fixed || StaleSubdirs(RStrip(lines[0])))
  }

  /** The first line fixed in front of the fixed rest is the whole Makefile fixed. */
  lemma FixedCons(lines: seq<string>, rest: seq<string>, fixed: bool)
    requires |lines| > 0 && |rest| == |lines| - 1
    requires forall k :: 0 <= k < |rest| ==> rest[k] == FixLine(lines[1..][k])
    requires fixed <==> exists k :: 0 <= k < |rest| && StaleSubdirs(RStrip(lines[1..][k]))
    ensures var r := [FixLine(lines[0])] + rest;
            forall k :: 0 <= k < |lines| ==> r[k] == FixLine(lines[k])
    ensures fixed || StaleSubdirs(RStrip(lines[0])) <==> exists k :: 0 <= k < |lines| && StaleSubdirs(RStrip(lines[k]))
  {
    assert forall k :: 1 <= k < |lines| ==> lines[k] == lines[1..][k - 1];
    if fixed {
      var k :| 0 <= k < |rest| && StaleSubdirs(RStrip(lines[1..][k]));
      assert lines[k + 1] == lines[1..][k];
    }
  }

  /** The replacement line fixes to itself. */
  lemma FixedLineIsFixed()
    ensures FixLine(FixedSubdirs) == FixedSubdirs
  {
    assert FixedSubdirs[|FixedSubdirs| - 1] == '"';
    SvnLog.RStripIdempotent(FixedSubdirs);
  }

  /** Fixing a fixed Makefile changes nothing more. */
  lemma FixMakefileIdempotent(lines: seq<string>)
    ensures FixMakefile(FixMakefile(lines).0).0 == FixMakefile(lines).0
  {
    var once := FixMakefile(lines).0;
    FixMakefileLines(lines);
    FixMakefileLines(once);
    forall x ensures FixLine(FixLine(x)) == FixLine(x) {
      FixLineTwice(x);
    }
    Seqs.MapTwice(lines, once, FixMakefile(once).0, FixLine);
  }

  /** Each line of the fixed Makefile is its line fixed. */
  lemma FixMakefileLines(lines: seq<string>)
    ensures |FixMakefile(lines).0| == |lines|
    ensures forall k :: 0 <= k < |lines| ==> FixMakefile(lines).0[k] == FixLine(lines[k])
  {
  }

  lemma FixLineTwice(raw: string)
    ensures FixLine(FixLine(raw)) == FixLine(raw)
  {
    var line := RStrip(raw);
    if StaleSubdirs(line) {
      FixedLineIsFixed();
    } else {
      SvnLog.RStripIdempotent(raw);
    }
  }
}

=== FILE: git.dfy ===
/**
 * The Git wrappers: the argument lists they build, the classifiers for
 * the lines Git writes to standard error, and the reading of the summary
 * `git commit` prints.  Running Git is not modelled: a command's output is
 * a sequence of lines, stdout lines right-stripped and stderr lines
 * stripped on both sides, as the command runner delivers them.
 */
module Git {
  import opened Wrappers
  import opened StrUtil

  // ----- argument lists -----

  /** A file argument: a list of paths, or a single path passed through `str()`. */
  datatype Files = Paths(paths: seq<string>) | OnePath(path: string)

  function PathsOf(f: Files): seq<string>
  {
    match f
    case Paths(ps) => ps
    case OnePath(p) => [p]
  }

  /** `git_add`: "git add" and then the paths. */
  function AddArgs(f: Files): (r: seq<string>)
    ensures |r| == 2 + |PathsOf(f)| && r[..2] == ["git", "add"] && r[2..] == PathsOf(f)
  {
    match f
    case Paths(ps) => ["git", "add"] + ps
    case OnePath(p) => ["git", "add", p]
  }

  /** `git_remove`: "git rm -r" and then the paths. */
  function RemoveArgs(f: Files): (r: seq<string>)
    ensures |r| == 3 + |PathsOf(f)| && r[..3] == ["git", "rm", "-r"] && r[3..] == PathsOf(f)
  {
    match f
    case Paths(ps) => ["git", "rm", "-r"] + ps
    case OnePath(p) => ["git", "rm", "-r", p]
  }

  /** A list and a one-element list holding the same path give the same command. */
  lemma OnePathIsSingleton(p: string)
    ensures AddArgs(OnePath(p)) == AddArgs(Paths([p]))
    ensures RemoveArgs(OnePath(p)) == RemoveArgs(Paths([p]))
  {
  }

  /** `git_push`: "-u UPSTREAM" when an upstream is given, then the remote when one is given. */
  function PushArgs(remote: Option<string>, upstream: Option<string>): (r: seq<string>)
    ensures |r| >= 2 && r[..2] == ["git", "push"]
    ensures |r| == 2 + (if upstream.Some? then 2 else 0) + (if remote.Some? then 1 else 0)
  {
    ["git", "push"] + (if upstream.Some? then ["-u", upstream.value] else []) +
    (if remote.Some? then [remote.value] else [])
  }

  /** Reading a push command back into its remote and upstream. */
  function ParsePushArgs(args: seq<string>): Option<(Option<string>, Option<string>)>
  {
    if |args| < 2 || args[..2] != ["git", "push"] then None
    else if |args| == 2 then Some((None, None))
    else if |args| == 3 then Some((Some(args[2]), None))
    else if |args| == 4 && args[2] == "-u" then Some((None, Some(args[3])))
    else if |args| == 5 && args[2] == "-u" then Some((Some(args[4]), Some(args[3])))
    else None
  }

  /** The push command determines the remote and the upstream it was built from. */
  lemma PushArgsRoundTrip(remote: Option<string>, upstream: Option<string>)
    ensures ParsePushArgs(PushArgs(remote, upstream)) == Some((remote, upstream))
  {
  }

  /** `git_checkout`: "-b" for a new branch, the branch, then the start point when one is given. */
  function CheckoutArgs(branch: string, startPoint: Option<string>, newBranch: bool): (r: seq<string>)
    ensures |r| >= 3 && r[..2] == ["git", "checkout"]
    ensures |r| == 3 + (if newBranch then 1 else 0) + (if startPoint.Some? then 1 else 0)
  {
    ["git", "checkout"] + (if newBranch then ["-b"] else []) + [branch] +
    (if startPoint.Some? then [startPoint.value] else [])
  }

  /** Reading a checkout command back, taking a third word "-b" as the new-branch flag. */
  function ParseCheckoutArgs(args: seq<string>): Option<(string, Option<string>, bool)>
  {
    if |args| < 3 || args[..2] != ["git", "checkout"] then None
    else
      var newBranch := args[2] == "-b";
      var rest := if newBranch then args[3..] else args[2..];
      if |rest| == 1 then Some((rest[0], None, newBranch))
      else if |rest| == 2 then Some((rest[0], Some(rest[1]), newBranch))
      else None
  }

  /** The checkout command determines its arguments, unless the branch is itself called "-b". */
  lemma CheckoutArgsRoundTrip(branch: string, startPoint: Option<string>, newBranch: bool)
    requires branch != "-b"
    ensures ParseCheckoutArgs(CheckoutArgs(branch, startPoint, newBranch)) == Some((branch, startPoint, newBranch))
  {
    var args := CheckoutArgs(branch, startPoint, newBranch);
    if newBranch {
      assert args[3..] == [branch] + (if startPoint.Some? then [startPoint.value] else []);
    } else {
      assert args[2..] == [branch] + (if startPoint.Some? then [startPoint.value] else []);
    }
  }

  /** A branch called "-b" cannot be told apart from the new-branch flag. */
  lemma CheckoutArgsAmbiguous(x: string)
    ensures CheckoutArgs("-b", Some(x), false) == CheckoutArgs(x, None, true)
  {
  }

  /** `git_status`: "--porcelain" exactly when asked for. */
  function StatusArgs(porcelain: bool): (r: seq<string>)
    ensures |r| >= 2 && r[..2] == ["git", "status"]
    ensures "--porcelain" in r <==> porcelain
  {
    ["git", "status"] + (if porcelain then ["--porcelain"] else [])
  }

  /**
   * `git_reset` as written: "--hard" is added whenever `hard` is not
   * `None`, so the default `hard=False` resets hard too.  `hard` is
   * `None`, `Some(false)` or `Some(true)`.
   */
  function ResetArgsAsWritten(startPoint: string, hard: Option<bool>): (r: seq<string>)
    ensures |r| >= 3 && r[..2] == ["git", "reset"] && r[|r| - 1] == startPoint
  {
    ["git", "reset"] + (if hard.Some? then ["--hard"] else []) + [startPoint]
  }

  /** The default call and an explicit `hard=False` both reset hard. */
  lemma ResetFalseIsHard(startPoint: string)
    ensures ResetArgsAsWritten(startPoint, Some(false)) == ["git", "reset", "--hard", startPoint]
    ensures ResetArgsAsWritten(startPoint, Some(false)) == ResetArgsAsWritten(startPoint, Some(true))
  {
  }

  /** `git_reset` as evidently intended: "--hard" only for `hard=True`. */
  function ResetArgs(startPoint: string, hard: Option<bool>): (r: seq<string>)
    ensures |r| >= 3 && r[..2] == ["git", "reset"] && r[|r| - 1] == startPoint
    ensures "--hard" in r[2..|r| - 1] <==> hard == Some(true)
    ensures |r| == if hard == Some(true) then 4 else 3
  {
    ["git", "reset"] + (if hard == Some(true) then ["--hard"] else []) + [startPoint]
  }

  /**
   * The extra arguments of `git commit -F FILE`: the author, the date,
   * then either the listed files or "-a" (the file list wins).
   */
  function CommitArgs(commitFile: string, author: Option<string>, date: Option<string>,
                      files: Option<seq<string>>, commitAll: bool): (r: seq<string>)
    ensures |r| >= 4 && r[..4] == ["git", "commit", "-F", commitFile]
    ensures author.Some? ==> |r| > 4 && r[4] == "--author=" + author.value
    ensures files.Some? ==> |r| >= 4 + |files.value| && r[|r| - |files.value|..] == files.value && (("-a" in r[4..]) <==> "-a" in files.value)
    ensures files.None? ==> (("-a" in r[4..]) <==> commitAll)
  {
    var who := if author.Some? then ["--author=" + author.value] else [];
    var when := if date.Some? then ["--date=" + date.value] else [];
    var what := if files.Some? then files.value else if commitAll then ["-a"] else [];
    var r := ["git", "commit", "-F", commitFile] + who + when + what;
    assert r[4..] == who + when + what;
    assert "-a" !in who && "-a" !in when;
    r
  }

  // ----- standard error -----

  /** Feed each stderr line to a handler; the first line it rejects raises. */
  function HandleStderr(lines: seq<string>, handler: string -> Result<()>): (r: Result<()>)
    ensures r.Ok? <==> forall k :: 0 <= k < |lines| ==> handler(lines[k]).Ok?
    decreases |lines|
  {
    if |lines| == 0 then Ok(())
    else
      match handler(lines[0])
      case Err(msg) => Err(msg)
      case Ok(_) =>
        var r := HandleStderr(lines[1..], handler);
        assert forall k :: 1 <= k < |lines| ==> lines[k] == lines[1..][k - 1];
        r
  }

  /** `__handle_checkout_stderr`: only the messages Git prints on a successful switch are tolerated. */
  function CheckoutStderr(line: string): (r: Result<()>)
    ensures r.Ok? <==> StartsWith(line, "Switched to a new branch") || StartsWith(line, "Switched to branch ") ||
                       StartsWith(line, "Already on ")
  {
    if StartsWith(line, "Switched to a new branch") then Ok(())
    else if StartsWith(line, "Switched to branch ") then Ok(())
    else if StartsWith(line, "Already on ") then Ok(())
    else Err("GIT CHECKOUT failed: " + line)
  }

  /** What a switch, a branch creation and a no-op checkout print is tolerated; a pathspec error is not. */
  lemma CheckoutMessages(b: string)
    ensures CheckoutStderr("Switched to a new branch '" + b + "'").Ok?
    ensures CheckoutStderr("Switched to branch '" + b + "'").Ok?
    ensures CheckoutStderr("Already on '" + b + "'").Ok?
    ensures CheckoutStderr("error: pathspec '" + b + "' did not match any file(s) known to git").Err?
  {
    PrefixKept("Switched to a new branch", " '", b + "'");
    PrefixKept("Switched to branch ", "'", b + "'");
    PrefixKept("Already on ", "'", b + "'");
    PathspecRejected(b);
  }

  /** A line built from a prefix and more text starts with the prefix. */
  lemma PrefixKept(p: string, q: string, rest: string)
    ensures StartsWith(p + q + rest, p)
  {
    assert (p + q + rest)[..|p|] == p;
  }

  lemma PathspecRejected(b: string)
    ensures CheckoutStderr("error: pathspec '" + b + "' did not match any file(s) known to git").Err?
  {
    var e := "error: pathspec '" + b + "' did not match any file(s) known to git";
    assert e[0] == 'e';
    assert !StartsWith(e, "Switched to a new branch") by { assert "Switched to a new branch"[0] == 'S'; }
    assert !StartsWith(e, "Switched to branch ") by { assert "Switched to branch "[0] == 'S'; }
    assert !StartsWith(e, "Already on ") by { assert "Already on "[0] == 'A'; }
  }

  /** `__handle_clone_stderr`: the progress lines of a clone are tolerated. */
  function CloneStderr(line: string): (r: Result<()>)
    ensures r.Ok? <==> StartsWith(line, "Cloning into ") || Contains(line, "You appear to have cloned") ||
                       StartsWith(line, "Updating files: ")
  {
    if StartsWith(line, "Cloning into ") then Ok(())
    else if Contains(line, "You appear to have cloned") then Ok(())
    else if StartsWith(line, "Updating files: ") then Ok(())
    else Err("GIT CLONE failed: " + line)
  }

  /** The warning about an empty repository is tolerated wherever it sits in the line. */
  lemma CloneEmptyWarning(a: string, b: string)
    ensures CloneStderr(a + "You appear to have cloned" + b).Ok?
  {
    var line := a + "You appear to have cloned" + b;
    assert OccursAt(line, "You appear to have cloned", |a|) by {
      assert line[|a|..|a| + 25] == "You appear to have cloned";
    }
  }

  /**
   * `RemoveHandler.handle_stderr`: a line saying the pathspec matched no
   * files is expected (and marks the failure as expected); any other line
   * raises.
   */
  function RemoveStderrLine(expected: bool, line: string): (r: Result<bool>)
    ensures r.Ok? <==> StartsWith(line, "fatal: pathspec") && Contains(line, "did not match any files")
    ensures r.Ok? ==> r.value
  {
    if !StartsWith(line, "fatal: pathspec") || !Contains(line, "did not match any files") then
      Err("Remove failed: " + line)
    else Ok(true)
  }

  function RemoveStderr(lines: seq<string>, expected: bool): Result<bool>
    decreases |lines|
  {
    if |lines| == 0 then Ok(expected)
    else
      var e :- RemoveStderrLine(expected, lines[0]);
      RemoveStderr(lines[1..], e)
  }

  /**
   * `git_remove` as a whole: the stderr lines, then the return code,
   * which raises when non-zero unless an expected error was seen.
   */
  function RemoveOutcome(stderr: seq<string>, rtncode: int): Result<()>
  {
    var expected :- RemoveStderr(stderr, false);
    if rtncode != 0 && !expected then Err("GIT RM failed with returncode " + IntToString(rtncode)) else Ok(())
  }

  /** Tolerated stderr lines are exactly the unmatched-pathspec ones. */
  predicate PathspecMiss(line: string)
  {
    StartsWith(line, "fatal: pathspec") && Contains(line, "did not match any files")
  }

  lemma {:induction false} RemoveStderrSpec(lines: seq<string>, expected: bool)
    ensures RemoveStderr(lines, expected).Ok? <==> forall k :: 0 <= k < |lines| ==> PathspecMiss(lines[k])
    ensures RemoveStderr(lines, expected).Ok? ==> RemoveStderr(lines, expected).value == (expected || |lines| > 0)
    decreases |lines|
  {
    if |lines| > 0 {
      RemoveStderrSpec(lines[1..], true);
      assert forall k :: 1 <= k < |lines| ==> lines[k] == lines[1..][k - 1];
    }
  }

  /**
   * A removal succeeds exactly when every stderr line reports an unmatched
   * pathspec and either the return code is zero or such a line was seen.
   */
  lemma RemoveOutcomeSpec(stderr: seq<string>, rtncode: int)
    ensures RemoveOutcome(stderr, rtncode).Ok? <==>
              (forall k :: 0 <= k < |stderr| ==> PathspecMiss(stderr[k])) && (rtncode == 0 || |stderr| > 0)
  {
    RemoveStderrSpec(stderr, false);
  }

  const AutoPacking: string := "Auto packing the repository"

  /**
   * `CommitHandler.handle_stderr`: the auto-pack notice switches on a
   * mode in which every later line is only printed; before it, any line
   * raises.
   */
  function CommitStderrLine(autoPack: bool, line: string): (r: Result<bool>)
    ensures r.Ok? <==> autoPack || Contains(line, AutoPacking)
    ensures r.Ok? ==> r.value
  {
    if Contains(line, AutoPacking) then Ok(true)
    else if autoPack then Ok(autoPack)
    else Err("Commit failed: " + line)
  }

  function CommitStderr(lines: seq<string>, autoPack: bool): Result<bool>
    decreases |lines|
  {
    if |lines| == 0 then Ok(autoPack)
    else
      var a :- CommitStderrLine(autoPack, lines[0]);
      CommitStderr(lines[1..], a)
  }

  /** A commit's stderr is accepted exactly when it is empty or opens with the auto-pack notice. */
  lemma {:induction false} CommitStderrSpec(lines: seq<string>, autoPack: bool)
    ensures CommitStderr(lines, autoPack).Ok? <==> autoPack || |lines| == 0 || Contains(lines[0], AutoPacking)
    decreases |lines|
  {
    if |lines| > 0 && (autoPack || Contains(lines[0], AutoPacking)) {
      CommitStderrSpec(lines[1..], true);
    }
  }

  // ----- the commit summary -----

  const RootCommit: string := "(root-commit)"

  /**
   * `COMMIT_TOP_PAT`, `^\s*\[(\S+)\s+(?:\(root-commit\)\s+)?(\S+)\] (.*)\s*$`:
   * the branch and the hash of the first line.  A line never holds a
   * newline, so the trailing `(.*)\s*$` accepts whatever follows "] ".
   */
  function TopMatch(line: string): (r: Option<(string, string)>)
    ensures r.Some? ==> IsWord(r.value.0) && IsWord(r.value.1)
  {
    var s := LStrip(line);
    if |s| == 0 || s[0] != '[' then None else BranchAndHash(s[1..])
  }

  /** After the '[': the branch word, at least one space, and the hash. */
  function BranchAndHash(s: string): (r: Option<(string, string)>)
    ensures r.Some? ==> IsWord(r.value.0) && IsWord(r.value.1)
  {
    var branch := WordPrefix(s);
    var s1 := s[|branch|..];
    var s2 := LStrip(s1);
    if branch == "" || |s2| == |s1| then None
    else
      match HashOf(s2)
      case None => None
      case Some(h) => Some((branch, h))
  }

  /**
   * The hash: the next word, or the word after "(root-commit)" and at
   * least one space.  (When the word after the marker does not end in ']',
   * the pattern's fallback reads the marker itself as the hash word, which
   * fails as well: the marker does not end in ']'.)
   */
  function HashOf(s: string): (r: Option<string>)
    ensures r.Some? ==> IsWord(r.value)
  {
    if StartsWith(s, RootCommit) && |s| > |RootCommit| && IsSpace(s[|RootCommit|]) then
      Closing(LStrip(s[|RootCommit|..]))
    else Closing(s)
  }

  /** A word ending in ']' and followed by a space: the word without its ']'. */
  function Closing(s: string): (r: Option<string>)
    ensures r.Some? ==> IsWord(r.value)
  {
    var tok := WordPrefix(s);
    var after := s[|tok|..];
    if |tok| >= 2 && tok[|tok| - 1] == ']' && |after| > 0 && after[0] == ' ' then Some(tok[..|tok| - 1])
    else None
  }

  lemma ClosingOf(hash: string, msg: string)
    requires IsWord(hash)
    ensures Closing(hash + "] " + msg) == Some(hash)
  {
    var tok := hash + "]";
    assert IsWord(tok);
    assert hash + "] " + msg == tok + (" " + msg);
    WordPrefixOfWord(tok, " " + msg);
    assert (tok + (" " + msg))[|tok|..] == " " + msg;
    assert tok[..|hash|] == hash;
  }

  /** A word that is not "(root-commit)" is taken as the hash word. */
  lemma HashOfPlain(hash: string, msg: string)
    requires IsWord(hash)
    ensures HashOf(hash + "] " + msg) == Some(hash)
  {
    var s := hash + "] " + msg;
    var k := |hash|;
    assert s[k] == ']' && s[k + 1] == ' ';
    if k + 1 < |RootCommit| {
      assert s[k + 1] != RootCommit[k + 1];
      assert !StartsWith(s, RootCommit);
    } else if k + 1 == |RootCommit| {
      assert s[k] != RootCommit[k];
      assert !StartsWith(s, RootCommit);
    } else if k > |RootCommit| {
      assert s[|RootCommit|] == hash[|RootCommit|];
    }
    ClosingOf(hash, msg);
  }

  lemma HashOfRoot(hash: string, msg: string)
    requires IsWord(hash)
    ensures HashOf(RootCommit + " " + hash + "] " + msg) == Some(hash)
  {
    var tail := hash + "] " + msg;
    RootThenTail(hash, msg);
    assert tail[0] == hash[0];
    LStripSpace(tail);
    ClosingOf(hash, msg);
  }

  /** "(root-commit)", a space and the rest: the marker is matched and the space follows it. */
  lemma RootThenTail(hash: string, msg: string)
    ensures var s, tail := RootCommit + " " + hash + "] " + msg, hash + "] " + msg;
            StartsWith(s, RootCommit) && |s| > |RootCommit| && s[|RootCommit|] == ' ' &&
            s[|RootCommit|..] == " " + tail
  {
    var tail := hash + "] " + msg;
    var s := RootCommit + " " + hash + "] " + msg;
    assert s == RootCommit + (" " + tail);
  }

  /** One leading space before a non-space is stripped. */
  lemma LStripSpace(t: string)
    requires |t| > 0 && !IsSpace(t[0])
    ensures LStrip(" " + t) == t
  {
    assert (" " + t)[1..] == t;
  }

  /** The first line Git prints for a commit, and for the first commit of a repository. */
  function TopLine(branch: string, hash: string, msg: string): string
  {
    "[" + branch + " " + hash + "] " + msg
  }

  function RootTopLine(branch: string, hash: string, msg: string): string
  {
    "[" + branch + " " + RootCommit + " " + hash + "] " + msg
  }

  /** The branch and hash of a commit's first line are read back. */
  lemma TopOfTopLine(branch: string, hash: string, msg: string)
    requires IsWord(branch) && IsWord(hash)
    ensures TopMatch(TopLine(branch, hash, msg)) == Some((branch, hash))
  {
    var rest := hash + "] " + msg;
    TopLineSplits(branch, hash, msg);
    HashOfPlain(hash, msg);
    TopAfterBranch(TopLine(branch, hash, msg), branch, rest);
  }

  /** The same for a root commit: the "(root-commit)" word is passed over. */
  lemma TopOfRootTopLine(branch: string, hash: string, msg: string)
    requires IsWord(branch) && IsWord(hash)
    ensures TopMatch(RootTopLine(branch, hash, msg)) == Some((branch, hash))
  {
    var rest := RootCommit + " " + hash + "] " + msg;
    RootTopLineSplits(branch, hash, msg);
    HashOfRoot(hash, msg);
    TopAfterBranch(RootTopLine(branch, hash, msg), branch, rest);
  }

  lemma TopLineSplits(branch: string, hash: string, msg: string)
    requires IsWord(hash)
    ensures var line, rest := TopLine(branch, hash, msg), hash + "] " + msg;
            |line| > 0 && line[0] == '[' && line[1..] == branch + " " + rest && |rest| > 0 && !IsSpace(rest[0])
  {
    assert (hash + "] " + msg)[0] == hash[0];
    assert TopLine(branch, hash, msg)[1..] == branch + " " + (hash + "] " + msg);
  }

  lemma RootTopLineSplits(branch: string, hash: string, msg: string)
    ensures var line, rest := RootTopLine(branch, hash, msg), RootCommit + " " + hash + "] " + msg;
            |line| > 0 && line[0] == '[' && line[1..] == branch + " " + rest && |rest| > 0 && !IsSpace(rest[0])
  {
    assert (RootCommit + " " + hash + "] " + msg)[0] == '(';
    assert RootTopLine(branch, hash, msg)[1..] == branch + " " + (RootCommit + " " + hash + "] " + msg);
  }

  /** "[", a branch word and a space: the rest is read by `HashOf`. */
  lemma TopAfterBranch(line: string, branch: string, rest: string)
    requires IsWord(branch) && |rest| > 0 && !IsSpace(rest[0])
    requires |line| > 0 && line[0] == '[' && line[1..] == branch + " " + rest
    ensures TopMatch(line) == match HashOf(rest) case None => None case Some(h) => Some((branch, h))
  {
    LStripNonSpace(line);
    assert TopMatch(line) == BranchAndHash(line[1..]);
    BranchThenHash(branch, rest);
  }

  lemma BranchThenHash(branch: string, rest: string)
    requires IsWord(branch) && |rest| > 0 && !IsSpace(rest[0])
    ensures BranchAndHash(branch + " " + rest) ==
            match HashOf(rest) case None => None case Some(h) => Some((branch, h))
  {
    var s := branch + " " + rest;
    assert s == branch + (" " + rest);
    WordPrefixOfWord(branch, " " + rest);
    assert s[|branch|..] == " " + rest;
    LStripSpace(rest);
  }

  /**
   * `COMMIT_CHG_PAT`, `^\s*(\d+) files? changed(.*)$`: the number of
   * files changed and the text after "changed".
   */
  function ChgMatch(line: string): (r: Option<(nat, string)>)
    ensures r.Some? ==> EndsWith(line, r.value.1)
  {
    ChgDigits(LStrip(line))
  }

  /** The number, then " file changed" or " files changed". */
  function ChgDigits(s: string): (r: Option<(nat, string)>)
    ensures r.Some? ==> EndsWith(s, r.value.1)
  {
    var d := DigitPrefix(s);
    if d == "" then None
    else
      match FilesChanged(s[|d|..])
      case None => None
      case Some(stuff) => Some((DigitsValue(d), stuff))
  }

  /** `" files? changed"`, and the text after it. */
  function FilesChanged(s: string): (r: Option<string>)
    ensures r.Some? ==> EndsWith(s, r.value)
  {
    if StartsWith(s, " files changed") then Some(s[14..])
    else if StartsWith(s, " file changed") then Some(s[13..])
    else None
  }

  /**
   * The leftmost ` (\d+)` directly followed by `word` in `s`, with its
   * number: `COMMIT_INS_PAT` and `COMMIT_DEL_PAT` searched in the text
   * after "changed", `word` being " insertion" or " deletion".
   */
  function CountBefore(s: string, word: string): (r: Option<nat>)
    decreases |s|
  {
    if |s| == 0 then None
    else
      var d := DigitPrefix(s[1..]);
      if s[0] == ' ' && |d| > 0 && StartsWith(s[1 + |d|..], word) then Some(DigitsValue(d))
      else CountBefore(s[1..], word)
  }

  /** `s` has a match exactly when some space is followed by digits and then `word`. */
  predicate CountAt(s: string, word: string, i: int)
  {
    0 <= i < |s| && s[i] == ' ' && |DigitPrefix(s[i + 1..])| > 0 &&
    StartsWith(s[i + 1 + |DigitPrefix(s[i + 1..])|..], word)
  }

  lemma CountBeforeFinds(s: string, word: string)
    ensures CountBefore(s, word).Some? <==> exists i :: CountAt(s, word, i)
  {
    if CountBefore(s, word).Some? {
      var i := CountBeforeSound(s, word);
    }
    if exists i :: CountAt(s, word, i) {
      var i :| CountAt(s, word, i);
      CountBeforeComplete(s, word, i);
    }
  }

  /** A found count has a match behind it. */
  lemma {:induction false} CountBeforeSound(s: string, word: string) returns (i: int)
    requires CountBefore(s, word).Some?
    ensures CountAt(s, word, i)
    decreases |s|
  {
    if CountAt(s, word, 0) {
      i := 0;
    } else {
      var j := CountBeforeSound(s[1..], word);
      CountAtShift(s, word, j + 1);
      i := j + 1;
    }
  }

  /** Any match is found. */
  lemma {:induction false} CountBeforeComplete(s: string, word: string, i: int)
    requires CountAt(s, word, i)
    ensures CountBefore(s, word).Some?
    decreases i
  {
    if i > 0 && !CountAt(s, word, 0) {
      CountAtShift(s, word, i);
      CountBeforeComplete(s[1..], word, i - 1);
    }
  }

  lemma CountAtShift(s: string, word: string, i: int)
    requires 1 <= i < |s|
    ensures CountAt(s, word, i) == CountAt(s[1..], word, i - 1)
  {
    assert s[i + 1..] == s[1..][i..];
  }

  /** Characters other than a space never start a match. */
  lemma {:induction false} CountSkips(a: string, b: string, word: string)
    requires forall k :: 0 <= k < |a| ==> a[k] != ' '
    ensures CountBefore(a + b, word) == CountBefore(b, word)
    decreases |a|
  {
    if |a| > 0 {
      assert (a + b)[1..] == a[1..] + b;
      CountSkips(a[1..], b, word);
    } else {
      assert a + b == b;
    }
  }

  /** A space, a number and then `word` is a match, holding that number. */
  lemma CountHere(n: nat, word: string, rest: string)
    requires |word| > 0 && !IsDigit(word[0])
    ensures CountBefore(" " + NatToString(n) + word + rest, word) == Some(n)
  {
    var s := " " + NatToString(n) + word + rest;
    assert s[1..] == NatToString(n) + (word + rest);
    DigitPrefixOf(NatToString(n), word + rest);
    assert s[1 + |NatToString(n)|..] == word + rest;
    NatToStringRoundTrip(n);
  }

  /** A space and a number followed by something other than `word` is passed over. */
  lemma CountPasses(s: string, num: string, tail: string, word: string)
    requires |s| > 0 && s[0] == ' ' && s[1..] == num + tail
    requires |num| > 0 && AllDigits(num)
    requires |tail| > 0 && !IsDigit(tail[0]) && !StartsWith(tail, word)
    ensures CountBefore(s, word) == CountBefore(s[1..], word)
  {
    DigitPrefixOf(num, tail);
    assert s[1 + |num|..] == tail;
  }

  /** Git's English plural ending for a count. */
  function Suffix(n: nat): string
  {
    if n == 1 then "" else "s"
  }

  function Plural(n: nat, noun: string): string
  {
    noun + Suffix(n)
  }

  /** One part of the counts, ", N noun(s)SIGN". */
  function CountPart(n: nat, noun: string, sign: string): string
  {
    ", " + NatToString(n) + Plural(n, noun) + sign
  }

  /** The tail of Git's summary line: ", I insertion(s)(+), D deletion(s)(-)". */
  function ChangeCounts(ins: nat, del: nat): string
  {
    CountPart(ins, " insertion", "(+)") + CountPart(del, " deletion", "(-)")
  }

  /** Git's summary line " N file(s) changed, I insertion(s)(+), D deletion(s)(-)". */
  function SummaryLine(files: nat, ins: nat, del: nat): string
  {
    " " + NatToString(files) + Plural(files, " file") + " changed" + ChangeCounts(ins, del)
  }

  /** The number of files and the rest of a summary line are read back. */
  lemma ChgOfSummaryLine(files: nat, ins: nat, del: nat)
    ensures ChgMatch(SummaryLine(files, ins, del)) == Some((files, ChangeCounts(ins, del)))
  {
    var line := SummaryLine(files, ins, del);
    var n := NatToString(files);
    var rest := Plural(files, " file") + " changed" + ChangeCounts(ins, del);
    SummaryLineSplits(files, ins, del);
    assert LStrip(line) == n + rest by {
      assert line[1..] == n + rest;
      assert (n + rest)[0] == n[0];
    }
    ChgDigitsOf(files, rest);
    FilesChangedOf(files, ChangeCounts(ins, del));
  }

  lemma SummaryLineSplits(files: nat, ins: nat, del: nat)
    ensures var line := SummaryLine(files, ins, del);
            |line| > 0 && line[0] == ' ' &&
            line[1..] == NatToString(files) + (Plural(files, " file") + " changed" + ChangeCounts(ins, del))
  {
    var n, p, c := NatToString(files), Plural(files, " file"), ChangeCounts(ins, del);
    Regroup(" ", n, p, " changed", c);
    HeadTail(" ", n + (p + " changed" + c));
  }

  /** Regrouping a concatenation, kept out of contexts where it is costly. */
  lemma Regroup(a: string, b: string, c: string, d: string, e: string)
    ensures a + b + c + d + e == a + (b + (c + d + e))
  {
  }

  lemma HeadTail(a: string, b: string)
    requires |a| == 1
    ensures |a + b| > 0 && (a + b)[0] == a[0] && (a + b)[1..] == b
  {
  }

  lemma ChgDigitsOf(n: nat, rest: string)
    requires |rest| > 0 && !IsDigit(rest[0])
    ensures ChgDigits(NatToString(n) + rest) == match FilesChanged(rest) case None => None case Some(t) => Some((n, t))
  {
    DigitPrefixOf(NatToString(n), rest);
    assert (NatToString(n) + rest)[|NatToString(n)|..] == rest;
    NatToStringRoundTrip(n);
  }

  lemma FilesChangedOf(n: nat, stuff: string)
    ensures FilesChanged(Plural(n, " file") + " changed" + stuff) == Some(stuff)
  {
    var s := Plural(n, " file") + " changed" + stuff;
    if n == 1 {
      assert s == " file changed" + stuff;
      assert s[5] == ' ';
      assert s[13..] == stuff;
    } else {
      assert s == " files changed" + stuff;
      assert s[14..] == stuff;
    }
  }

  /** The insertion and deletion counts are found in the tail of a summary line. */
  lemma InsertionsOfChangeCounts(ins: nat, del: nat)
    ensures CountBefore(ChangeCounts(ins, del), " insertion") == Some(ins)
  {
    CountFoundInPart(ins, " insertion", "(+)", CountPart(del, " deletion", "(-)"));
  }

  lemma DeletionsOfChangeCounts(ins: nat, del: nat)
    ensures CountBefore(ChangeCounts(ins, del), " deletion") == Some(del)
  {
    var delPart := CountPart(del, " deletion", "(-)");
    CountPassesPart(ins, " insertion", "(+)", delPart, " deletion");
    CountFoundInPart(del, " deletion", "(-)", "");
    assert delPart + "" == delPart;
  }

  /** The regroupings of a count part the two lemmas below rely on. */
  lemma PartShape(n: nat, noun: string, sign: string, rest: string)
    requires |noun| > 0
    ensures var num, sfx := NatToString(n), Suffix(n);
            var other := noun + sfx + sign;
            && CountPart(n, noun, sign) + rest == "," + (" " + num + noun + (sfx + sign + rest))
            && " " + num + noun + (sfx + sign + rest) == " " + num + other + rest
            && num + other + rest == num + (other + rest)
            && other + rest == [noun[0]] + (noun[1..] + sfx + sign + rest)
            && noun[1..] + sfx + sign + rest == (noun[1..] + sfx + sign) + rest
  {
    var num, sfx := NatToString(n), Suffix(n);
    assert ", " + num + (noun + sfx) + sign + rest == "," + (" " + num + noun + (sfx + sign + rest));
    assert noun == [noun[0]] + noun[1..];
  }

  /** A count part opens with its own match. */
  lemma CountFoundInPart(n: nat, noun: string, sign: string, rest: string)
    requires |noun| > 0 && !IsDigit(noun[0])
    ensures CountBefore(CountPart(n, noun, sign) + rest, noun) == Some(n)
  {
    var sfx := Suffix(n);
    PartShape(n, noun, sign, rest);
    CountSkips(",", " " + NatToString(n) + noun + (sfx + sign + rest), noun);
    CountHere(n, noun, sfx + sign + rest);
  }

  /** A search for another word passes over a whole count part. */
  lemma CountPassesPart(n: nat, noun: string, sign: string, rest: string, word: string)
    requires |noun| > 1 && noun[0] == ' ' && !IsDigit(noun[1])
    requires forall k :: 1 <= k < |noun| ==> noun[k] != ' '
    requires forall k :: 0 <= k < |sign| ==> sign[k] != ' '
    requires |word| > 1 && word[1] != noun[1]
    ensures CountBefore(CountPart(n, noun, sign) + rest, word) == CountBefore(rest, word)
  {
    var num, sfx := NatToString(n), Suffix(n);
    var t := noun[1..] + sfx + sign;
    PartOpening(n, noun, sign, rest, word);
    PastNumber(num, noun + sfx + sign + rest, word);
    assert forall k :: 0 <= k < |sfx| ==> sfx[k] != ' ';
    NounTail(noun, sfx, sign, rest);
    CountAfterSpace(t + rest, word);
    CountSkips(t, rest, word);
  }

  /** The ", " and the space before the part's number start no match. */
  lemma PartOpening(n: nat, noun: string, sign: string, rest: string, word: string)
    requires |noun| > 1 && !IsDigit(noun[0]) && |word| > 1 && word[1] != noun[1]
    ensures CountBefore(CountPart(n, noun, sign) + rest, word) ==
            CountBefore(NatToString(n) + (noun + Suffix(n) + sign + rest), word)
  {
    var num, tail := NatToString(n), noun + Suffix(n) + sign + rest;
    var x := [' '] + (num + tail);
    PartFlat(n, noun, sign, rest);
    HeadTail([' '], num + tail);
    CountSkips(",", x, word);
    assert tail[0] == noun[0] && tail[1] == noun[1];
    CountPasses(x, num, tail, word);
  }

  lemma PartFlat(n: nat, noun: string, sign: string, rest: string)
    ensures CountPart(n, noun, sign) + rest == "," + ([' '] + (NatToString(n) + (noun + Suffix(n) + sign + rest)))
  {
  }

  /** Digits start no match. */
  lemma PastNumber(num: string, tail: string, word: string)
    requires AllDigits(num)
    ensures CountBefore(num + tail, word) == CountBefore(tail, word)
  {
    assert forall k :: 0 <= k < |num| ==> num[k] != ' ' by {
      forall k | 0 <= k < |num| ensures num[k] != ' ' {
        assert IsDigit(num[k]);
      }
    }
    CountSkips(num, tail, word);
  }

  /** A noun opening with its one space, then the suffix and the sign: the space, then no more spaces. */
  lemma NounTail(noun: string, sfx: string, sign: string, rest: string)
    requires |noun| > 1 && noun[0] == ' ' && !IsDigit(noun[1])
    requires forall k :: 1 <= k < |noun| ==> noun[k] != ' '
    requires forall k :: 0 <= k < |sfx| ==> sfx[k] != ' '
    requires forall k :: 0 <= k < |sign| ==> sign[k] != ' '
    ensures var t := noun[1..] + sfx + sign;
            && noun + sfx + sign + rest == [' '] + (t + rest)
            && |t + rest| > 0 && !IsDigit((t + rest)[0])
            && forall k :: 0 <= k < |t| ==> t[k] != ' '
  {
    var t := noun[1..] + sfx + sign;
    assert noun == [' '] + noun[1..];
    forall k | 0 <= k < |t| ensures t[k] != ' ' {
      if k < |noun| - 1 {
        assert t[k] == noun[k + 1];
      } else if k < |noun| - 1 + |sfx| {
        assert t[k] == sfx[k - |noun| + 1];
      } else {
        assert t[k] == sign[k - |noun| + 1 - |sfx|];
      }
    }
  }

  /** A space not followed by a digit starts no match. */
  lemma CountAfterSpace(t: string, word: string)
    requires |t| > 0 && !IsDigit(t[0])
    ensures CountBefore([' '] + t, word) == CountBefore(t, word)
  {
    assert ([' '] + t)[1..] == t;
  }

  /** The tuple `git_commit` returns: branch, hash, files changed, insertions, deletions. */
  datatype Commit = Commit(branch: Option<string>, hashId: Option<string>, changed: Option<nat>,
                           inserted: Option<nat>, deleted: Option<nat>)

  const NoCommit: Commit := Commit(None, None, None, None, None)

  /**
   * What `CommitHandler`'s patterns read from a line: the first line's
   * branch and hash, the summary line's file count and tail, and the
   * number before a word in that tail.
   */
  datatype Patterns = Patterns(top: string -> Option<(string, string)>, chg: string -> Option<(nat, string)>,
                               search: (string, string) -> Option<nat>)

  /** The patterns as compiled in `__init_regexps`. */
  const GitPatterns: Patterns := Patterns(TopMatch, ChgMatch, CountBefore)

  /**
   * An insertion or deletion count, given what the search for its word
   * found.  As written the code records the files-changed number whenever
   * the word is present; the corrected reading records the number found.
   */
  function CountOf(files: nat, found: Option<nat>, asWritten: bool): nat
  {
    match found
    case None => 0
    case Some(k) => if asWritten then files else k
  }

  /** The counts a summary line gives. */
  function Summarised(c: Commit, summary: Option<(nat, string)>, asWritten: bool, p: Patterns): Commit
  {
    match summary
    case None => c
    case Some((n, stuff)) =>
      c.(changed := Some(n), inserted := Some(CountOf(n, p.search(stuff, " insertion"), asWritten)),
         deleted := Some(CountOf(n, p.search(stuff, " deletion"), asWritten)))
  }

  /** `CommitHandler.__process_line`. */
  function ProcessLine(c: Commit, line: string, asWritten: bool, p: Patterns): Result<Commit>
  {
    if c.branch.None? && c.hashId.None? then
      match p.top(line)
      case Some((b, h)) => Ok(c.(branch := Some(b), hashId := Some(h)))
      case None => Err("Bad first line of commit: " + line)
    else if c.changed.None? || c.inserted.None? || c.deleted.None? then
      if p.chg(line).Some? then Ok(Summarised(c, p.chg(line), asWritten, p)) else Ok(c)
    else Ok(c)
  }

  function ReadCommit(lines: seq<string>, c: Commit, asWritten: bool, p: Patterns): Result<Commit>
    decreases |lines|
  {
    if |lines| == 0 then Ok(c)
    else
      var c' :- ProcessLine(c, lines[0], asWritten, p);
      ReadCommit(lines[1..], c', asWritten, p)
  }

  /** `git_commit`'s result read from the command's output, as written. */
  function CommitOutputAsWritten(lines: seq<string>): Result<Commit>
  {
    ReadCommit(lines, NoCommit, true, GitPatterns)
  }

  /** The same with the insertion and deletion numbers taken from their own groups. */
  function CommitOutput(lines: seq<string>): Result<Commit>
  {
    ReadCommit(lines, NoCommit, false, GitPatterns)
  }

  // ----- the reference reading -----

  /** The first line of `lines` that matches the summary pattern, read. */
  function FirstSummary(lines: seq<string>, p: Patterns): Option<(nat, string)>
    decreases |lines|
  {
    if |lines| == 0 then None
    else if p.chg(lines[0]).Some? then p.chg(lines[0])
    else FirstSummary(lines[1..], p)
  }

  /** Once all three counts are known, the remaining lines change nothing. */
  lemma {:induction false} ReadAfterSummary(lines: seq<string>, c: Commit, asWritten: bool, p: Patterns)
    requires c.branch.Some? && c.changed.Some? && c.inserted.Some? && c.deleted.Some?
    ensures ReadCommit(lines, c, asWritten, p) == Ok(c)
    decreases |lines|
  {
    if |lines| > 0 {
      ReadAfterSummary(lines[1..], c, asWritten, p);
    }
  }

  /** After the first line, the first summary line sets the counts and nothing else does. */
  lemma {:induction false} ReadAfterTop(lines: seq<string>, c: Commit, asWritten: bool, p: Patterns)
    requires c.branch.Some? && c.changed.None? && c.inserted.None? && c.deleted.None?
    ensures ReadCommit(lines, c, asWritten, p) == Ok(Summarised(c, FirstSummary(lines, p), asWritten, p))
    decreases |lines|
  {
    if |lines| > 0 {
      if p.chg(lines[0]).Some? {
        ReadAfterSummary(lines[1..], Summarised(c, p.chg(lines[0]), asWritten, p), asWritten, p);
      } else {
        ReadAfterTop(lines[1..], c, asWritten, p);
      }
    }
  }

  /**
   * Reading a commit's output: no output gives no values; otherwise it
   * succeeds exactly when the first line matches, which fixes branch and
   * hash, and the first summary line after it gives the counts (which
   * stay unset without one).  Later lines, "delete mode" ones included,
   * change nothing.
   */
  lemma CommitSpec(lines: seq<string>, asWritten: bool, p: Patterns)
    ensures lines == [] ==> ReadCommit(lines, NoCommit, asWritten, p) == Ok(NoCommit)
    ensures lines != [] ==> (ReadCommit(lines, NoCommit, asWritten, p).Ok? <==> p.top(lines[0]).Some?)
    ensures lines != [] && p.top(lines[0]).Some? ==>
              ReadCommit(lines, NoCommit, asWritten, p) ==
              Ok(Summarised(Commit(Some(p.top(lines[0]).value.0), Some(p.top(lines[0]).value.1), None, None, None),
                            FirstSummary(lines[1..], p), asWritten, p))
  {
    if lines != [] && p.top(lines[0]).Some? {
      var (b, h) := p.top(lines[0]).value;
      ReadAfterTop(lines[1..], Commit(Some(b), Some(h), None, None, None), asWritten, p);
    }
  }

  /** As written, each of insertions and deletions is either 0 or the number of files changed. */
  lemma AsWrittenCopiesFiles(lines: seq<string>, p: Patterns)
    ensures var r := ReadCommit(lines, NoCommit, true, p);
            r.Ok? && r.value.changed.Some? ==>
              r.value.inserted.Some? && r.value.deleted.Some? &&
              (r.value.inserted.value == 0 || r.value.inserted == r.value.changed) &&
              (r.value.deleted.value == 0 || r.value.deleted == r.value.changed)
  {
    CommitSpec(lines, true, p);
  }

  /** Corrected, the counts are the numbers the searches find, and 0 where they find none. */
  lemma CountsAreFound(lines: seq<string>, p: Patterns)
    requires lines != [] && FirstSummary(lines[1..], p).Some?
    ensures var r := ReadCommit(lines, NoCommit, false, p);
            var stuff := FirstSummary(lines[1..], p).value.1;
            r.Ok? ==> r.value.inserted == Some(p.search(stuff, " insertion").UnwrapOr(0)) &&
                      r.value.deleted == Some(p.search(stuff, " deletion").UnwrapOr(0))
  {
    CommitSpec(lines, false, p);
  }

  /**
   * Git's output for a commit of `files` files with `ins` insertions and
   * `del` deletions: as written the result reports `files` for both
   * counts, the corrected reading reports `ins` and `del`.
   */
  lemma CommitOfSummary(branch: string, hash: string, msg: string, files: nat, ins: nat, del: nat, more: seq<string>)
    requires IsWord(branch) && IsWord(hash)
    ensures CommitOutputAsWritten([TopLine(branch, hash, msg), SummaryLine(files, ins, del)] + more) ==
            Ok(Commit(Some(branch), Some(hash), Some(files), Some(files), Some(files)))
    ensures CommitOutput([TopLine(branch, hash, msg), SummaryLine(files, ins, del)] + more) ==
            Ok(Commit(Some(branch), Some(hash), Some(files), Some(ins), Some(del)))
  {
    var top, sum := TopLine(branch, hash, msg), SummaryLine(files, ins, del);
    TopOfTopLine(branch, hash, msg);
    ChgOfSummaryLine(files, ins, del);
    InsertionsOfChangeCounts(ins, del);
    DeletionsOfChangeCounts(ins, del);
    ReadTwo(top, sum, more, true, GitPatterns);
    ReadTwo(top, sum, more, false, GitPatterns);
  }

  /** A first line that matches followed by a summary line: the reading the two give. */
  lemma ReadTwo(top: string, sum: string, more: seq<string>, asWritten: bool, p: Patterns)
    requires p.top(top).Some? && p.chg(sum).Some?
    ensures ReadCommit([top, sum] + more, NoCommit, asWritten, p) ==
            Ok(Summarised(Commit(Some(p.top(top).value.0), Some(p.top(top).value.1), None, None, None),
                          p.chg(sum), asWritten, p))
  {
    var lines := [top, sum] + more;
    assert lines[0] == top;
    assert lines[1..] == [sum] + more;
    assert FirstSummary([sum] + more, p) == p.chg(sum);
    CommitSpec(lines, asWritten, p);
  }
}

=== FILE: mantis_converter.dfy ===
/**
 * The decisions the Mantis-to-GitHub converter makes before and around
 * its calls to GitHub: the order in which issues are opened, which of
 * them a call to `add_issues` opens, the title and body of the GitHub
 * issue, its milestone and status label, the retry schedule when GitHub
 * refuses with status 403, and the issues a Subversion revision reopens.
 * GitHub itself is an oracle: a function from attempt to response.
 */
module MantisConverter {
  import opened Wrappers
  import opened StrUtil
  import Sorting
  import MantisDump

  /** `pluralize`: the suffix for a count. */
  function Pluralize(n: int): (r: string)
    ensures r == "" <==> n == 1
    ensures r != "" ==> r == "s"
  {
    if n == 1 then "" else "s"
  }

  /** The fields of a Mantis issue the converter reads. */
  datatype Issue = Issue(
    id: int,
    project: Option<string>,
    summary: Option<string>,
    description: Option<string>,
    stepsToReproduce: Option<string>,
    additionalInformation: Option<string>,
    reporter: string,
    dateSubmitted: string,
    status: int,
    fixedInVersion: string,
    targetVersion: string)

  /** The issues by number, as the dictionary `load_issues` builds. */
  type Issues = seq<(int, Issue)>

  function Numbers(issues: Issues): (r: set<int>)
    ensures forall n :: n in r <==> exists k :: 0 <= k < |issues| && issues[k].0 == n
  {
    set k | 0 <= k < |issues| :: issues[k].0
  }

  /** An issue belongs to the converted projects: all projects when none are named. */
  predicate InProjects(issue: Issue, projectNames: Option<seq<string>>)
  {
    projectNames.None? || (issue.project.Some? && issue.project.value in projectNames.value)
  }

  // ----- __create_issue_order -----

  /** The issue numbers the Subversion log messages reference, less the `None` ones. */
  function Referenced(svnIssues: seq<(int, seq<Option<int>>)>): (r: seq<int>)
    ensures forall n :: n in r <==> exists i, k :: 0 <= i < |svnIssues| && 0 <= k < |svnIssues[i].1| &&
                                                  svnIssues[i].1[k] == Some(n)
  {
    if svnIssues == [] then []
    else
      var rest := Referenced(svnIssues[1..]);
      assert forall i :: 1 <= i < |svnIssues| ==> svnIssues[i] == svnIssues[1..][i - 1];
      Present(svnIssues[0].1) + rest
  }

  function Present(numbers: seq<Option<int>>): (r: seq<int>)
    ensures forall n :: n in r <==> Some(n) in numbers
  {
    if numbers == [] then []
    else (if numbers[0].Some? then [numbers[0].value] else []) + Present(numbers[1..])
  }

  /** The numbers of the issues in the converted projects. */
  function ProjectNumbers(issues: Issues, projectNames: Option<seq<string>>): (r: seq<int>)
    ensures forall n :: n in r <==> exists k :: 0 <= k < |issues| && issues[k].0 == n &&
                                                InProjects(issues[k].1, projectNames)
  {
    if issues == [] then []
    else
      var rest := ProjectNumbers(issues[1..], projectNames);
      assert forall k :: 1 <= k < |issues| ==> issues[k] == issues[1..][k - 1];
      (if InProjects(issues[0].1, projectNames) then [issues[0].0] else []) + rest
  }

  /**
   * `__create_issue_order`: ascending and without repeats, the numbers
   * referenced from Subversion and those of the issues in the converted
   * projects.
   */
  function IssueOrder(svnIssues: Option<seq<(int, seq<Option<int>>)>>, issues: Issues,
                      projectNames: Option<seq<string>>): (r: seq<int>)
    ensures Sorting.StrictlyIncreasing(r)
    ensures forall n :: n in r <==>
              (svnIssues.Some? && n in Referenced(svnIssues.value)) ||
              (exists k :: 0 <= k < |issues| && issues[k].0 == n && InProjects(issues[k].1, projectNames))
  {
    var referenced := if svnIssues.None? then [] else Referenced(svnIssues.value);
    Sorting.SortedUnique(referenced + ProjectNumbers(issues, projectNames))
  }

  /** The order depends only on which numbers occur, not on how the inputs are ordered. */
  lemma IssueOrderUnique(svnIssues: Option<seq<(int, seq<Option<int>>)>>, issues: Issues,
                         projectNames: Option<seq<string>>, order: seq<int>)
    requires Sorting.StrictlyIncreasing(order)
    requires forall n :: n in order <==>
               (svnIssues.Some? && n in Referenced(svnIssues.value)) ||
               (exists k :: 0 <= k < |issues| && issues[k].0 == n && InProjects(issues[k].1, projectNames))
    ensures IssueOrder(svnIssues, issues, projectNames) == order
  {
    Sorting.IncreasingUnique(IssueOrder(svnIssues, issues, projectNames), order);
  }

  // ----- add_issues -----

  /** Whether a number lies in the window `add_issues` was asked for. */
  predicate InWindow(n: int, mantisId: Option<int>, addAfter: bool)
  {
    mantisId.None? || (if addAfter then n > mantisId.value else n < mantisId.value)
  }

  /**
   * The selection loop of `add_issues`: below the given id the loop
   * stops at the first number not below it; with `add_after` it passes
   * over numbers not above it.  Numbers already on GitHub are passed
   * over, and numbers with no issue are recorded as missing unless the
   * missing list holds them already.  The result is the issues to open
   * and the numbers appended to the missing list.
   */
  function SelectIssues(numbers: seq<int>, mantisId: Option<int>, addAfter: bool, onGithub: set<int>,
                        known: set<int>, missing: seq<int>): (r: (seq<int>, seq<int>))
    ensures forall n :: n in r.0 ==> n in numbers && InWindow(n, mantisId, addAfter) && n !in onGithub && n in known
    ensures forall n :: n in r.1 ==> n in numbers && InWindow(n, mantisId, addAfter) && n !in onGithub &&
                                     n !in known && n !in missing
    decreases |numbers|
  {
    if numbers == [] then ([], [])
    else
      var n := numbers[0];
      if mantisId.Some? && !addAfter && n >= mantisId.value then ([], [])
      else
        var take := InWindow(n, mantisId, addAfter) && n !in onGithub;
        var record := take && n !in known && n !in missing;
        var rest := SelectIssues(numbers[1..], mantisId, addAfter, onGithub, known,
                                 if record then missing + [n] else missing);
        assert forall m :: m in numbers[1..] ==> m in numbers;
        ((if take && n in known then [n] else []) + rest.0, (if record then [n] else []) + rest.1)
  }

  lemma TailAbove(numbers: seq<int>)
    requires Sorting.StrictlyIncreasing(numbers) && |numbers| > 0
    ensures Sorting.StrictlyIncreasing(numbers[1..])
    ensures forall m :: m in numbers[1..] ==> numbers[0] < m
  {
    forall m | m in numbers[1..] ensures numbers[0] < m {
      var i :| 0 <= i < |numbers[1..]| && numbers[1..][i] == m;
      assert numbers[i + 1] == m;
    }
  }

  /** Over an ascending list both the issues selected and the numbers recorded missing are ascending. */
  lemma {:induction false} SelectionAscending(numbers: seq<int>, mantisId: Option<int>, addAfter: bool,
                                              onGithub: set<int>, known: set<int>, missing: seq<int>)
    requires Sorting.StrictlyIncreasing(numbers)
    ensures var r := SelectIssues(numbers, mantisId, addAfter, onGithub, known, missing);
            Sorting.StrictlyIncreasing(r.0) && Sorting.StrictlyIncreasing(r.1)
    decreases |numbers|
  {
    if numbers != [] {
      var n := numbers[0];
      if !(mantisId.Some? && !addAfter && n >= mantisId.value) {
        var take := InWindow(n, mantisId, addAfter) && n !in onGithub;
        var record := take && n !in known && n !in missing;
        var missing' := if record then missing + [n] else missing;
        TailAbove(numbers);
        SelectionAscending(numbers[1..], mantisId, addAfter, onGithub, known, missing');
        var rest := SelectIssues(numbers[1..], mantisId, addAfter, onGithub, known, missing');
        SelectedAbove(numbers, mantisId, addAfter, onGithub, known, missing');
        MaybeConsIncreasing(take && n in known, n, rest.0);
        MaybeConsIncreasing(record, n, rest.1);
      }
    }
  }

  /** What is selected from the tail of an ascending list lies above its head. */
  lemma SelectedAbove(numbers: seq<int>, mantisId: Option<int>, addAfter: bool,
                      onGithub: set<int>, known: set<int>, missing: seq<int>)
    requires |numbers| > 0 && forall m :: m in numbers[1..] ==> numbers[0] < m
    ensures var rest := SelectIssues(numbers[1..], mantisId, addAfter, onGithub, known, missing);
            (forall m :: m in rest.0 ==> numbers[0] < m) && (forall m :: m in rest.1 ==> numbers[0] < m)
  {
  }

  /** A number below everything of an ascending list, put in front or not, leaves it ascending. */
  lemma MaybeConsIncreasing(put: bool, n: int, rest: seq<int>)
    requires Sorting.StrictlyIncreasing(rest) && forall m :: m in rest ==> n < m
    ensures Sorting.StrictlyIncreasing((if put then [n] else []) + rest)
  {
    if put {
      Sorting.ConsIncreasing(n, rest);
    } else {
      assert [] + rest == rest;
    }
  }

  /** Over an ascending list, every number in the window, not on GitHub yet and with an issue, is selected. */
  lemma {:induction false} SelectsWholeWindow(numbers: seq<int>, mantisId: Option<int>, addAfter: bool,
                                              onGithub: set<int>, known: set<int>, missing: seq<int>, n: int)
    requires Sorting.StrictlyIncreasing(numbers)
    requires n in numbers && InWindow(n, mantisId, addAfter) && n !in onGithub && n in known
    ensures n in SelectIssues(numbers, mantisId, addAfter, onGithub, known, missing).0
    decreases |numbers|
  {
    var m := numbers[0];
    if n != m {
      TailAbove(numbers);
      assert n in numbers[1..] by {
        var i :| 0 <= i < |numbers| && numbers[i] == n;
        assert numbers[1..][i - 1] == n;
      }
      var missing' := if InWindow(m, mantisId, addAfter) && m !in onGithub && m !in known && m !in missing
                      then missing + [m] else missing;
      SelectsWholeWindow(numbers[1..], mantisId, addAfter, onGithub, known, missing', n);
    }
  }

  /** Each missing number is recorded at most once: the missing list never repeats. */
  lemma MissingOnce(numbers: seq<int>, mantisId: Option<int>, addAfter: bool, onGithub: set<int>,
                    known: set<int>, missing: seq<int>)
    requires forall i, j :: 0 <= i < j < |missing| ==> missing[i] != missing[j]
    requires Sorting.StrictlyIncreasing(numbers)
    ensures var m := missing + SelectIssues(numbers, mantisId, addAfter, onGithub, known, missing).1;
            forall i, j :: 0 <= i < j < |m| ==> m[i] != m[j]
  {
    SelectionAscending(numbers, mantisId, addAfter, onGithub, known, missing);
    var added := SelectIssues(numbers, mantisId, addAfter, onGithub, known, missing).1;
    var m := missing + added;
    forall i, j | 0 <= i < j < |m| ensures m[i] != m[j] {
      if j >= |missing| {
        assert m[j] == added[j - |missing|] && m[j] in added;
        if i >= |missing| {
          assert m[i] == added[i - |missing|];
        } else {
          assert m[i] == missing[i] && m[i] in missing;
        }
      } else {
        assert m[i] == missing[i] && m[j] == missing[j];
      }
    }
  }

  // ----- __mantis_issue_to_strings -----

  /** A text that is there and not empty. */
  predicate Given(text: Option<string>)
  {
    text.Some? && text.value != ""
  }

  /** The tag a title starts with: who reported the issue, and when. */
  function ReportTag(issue: Issue): string
  {
    "[" + issue.reporter + " on " + issue.dateSubmitted + "] "
  }

  /** The text a title is made of: the summary, else the description, else "Mantis issue <id>". */
  function TitleText(issue: Issue): string
  {
    if Given(issue.summary) then issue.summary.value
    else if Given(issue.description) then issue.description.value
    else "Mantis issue " + IntToString(issue.id)
  }

  /** The name of a foreign project and ": ", or nothing. */
  function ProjectPrefix(foreignProject: Option<string>): string
  {
    if foreignProject.Some? then foreignProject.value + ": " else ""
  }

  /**
   * The title: its text, after the name of a foreign project, after the
   * report tag when the issue has a summary or a description.
   */
  function Title(issue: Issue, foreignProject: Option<string>): (r: string)
    ensures EndsWith(r, TitleText(issue))
    ensures Given(issue.summary) || Given(issue.description) ==> StartsWith(r, ReportTag(issue) + ": ")
    ensures Given(issue.summary) || Given(issue.description) ==>
              r == ReportTag(issue) + ": " + (ProjectPrefix(foreignProject) + TitleText(issue))
    ensures !Given(issue.summary) && !Given(issue.description) ==>
              r == ProjectPrefix(foreignProject) + ("Mantis issue " + IntToString(issue.id))
  {
    var text := TitleText(issue);
    var withProject := ProjectPrefix(foreignProject) + text;
    Affixes(ProjectPrefix(foreignProject), text);
    if Given(issue.summary) || Given(issue.description) then
      Affixes(ReportTag(issue) + ": ", withProject);
      EndsWithTrans(ReportTag(issue) + ": " + withProject, withProject, text);
      ReportTag(issue) + ": " + withProject
    else withProject
  }

  /** One field added to the body: the body starts with it or gains it after a blank line. */
  function AddField(message: Option<string>, field: string, text: Option<string>): (r: Option<string>)
    ensures !Given(text) ==> r == message
    ensures Given(text) ==> r.Some? && EndsWith(r.value, field + ": " + text.value)
    ensures Given(text) && message.Some? ==> StartsWith(r.value, message.value + "\n\n")
    ensures Given(text) && message.None? ==> r == Some(field + ": " + text.value)
    ensures Given(text) && message.Some? ==> r == Some(message.value + "\n\n" + (field + ": " + text.value))
  {
    if !Given(text) then message
    else
      var line := field + ": " + text.value;
      match message
      case None => Some(line)
      case Some(m) =>
        Affixes(m + "\n\n", line);
        Some(m + "\n\n" + line)
  }

  /** The field line of a field that is given. */
  function FieldPiece(field: string, text: Option<string>): seq<string>
  {
    if Given(text) then [field + ": " + text.value] else []
  }

  /**
   * The pieces of the body, in order: the description (after a newline)
   * when the summary took the title, then each given field under its
   * heading.
   */
  function BodyPieces(issue: Issue): seq<string>
  {
    (if Given(issue.summary) && Given(issue.description) then ["\n" + issue.description.value] else []) +
    FieldPiece("Steps to Reproduce", issue.stepsToReproduce) +
    FieldPiece("Additional Information", issue.additionalInformation)
  }

  /** Pieces separated by blank lines, or nothing when there are none. */
  function Paragraphs(pieces: seq<string>): Option<string>
  {
    if pieces == [] then None else Some(Join(pieces, "\n\n"))
  }

  /** Adding a field to a body made of pieces gives the body made of those pieces and the field line. */
  lemma AddFieldPieces(pieces: seq<string>, field: string, text: Option<string>)
    ensures AddField(Paragraphs(pieces), field, text) == Paragraphs(pieces + FieldPiece(field, text))
  {
    if Given(text) {
      var line := field + ": " + text.value;
      assert pieces + FieldPiece(field, text) == pieces + [line];
      if pieces == [] {
        assert pieces + [line] == [line];
        assert Join([line], "\n\n") == line;
      } else {
        JoinSnoc(pieces, line, "\n\n");
      }
    } else {
      assert pieces + FieldPiece(field, text) == pieces;
    }
  }

  /**
   * The body: the description when the summary took the title, then the
   * steps to reproduce and the additional information, each under its
   * heading; nothing when there is none of these.
   */
  function Body(issue: Issue): (r: Option<string>)
    ensures r == Paragraphs(BodyPieces(issue))
    ensures r.None? <==> !(Given(issue.summary) && Given(issue.description)) &&
                         !Given(issue.stepsToReproduce) && !Given(issue.additionalInformation)
    ensures Given(issue.summary) && Given(issue.description) ==>
              StartsWith(r.value, "\n" + issue.description.value)
    ensures Given(issue.additionalInformation) ==>
              EndsWith(r.value, "Additional Information: " + issue.additionalInformation.value)
  {
    var message := if Given(issue.summary) && Given(issue.description) then Some("\n" + issue.description.value)
                   else None;
    var first := AddField(message, "Steps to Reproduce", issue.stepsToReproduce);
    var body := AddField(first, "Additional Information", issue.additionalInformation);
    FieldsKeepStart(message, issue);
    BodyIsParagraphs(issue);
    body
  }

  /** The two fields added after the description make up the paragraphs of the body's pieces. */
  lemma BodyIsParagraphs(issue: Issue)
    ensures var message := if Given(issue.summary) && Given(issue.description) then Some("\n" + issue.description.value)
                           else None;
            AddField(AddField(message, "Steps to Reproduce", issue.stepsToReproduce),
                     "Additional Information", issue.additionalInformation) == Paragraphs(BodyPieces(issue))
  {
    var lead := if Given(issue.summary) && Given(issue.description) then ["\n" + issue.description.value] else [];
    var steps := FieldPiece("Steps to Reproduce", issue.stepsToReproduce);
    var info := FieldPiece("Additional Information", issue.additionalInformation);
    if Given(issue.summary) && Given(issue.description) {
      assert Join(lead, "\n\n") == "\n" + issue.description.value;
    }
    AddFieldPieces(lead, "Steps to Reproduce", issue.stepsToReproduce);
    AddFieldPieces(lead + steps, "Additional Information", issue.additionalInformation);
    assert BodyPieces(issue) == lead + steps + info;
  }

  lemma FieldsKeepStart(message: Option<string>, issue: Issue)
    ensures var body := AddField(AddField(message, "Steps to Reproduce", issue.stepsToReproduce),
                                 "Additional Information", issue.additionalInformation);
            message.Some? ==> StartsWith(body.value, message.value)
  {
    var first := AddField(message, "Steps to Reproduce", issue.stepsToReproduce);
    var body := AddField(first, "Additional Information", issue.additionalInformation);
    if message.Some? {
      if Given(issue.stepsToReproduce) {
        StartsWithTrans(first.value, message.value + "\n\n", message.value);
      }
      if Given(issue.additionalInformation) {
        StartsWithTrans(body.value, first.value + "\n\n", first.value);
        StartsWithTrans(body.value, first.value, message.value);
      }
    }
  }

  /** `__mantis_issue_to_strings`: the title and the body. */
  function IssueStrings(issue: Issue, foreignProject: Option<string>): (r: (string, Option<string>))
    ensures EndsWith(r.0, TitleText(issue))
    ensures Given(issue.summary) || Given(issue.description) ==>
              r.0 == ReportTag(issue) + ": " + (ProjectPrefix(foreignProject) + TitleText(issue))
    ensures !Given(issue.summary) && !Given(issue.description) ==>
              r.0 == ProjectPrefix(foreignProject) + ("Mantis issue " + IntToString(issue.id))
    ensures r.1 == Paragraphs(BodyPieces(issue))
    ensures r.1.None? <==> !(Given(issue.summary) && Given(issue.description)) &&
                           !Given(issue.stepsToReproduce) && !Given(issue.additionalInformation)
  {
    (Title(issue, foreignProject), Body(issue))
  }

  // ----- milestone and label -----

  /** The milestone: the version the issue was fixed in, else the target version, else none. */
  function Milestone(issue: Issue): (r: Option<string>)
    ensures r.None? <==> issue.fixedInVersion == "" && issue.targetVersion == ""
    ensures r.Some? ==> r.value != "" && (r.value == issue.fixedInVersion || r.value == issue.targetVersion)
    ensures issue.fixedInVersion != "" ==> r == Some(issue.fixedInVersion)
  {
    if issue.fixedInVersion != "" then Some(issue.fixedInVersion)
    else if issue.targetVersion != "" then Some(issue.targetVersion)
    else None
  }

  /** The colours of the labels the converter may create, by status name. */
  const LabelColors: map<string, string> := map[
    "new" := "fcbdbd", "feedback" := "e3b7eb", "acknowledged" := "ffcd85",
    "confirmed" := "fff494", "assigned" := "c2dfff", "resolved" := "d2f5b0"]

  /**
   * The status label: only an issue that is not closed gets one, and
   * only when every status is preserved, or resolved ones are and the
   * issue is resolved.  The label is the status name.
   */
  function StatusLabel(status: int, preserveAll: bool, preserveResolved: bool): (r: Option<string>)
    ensures r.Some? <==> !MantisDump.IsClosed(status) &&
                         (preserveAll || (preserveResolved && MantisDump.IsResolved(status)))
    ensures r.Some? ==> r.value == MantisDump.Status(status) && r.value != "closed"
  {
    if !MantisDump.IsClosed(status) && (preserveAll || (preserveResolved && MantisDump.IsResolved(status)))
    then Some(MantisDump.Status(status))
    else None
  }

  /**
   * A label for one of the listed statuses always has a colour; one for
   * an unlisted status code has none, so creating it fails.
   */
  lemma LabelHasColor(status: int, preserveAll: bool, preserveResolved: bool)
    requires StatusLabel(status, preserveAll, preserveResolved).Some?
    ensures StatusLabel(status, preserveAll, preserveResolved).value in LabelColors <==>
            MantisDump.StatusListed(status)
  {
    var name := MantisDump.Status(status);
    if !MantisDump.StatusListed(status) {
      assert name[0] == '?';
      assert forall k :: k in LabelColors ==> k[0] != '?';
    }
  }

  // ----- opening an issue -----

  /** GitHub's answer to one attempt to create an issue. */
  datatype Response = Created(number: nat) | Refused(status: int)

  /** How the creation ends: the issue opened, attempts given up, or the error passed on; with the pauses taken. */
  datatype Attempts = Opened(number: nat, pauses: seq<nat>) | GaveUp(pauses: seq<nat>) | Raised(status: int, pauses: seq<nat>)

  const MaxAttempts := 6

  /**
   * The retry loop of `__open_issue`: a 403 refusal costs one of six
   * tries and a pause that grows by a minute each time; any other
   * refusal is passed on.
   */
  function Retry(respond: nat -> Response, attempt: nat, retries: int, pause: nat, pauses: seq<nat>): (r: Attempts)
    requires retries > 0
    decreases retries
  {
    match respond(attempt)
    case Created(n) => Opened(n, pauses)
    case Refused(status) =>
      if status != 403 then Raised(status, pauses)
      else if retries - 1 <= 0 then GaveUp(pauses)
      else Retry(respond, attempt + 1, retries - 1, pause + 60, pauses + [pause])
  }

  function CreateIssue(respond: nat -> Response): Attempts
  {
    Retry(respond, 0, MaxAttempts, 60, [])
  }

  /** The pauses taken before the `k`-th attempt: one, two, ... minutes. */
  function Pauses(k: nat): (r: seq<nat>)
    ensures |r| == k && forall i :: 0 <= i < k ==> r[i] == 60 * (i + 1)
  {
    if k == 0 then [] else Pauses(k - 1) + [60 * k]
  }

  predicate AllForbidden(respond: nat -> Response, from: nat, to: nat)
  {
    forall j :: from <= j < to ==> respond(j) == Refused(403)
  }

  /** The first of the allowed attempts from `from` on that GitHub does not refuse with 403. */
  function FirstAnswer(respond: nat -> Response, from: nat): (r: Option<nat>)
    ensures r.Some? ==> from <= r.value < MaxAttempts && AllForbidden(respond, from, r.value) &&
                        respond(r.value) != Refused(403)
    ensures r.None? ==> AllForbidden(respond, from, MaxAttempts)
    decreases MaxAttempts - from
  {
    if from >= MaxAttempts then None
    else if respond(from) != Refused(403) then Some(from)
    else FirstAnswer(respond, from + 1)
  }

  /** What creating an issue should come to, read off the first answer that is not a 403. */
  function Expected(respond: nat -> Response, from: nat): Attempts
  {
    match FirstAnswer(respond, from)
    case None => GaveUp(Pauses(MaxAttempts - 1))
    case Some(k) =>
      match respond(k)
      case Created(n) => Opened(n, Pauses(k))
      case Refused(status) => Raised(status, Pauses(k))
  }

  lemma {:induction false} RetryIsExpected(respond: nat -> Response, attempt: nat)
    requires attempt < MaxAttempts
    ensures Retry(respond, attempt, MaxAttempts - attempt, 60 * (attempt + 1), Pauses(attempt)) ==
            Expected(respond, attempt)
    decreases MaxAttempts - attempt
  {
    if respond(attempt) == Refused(403) && attempt + 1 < MaxAttempts {
      assert Pauses(attempt) + [60 * (attempt + 1)] == Pauses(attempt + 1);
      RetryIsExpected(respond, attempt + 1);
    }
  }

  /**
   * At most six attempts: the issue is opened, or the error passed on,
   * at the first attempt GitHub does not refuse with 403, after a pause
   * of one more minute before each retry; six 403s in a row give up
   * after pauses of one to five minutes.
   */
  lemma CreateIssueSchedule(respond: nat -> Response)
    ensures CreateIssue(respond) == Expected(respond, 0)
    ensures CreateIssue(respond).GaveUp? <==> AllForbidden(respond, 0, MaxAttempts)
    ensures CreateIssue(respond).GaveUp? ==> CreateIssue(respond).pauses == [60, 120, 180, 240, 300]
  {
    RetryIsExpected(respond, 0);
    GivesUpOnlyOnForbidden(respond);
    FivePauses();
  }

  /** The expected outcome gives up exactly when all six attempts are refused with 403. */
  lemma GivesUpOnlyOnForbidden(respond: nat -> Response)
    ensures Expected(respond, 0).GaveUp? <==> AllForbidden(respond, 0, MaxAttempts)
  {
    var first := FirstAnswer(respond, 0);
    if first.Some? {
      assert respond(first.value) != Refused(403);
    }
  }

  /** The pauses before the sixth attempt: one to five minutes. */
  lemma FivePauses()
    ensures Pauses(MaxAttempts - 1) == [60, 120, 180, 240, 300]
  {
    var p := Pauses(5);
    assert p[0] == 60 && p[1] == 120 && p[2] == 180 && p[3] == 240 && p[4] == 300;
  }

  // ----- open_github_issues -----

  /**
   * What one referenced number brings back, independently of the loop:
   * nothing for an unknown number, the issue already on GitHub, or else
   * what opening it gives.
   */
  function IssueFor(n: int, known: set<int>, onGithub: map<int, nat>, open: int -> Option<nat>): Option<nat>
  {
    if n !in known then None
    else if n in onGithub then Some(onGithub[n])
    else open(n)
  }

  /** The issues of the referenced numbers, in reference order, each as `IssueFor` gives it. */
  function IssuesFor(numbers: seq<int>, known: set<int>, onGithub: map<int, nat>, open: int -> Option<nat>): seq<nat>
  {
    if numbers == [] then []
    else
      var found := IssueFor(numbers[0], known, onGithub, open);
      (if found.Some? then [found.value] else []) + IssuesFor(numbers[1..], known, onGithub, open)
  }

  /**
   * The loop of `open_github_issues` over the numbers a revision
   * references: unknown numbers are passed over, an issue already on
   * GitHub is reopened, and any other is opened (the oracle `open` says
   * whether that succeeds) and from then on counts as on GitHub. Each
   * known number on GitHub, or for which opening succeeds, contributes its
   * issue, in reference order.
   */
  function OpenEach(numbers: seq<int>, known: set<int>, onGithub: map<int, nat>, open: int -> Option<nat>): (r: seq<nat>)
    ensures r == IssuesFor(numbers, known, onGithub, open)
    ensures |r| <= |numbers|
    ensures (forall k :: 0 <= k < |numbers| ==> numbers[k] !in known) ==> r == []
    ensures forall g :: g in r ==> g in onGithub.Values || exists k :: 0 <= k < |numbers| && open(numbers[k]) == Some(g)
  {
    if numbers == [] then []
    else
      var n := numbers[0];
      var (found, onGithub') :=
        if n !in known then (None, onGithub)
        else if n in onGithub then (Some(onGithub[n]), onGithub)
        else match open(n)
             case None => (None, onGithub)
             case Some(g) => (Some(g), onGithub[n := g]);
      var rest := OpenEach(numbers[1..], known, onGithub', open);
      assert forall g :: g in onGithub'.Values ==> g in onGithub.Values || open(n) == Some(g);
      assert forall k :: 0 <= k < |numbers[1..]| ==> numbers[1..][k] == numbers[k + 1];
      assert found == IssueFor(n, known, onGithub, open);
      SameIssues(numbers[1..], known, onGithub, onGithub', open);
      (if found.Some? then [found.value] else []) + rest
  }

  /** Two maps that give every number the same issue give every run of numbers the same issues. */
  lemma {:induction false} SameIssues(numbers: seq<int>, known: set<int>, m: map<int, nat>, m': map<int, nat>,
                                      open: int -> Option<nat>)
    requires forall n :: IssueFor(n, known, m, open) == IssueFor(n, known, m', open)
    ensures IssuesFor(numbers, known, m, open) == IssuesFor(numbers, known, m', open)
    decreases |numbers|
  {
    if numbers != [] {
      SameIssues(numbers[1..], known, m, m', open);
    }
  }

  /** A number contributes an issue to the loop exactly when `IssueFor` gives it one. */
  lemma {:induction false} IssuesForMembers(numbers: seq<int>, known: set<int>, onGithub: map<int, nat>,
                                            open: int -> Option<nat>, g: nat)
    ensures g in IssuesFor(numbers, known, onGithub, open) <==>
            exists k :: 0 <= k < |numbers| && IssueFor(numbers[k], known, onGithub, open) == Some(g)
    decreases |numbers|
  {
    if numbers != [] {
      IssuesForMembers(numbers[1..], known, onGithub, open, g);
      var tail := numbers[1..];
      if exists k :: 0 <= k < |numbers| && IssueFor(numbers[k], known, onGithub, open) == Some(g) {
        var k :| 0 <= k < |numbers| && IssueFor(numbers[k], known, onGithub, open) == Some(g);
        if k > 0 {
          assert tail[k - 1] == numbers[k];
        }
      }
      if exists k :: 0 <= k < |tail| && IssueFor(tail[k], known, onGithub, open) == Some(g) {
        var k :| 0 <= k < |tail| && IssueFor(tail[k], known, onGithub, open) == Some(g);
        assert numbers[k + 1] == tail[k];
      }
    }
  }

  /**
   * `open_github_issues`: `None` for a revision that references no issue,
   * or when no issue comes back; otherwise the issues of the revision's
   * numbers in reference order.
   */
  function OpenGithubIssues(svnIssues: Option<map<int, seq<int>>>, revision: int, known: set<int>,
                            onGithub: map<int, nat>, open: int -> Option<nat>): (r: Option<seq<nat>>)
    ensures svnIssues.None? || revision !in svnIssues.value ==> r.None?
    ensures r.Some? ==> 0 < |r.value| <= |svnIssues.value[revision]|
    ensures r.Some? <==> svnIssues.Some? && revision in svnIssues.value &&
                         exists k :: 0 <= k < |svnIssues.value[revision]| &&
                                     IssueFor(svnIssues.value[revision][k], known, onGithub, open).Some?
    ensures r.Some? ==> r.value == IssuesFor(svnIssues.value[revision], known, onGithub, open)
  {
    if svnIssues.None? || revision !in svnIssues.value then None
    else
      var numbers := svnIssues.value[revision];
      var found := OpenEach(numbers, known, onGithub, open);
      AnyIssue(numbers, known, onGithub, open);
      if found == [] then None else Some(found)
  }

  /** Some issue comes back exactly when some referenced number has one. */
  lemma AnyIssue(numbers: seq<int>, known: set<int>, onGithub: map<int, nat>, open: int -> Option<nat>)
    ensures IssuesFor(numbers, known, onGithub, open) != [] <==>
            exists k :: 0 <= k < |numbers| && IssueFor(numbers[k], known, onGithub, open).Some?
  {
    var r := IssuesFor(numbers, known, onGithub, open);
    if r != [] {
      IssuesForMembers(numbers, known, onGithub, open, r[0]);
    }
    if exists k :: 0 <= k < |numbers| && IssueFor(numbers[k], known, onGithub, open).Some? {
      var k :| 0 <= k < |numbers| && IssueFor(numbers[k], known, onGithub, open).Some?;
      IssuesForMembers(numbers, known, onGithub, open, IssueFor(numbers[k], known, onGithub, open).value);
    }
  }
}

=== FILE: mantisdump.dfy ===
/**
 * The Mantis side of a MySQL dump: which tables are read and what becomes
 * of them, the names shown for an issue's status and priority codes, the
 * name lookups in the user and project tables, the repair of text
 * columns, and the write-once text of an issue note.
 */
module MantisDump {
  import opened Wrappers
  import opened StrUtil
  import MySqlDump

  // ----- the schema -----

  const Main := "mantis_bug_table"
  const Category := "mantis_category_table"
  const Project := "mantis_project_table"
  const User := "mantis_user_table"
  const TextTable := "mantis_bug_text_table"
  const Bugnote := "mantis_bugnote_table"
  const BugnoteText := "mantis_bugnote_text_table"

  /** The tables an issue needs beside the main one. */
  const Dependencies: seq<string> := [Category, Project, User, TextTable, Bugnote, BugnoteText]

  /** Tables known to hold nothing the conversion needs. */
  const Ignored: seq<string> := [
    "mantis_bug_file_table", "mantis_bug_history_table",
    "mantis_bug_monitor_table", "mantis_bug_relationship_table",
    "mantis_bug_revision_table", "mantis_bug_tag_table",
    "mantis_config_table", "mantis_custom_field_project_table",
    "mantis_custom_field_string_table", "mantis_custom_field_table",
    "mantis_filters_table", "mantis_news_table",
    "mantis_plugin_table", "mantis_project_file_table",
    "mantis_project_hierarchy_table",
    "mantis_project_user_list_table",
    "mantis_project_version_table", "mantis_tag_table",
    "mantis_tokens_table", "mantis_user_pref_table",
    "mantis_user_profile_table"]

  const AllTables: seq<string> := [Main] + Dependencies

  /** The main table, with the dependency tables attached to it by name. */
  datatype BugTable = BugTable(name: string, dependencies: map<string, MySqlDump.DataTable>)

  /** Every table attached to a bug table is one of the dependencies. */
  predicate KnownDependencies(t: BugTable)
  {
    forall n :: n in t.dependencies ==> n in Dependencies
  }

  /**
   * `add_table`: only a dependency table may be attached, and a table
   * attached again under the same name replaces the earlier one.
   */
  function AddTable(t: BugTable, tableName: string, data: MySqlDump.DataTable): (r: Result<BugTable>)
    ensures r.Ok? <==> tableName in Dependencies
    ensures r.Ok? ==> r.value.name == t.name && tableName in r.value.dependencies &&
                      r.value.dependencies[tableName] == data
    ensures r.Ok? ==> forall n :: n != tableName ==>
                        (n in r.value.dependencies <==> n in t.dependencies) &&
                        (n in t.dependencies ==> r.value.dependencies[n] == t.dependencies[n])
    ensures r.Ok? && KnownDependencies(t) ==> KnownDependencies(r.value)
  {
    if tableName in Dependencies then Ok(t.(dependencies := t.dependencies[tableName := data]))
    else Err("Cannot add unknown Mantis table \"" + tableName + "\"")
  }

  /** What `create_data_table` makes of a table named in the dump. */
  datatype TableKind = IssueTable | PlainTable

  /**
   * `create_data_table`: an issue table for the main table, a plain
   * table for a dependency, and nothing otherwise; the flag says whether
   * the unknown-table warning is given, which it is for every skipped
   * table not on the ignore list.
   */
  function CreateDataTable(name: string): (r: (Option<TableKind>, bool))
    ensures r.0 == Some(IssueTable) <==> name == Main
    ensures r.0 == Some(PlainTable) <==> name in Dependencies
    ensures r.0.None? <==> name !in AllTables
    ensures r.1 <==> name !in AllTables && name !in Ignored
  {
    if name == Main then (Some(IssueTable), false)
    else if name in Dependencies then (Some(PlainTable), false)
    else (None, name !in Ignored)
  }

  /** Every plain table the dump creates can be attached to the issue table. */
  lemma CreatedTablesAttach(t: BugTable, name: string, data: MySqlDump.DataTable)
    requires CreateDataTable(name).0 == Some(PlainTable)
    ensures AddTable(t, name, data).Ok?
  {
  }

  // ----- code names -----

  const StatusResolved := 80
  const StatusClosed := 90

  /** How an unlisted code is shown: `"??%s??" % code`. */
  function Unknown(code: int): (r: string)
    ensures |r| >= 5 && r[0] == '?'
  {
    "??" + IntToString(code) + "??"
  }

  /** Reading a code back from between the "??" marks. */
  function UnknownCode(name: string): (r: Option<int>)
  {
    if |name| >= 4 && name[..2] == "??" && name[|name| - 2..] == "??" then ParseInt(name[2..|name| - 2])
    else None
  }

  /** An unlisted code's name reads back as the code. */
  lemma UnknownReadsBack(code: int)
    ensures UnknownCode(Unknown(code)) == Some(code)
  {
    var digits := IntToString(code);
    var name := Unknown(code);
    assert name[..2] == "??" && name[|name| - 2..] == "??";
    assert name[2..|name| - 2] == digits;
    IntToStringThenParse(code);
  }

  predicate StatusListed(code: int)
  {
    code in {10, 20, 30, 40, 50, StatusResolved, StatusClosed}
  }

  /** The `status` property. */
  function Status(code: int): (r: string)
    ensures |r| > 0 && (StatusListed(code) <==> r[0] != '?')
  {
    if code == 10 then "new"
    else if code == 20 then "feedback"
    else if code == 30 then "acknowledged"
    else if code == 40 then "confirmed"
    else if code == 50 then "assigned"
    else if code == StatusResolved then "resolved"
    else if code == StatusClosed then "closed"
    else Unknown(code)
  }

  /** The status code a shown status stands for, when it stands for one. */
  function StatusCode(name: string): (r: Option<int>)
    ensures r.Some? && |name| > 0 && name[0] == '?' ==> !StatusListed(r.value)
  {
    if name == "new" then Some(10)
    else if name == "feedback" then Some(20)
    else if name == "acknowledged" then Some(30)
    else if name == "confirmed" then Some(40)
    else if name == "assigned" then Some(50)
    else if name == "resolved" then Some(StatusResolved)
    else if name == "closed" then Some(StatusClosed)
    else match UnknownCode(name)
         case Some(n) => if StatusListed(n) then None else Some(n)
         case None => None
  }

  /** Every status code, listed or not, is read back from the name shown for it. */
  lemma StatusReadsBack(code: int)
    ensures StatusCode(Status(code)) == Some(code)
  {
    if !StatusListed(code) {
      var name := Unknown(code);
      assert Status(code) == name;
      UnknownReadsBack(code);
      MarkedStatusCode(name);
    }
  }

  /** A name starting with '?' is none of the listed statuses. */
  lemma MarkedStatusCode(name: string)
    requires |name| > 0 && name[0] == '?'
    ensures StatusCode(name) == match UnknownCode(name)
                                case Some(n) => if StatusListed(n) then None else Some(n)
                                case None => None
  {
    assert name != "new" && name != "feedback" && name != "acknowledged" && name != "confirmed" by {
      assert "new"[0] == 'n' && "feedback"[0] == 'f' && "acknowledged"[0] == 'a' && "confirmed"[0] == 'c';
    }
    assert name != "assigned" && name != "resolved" && name != "closed" by {
      assert "assigned"[0] == 'a' && "resolved"[0] == 'r' && "closed"[0] == 'c';
    }
  }

  /** Different status codes are shown under different names. */
  lemma StatusInjective(a: int, b: int)
    requires Status(a) == Status(b)
    ensures a == b
  {
    StatusReadsBack(a);
    StatusReadsBack(b);
  }

  predicate PriorityListed(code: int)
  {
    code in {10, 20, 30, 40, 50, 80}
  }

  /** The `priority` property. */
  function Priority(code: int): (r: string)
    ensures |r| > 0 && (PriorityListed(code) <==> r[0] != '?')
  {
    if code == 10 then "none"
    else if code == 20 then "low"
    else if code == 30 then "normal"
    else if code == 40 then "high"
    else if code == 50 then "urgent"
    else if code == 80 then "immediate"
    else Unknown(code)
  }

  /** The priority code a shown priority stands for, when it stands for one. */
  function PriorityCode(name: string): (r: Option<int>)
    ensures r.Some? && |name| > 0 && name[0] == '?' ==> !PriorityListed(r.value)
  {
    if name == "none" then Some(10)
    else if name == "low" then Some(20)
    else if name == "normal" then Some(30)
    else if name == "high" then Some(40)
    else if name == "urgent" then Some(50)
    else if name == "immediate" then Some(80)
    else match UnknownCode(name)
         case Some(n) => if PriorityListed(n) then None else Some(n)
         case None => None
  }

  /** Every priority code, listed or not, is read back from the name shown for it. */
  lemma PriorityReadsBack(code: int)
    ensures PriorityCode(Priority(code)) == Some(code)
  {
    if !PriorityListed(code) {
      var name := Unknown(code);
      assert Priority(code) == name;
      UnknownReadsBack(code);
      MarkedPriorityCode(name);
    }
  }

  /** A name starting with '?' is none of the listed priorities. */
  lemma MarkedPriorityCode(name: string)
    requires |name| > 0 && name[0] == '?'
    ensures PriorityCode(name) == match UnknownCode(name)
                                  case Some(n) => if PriorityListed(n) then None else Some(n)
                                  case None => None
  {
    assert name != "none" && name != "low" && name != "normal" by {
      assert "none"[0] == 'n' && "low"[0] == 'l' && "normal"[0] == 'n';
    }
    assert name != "high" && name != "urgent" && name != "immediate" by {
      assert "high"[0] == 'h' && "urgent"[0] == 'u' && "immediate"[0] == 'i';
    }
  }

  /** Different priority codes are shown under different names. */
  lemma PriorityInjective(a: int, b: int)
    requires Priority(a) == Priority(b)
    ensures a == b
  {
    PriorityReadsBack(a);
    PriorityReadsBack(b);
  }

  /** `is_closed`: the status code is the closed code, so the status reads "closed". */
  function IsClosed(status: int): (r: bool)
    ensures r <==> Status(status) == "closed"
  {
    StatusReadsBack(status);
    status == StatusClosed
  }

  /** `is_resolved`: the status code is the resolved code, so the status reads "resolved". */
  function IsResolved(status: int): (r: bool)
    ensures r <==> Status(status) == "resolved"
  {
    StatusReadsBack(status);
    status == StatusResolved
  }

  /** No issue is both closed and resolved. */
  lemma NeverClosedAndResolved(status: int)
    ensures !(IsClosed(status) && IsResolved(status))
  {
    if IsClosed(status) {
      assert Status(status) == "closed";
    }
  }

  // ----- name lookups -----

  /** A row of the user, project or category table: its id and the name column asked for. */
  datatype NamedRow = NamedRow(id: int, name: string)

  /** The number of rows with the given id. */
  function Matches(rows: seq<NamedRow>, id: int): (r: nat)
    ensures r <= |rows|
    ensures r == 0 <==> forall k :: 0 <= k < |rows| ==> rows[k].id != id
  {
    if rows == [] then 0 else (if rows[0].id == id then 1 else 0) + Matches(rows[1..], id)
  }

  /** The loop of `__find_name`, with the name found so far. */
  function ScanNames(rows: seq<NamedRow>, id: int, idName: string, found: Option<string>): (r: Result<Option<string>>)
  {
    if rows == [] then Ok(found)
    else if rows[0].id != id then ScanNames(rows[1..], id, idName, found)
    else if found.None? then ScanNames(rows[1..], id, idName, Some(rows[0].name))
    else Err("Found multiple entries for " + idName + " #" + IntToString(id))
  }

  /**
   * `__find_name`: nothing when there is no table or no row with the id,
   * the name of the one row with the id, and an error when a second row
   * has it.
   */
  function FindName(table: Option<seq<NamedRow>>, id: int, idName: string): (r: Result<Option<string>>)
  {
    match table
    case None => Ok(None)
    case Some(rows) => ScanNames(rows, id, idName, None)
  }

  lemma {:induction false} ScanNamesSpec(rows: seq<NamedRow>, id: int, idName: string, found: Option<string>)
    ensures var r := ScanNames(rows, id, idName, found);
            && (r.Err? <==> Matches(rows, id) + (if found.Some? then 1 else 0) >= 2)
            && (r == Ok(None) <==> found.None? && Matches(rows, id) == 0)
            && (found.Some? && Matches(rows, id) == 0 ==> r == Ok(found))
            && (found.None? && r.Ok? && r.value.Some? ==>
                 exists k :: 0 <= k < |rows| && rows[k] == NamedRow(id, r.value.value))
    decreases |rows|
  {
    if rows != [] {
      var next := if rows[0].id == id && found.None? then Some(rows[0].name) else found;
      if !(rows[0].id == id && found.Some?) {
        ScanNamesSpec(rows[1..], id, idName, next);
        var r := ScanNames(rows, id, idName, found);
        if found.None? && r.Ok? && r.value.Some? {
          if rows[0].id == id {
            if Matches(rows[1..], id) == 0 {
              assert rows[0] == NamedRow(id, r.value.value);
            }
          } else {
            var k :| 0 <= k < |rows[1..]| && rows[1..][k] == NamedRow(id, r.value.value);
            assert rows[k + 1] == rows[1..][k];
          }
        }
      }
    }
  }

  /** `__find_name` fails exactly when two rows have the id, and finds a name exactly when one row has it. */
  lemma FindNameSpec(rows: seq<NamedRow>, id: int, idName: string)
    ensures var r := FindName(Some(rows), id, idName);
            && (r.Err? <==> Matches(rows, id) >= 2)
            && (r == Ok(None) <==> Matches(rows, id) == 0)
            && (r.Ok? && r.value.Some? ==> Matches(rows, id) == 1 &&
                                           exists k :: 0 <= k < |rows| && rows[k] == NamedRow(id, r.value.value))
  {
    ScanNamesSpec(rows, id, idName, None);
  }

  /** The `reporter` property: the user's name, or "user<id>" for a user the table does not hold. */
  function Reporter(users: Option<seq<NamedRow>>, reporterId: int): (r: Result<string>)
    ensures users.None? ==> r == Ok("user" + IntToString(reporterId))
  {
    var name :- FindName(users, reporterId, "reporter_id");
    Ok(if name.None? then "user" + IntToString(reporterId) else name.value)
  }

  /** A reporter with no user row gets the fallback name; one with a single row gets that row's name. */
  lemma ReporterFallback(users: seq<NamedRow>, reporterId: int)
    ensures Matches(users, reporterId) == 0 ==> Reporter(Some(users), reporterId) == Ok("user" + IntToString(reporterId))
    ensures Matches(users, reporterId) == 1 ==>
              Reporter(Some(users), reporterId).Ok? &&
              exists k :: 0 <= k < |users| && users[k] == NamedRow(reporterId, Reporter(Some(users), reporterId).value)
    ensures Reporter(Some(users), reporterId).Err? <==> Matches(users, reporterId) >= 2
  {
    FindNameSpec(users, reporterId, "reporter_id");
  }

  // ----- text columns -----

  /** The two-character escape of a backslash, and the four-character escape of a line break. */
  const EscapedCrLf := "\\r\\n"

  /**
   * `__fix_sql_text`: each escaped line break becomes a real one (the
   * source splits at the escape and joins with CR LF, which is a
   * replacement), each doubled backslash a single one, and trailing
   * white space goes.
   */
  function FixSqlText(text: Option<string>): (r: Option<string>)
    ensures r.None? <==> text.None?
    ensures r.Some? ==> r.value == [] || !IsSpace(r.value[|r.value| - 1])
  {
    match text
    case None => None
    case Some(t) => Some(RStrip(Replace(Replace(t, EscapedCrLf, "\r\n"), "\\\\", "\\")))
  }

  /** How a dump writes a text holding CR LF line breaks: each break as its escape. */
  function EscapeCrLf(s: string): (r: string)
    decreases |s|
  {
    if |s| >= 2 && s[0] == '\r' && s[1] == '\n' then EscapedCrLf + EscapeCrLf(s[2..])
    else if |s| == 0 then ""
    else [s[0]] + EscapeCrLf(s[1..])
  }

  lemma {:induction false} UnescapeCrLf(s: string)
    requires '\\' !in s
    ensures Replace(EscapeCrLf(s), EscapedCrLf, "\r\n") == s
    decreases |s|
  {
    if |s| >= 2 && s[0] == '\r' && s[1] == '\n' {
      NoBackslashAfter(s, 2);
      UnescapeCrLf(s[2..]);
      ReplaceAtEscape(EscapeCrLf(s[2..]));
      assert s == "\r\n" + s[2..];
    } else if |s| > 0 {
      NoBackslashAfter(s, 1);
      UnescapeCrLf(s[1..]);
      ReplaceAtPlain(s[0], EscapeCrLf(s[1..]));
      assert s == [s[0]] + s[1..];
    }
  }

  lemma NoBackslashAfter(s: string, n: nat)
    requires '\\' !in s && n <= |s|
    ensures '\\' !in s[n..]
  {
    assert forall i :: 0 <= i < |s[n..]| ==> s[n..][i] == s[i + n];
  }

  lemma ReplaceAtEscape(x: string)
    ensures Replace(EscapedCrLf + x, EscapedCrLf, "\r\n") == "\r\n" + Replace(x, EscapedCrLf, "\r\n")
  {
    var e := EscapedCrLf + x;
    assert e[..4] == EscapedCrLf && e[4..] == x;
  }

  lemma ReplaceAtPlain(c: char, x: string)
    requires c != '\\'
    ensures Replace([c] + x, EscapedCrLf, "\r\n") == [c] + Replace(x, EscapedCrLf, "\r\n")
  {
    var e := [c] + x;
    assert e[1..] == x;
    if |e| >= 4 {
      assert e[..4][0] == c;
    }
  }

  /** Repairing the dump of a backslash-free text gives the text back, less its trailing white space. */
  lemma FixSqlTextOfEscaped(s: string)
    requires '\\' !in s
    ensures FixSqlText(Some(EscapeCrLf(s))) == Some(RStrip(s))
  {
    UnescapeCrLf(s);
    ReplaceAbsent(s, "\\\\", "\\");
  }

  // ----- notes -----

  /** A note on an issue: who wrote it, when, and its text once set. */
  datatype Note = Note(reporter: string, submitted: int, modified: int, text: Option<string>)

  function NewNote(reporter: string, submitted: int, modified: int): (r: Note)
    ensures r.text.None?
  {
    Note(reporter, submitted, modified, None)
  }

  /** Setting a note's text: no text is an error, and a text already set is never overwritten. */
  function SetText(note: Note, text: Option<string>): (r: Result<Note>)
    ensures r.Ok? <==> text.Some? && note.text.None?
    ensures r.Ok? ==> r.value.text == text && r.value.reporter == note.reporter &&
                      r.value.submitted == note.submitted && r.value.modified == note.modified
  {
    if text.None? then Err("Cannot set note text to None")
    else if note.text.Some? then Err("Cannot overwrite note text")
    else Ok(note.(text := text))
  }

  /** A note's text is written once: after it is set, every further setting fails and it reads as set. */
  lemma TextWrittenOnce(reporter: string, submitted: int, modified: int, first: string, second: Option<string>)
    ensures var n := SetText(NewNote(reporter, submitted, modified), Some(first));
            n.Ok? && n.value.text == Some(first) && SetText(n.value, second).Err?
  {
  }
}

=== FILE: mysqldump.dfy ===
/**
 * The MySQL dump reader's text logic: quoting of default values, the
 * table filter, the splitter that cuts an `INSERT` row into its fields,
 * the decoding of one field by its column's type, and the data table a
 * table definition receives once.  The tokenizer that produces rows from
 * the dump file is not part of this model; a row arrives as its text.
 */
module MySqlDump {
  import opened Wrappers
  import opened StrUtil
  import Seqs

  // ----- quoting -----

  /** `__is_quoted`: at least two characters, opened by ' or " and closed by the same. */
  predicate IsQuoted(raw: string)
  {
    |raw| >= 2 && (raw[0] == '\'' || raw[0] == '"') && raw[|raw| - 1] == raw[0]
  }

  /**
   * `__quote_string`: wrap in '"' when the text has none, else in '\''
   * when it has none, else give up.
   */
  function QuoteString(raw: string): (r: Option<string>)
    ensures r.None? <==> '"' in raw && '\'' in raw
    ensures r.Some? ==> IsQuoted(r.value) && r.value[1..|r.value| - 1] == raw && r.value[0] !in raw
    ensures r.Some? && '"' !in raw ==> r.value[0] == '"'
  {
    if '"' !in raw then Some("\"" + raw + "\"")
    else if '\'' !in raw then Some("'" + raw + "'")
    else None
  }

  /** `default_string`: the default as it is when already quoted, otherwise quoted ("None" when it cannot be). */
  function DefaultString(dflt: string): (r: string)
    ensures StartsWith(r, " DEFAULT ")
    ensures IsQuoted(dflt) ==> r[9..] == dflt
    ensures !IsQuoted(dflt) && QuoteString(dflt).Some? ==> IsQuoted(r[9..]) && r[10..|r| - 1] == dflt
    ensures !IsQuoted(dflt) && QuoteString(dflt).None? ==> r[9..] == "None"
  {
    var vstr := if IsQuoted(dflt) then dflt else ShowOption(QuoteString(dflt));
    assert (" DEFAULT " + vstr)[9..] == vstr;
    " DEFAULT " + vstr
  }

  // ----- the table filter -----

  /** `__use_table`: off an include list, or on an omit list, a table is not read. */
  function UseTable(name: string, includeList: Option<seq<string>>, omitList: Option<seq<string>>): (r: bool)
    ensures r <==> (includeList.None? || name in includeList.value) && (omitList.None? || name !in omitList.value)
  {
    if includeList.Some? && name !in includeList.value then false
    else if omitList.Some? && name in omitList.value then false
    else true
  }

  /** The names of the tables, in order. */
  function TableNames(tables: seq<(string, bool)>): (r: seq<string>)
    ensures |r| == |tables| && forall k :: 0 <= k < |r| ==> r[k] == tables[k].0
  {
    seq(|tables|, k requires 0 <= k < |tables| => tables[k].0)
  }

  /** The filter of `__use_table` as a predicate on names. */
  function Accepts(includeList: Option<seq<string>>, omitList: Option<seq<string>>): string -> bool
  {
    (name: string) => UseTable(name, includeList, omitList)
  }

  /**
   * The tables `read_mysqldump` yields: each table the filter accepts is
   * yielded when the next one starts, but the last one only if it received
   * data rows.  `tables` pairs each name with whether it has a data table.
   */
  function YieldedTables(tables: seq<(string, bool)>, includeList: Option<seq<string>>,
                         omitList: Option<seq<string>>): (r: seq<string>)
    ensures forall k :: 0 <= k < |r| ==> UseTable(r[k], includeList, omitList)
    ensures |r| <= |tables|
    ensures |tables| > 0 ==>
              var n := |tables| - 1;
              r == Seqs.Filter(TableNames(tables[..n]), Accepts(includeList, omitList)) +
                   (if tables[n].1 && UseTable(tables[n].0, includeList, omitList) then [tables[n].0] else [])
    decreases |tables|
  {
    if |tables| == 0 then []
    else
      var (name, hasData) := tables[0];
      var keep := UseTable(name, includeList, omitList) && (|tables| > 1 || hasData);
      var rest := YieldedTables(tables[1..], includeList, omitList);
      if |tables| > 1 then
        YieldedStep(tables, includeList, omitList, rest);
        (if keep then [name] else []) + rest
      else
        assert TableNames(tables[..0]) == [];
        (if keep then [name] else []) + rest
  }

  /** One step of `YieldedTables`: the first table is yielded in front of the rest when the filter accepts it. */
  lemma YieldedStep(tables: seq<(string, bool)>, includeList: Option<seq<string>>,
                    omitList: Option<seq<string>>, rest: seq<string>)
    requires |tables| > 1
    requires var n := |tables| - 2;
             rest == Seqs.Filter(TableNames(tables[1..][..n]), Accepts(includeList, omitList)) +
                     (if tables[1..][n].1 && UseTable(tables[1..][n].0, includeList, omitList) then [tables[1..][n].0] else [])
    ensures var n := |tables| - 1;
            var keep := UseTable(tables[0].0, includeList, omitList);
            (if keep then [tables[0].0] else []) + rest ==
              Seqs.Filter(TableNames(tables[..n]), Accepts(includeList, omitList)) +
              (if tables[n].1 && UseTable(tables[n].0, includeList, omitList) then [tables[n].0] else [])
  {
    var n := |tables| - 1;
    var tail := TableNames(tables[1..][..n - 1]);
    assert tables[1..][n - 1] == tables[n];
    NamesCons(tables);
    Seqs.FilterCons(tables[0].0, tail, Accepts(includeList, omitList));
  }

  lemma NamesCons(tables: seq<(string, bool)>)
    requires |tables| > 1
    ensures var n := |tables| - 1;
            TableNames(tables[..n]) == [tables[0].0] + TableNames(tables[1..][..n - 1])
  {
    var n := |tables| - 1;
    var a := TableNames(tables[..n]);
    var b := [tables[0].0] + TableNames(tables[1..][..n - 1]);
    assert |a| == |b|;
    forall k | 0 <= k < |a| ensures a[k] == b[k] {
      if k > 0 {
        assert tables[1..][..n - 1][k - 1] == tables[k];
      }
    }
  }

  /** Every accepted table but the last is yielded whether or not it has data; the last needs data. */
  lemma {:induction false} YieldedTablesOf(tables: seq<(string, bool)>, includeList: Option<seq<string>>,
                                           omitList: Option<seq<string>>)
    requires forall k :: 0 <= k < |tables| ==> UseTable(tables[k].0, includeList, omitList)
    ensures |tables| > 0 ==> |YieldedTables(tables, includeList, omitList)| ==
                               |tables| - (if tables[|tables| - 1].1 then 0 else 1)
    decreases |tables|
  {
    if |tables| > 1 {
      YieldedTablesOf(tables[1..], includeList, omitList);
      assert tables[1..][|tables[1..]| - 1] == tables[|tables| - 1];
    }
  }

  // ----- splitting a row -----

  /** The number of backslashes running back from just before index `i`. */
  function Backslashes(s: string, i: int): (r: nat)
    requires i <= |s|
    ensures i <= 0 ==> r == 0
    ensures 0 < i ==> r <= i
    decreases i
  {
    if i <= 0 || s[i - 1] != '\\' then 0 else 1 + Backslashes(s, i - 1)
  }

  /** The character before the end of `piece` is escaped by an odd run of backslashes. */
  predicate OddSlashes(piece: string)
  {
    Backslashes(piece, |piece| - 1) % 2 == 1
  }

  /** The text held over from earlier pieces, then `s`. */
  function Prepend(segment: Option<string>, s: string): string
  {
    match segment
    case None => s
    case Some(g) => g + s
  }

  /**
   * A piece taken into the pending segment, with the comma that split it
   * off put back.  As written the comma is only added when the segment
   * does not already end with one, which drops the comma after an empty
   * piece.
   */
  function Absorb(segment: Option<string>, head: string, asWritten: bool): (r: string)
    ensures EndsWith(r, ",")
    ensures !asWritten ==> r == Prepend(segment, head) + ","
    ensures head != "" && head[|head| - 1] != ',' ==> r == Prepend(segment, head) + ","
  {
    var s := Prepend(segment, head);
    assert head != "" ==> s[|s| - 1] == head[|head| - 1];
    if asWritten && EndsWith(s, ",") then s else s + ","
  }

  /**
   * What the splitter does at one pass of its loop: the text ends the row
   * as a last field; a field is yielded and reading goes on after the
   * comma; or the text before the comma is held in the pending segment.
   */
  datatype Move = Last(field: string) | Yield(field: string, rest: string) | Hold(segment: string, rest: string)

  /**
   * One pass of `__split_row`'s loop from a pending segment.  At the first
   * comma: a character before it escaped by an odd run of backslashes
   * means the comma is data; a field opened by a quote runs on until a
   * piece ends in a quote; any other field ends at the comma.  Text
   * without a comma ends the row.
   *
   * As written, the character before the comma is read with Python's
   * `rowstr[idx-1]`, which for a comma at the very start of the remaining
   * text is the LAST character of that text; the corrected reading
   * (`asWritten` false) finds no character there, and always puts the
   * comma back.
   */
  function Step(row: string, segment: Option<string>, asWritten: bool): (r: Move)
    ensures !r.Last? ==> |r.rest| < |row|
  {
    match SplitOnce(row, ',')
    case None => Last(Prepend(segment, row))
    case Some((head, rest)) => Cut(segment, head, rest, FirstChar(segment, row), LastChar(row, head, asWritten), asWritten)
  }

  /** `rowstr[0] if segment is None else segment[0]`; `None` is an `IndexError`. */
  function FirstChar(segment: Option<string>, row: string): Option<char>
  {
    if segment.Some? then PyAt(segment.value, 0) else PyAt(row, 0)
  }

  /** `rowstr[idx-1]` as written; corrected, the last character of the text before the comma. */
  function LastChar(row: string, head: string, asWritten: bool): Option<char>
    requires |head| <= |row|
  {
    if asWritten then PyAt(row, |head| - 1)
    else if |head| > 0 then Some(head[|head| - 1]) else None
  }

  /** The decision at a comma, given the text before and after it and the two characters compared. */
  function Cut(segment: Option<string>, head: string, rest: string, first: Option<char>, last: Option<char>,
               asWritten: bool): (r: Move)
    ensures !r.Last? && r.rest == rest
  {
    if OddSlashes(head) then Hold(Absorb(segment, head, asWritten), rest)
    else if first == Some('\'') then
      if last == Some('\'') then
        var sub := Prepend(segment, head);
        Yield(if EndsWith(sub, ",") then sub[..|sub| - 1] else sub, rest)
      else Hold(Absorb(segment, head, asWritten), rest)
    else Yield(Prepend(segment, head), rest)
  }

  /** The pass at the first comma of `p + "," + t`. */
  lemma StepAtComma(p: string, t: string, segment: Option<string>, asWritten: bool)
    requires ',' !in p
    ensures Step(p + "," + t, segment, asWritten) ==
            Cut(segment, p, t, FirstChar(segment, p + "," + t), LastChar(p + "," + t, p, asWritten), asWritten)
  {
    SplitOnceAfter(p, ',', t);
  }

  /** The first character compared is that of the pending text, or of the piece when nothing is pending. */
  lemma FirstCharOf(segment: Option<string>, p: string, t: string)
    requires Prepend(segment, p) != "" && (segment.Some? ==> segment.value != "")
    ensures FirstChar(segment, p + "," + t) == Some(Prepend(segment, p)[0])
  {
    if segment.None? {
      assert (p + "," + t)[0] == p[0];
    }
  }

  /** The last character compared is the piece's own, and, corrected, none for an empty piece. */
  lemma LastCharOf(p: string, t: string, asWritten: bool)
    ensures p != "" ==> LastChar(p + "," + t, p, asWritten) == Some(p[|p| - 1])
    ensures p == "" && !asWritten ==> LastChar(p + "," + t, p, asWritten).None?
  {
    if p != "" {
      assert (p + "," + t)[|p| - 1] == p[|p| - 1];
    }
  }

  /** `__split_row` from a pending segment: the fields its passes yield. */
  function SplitFrom(row: string, segment: Option<string>, asWritten: bool): (r: seq<string>)
    ensures |r| >= 1
    decreases |row|
  {
    match Step(row, segment, asWritten)
    case Last(field) => [field]
    case Yield(field, rest) => [field] + SplitFrom(rest, None, asWritten)
    case Hold(held, rest) => SplitFrom(rest, Some(held), asWritten)
  }

  /** The fields of one `INSERT` row, as the splitter does it. */
  function SplitRowAsWritten(row: string): (r: seq<string>)
    ensures |r| >= 1
  {
    SplitFrom(row, None, true)
  }

  function SplitRow(row: string): (r: seq<string>)
    ensures |r| >= 1
  {
    SplitFrom(row, None, false)
  }

  /** Text with no comma is one field: whatever was pending, then the text. */
  lemma NoCommaOneField(row: string, segment: Option<string>, asWritten: bool)
    requires ',' !in row
    ensures SplitFrom(row, segment, asWritten) == [Prepend(segment, row)]
  {
  }

  /**
   * A field not opened by a quote ends at the next comma unless the
   * character before that comma is escaped by an odd run of backslashes,
   * in which case the comma is data and the text so far is held.
   */
  lemma PlainFieldEnds(field: string, rest: string, asWritten: bool)
    requires ',' !in field && (field == "" || field[0] != '\'')
    ensures !OddSlashes(field) ==> SplitFrom(field + "," + rest, None, asWritten) ==
                                    [field] + SplitFrom(rest, None, asWritten)
    ensures OddSlashes(field) ==> SplitFrom(field + "," + rest, None, asWritten) ==
                                  SplitFrom(rest, Some(field + ","), asWritten)
  {
    StepAtComma(field, rest, None, asWritten);
    assert (field + "," + rest)[0] == (if field == "" then ',' else field[0]);
    if OddSlashes(field) {
      assert field[|field| - 1] in field;
    }
  }

  /** A piece that ends a quoted field: it closes with a quote that is not escaped. */
  predicate Closes(piece: string)
  {
    |piece| > 0 && piece[|piece| - 1] == '\'' && !OddSlashes(piece)
  }

  /** A piece that does not end a quoted field; as written, an empty piece is not one of them. */
  predicate Continues(piece: string, asWritten: bool)
  {
    if piece == "" then !asWritten else OddSlashes(piece) || piece[|piece| - 1] != '\''
  }

  /**
   * The comma-free pieces of one field: a single piece not opened by a
   * quote and not escaping its last character, or pieces of which the first
   * opens a quote, all but the last continue it and the last closes it.
   */
  predicate WellFormed(pieces: seq<string>, asWritten: bool)
  {
    && |pieces| >= 1
    && (forall k :: 0 <= k < |pieces| ==> ',' !in pieces[k])
    && if pieces[0] != "" && pieces[0][0] == '\'' then
         && (forall k :: 0 <= k < |pieces| - 1 ==> Continues(pieces[k], asWritten))
         && Closes(pieces[|pieces| - 1])
       else |pieces| == 1 && !OddSlashes(pieces[0])
  }

  /** What follows a field: the end of the row, or a comma and more text. */
  function After(tail: Option<string>): string
  {
    match tail
    case None => ""
    case Some(t) => "," + t
  }

  /** A reader of fields: from text and a pending segment to the fields read. */
  type Reader = (string, Option<string>) -> seq<string>

  /** The splitter as a reader. */
  function Splitter(asWritten: bool): Reader
  {
    (row: string, segment: Option<string>) => SplitFrom(row, segment, asWritten)
  }

  /** The fields read from what follows a field. */
  function FieldsAfter(read: Reader, tail: Option<string>): seq<string>
  {
    match tail
    case None => []
    case Some(t) => read(t, None)
  }

  /** The text pending with a piece opens a quote (and a pending segment is never empty). */
  predicate InQuote(segment: Option<string>, p: string)
  {
    Prepend(segment, p) != "" && Prepend(segment, p)[0] == '\'' && (segment.Some? ==> segment.value != "")
  }

  /** A plain field: no comma, not opened by a quote, its last character not escaped. */
  predicate Plain(p: string)
  {
    ',' !in p && (p == "" || p[0] != '\'') && !OddSlashes(p)
  }

  /**
   * The three passes a reader takes over a field's pieces: a continuing
   * piece is held with its comma, a closing piece yields the quoted field,
   * and a plain field is yielded at its comma or at the end.
   */
  ghost predicate ReadsPieces(read: Reader, asWritten: bool)
  {
    && (forall segment, p, more :: InQuote(segment, p) && ',' !in p && Continues(p, asWritten) ==>
          read(p + "," + more, segment) == read(more, Some(Prepend(segment, p) + ",")))
    && (forall segment, p, tail :: InQuote(segment, p) && ',' !in p && Closes(p) ==>
          read(p + After(tail), segment) == [Prepend(segment, p)] + FieldsAfter(read, tail))
    && (forall p, tail :: Plain(p) ==> read(p + After(tail), None) == [p] + FieldsAfter(read, tail))
  }

  /** The piece that closes a quoted field yields the whole field. */
  lemma ClosingPiece(segment: Option<string>, p: string, tail: Option<string>, asWritten: bool)
    requires InQuote(segment, p) && ',' !in p && Closes(p)
    ensures SplitFrom(p + After(tail), segment, asWritten) ==
            [Prepend(segment, p)] + FieldsAfter(Splitter(asWritten), tail)
  {
    match tail
    case None =>
      assert p + After(tail) == p;
    case Some(t) =>
      assert p + After(tail) == p + "," + t;
      ClosingThenMore(segment, p, t, asWritten);
  }

  /** The closing piece before a comma is yielded, and the text after the comma is read afresh. */
  lemma ClosingThenMore(segment: Option<string>, p: string, t: string, asWritten: bool)
    requires InQuote(segment, p) && ',' !in p && Closes(p)
    ensures Step(p + "," + t, segment, asWritten) == Yield(Prepend(segment, p), t)
  {
    StepAtComma(p, t, segment, asWritten);
    FirstCharOf(segment, p, t);
    LastCharOf(p, t, asWritten);
    var sub := Prepend(segment, p);
    assert !EndsWith(sub, ",") by {
      assert sub[|sub| - 1] == p[|p| - 1];
    }
  }

  /** A piece that continues a quoted field is taken into the pending segment with its comma. */
  lemma ContinuingPiece(segment: Option<string>, p: string, more: string, asWritten: bool)
    requires InQuote(segment, p) && ',' !in p && Continues(p, asWritten)
    ensures SplitFrom(p + "," + more, segment, asWritten) ==
            SplitFrom(more, Some(Prepend(segment, p) + ","), asWritten)
  {
    StepAtComma(p, more, segment, asWritten);
    FirstCharOf(segment, p, more);
    LastCharOf(p, more, asWritten);
    if p != "" {
      assert p[|p| - 1] in p;
    }
    assert Step(p + "," + more, segment, asWritten) == Hold(Prepend(segment, p) + ",", more);
  }

  /** A plain field is yielded at its comma, or at the end of the row. */
  lemma PlainPiece(p: string, tail: Option<string>, asWritten: bool)
    requires Plain(p)
    ensures SplitFrom(p + After(tail), None, asWritten) == [p] + FieldsAfter(Splitter(asWritten), tail)
  {
    match tail
    case None =>
      assert p + After(tail) == p;
      NoCommaOneField(p, None, asWritten);
    case Some(t) =>
      assert p + After(tail) == p + "," + t;
      PlainFieldEnds(p, t, asWritten);
  }

  /** The splitter takes those three passes. */
  lemma SplitterReadsPieces(asWritten: bool)
    ensures ReadsPieces(Splitter(asWritten), asWritten)
  {
    var read := Splitter(asWritten);
    forall segment, p, more | InQuote(segment, p) && ',' !in p && Continues(p, asWritten)
      ensures read(p + "," + more, segment) == read(more, Some(Prepend(segment, p) + ","))
    {
      ContinuingPiece(segment, p, more, asWritten);
    }
    forall segment, p, tail | InQuote(segment, p) && ',' !in p && Closes(p)
      ensures read(p + After(tail), segment) == [Prepend(segment, p)] + FieldsAfter(read, tail)
    {
      ClosingPiece(segment, p, tail, asWritten);
    }
    forall p, tail | Plain(p)
      ensures read(p + After(tail), None) == [p] + FieldsAfter(read, tail)
    {
      PlainPiece(p, tail, asWritten);
    }
  }

  /** With the opening pieces pending as `acc` and a comma, the remaining pieces complete the field. */
  lemma {:induction false} QuotedRest(read: Reader, acc: string, rest: seq<string>, tail: Option<string>, asWritten: bool)
    requires ReadsPieces(read, asWritten)
    requires acc != "" && acc[0] == '\''
    requires |rest| >= 1 && forall k :: 0 <= k < |rest| ==> ',' !in rest[k]
    requires forall k :: 0 <= k < |rest| - 1 ==> Continues(rest[k], asWritten)
    requires Closes(rest[|rest| - 1])
    ensures read(Join(rest, ",") + After(tail), Some(acc + ",")) ==
            [acc + "," + Join(rest, ",")] + FieldsAfter(read, tail)
    decreases |rest|
  {
    var p := rest[0];
    var seg := acc + ",";
    assert InQuote(Some(seg), p) by {
      assert Prepend(Some(seg), p)[0] == seg[0];
    }
    if |rest| == 1 {
      assert Join(rest, ",") == p;
      assert Prepend(Some(seg), p) == acc + "," + p;
    } else {
      var more := Join(rest[1..], ",") + After(tail);
      JoinCons(p, rest[1..], After(tail));
      assert read(p + "," + more, Some(seg)) == read(more, Some(seg + p + ","));
      assert seg + p + "," == (acc + "," + p) + ",";
      QuotedRest(read, acc + "," + p, rest[1..], tail, asWritten);
      Regroup(acc, p, Join(rest[1..], ","));
    }
  }

  lemma JoinCons(p: string, rest: seq<string>, after: string)
    requires |rest| >= 1
    ensures Join([p] + rest, ",") + after == p + "," + (Join(rest, ",") + after)
  {
    var parts := [p] + rest;
    assert parts[0] == p && parts[1..] == rest;
    var joined := Join(rest, ",");
    assert Join(parts, ",") == p + "," + joined;
    Seqs.ConcatAssoc(p + ",", joined, after);
  }

  lemma Regroup(acc: string, p: string, j: string)
    ensures acc + "," + p + "," + j == acc + "," + (p + "," + j)
  {
  }

  /** A whole field followed by the end of the row or by a comma is read as that field. */
  lemma FieldThen(read: Reader, pieces: seq<string>, tail: Option<string>, asWritten: bool)
    requires ReadsPieces(read, asWritten)
    requires WellFormed(pieces, asWritten)
    ensures read(Join(pieces, ",") + After(tail), None) == [Join(pieces, ",")] + FieldsAfter(read, tail)
  {
    var p := pieces[0];
    if p != "" && p[0] == '\'' {
      assert InQuote(None, p);
      if |pieces| == 1 {
        assert Join(pieces, ",") == p;
      } else {
        var more := Join(pieces[1..], ",") + After(tail);
        assert pieces == [p] + pieces[1..];
        JoinCons(p, pieces[1..], After(tail));
        assert read(p + "," + more, None) == read(more, Some(p + ","));
        QuotedTail(pieces, asWritten);
        QuotedRest(read, p, pieces[1..], tail, asWritten);
      }
    } else {
      assert Plain(p);
      assert Join(pieces, ",") == p;
    }
  }

  /** The pieces after the opening one of a quoted field continue it and the last one closes it. */
  lemma QuotedTail(pieces: seq<string>, asWritten: bool)
    requires WellFormed(pieces, asWritten) && |pieces| > 1 && pieces[0] != "" && pieces[0][0] == '\''
    ensures var rest := pieces[1..];
            && (forall k :: 0 <= k < |rest| ==> ',' !in rest[k])
            && (forall k :: 0 <= k < |rest| - 1 ==> Continues(rest[k], asWritten))
            && Closes(rest[|rest| - 1])
  {
    var rest := pieces[1..];
    assert forall k :: 0 <= k < |rest| ==> rest[k] == pieces[k + 1];
  }

  /** The text of a field made of pieces. */
  function FieldText(pieces: seq<string>): string
  {
    Join(pieces, ",")
  }

  /** The fields of a row, each given as its pieces. */
  function FieldTexts(fields: seq<seq<string>>): (r: seq<string>)
    ensures |r| == |fields|
    ensures forall k :: 0 <= k < |r| ==> r[k] == FieldText(fields[k])
  {
    if fields == [] then [] else [FieldText(fields[0])] + FieldTexts(fields[1..])
  }

  /** Any reader taking the splitter's passes reads a row of well-formed fields back as those fields. */
  lemma {:induction false} ReadRowOfJoin(read: Reader, fields: seq<seq<string>>, asWritten: bool)
    requires ReadsPieces(read, asWritten)
    requires |fields| >= 1 && forall k :: 0 <= k < |fields| ==> WellFormed(fields[k], asWritten)
    ensures read(Join(FieldTexts(fields), ","), None) == FieldTexts(fields)
    decreases |fields|
  {
    var first := FieldText(fields[0]);
    if |fields| == 1 {
      FieldThen(read, fields[0], None, asWritten);
      JoinTexts(fields, None);
    } else {
      var rest := Join(FieldTexts(fields[1..]), ",");
      JoinTexts(fields, Some(rest));
      FieldThen(read, fields[0], Some(rest), asWritten);
      ReadRowOfJoin(read, fields[1..], asWritten);
      assert FieldTexts(fields) == [first] + FieldTexts(fields[1..]);
    }
  }

  /** A row of fields is its first field followed by the rest. */
  lemma JoinTexts(fields: seq<seq<string>>, tail: Option<string>)
    requires |fields| >= 1
    requires tail == (if |fields| == 1 then None else Some(Join(FieldTexts(fields[1..]), ",")))
    ensures Join(FieldTexts(fields), ",") == FieldText(fields[0]) + After(tail)
  {
    var texts := FieldTexts(fields);
    FieldTextsTail(fields);
    JoinFirst(texts);
  }

  lemma FieldTextsTail(fields: seq<seq<string>>)
    requires |fields| >= 1
    ensures FieldTexts(fields)[0] == FieldText(fields[0]) && FieldTexts(fields)[1..] == FieldTexts(fields[1..])
  {
  }

  lemma JoinFirst(texts: seq<string>)
    requires |texts| >= 1
    ensures |texts| == 1 ==> Join(texts, ",") == texts[0] + ""
    ensures |texts| > 1 ==> Join(texts, ",") == texts[0] + ("," + Join(texts[1..], ","))
  {
  }

  /**
   * The splitter undoes joining well-formed fields with commas: a row
   * written field by field reads back as exactly those fields.
   */
  lemma SplitRowOfJoin(fields: seq<seq<string>>, asWritten: bool)
    requires |fields| >= 1 && forall k :: 0 <= k < |fields| ==> WellFormed(fields[k], asWritten)
    ensures SplitFrom(Join(FieldTexts(fields), ","), None, asWritten) == FieldTexts(fields)
  {
    SplitterReadsPieces(asWritten);
    ReadRowOfJoin(Splitter(asWritten), fields, asWritten);
  }

  /** As written, a quoted "a,,b" is cut in two at the doubled comma. */
  lemma DoubledCommaSplitsAsWritten()
    ensures SplitRowAsWritten("'a,,b'") == ["'a", "b'"]
  {
    assert "'a,,b'" == "'a" + "," + ("," + "b'");
    DoubledCommaCut("'a", "b'");
  }

  lemma DoubledCommaCut(open: string, last: string)
    requires |open| == 2 && open[0] == '\'' && open[1] !in "',\\"
    requires ',' !in last && |last| >= 1 && last[|last| - 1] == '\''
    ensures SplitFrom(open + "," + ("," + last), None, true) == [open, last]
  {
    var mid := "," + last;
    FirstPassHolds(open, mid);
    SplitAfterHold(open + "," + mid, None, true, open + ",", mid);
    HeldOpenThenLast(open, last);
  }

  /** With the quoted opening held, a leading comma yields it and the last piece follows. */
  lemma HeldOpenThenLast(open: string, last: string)
    requires |open| == 2 && open[0] == '\''
    requires ',' !in last && |last| >= 1 && last[|last| - 1] == '\''
    ensures SplitFrom("," + last, Some(open + ","), true) == [open, last]
  {
    var held := open + ",";
    SecondPassYields(held, last);
    assert held[..|held| - 1] == open;
    YieldThenLast("," + last, Some(held), open, last);
  }

  /** A yielded field followed by text with no comma: two fields. */
  lemma YieldThenLast(row: string, segment: Option<string>, field: string, last: string)
    requires ',' !in last && Step(row, segment, true) == Yield(field, last)
    ensures SplitFrom(row, segment, true) == [field, last]
  {
    SplitAfterYield(row, segment, true, field, last);
    NoCommaOneField(last, None, true);
  }

  /** A held piece carries over into the split of the rest. */
  lemma SplitAfterHold(row: string, segment: Option<string>, asWritten: bool, held: string, rest: string)
    requires Step(row, segment, asWritten) == Hold(held, rest)
    ensures SplitFrom(row, segment, asWritten) == SplitFrom(rest, Some(held), asWritten)
  {
  }

  /** A yielded field heads the split of the rest. */
  lemma SplitAfterYield(row: string, segment: Option<string>, asWritten: bool, field: string, rest: string)
    requires Step(row, segment, asWritten) == Yield(field, rest)
    ensures SplitFrom(row, segment, asWritten) == [field] + SplitFrom(rest, None, asWritten)
  {
  }

  /** A quote and one ordinary character before a comma: the text is held. */
  lemma FirstPassHolds(open: string, t: string)
    requires |open| == 2 && open[0] == '\'' && open[1] !in "',\\"
    ensures Step(open + "," + t, None, true) == Hold(open + ",", t)
  {
    StepAtComma(open, t, None, true);
    assert Backslashes(open, 1) == 0;
    assert FirstChar(None, open + "," + t) == Some('\'');
    assert LastChar(open + "," + t, open, true) == Some(open[1]);
  }

  /** A comma at the start of text ending in a quote: the pending segment is yielded, less its comma. */
  lemma SecondPassYields(held: string, t: string)
    requires |held| >= 2 && held[0] == '\'' && held[|held| - 1] == ',' && |t| >= 1 && t[|t| - 1] == '\''
    ensures Step("," + t, Some(held), true) == Yield(held[..|held| - 1], t)
  {
    StepAtLeadingComma(t, Some(held), true);
    QuotedAtLeadingComma(held, t);
    EmptyNotEscaped();
    CutQuoted(Some(held), "", t, Some('\''), Some('\''), true);
    PendingCommaDropped(held);
  }

  /** Both characters compared at a leading comma are quotes. */
  lemma QuotedAtLeadingComma(held: string, t: string)
    requires |held| >= 1 && held[0] == '\'' && |t| >= 1 && t[|t| - 1] == '\''
    ensures FirstChar(Some(held), "," + t) == Some('\'')
    ensures LastChar("," + t, "", true) == Some('\'')
  {
    var row := "," + t;
    assert row[|row| - 1] == t[|t| - 1];
  }

  /** A pending segment ending in a comma is yielded without it. */
  lemma PendingCommaDropped(held: string)
    requires |held| >= 1 && held[|held| - 1] == ','
    ensures var sub := Prepend(Some(held), "");
            (if EndsWith(sub, ",") then sub[..|sub| - 1] else sub) == held[..|held| - 1]
  {
    var sub := Prepend(Some(held), "");
    assert sub == held;
    assert sub[|sub| - 1..] == [','];
  }

  /** The pass at a comma that starts the text. */
  lemma StepAtLeadingComma(t: string, segment: Option<string>, asWritten: bool)
    ensures Step("," + t, segment, asWritten) ==
            Cut(segment, "", t, FirstChar(segment, "," + t), LastChar("," + t, "", asWritten), asWritten)
  {
    assert "" + "," + t == "," + t;
    StepAtComma("", t, segment, asWritten);
  }

  lemma EmptyNotEscaped()
    ensures !OddSlashes("")
  {
    assert Backslashes("", -1) == 0;
  }

  lemma CutQuoted(segment: Option<string>, head: string, rest: string, first: Option<char>, last: Option<char>,
                  asWritten: bool)
    requires !OddSlashes(head) && first == Some('\'') && last == Some('\'')
    ensures var sub := Prepend(segment, head);
            Cut(segment, head, rest, first, last, asWritten) ==
            Yield(if EndsWith(sub, ",") then sub[..|sub| - 1] else sub, rest)
  {
  }

  /** Corrected, the same text is one field. */
  lemma DoubledCommaKept()
    ensures SplitRow("'a,,b'") == ["'a,,b'"]
  {
    var pieces := ["'a", "", "b'"];
    assert Closes("b'") by {
      assert Backslashes("b'", 1) == 0;
    }
    assert Continues("'a", false) by {
      assert "'a"[1] == 'a';
    }
    assert WellFormed(pieces, false);
    assert pieces[1..] == ["", "b'"] && pieces[1..][1..] == ["b'"];
    assert Join(pieces, ",") == "'a,,b'";
    assert FieldTexts([pieces]) == ["'a,,b'"];
    SplitRowOfJoin([pieces], false);
  }

  // ----- decoding a value -----

  datatype Column = Column(name: string, dataType: string, isEnum: bool)

  datatype Value = Text(s: string) | Int(n: int) | Float(digits: string) | Null

  /** A field's outcome: a value to store, or nothing when the number is malformed (the field is skipped). */
  datatype Decoded = Store(v: Value) | Skip

  predicate NumberType(t: string)
  {
    EndsWith(t, "int") || t == "float" || t == "double"
  }

  predicate TextType(t: string)
  {
    EndsWith(t, "char") || EndsWith(t, "text") || EndsWith(t, "blob")
  }

  predicate DateType(t: string)
  {
    t == "date" || t == "datetime" || t == "time"
  }

  /**
   * The surrounding single quotes of a text value removed.  As written
   * this needs more than two characters, so the empty string `''` keeps
   * its quotes; corrected, two are enough.
   */
  function Unquote(vstr: string, asWritten: bool): (r: string)
    ensures |vstr| >= 2 && vstr[0] == '\'' && vstr[|vstr| - 1] == '\'' && (!asWritten || |vstr| > 2) ==>
              r == vstr[1..|vstr| - 1]
    ensures !(|vstr| >= 2 && vstr[0] == '\'' && vstr[|vstr| - 1] == '\'') ==> r == vstr
  {
    var longEnough := if asWritten then |vstr| > 2 else |vstr| >= 2;
    if longEnough && vstr[0] == '\'' && vstr[|vstr| - 1] == '\'' then vstr[1..|vstr| - 1] else vstr
  }

  /** `\'` becomes `'`, then `\"` becomes `"`. */
  function Unescape(s: string): string
  {
    Replace(Replace(s, "\\'", "'"), "\\\"", "\"")
  }

  /**
   * One field of a row decoded for its column: enum text as it is;
   * "NULL" as `None` for numbers; an integer column's text read as an
   * integer (a malformed one skips the field); text columns unquoted and
   * unescaped; dates unquoted; any other column type is an error.
   */
  function DecodeValue(col: Column, vstr: string, asWritten: bool): (r: Result<Decoded>)
    ensures r.Err? <==> !col.isEnum && !NumberType(col.dataType) && !TextType(col.dataType) && !DateType(col.dataType)
    ensures r == Ok(Skip) ==> !col.isEnum && EndsWith(col.dataType, "int") && ParseInt(vstr).None? && vstr != "NULL"
    ensures !col.isEnum && NumberType(col.dataType) ==> (r == Ok(Store(Null)) <==> vstr == "NULL")
  {
    var t := col.dataType;
    if col.isEnum then Ok(Store(Text(vstr)))
    else if NumberType(t) then
      if vstr == "NULL" then Ok(Store(Null))
      else if EndsWith(t, "int") then
        match ParseInt(vstr)
        case None => Ok(Skip)
        case Some(n) => Ok(Store(Int(n)))
      else Ok(Store(Float(vstr)))
    else if TextType(t) then Ok(Store(Text(Unescape(Unquote(vstr, asWritten)))))
    else if DateType(t) then Ok(Store(Text(Unquote(vstr, asWritten))))
    else Err("Unknown field type \"" + t + "\" for " + col.name)
  }

  /** An integer column reads back the number `"%d"` wrote. */
  lemma IntFieldRoundTrip(col: Column, n: int, asWritten: bool)
    requires !col.isEnum && EndsWith(col.dataType, "int")
    ensures DecodeValue(col, IntToString(n), asWritten) == Ok(Store(Int(n)))
  {
    IntToStringThenParse(n);
    assert IntToString(n) != "NULL" by {
      if n >= 0 {
        assert IsDigit(IntToString(n)[0]);
      } else {
        assert IntToString(n)[0] == '-';
      }
    }
  }

  /** How a dump writes text: a backslash before each quote character. */
  function Escape(s: string): (r: string)
  {
    if s == "" then ""
    else (if s[0] == '\'' then "\\'" else if s[0] == '"' then "\\\"" else [s[0]]) + Escape(s[1..])
  }

  /** Text with only its double quotes escaped. */
  function EscapeDouble(s: string): (r: string)
  {
    if s == "" then ""
    else (if s[0] == '"' then "\\\"" else [s[0]]) + EscapeDouble(s[1..])
  }

  lemma {:induction false} UnescapeSingle(s: string)
    requires '\\' !in s
    ensures Replace(Escape(s), "\\'", "'") == EscapeDouble(s)
    decreases |s|
  {
    if s != "" {
      var x := Escape(s[1..]);
      UnescapeSingle(s[1..]);
      if s[0] == '\'' {
        assert Escape(s) == "\\'" + x;
        QuoteStep(x);
      } else if s[0] == '"' {
        assert Escape(s) == "\\\"" + x;
        DoubleQuoteStep(x);
      } else {
        assert Escape(s) == [s[0]] + x;
        PlainStep(s[0], x);
      }
    }
  }

  lemma QuoteStep(x: string)
    ensures Replace("\\'" + x, "\\'", "'") == "'" + Replace(x, "\\'", "'")
  {
    var e := "\\'" + x;
    assert e[2..] == x;
    assert OccursAt(e, "\\'", 0) by {
      assert e[..2] == "\\'";
    }
    ReplaceHit(e, "\\'", "'");
  }

  lemma DoubleQuoteStep(x: string)
    ensures Replace("\\\"" + x, "\\'", "'") == "\\\"" + Replace(x, "\\'", "'")
  {
    var t := ['"'] + x;
    assert "\\\"" + x == ['\\'] + t;
    BackslashThen('"', x);
    PlainStep('"', x);
    assert ['\\'] + (['"'] + Replace(x, "\\'", "'")) == "\\\"" + Replace(x, "\\'", "'");
  }

  /** A backslash not followed by a quote is kept, and the replacement goes on after it. */
  lemma BackslashThen(c: char, x: string)
    requires c != '\''
    ensures Replace(['\\'] + ([c] + x), "\\'", "'") == ['\\'] + Replace([c] + x, "\\'", "'")
  {
    var e := ['\\'] + ([c] + x);
    assert !OccursAt(e, "\\'", 0) by {
      assert e[1] == c;
    }
    ReplaceMiss(e, "\\'", "'");
    assert e[1..] == [c] + x;
  }

  lemma PlainStep(c: char, x: string)
    requires c != '\\'
    ensures Replace([c] + x, "\\'", "'") == [c] + Replace(x, "\\'", "'")
  {
    var e := [c] + x;
    assert !OccursAt(e, "\\'", 0) by {
      assert e[0] == c;
    }
    ReplaceMiss(e, "\\'", "'");
    assert e[1..] == x;
  }

  lemma {:induction false} UnescapeDouble(s: string)
    requires '\\' !in s
    ensures Replace(EscapeDouble(s), "\\\"", "\"") == s
    decreases |s|
  {
    if s != "" {
      var x := EscapeDouble(s[1..]);
      UnescapeDouble(s[1..]);
      if s[0] == '"' {
        assert ("\\\"" + x)[2..] == x;
        assert OccursAt("\\\"" + x, "\\\"", 0) by {
          assert ("\\\"" + x)[..2] == "\\\"";
        }
      } else {
        var e := [s[0]] + x;
        assert !OccursAt(e, "\\\"", 0) by {
          assert e[0] == s[0];
        }
        assert e[1..] == x;
      }
      assert s == [s[0]] + s[1..];
    }
  }

  /**
   * A text column reads back any backslash-free text written quoted and
   * escaped, the empty text included.
   */
  lemma TextFieldRoundTrip(col: Column, s: string)
    requires !col.isEnum && TextType(col.dataType) && !NumberType(col.dataType)
    requires '\\' !in s
    ensures DecodeValue(col, "'" + Escape(s) + "'", false) == Ok(Store(Text(s)))
  {
    var v := "'" + Escape(s) + "'";
    assert v[1..|v| - 1] == Escape(s);
    UnescapeSingle(s);
    UnescapeDouble(s);
  }

  /** As written, the empty text `''` is stored as two quote characters. */
  lemma EmptyTextKeepsQuotes(col: Column)
    requires !col.isEnum && TextType(col.dataType) && !NumberType(col.dataType)
    ensures DecodeValue(col, "''", true) == Ok(Store(Text("''")))
  {
    ReplaceAbsent("''", "\\'", "'");
    ReplaceAbsent("''", "\\\"", "\"");
  }

  /** The two readings differ only on a text of exactly two characters. */
  lemma UnquoteAgrees(vstr: string)
    requires |vstr| != 2
    ensures Unquote(vstr, true) == Unquote(vstr, false)
  {
  }

  function Names(columns: seq<Column>): (r: seq<string>)
    ensures |r| == |columns| && forall c :: 0 <= c < |columns| ==> r[c] == columns[c].name
  {
    if columns == [] then [] else [columns[0].name] + Names(columns[1..])
  }

  /** What one field contributes to the row: its column's name and value when the value is stored. */
  function StoredAt(name: string, d: Result<Decoded>): seq<(string, Value)>
  {
    if d.Ok? && d.value.Store? then [(name, d.value.v)] else []
  }

  /**
   * Reference for a decoded row, built from its last field backwards: for
   * each field `k` in order whose value `decode` stores, the pair of
   * column `idx + k`'s name and that value.
   */
  function StoredPairs(fields: seq<string>, columns: seq<Column>, idx: nat,
                       decode: (Column, string) -> Result<Decoded>): seq<(string, Value)>
    requires idx + |fields| <= |columns|
    decreases |fields|
  {
    if fields == [] then []
    else
      var col := columns[idx + |fields| - 1];
      StoredPairs(fields[..|fields| - 1], columns, idx, decode) + StoredAt(col.name, decode(col, fields[|fields| - 1]))
  }

  /** The reference read from the front: the first field's pair, then the rest's. */
  lemma {:induction false} StoredPairsCons(fields: seq<string>, columns: seq<Column>, idx: nat,
                                           decode: (Column, string) -> Result<Decoded>)
    requires fields != [] && idx + |fields| <= |columns|
    ensures StoredPairs(fields, columns, idx, decode) ==
            StoredAt(columns[idx].name, decode(columns[idx], fields[0])) + StoredPairs(fields[1..], columns, idx + 1, decode)
    decreases |fields|
  {
    var first := StoredAt(columns[idx].name, decode(columns[idx], fields[0]));
    if |fields| == 1 {
      assert fields[..0] == [] && fields[1..] == [];
    } else {
      var init := fields[..|fields| - 1];
      var col := columns[idx + |fields| - 1];
      var last := StoredAt(col.name, decode(col, fields[|fields| - 1]));
      StoredPairsCons(init, columns, idx, decode);
      StoredPairsDropFirst(fields, columns, idx, decode);
      Seqs.ConcatAssoc(first, StoredPairs(init[1..], columns, idx + 1, decode), last);
    }
  }

  /** Dropping the first field and then the last is dropping the last and then the first. */
  lemma StoredPairsDropFirst(fields: seq<string>, columns: seq<Column>, idx: nat,
                             decode: (Column, string) -> Result<Decoded>)
    requires |fields| >= 2 && idx + |fields| <= |columns|
    ensures var col := columns[idx + |fields| - 1];
            StoredPairs(fields[1..], columns, idx + 1, decode) ==
            StoredPairs(fields[..|fields| - 1][1..], columns, idx + 1, decode) +
            StoredAt(col.name, decode(col, fields[|fields| - 1]))
  {
    var tail := fields[1..];
    assert tail[..|tail| - 1] == fields[..|fields| - 1][1..];
    assert tail[|tail| - 1] == fields[|fields| - 1];
  }

  /** `DecodeValue` for one reading of the quotes, as a function of column and text. */
  function DecodeWith(asWritten: bool): (Column, string) -> Result<Decoded>
  {
    (col: Column, vstr: string) => DecodeValue(col, vstr, asWritten)
  }

  /** The values stored for a row's fields, in order; fields past the last column are dropped. */
  function DecodeFields(fields: seq<string>, columns: seq<Column>, idx: nat, asWritten: bool): (r: Result<seq<(string, Value)>>)
    requires idx + |fields| <= |columns|
    ensures r.Ok? ==> |r.value| <= |fields|
    ensures r.Ok? ==> forall k :: 0 <= k < |r.value| ==> r.value[k].0 in Names(columns)
    ensures r.Err? <==> exists k :: 0 <= k < |fields| && DecodeValue(columns[idx + k], fields[k], asWritten).Err?
    ensures r.Ok? ==> r.value == StoredPairs(fields, columns, idx, DecodeWith(asWritten))
    decreases |fields|
  {
    if fields == [] then Ok([])
    else
      var col := columns[idx];
      FailsSomewhere(fields, columns, idx, asWritten);
      StoredNames(fields, columns, idx, DecodeWith(asWritten));
      var d :- DecodeValue(col, fields[0], asWritten);
      var more :- DecodeFields(fields[1..], columns, idx + 1, asWritten);
      var stored := if d.Skip? then more else [(col.name, d.v)] + more;
      FirstStored(fields, columns, idx, asWritten, d, more);
      Ok(stored)
  }

  /** Every stored pair is named after one of the columns. */
  lemma {:induction false} StoredNames(fields: seq<string>, columns: seq<Column>, idx: nat,
                                       decode: (Column, string) -> Result<Decoded>)
    requires idx + |fields| <= |columns|
    ensures forall k :: 0 <= k < |StoredPairs(fields, columns, idx, decode)| ==>
                         StoredPairs(fields, columns, idx, decode)[k].0 in Names(columns)
    decreases |fields|
  {
    if fields != [] {
      var init := fields[..|fields| - 1];
      var col := columns[idx + |fields| - 1];
      StoredNames(init, columns, idx, decode);
      var front := StoredPairs(init, columns, idx, decode);
      var last := StoredAt(col.name, decode(col, fields[|fields| - 1]));
      assert forall k :: 0 <= k < |last| ==> last[k].0 == col.name;
      assert StoredPairs(fields, columns, idx, decode) == front + last;
      forall k | 0 <= k < |front + last|
        ensures (front + last)[k].0 in Names(columns)
      {
        if k < |front| {
          assert (front + last)[k] == front[k];
          assert front[k].0 in Names(columns);
        } else {
          assert (front + last)[k] == last[k - |front|];
          assert last[k - |front|].0 == col.name;
          assert Names(columns)[idx + |fields| - 1] == col.name;
          assert col.name in Names(columns);
        }
      }
    }
  }

  /** Some field fails to decode exactly when the first does or one of the rest does. */
  lemma FailsSomewhere(fields: seq<string>, columns: seq<Column>, idx: nat, asWritten: bool)
    requires fields != [] && idx + |fields| <= |columns|
    ensures (exists k :: 0 <= k < |fields| && DecodeValue(columns[idx + k], fields[k], asWritten).Err?) <==>
            DecodeValue(columns[idx], fields[0], asWritten).Err? ||
            exists k :: 0 <= k < |fields[1..]| && DecodeValue(columns[idx + 1 + k], fields[1..][k], asWritten).Err?
  {
    if k :| 0 <= k < |fields| && DecodeValue(columns[idx + k], fields[k], asWritten).Err? {
      if k > 0 {
        assert fields[1..][k - 1] == fields[k];
        assert DecodeValue(columns[idx + 1 + (k - 1)], fields[1..][k - 1], asWritten).Err?;
      }
    }
    if k :| 0 <= k < |fields[1..]| && DecodeValue(columns[idx + 1 + k], fields[1..][k], asWritten).Err? {
      assert fields[1..][k] == fields[k + 1];
      assert DecodeValue(columns[idx + (k + 1)], fields[k + 1], asWritten).Err?;
    }
  }

  /** One step of `DecodeFields`: the first field's pair, if stored, before the rest's. */
  lemma FirstStored(fields: seq<string>, columns: seq<Column>, idx: nat, asWritten: bool, d: Decoded,
                    more: seq<(string, Value)>)
    requires fields != [] && idx + |fields| <= |columns|
    requires DecodeValue(columns[idx], fields[0], asWritten) == Ok(d)
    requires more == StoredPairs(fields[1..], columns, idx + 1, DecodeWith(asWritten))
    ensures (if d.Skip? then more else [(columns[idx].name, d.v)] + more) ==
            StoredPairs(fields, columns, idx, DecodeWith(asWritten))
  {
    var dec := DecodeWith(asWritten);
    assert dec(columns[idx], fields[0]) == Ok(d);
    StoredPairsCons(fields, columns, idx, dec);
  }

  /**
   * `__parse_data_row`: the row split into fields, fields past the last
   * column dropped, and each other field decoded for its column; the row
   * fails exactly when one of those columns has an unknown type.
   */
  function ParseDataRow(row: string, columns: seq<Column>, asWritten: bool): (r: Result<seq<(string, Value)>>)
    ensures var fields := SplitFrom(row, None, asWritten);
            r.Err? <==> exists k :: 0 <= k < |fields| && k < |columns| && DecodeValue(columns[k], fields[k], asWritten).Err?
    ensures r.Ok? ==> |r.value| <= |columns|
    ensures var fields := SplitFrom(row, None, asWritten);
            var n := if |fields| <= |columns| then |fields| else |columns|;
            r.Ok? ==> r.value == StoredPairs(fields[..n], columns, 0, DecodeWith(asWritten))
  {
    var fields := SplitFrom(row, None, asWritten);
    var n := if |fields| <= |columns| then |fields| else |columns|;
    KeptFails(fields, columns, n, asWritten);
    DecodeFields(fields[..n], columns, 0, asWritten)
  }

  /** Among the fields that have a column, one fails exactly when one of the first `n` does. */
  lemma KeptFails(fields: seq<string>, columns: seq<Column>, n: nat, asWritten: bool)
    requires n == if |fields| <= |columns| then |fields| else |columns|
    ensures (exists k :: 0 <= k < |fields[..n]| && DecodeValue(columns[0 + k], fields[..n][k], asWritten).Err?) <==>
            exists k :: 0 <= k < |fields| && k < |columns| && DecodeValue(columns[k], fields[k], asWritten).Err?
  {
    var kept := fields[..n];
    if k :| 0 <= k < |kept| && DecodeValue(columns[0 + k], kept[k], asWritten).Err? {
      assert kept[k] == fields[k];
    }
    if k :| 0 <= k < |fields| && k < |columns| && DecodeValue(columns[k], fields[k], asWritten).Err? {
      assert kept[k] == fields[k];
      assert DecodeValue(columns[0 + k], kept[k], asWritten).Err?;
    }
  }

  // ----- the data table -----

  datatype DataTable = DataTable(name: string, rows: seq<seq<(string, Value)>>)

  datatype TableDef = TableDef(name: string, columns: seq<Column>, dataTable: Option<DataTable>)

  /** `set_data_table`: a table definition receives its data table once; a second is an error. */
  function SetDataTable(def: TableDef, table: DataTable): (r: Result<TableDef>)
    ensures r.Ok? <==> def.dataTable.None?
    ensures r.Ok? ==> r.value == def.(dataTable := Some(table))
  {
    if def.dataTable.Some? then Err("Cannot change data table from " + def.dataTable.value.name + " to " + table.name)
    else Ok(def.(dataTable := Some(table)))
  }

  /** Once set, the data table cannot be replaced, not even by itself. */
  lemma DataTableSetOnce(def: TableDef, t1: DataTable, t2: DataTable)
    requires SetDataTable(def, t1).Ok?
    ensures SetDataTable(SetDataTable(def, t1).value, t2).Err?
    ensures SetDataTable(def, t1).value.dataTable == Some(t1)
  {
  }
}

=== FILE: pdaqdb.dfy ===
/**
 * The pDAQ project registry: how a project name or URL becomes a
 * repository URL and project name, how a project's path prefix is cut
 * from a URL, which release names are ignored, and the cache that hands
 * out one project object per name.
 */
module PdaqDb {
  import opened Wrappers
  import opened StrUtil
  import Seqs
  import SvnDb

  const PdaqSvnUrlPrefix := "http://code.icecube.wisc.edu"
  const PdaqUrl := PdaqSvnUrlPrefix + "/daq/meta-projects/pdaq"
  const FabricCommon := "fabric-common"

  /** The pieces `urlparse` splits a URL into. */
  datatype UrlParts = UrlParts(scheme: string, netloc: string, path: string, params: string, query: string, fragment: string)

  /**
   * A URL's path without a trailing "trunk" component, and its last
   * component as the project name; a path with nothing left is an
   * `IndexError`.
   */
  function ProjectFromPath(path: string): (r: Option<(string, string)>)
    ensures r.Some? ==> '/' !in r.value.1
    ensures r.Some? ==> EndsWith(r.value.0, r.value.1)
  {
    var pieces := Split(path, '/');
    var kept := if pieces[|pieces| - 1] == "trunk" then pieces[..|pieces| - 1] else pieces;
    if kept == [] then None
    else
      JoinEndsWithLast(kept, "/");
      Some((Join(kept, "/"), kept[|kept| - 1]))
  }

  lemma {:induction false} JoinEndsWithLast(parts: seq<string>, sep: string)
    requires |parts| > 0
    ensures EndsWith(Join(parts, sep), parts[|parts| - 1])
    decreases |parts|
  {
    if |parts| == 1 {
      Affixes("", parts[0]);
      assert "" + parts[0] == parts[0];
    } else {
      JoinEndsWithLast(parts[1..], sep);
      var rest := Join(parts[1..], sep);
      Affixes(parts[0] + sep, rest);
      EndsWithTrans(parts[0] + sep + rest, rest, parts[1..][|parts| - 2]);
    }
  }

  /** A trunk URL's project is the component before "trunk", and the path loses the "/trunk". */
  lemma TrunkPathProject(base: string, project: string)
    requires '/' !in base && '/' !in project && project != "trunk"
    ensures ProjectFromPath(base + "/" + project + "/trunk") == Some((base + "/" + project, project))
    ensures ProjectFromPath(base + "/" + project) == Some((base + "/" + project, project))
  {
    var parts := [base, project, "trunk"];
    assert Join(parts[2..], "/") == "trunk";
    assert Join(parts[1..], "/") == project + "/trunk";
    assert Join(parts, "/") == base + "/" + project + "/trunk";
    SplitOfJoin(parts, '/');
    assert parts[..2] == [base, project];
    assert Join([base, project][1..], "/") == project;
    SplitOfJoin([base, project], '/');
  }

  /**
   * `get_pdaq_project_data`: the repository URL and project name for a
   * name or URL.  No name, or "pdaq", is the metaproject; either spelling
   * of fabric-common lives under "svn"; any other name without '/' lives
   * under "daq"; anything else is a URL whose last path component names
   * the project.  `parse` and `unparse` stand for `urlparse` and
   * `urlunparse`.
   */
  function ProjectData(nameOrUrl: Option<string>, parse: string -> UrlParts, unparse: UrlParts -> string): (r: Result<(string, string)>)
    ensures nameOrUrl.None? || nameOrUrl == Some("pdaq") ==> r == Ok((PdaqUrl, "pdaq"))
    ensures nameOrUrl == Some("fabric-common") || nameOrUrl == Some("fabric_common") ==>
              r == Ok((PdaqSvnUrlPrefix + "/svn/projects/" + FabricCommon, FabricCommon))
    ensures nameOrUrl.Some? && '/' !in nameOrUrl.value &&
            nameOrUrl.value !in {"pdaq", "fabric-common", "fabric_common"} ==>
              r == Ok((PdaqSvnUrlPrefix + "/daq/projects/" + nameOrUrl.value, nameOrUrl.value))
    ensures r.Ok? ==> '/' !in r.value.1
  {
    if nameOrUrl.None? || nameOrUrl.value == "pdaq" then Ok((PdaqUrl, "pdaq"))
    else
      var name := nameOrUrl.value;
      FindSlash(name);
      SpecialNames();
      if Find(name, "/") < 0 then
        if name == "fabric-common" || name == "fabric_common" then
          Ok((PdaqSvnUrlPrefix + "/svn/projects/" + FabricCommon, FabricCommon))
        else Ok((PdaqSvnUrlPrefix + "/daq/projects/" + name, name))
      else
        var parts := parse(name);
        match ProjectFromPath(parts.path)
        case None => Err("list index out of range")
        case Some((path, project)) => Ok((unparse(parts.(path := path)), project))
  }

  /** The names `get_pdaq_project_data` treats specially are distinct and hold no '/'. */
  lemma SpecialNames()
    ensures "fabric-common" != "pdaq" && "fabric_common" != "pdaq"
    ensures '/' !in "pdaq" && '/' !in "fabric-common" && '/' !in "fabric_common" && FabricCommon == "fabric-common"
  {
    assert "fabric-common"[0] != "pdaq"[0] && "fabric_common"[0] != "pdaq"[0];
  }

  lemma FindSlash(name: string)
    ensures Find(name, "/") < 0 <==> '/' !in name
  {
    if '/' in name {
      var k :| 0 <= k < |name| && name[k] == '/';
      assert name[k..k + 1] == "/";
      assert OccursAt(name, "/", k);
    } else {
      FindWithoutFirst(name, "/");
    }
  }

  /**
   * `get_path_prefix`: the URL must be the base URL followed by '/'; the
   * prefix is what follows that '/'.
   */
  function PathPrefix(baseUrl: string, svnUrl: string): (r: Result<string>)
    ensures r.Ok? <==> StartsWith(svnUrl, baseUrl + "/")
    ensures r.Ok? ==> baseUrl + "/" + r.value == svnUrl
  {
    if !StartsWith(svnUrl, baseUrl) then Err("URL \"" + svnUrl + "\" does not start with base URL \"" + baseUrl + "\"")
    else
      var prefix := svnUrl[|baseUrl|..];
      StartsWithThen(svnUrl, baseUrl, '/');
      if !StartsWith(prefix, "/") then Err("Cannot strip base URL \"" + baseUrl + "\" from \"" + svnUrl + "\"")
      else
        assert svnUrl == baseUrl + prefix;
        assert prefix == "/" + prefix[1..];
        Ok(prefix[1..])
  }

  /** The prefix of "<base>/<path>" is the path. */
  lemma PathPrefixOf(baseUrl: string, path: string)
    ensures PathPrefix(baseUrl, baseUrl + "/" + path) == Ok(path)
  {
    Affixes(baseUrl + "/", path);
    var url := baseUrl + "/" + path;
    assert url[|baseUrl|..] == "/" + path;
  }

  const Ignored: seq<string> := ["_rc", "_debug", "alberto"]

  /**
   * `__ignore_project`: a release or branch is ignored when its name
   * holds one of the markers; the empty name is checked against the
   * markers themselves, and none is empty.
   */
  function IgnoreProject(tagName: string): (r: bool)
    ensures tagName == "" ==> !r
    ensures tagName != "" ==> (r <==> exists k :: 0 <= k < |Ignored| && Contains(tagName, Ignored[k]))
  {
    if tagName == "" then "" in Ignored
    else Seqs.FirstWhere(Ignored, (sub: string) => Find(tagName, sub) >= 0).Some?
  }

  /** Whatever the database's own filter ignores, the pDAQ filter ignores too. */
  lemma IgnoresMoreThanDatabase(tagName: string)
    ensures SvnDb.IgnoreProject(tagName) ==> IgnoreProject(tagName)
  {
    if SvnDb.IgnoreProject(tagName) {
      var k :| 0 <= k < |SvnDb.Ignored| && Contains(tagName, SvnDb.Ignored[k]);
      assert tagName != "" by {
        assert Find(tagName, SvnDb.Ignored[k]) >= 0;
        assert |SvnDb.Ignored[k]| > 0;
      }
      assert Ignored[k] == SvnDb.Ignored[k];
    }
  }

  /** A project named without a URL sits at "daq/projects/<name>" below the repository root. */
  lemma NamedProjectPath(name: string, parse: string -> UrlParts, unparse: UrlParts -> string)
    requires '/' !in name && name !in {"pdaq", "fabric-common", "fabric_common"}
    ensures PathPrefix(PdaqSvnUrlPrefix, ProjectData(Some(name), parse, unparse).value.0) == Ok("daq/projects/" + name)
  {
    assert PdaqSvnUrlPrefix + "/daq/projects/" + name == PdaqSvnUrlPrefix + "/" + ("daq/projects/" + name);
    PathPrefixOf(PdaqSvnUrlPrefix, "daq/projects/" + name);
  }

  // ----- PDAQManager.get -----

  /** A project object, known by the URL it was built from. */
  datatype Project = Project(url: string)

  /**
   * `PDAQManager.get`: the cached project for the resolved name, built
   * from the resolved URL the first time that name is seen.
   */
  function Get(projects: map<string, Project>, nameOrUrl: Option<string>,
               parse: string -> UrlParts, unparse: UrlParts -> string): (r: Result<(Project, map<string, Project>)>)
    ensures r.Ok? <==> ProjectData(nameOrUrl, parse, unparse).Ok?
    ensures r.Ok? ==> var (url, name) := ProjectData(nameOrUrl, parse, unparse).value;
                      && name in r.value.1 && r.value.0 == r.value.1[name]
                      && (name in projects ==> r.value.1 == projects)
                      && (name !in projects ==> r.value.1 == projects[name := Project(url)])
  {
    var (url, name) :- ProjectData(nameOrUrl, parse, unparse);
    var next := if name in projects then projects else projects[name := Project(url)];
    Ok((next[name], next))
  }

  /** Two requests that resolve to one name get the same object, whatever else was asked in between. */
  lemma GetIsCached(projects: map<string, Project>, first: Option<string>, between: seq<Option<string>>,
                    second: Option<string>, parse: string -> UrlParts, unparse: UrlParts -> string)
    requires Get(projects, first, parse, unparse).Ok?
    requires ProjectData(second, parse, unparse).Ok?
    requires ProjectData(second, parse, unparse).value.1 == ProjectData(first, parse, unparse).value.1
    ensures var (obj, after) := Get(projects, first, parse, unparse).value;
            var later := GetAll(after, between, parse, unparse);
            Get(later, second, parse, unparse).Ok? && Get(later, second, parse, unparse).value.0 == obj
  {
    var (obj, after) := Get(projects, first, parse, unparse).value;
    GetAllKeeps(after, between, parse, unparse, ProjectData(first, parse, unparse).value.1);
  }

  /** Requests one after another, each seeing the cache the last one left; failed requests change nothing. */
  function GetAll(projects: map<string, Project>, requests: seq<Option<string>>,
                  parse: string -> UrlParts, unparse: UrlParts -> string): map<string, Project>
    decreases |requests|
  {
    if requests == [] then projects
    else
      var next := match Get(projects, requests[0], parse, unparse)
                  case Ok((_, m)) => m
                  case Err(_) => projects;
      GetAll(next, requests[1..], parse, unparse)
  }

  /** A cached project stays cached, unchanged, through any run of requests. */
  lemma {:induction false} GetAllKeeps(projects: map<string, Project>, requests: seq<Option<string>>,
                                       parse: string -> UrlParts, unparse: UrlParts -> string, name: string)
    requires name in projects
    ensures var after := GetAll(projects, requests, parse, unparse);
            name in after && after[name] == projects[name]
    decreases |requests|
  {
    if requests != [] {
      var next := match Get(projects, requests[0], parse, unparse)
                  case Ok((_, m)) => m
                  case Err(_) => projects;
      GetAllKeeps(next, requests[1..], parse, unparse, name);
    }
  }
}

=== FILE: porcelain.dfy ===
/**
 * Reading `git status --porcelain` (format version 1: "XY PATH", X the
 * index column, Y the work-tree column) into lists of paths.  Two
 * scripts do this with different rules; both share the loop below and
 * differ only in how a line is classified and how its path is taken.
 */
module Porcelain {
  import opened Wrappers
  import opened StrUtil

  /** Where a status line's path goes. */
  datatype Bucket = Staged | Added | Deleted | Modified | Ignored

  /** The lists a gatherer returns; each is `None` until its first path. */
  datatype StatusLists = StatusLists(additions: Option<seq<string>>, deletions: Option<seq<string>>,
                                     modifications: Option<seq<string>>, staged: Option<seq<string>>)

  const NoLists: StatusLists := StatusLists(None, None, None, None)

  /** `None` for an empty list: how a list that never received a path is reported. */
  function AsList(s: seq<string>): (r: Option<seq<string>>)
    ensures r.None? <==> s == []
    ensures r.Some? ==> r.value == s
  {
    if s == [] then None else Some(s)
  }

  /** `if lst is None: lst = []` followed by `lst.append(x)`. */
  function AppendTo(o: Option<seq<string>>, x: string): (r: Option<seq<string>>)
    ensures r.Some? && r.value == o.UnwrapOr([]) + [x]
  {
    Some(o.UnwrapOr([]) + [x])
  }

  /** Record a path in the list of its bucket. */
  function Put(ls: StatusLists, b: Bucket, x: string): (r: StatusLists)
  {
    match b
    case Added => ls.(additions := AppendTo(ls.additions, x))
    case Deleted => ls.(deletions := AppendTo(ls.deletions, x))
    case Modified => ls.(modifications := AppendTo(ls.modifications, x))
    case Staged => ls.(staged := AppendTo(ls.staged, x))
    case Ignored => ls
  }

  /** The loop: each line right-stripped, blank lines skipped, the first unclassifiable line raising. */
  function GatherFrom(lines: seq<string>, classify: string -> Result<Bucket>, path: string -> string,
                      acc: StatusLists): (r: Result<StatusLists>)
    decreases |lines|
  {
    if |lines| == 0 then Ok(acc)
    else
      var line := RStrip(lines[0]);
      if line == "" then GatherFrom(lines[1..], classify, path, acc)
      else
        match classify(line)
        case Err(msg) => Err(msg)
        case Ok(b) => GatherFrom(lines[1..], classify, path, Put(acc, b, path(line)))
  }

  function Gather(lines: seq<string>, classify: string -> Result<Bucket>, path: string -> string): Result<StatusLists>
  {
    GatherFrom(lines, classify, path, NoLists)
  }

  // ----- the reference: one filter per bucket -----

  /** Every non-blank line can be classified. */
  predicate AllClassified(lines: seq<string>, classify: string -> Result<Bucket>)
  {
    forall k :: 0 <= k < |lines| && RStrip(lines[k]) != "" ==> classify(RStrip(lines[k])).Ok?
  }

  /** The paths of the non-blank lines classified into `b`, in input order. */
  function Picked(lines: seq<string>, classify: string -> Result<Bucket>, path: string -> string, b: Bucket): seq<string>
    decreases |lines|
  {
    if |lines| == 0 then []
    else
      var line := RStrip(lines[0]);
      var here := if line != "" && classify(line) == Ok(b) then [path(line)] else [];
      here + Picked(lines[1..], classify, path, b)
  }

  function Extend(o: Option<seq<string>>, s: seq<string>): Option<seq<string>>
  {
    AsList(o.UnwrapOr([]) + s)
  }

  lemma AllClassifiedCons(lines: seq<string>, classify: string -> Result<Bucket>)
    requires |lines| > 0
    ensures AllClassified(lines, classify) <==>
            (RStrip(lines[0]) != "" ==> classify(RStrip(lines[0])).Ok?) && AllClassified(lines[1..], classify)
  {
    var rest := lines[1..];
    assert forall k :: 1 <= k < |lines| ==> lines[k] == rest[k - 1];
    if (RStrip(lines[0]) != "" ==> classify(RStrip(lines[0])).Ok?) && AllClassified(rest, classify) {
      forall k | 0 <= k < |lines| && RStrip(lines[k]) != ""
        ensures classify(RStrip(lines[k])).Ok?
      {
        if k > 0 {
          assert lines[k] == rest[k - 1];
        }
      }
    }
  }

  lemma {:induction false} GatherFromOk(lines: seq<string>, classify: string -> Result<Bucket>,
                                        path: string -> string, acc: StatusLists)
    ensures GatherFrom(lines, classify, path, acc).Ok? <==> AllClassified(lines, classify)
    decreases |lines|
  {
    if |lines| > 0 {
      AllClassifiedCons(lines, classify);
      var line := RStrip(lines[0]);
      if line == "" {
        GatherFromOk(lines[1..], classify, path, acc);
      } else if classify(line).Ok? {
        GatherFromOk(lines[1..], classify, path, Put(acc, classify(line).value, path(line)));
      }
    }
  }

  /** The list a bucket is recorded in. */
  function ListOf(ls: StatusLists, b: Bucket): Option<seq<string>>
    requires b != Ignored
  {
    match b
    case Added => ls.additions
    case Deleted => ls.deletions
    case Modified => ls.modifications
    case Staged => ls.staged
  }

  lemma PutListOf(ls: StatusLists, c: Bucket, x: string, b: Bucket)
    requires b != Ignored
    ensures ListOf(Put(ls, c, x), b) == if c == b then AppendTo(ListOf(ls, b), x) else ListOf(ls, b)
  {
  }

  lemma {:induction false} GatherFromList(lines: seq<string>, classify: string -> Result<Bucket>,
                                          path: string -> string, acc: StatusLists, b: Bucket)
    requires b != Ignored
    requires ListOf(acc, b).Some? ==> ListOf(acc, b).value != []
    ensures var r := GatherFrom(lines, classify, path, acc);
            r.Ok? ==> ListOf(r.value, b) == Extend(ListOf(acc, b), Picked(lines, classify, path, b))
    decreases |lines|
  {
    if |lines| == 0 {
      assert ListOf(acc, b).UnwrapOr([]) + [] == ListOf(acc, b).UnwrapOr([]);
    } else {
      var line := RStrip(lines[0]);
      var rest := lines[1..];
      if line == "" {
        GatherFromList(rest, classify, path, acc, b);
        assert [] + Picked(rest, classify, path, b) == Picked(rest, classify, path, b);
      } else if classify(line).Ok? {
        var c := classify(line).value;
        var acc' := Put(acc, c, path(line));
        PutListOf(acc, c, path(line), b);
        GatherFromList(rest, classify, path, acc', b);
        ExtendStep(ListOf(acc, b), c == b, path(line), Picked(rest, classify, path, b));
      }
    }
  }

  /** Appending one path now and extending later is extending by both. */
  lemma ExtendStep(o: Option<seq<string>>, hit: bool, x: string, s: seq<string>)
    requires o.Some? ==> o.value != []
    ensures Extend(if hit then AppendTo(o, x) else o, s) == Extend(o, (if hit then [x] else []) + s)
  {
    if hit {
      assert o.UnwrapOr([]) + [x] + s == o.UnwrapOr([]) + ([x] + s);
    } else {
      assert [] + s == s;
    }
  }

  /**
   * The gatherer succeeds exactly when every non-blank line is classified,
   * and then each list holds, in input order, the paths of exactly the
   * lines classified into it (and is `None` when there are none).
   */
  lemma GatherSpec(lines: seq<string>, classify: string -> Result<Bucket>, path: string -> string)
    ensures Gather(lines, classify, path).Ok? <==> AllClassified(lines, classify)
    ensures var r := Gather(lines, classify, path);
            r.Ok? ==> r.value == StatusLists(AsList(Picked(lines, classify, path, Added)),
                                             AsList(Picked(lines, classify, path, Deleted)),
                                             AsList(Picked(lines, classify, path, Modified)),
                                             AsList(Picked(lines, classify, path, Staged)))
  {
    GatherFromOk(lines, classify, path, NoLists);
    GatherFromList(lines, classify, path, NoLists, Added);
    GatherFromList(lines, classify, path, NoLists, Deleted);
    GatherFromList(lines, classify, path, NoLists, Modified);
    GatherFromList(lines, classify, path, NoLists, Staged);
    forall b: Bucket
      ensures Extend(None, Picked(lines, classify, path, b)) == AsList(Picked(lines, classify, path, b))
    {
      assert [] + Picked(lines, classify, path, b) == Picked(lines, classify, path, b);
    }
  }

  /** A bucket the classifier never chooses stays empty. */
  lemma {:induction false} PickedNever(lines: seq<string>, classify: string -> Result<Bucket>, path: string -> string,
                                       b: Bucket)
    requires forall line :: classify(line) != Ok(b)
    ensures Picked(lines, classify, path, b) == []
    decreases |lines|
  {
    if |lines| > 0 {
      PickedNever(lines[1..], classify, path, b);
    }
  }

  /** Each non-blank line lands in at most one list: the lists' lengths add up to at most the line count. */
  lemma {:induction false} PickedPartition(lines: seq<string>, classify: string -> Result<Bucket>, path: string -> string)
    ensures |Picked(lines, classify, path, Added)| + |Picked(lines, classify, path, Deleted)| +
            |Picked(lines, classify, path, Modified)| + |Picked(lines, classify, path, Staged)| <= |lines|
    decreases |lines|
  {
    if |lines| > 0 {
      PickedPartition(lines[1..], classify, path);
    }
  }
}

=== FILE: project_db.dfy ===
/**
 * The bookkeeping of a project's Subversion history database: the map
 * from Subversion user to Git author, the cached log entries with their
 * Git branch and hash, and the questions asked of that cache.  The cache
 * is the dictionary's values in insertion order, each entry filed under
 * its own revision; the SQLite tables behind it are not part of this
 * model.
 */
module ProjectDb {
  import opened Wrappers
  import opened StrUtil
  import Sorting
  import Seqs
  import SvnDb

  // ----- AuthorDB -----

  /** The authors file once loaded: its name, and the map from user to "Name <email>". */
  datatype Authors = Authors(filename: Option<string>, authors: map<string, string>)

  const NoAuthors := Authors(None, map[])

  /** `get_author`: an error before loading and for an unknown user. */
  function GetAuthor(db: Authors, user: string): (r: Result<string>)
    ensures r.Ok? <==> db.filename.Some? && user in db.authors
    ensures r.Ok? ==> r.value == db.authors[user]
  {
    if db.filename.None? then Err("Authors have not been loaded")
    else if user !in db.authors then Err("No author found for Subversion username \"" + user + "\"")
    else Ok(db.authors[user])
  }

  /** `has_author`: an error before loading. */
  function HasAuthor(db: Authors, user: string): (r: Result<bool>)
    ensures r.Ok? <==> db.filename.Some?
    ensures r.Ok? ==> (r.value <==> GetAuthor(db, user).Ok?)
  {
    if db.filename.None? then Err("Authors have not been loaded") else Ok(user in db.authors)
  }

  /** Python's `str.strip()`. */
  function Strip(s: string): string
  {
    LStrip(RStrip(s))
  }

  /**
   * What one line of the authors file contributes: nothing for a comment
   * or a line the pattern rejects, else the user and "Name <email>".  The
   * pattern `(\S+): (\S.*)\s+<(.*)>$` is the oracle `pat`, giving its
   * three groups.
   */
  function AuthorLine(raw: string, pat: string -> Option<(string, string, string)>): (r: Option<(string, string)>)
  {
    var line := Strip(raw);
    if StartsWith(line, "#") then None
    else
      match pat(line)
      case None => None
      case Some((user, name, email)) => Some((user, Strip(name) + " <" + Strip(email) + ">"))
  }

  /** The line is an author line for `user`. */
  predicate Names(line: string, pat: string -> Option<(string, string, string)>, user: string)
  {
    AuthorLine(line, pat).Some? && AuthorLine(line, pat).value.0 == user
  }

  predicate Defines(lines: seq<string>, pat: string -> Option<(string, string, string)>, i: int, user: string)
  {
    0 <= i < |lines| && Names(lines[i], pat, user)
  }

  /** The map the loop of `load_authors` builds, one line after another. */
  function AuthorMap(lines: seq<string>, pat: string -> Option<(string, string, string)>): map<string, string>
    decreases |lines|
  {
    if lines == [] then map[]
    else
      var m := AuthorMap(lines[..|lines| - 1], pat);
      match AuthorLine(lines[|lines| - 1], pat)
      case None => m
      case Some((user, author)) => m[user := author]
  }

  lemma DefinesInInit(lines: seq<string>, pat: string -> Option<(string, string, string)>)
    requires |lines| > 0
    ensures forall i, u :: 0 <= i < |lines| - 1 ==>
              (Defines(lines[..|lines| - 1], pat, i, u) <==> Defines(lines, pat, i, u))
  {
    assert forall i :: 0 <= i < |lines| - 1 ==> lines[..|lines| - 1][i] == lines[i];
  }

  /** The last line of the file that names `user`, if any. */
  function LastDefiner(lines: seq<string>, pat: string -> Option<(string, string, string)>, user: string): (r: Option<nat>)
    ensures r.Some? ==> Defines(lines, pat, r.value, user) &&
                        forall j :: r.value < j < |lines| ==> !Defines(lines, pat, j, user)
    ensures r.None? <==> forall i :: 0 <= i < |lines| ==> !Defines(lines, pat, i, user)
  {
    var named := (line: string) => Names(line, pat, user);
    var r := Seqs.LastWhere(lines, named);
    assert forall i :: 0 <= i < |lines| ==> (Defines(lines, pat, i, user) <==> named(lines[i]));
    r
  }

  /** A user is in the map exactly when some line names it, and maps to what the last such line says. */
  lemma {:induction false} AuthorMapSpec(lines: seq<string>, pat: string -> Option<(string, string, string)>, user: string)
    ensures user in AuthorMap(lines, pat) <==> LastDefiner(lines, pat, user).Some?
    ensures user in AuthorMap(lines, pat) ==>
              AuthorMap(lines, pat)[user] == AuthorLine(lines[LastDefiner(lines, pat, user).value], pat).value.1
    decreases |lines|
  {
    if lines != [] {
      var init := lines[..|lines| - 1];
      var m := AuthorMap(init, pat);
      var last := AuthorLine(lines[|lines| - 1], pat);
      assert AuthorMap(lines, pat) == if last.None? then m else m[last.value.0 := last.value.1];
      if Defines(lines, pat, |lines| - 1, user) {
        assert LastDefiner(lines, pat, user) == Some(|lines| - 1);
      } else {
        AuthorMapSpec(init, pat, user);
        assert last.None? || last.value.0 != user;
        assert user in AuthorMap(lines, pat) <==> user in m;
        DefinesInInit(lines, pat);
        assert LastDefiner(lines, pat, user) == LastDefiner(init, pat, user);
        var d := LastDefiner(init, pat, user);
        if d.Some? {
          assert lines[d.value] == init[d.value];
          assert AuthorMap(lines, pat)[user] == m[user];
        }
      }
    }
  }

  /** `load_authors`: only the first load takes effect. */
  function LoadAuthors(db: Authors, filename: string, lines: seq<string>,
                       pat: string -> Option<(string, string, string)>): (r: Authors)
    ensures db.filename.None? ==> r.filename == Some(filename)
    ensures db.filename.Some? ==> r == db
  {
    if db.filename.None? then Authors(Some(filename), AuthorMap(lines, pat)) else db
  }

  /**
   * After the first load a user has an author exactly when some line of
   * the file names it, the one the last such line gives; a second load
   * changes nothing.
   */
  lemma LoadAuthorsOnce(filename: string, lines: seq<string>, pat: string -> Option<(string, string, string)>,
                        filename2: string, lines2: seq<string>, user: string)
    ensures var db := LoadAuthors(NoAuthors, filename, lines, pat);
            && (GetAuthor(db, user).Ok? <==> LastDefiner(lines, pat, user).Some?)
            && (GetAuthor(db, user).Ok? ==>
                  GetAuthor(db, user).value == AuthorLine(lines[LastDefiner(lines, pat, user).value], pat).value.1)
            && LoadAuthors(db, filename2, lines2, pat) == db
  {
    AuthorMapSpec(lines, pat, user);
  }

  // ----- SVNEntry -----

  /** A cached log entry. */
  datatype Entry = Entry(
    tagName: string,
    branchName: string,
    revision: int,
    author: string,
    date: string,
    numLines: nat,
    filelist: Option<seq<(string, string)>>,
    loglines: seq<string>,
    gitBranch: Option<string>,
    gitHash: Option<string>,
    saved: bool,
    previous: Option<int>)

  /** `log_message`: the loglines joined by newlines, and the empty string (never `None`) when there are none. */
  function LogMessage(e: Entry): (r: string)
    ensures e.loglines == [] ==> r == ""
    ensures e.loglines != [] ==> Some(r) == SvnDb.LogMessage(e.loglines)
  {
    match SvnDb.LogMessage(e.loglines)
    case None => ""
    case Some(m) => m
  }

  /** Splitting a non-empty message at newlines gives back loglines that hold no newline. */
  lemma LogMessageLines(e: Entry)
    requires e.loglines != [] && forall k :: 0 <= k < |e.loglines| ==> '\n' !in e.loglines[k]
    ensures Split(LogMessage(e), '\n') == e.loglines
  {
    SvnDb.LogMessageLines(e.loglines);
  }

  /** `clear_saved`: the saved flag, the previous link and the Git branch and hash are reset, and nothing else. */
  function ClearSaved(e: Entry): (r: Entry)
    ensures !r.saved && r.previous.None? && r.gitHash.None? && r.gitBranch.None?
    ensures r.(saved := e.saved, previous := e.previous, gitHash := e.gitHash, gitBranch := e.gitBranch) == e
  {
    e.(saved := false, previous := None, gitHash := None, gitBranch := None)
  }

  /** The tag of a branch path: the text after its first '/', or the whole path. */
  function TagName(branch: string): (r: string)
    ensures '/' !in branch ==> r == branch
    ensures '/' in branch ==> exists head :: '/' !in head && branch == head + "/" + r
  {
    match SplitOnce(branch, '/')
    case None => branch
    case Some((head, tail)) => tail
  }

  /** The tag of "<dir>/<name>" is the name, '/' and all. */
  lemma TagNameOf(dir: string, name: string)
    requires '/' !in dir
    ensures TagName(dir + "/" + name) == name
  {
    SplitOnceAfter(dir, '/', name);
  }

  // ----- the cache -----

  /** The cached entries: `None` until loaded. */
  type Cache = Option<seq<Entry>>

  /** One entry per revision, as in a dictionary keyed by revision. */
  predicate Keyed(entries: seq<Entry>)
  {
    forall i, j :: 0 <= i < j < |entries| ==> entries[i].revision != entries[j].revision
  }

  /** The positions of the entries on a branch. */
  function OnBranch(entries: seq<Entry>, branch: string): set<nat>
  {
    Seqs.Positions(entries, (e: Entry) => e.branchName == branch)
  }

  /** The number of entries on a branch, counted from the last one back. */
  function CountOn(entries: seq<Entry>, branch: string): (r: nat)
    ensures r <= |entries|
    ensures r == 0 <==> forall k :: 0 <= k < |entries| ==> entries[k].branchName != branch
    ensures r == |entries| <==> forall k :: 0 <= k < |entries| ==> entries[k].branchName == branch
  {
    if entries == [] then 0
    else
      var n := |entries| - 1;
      assert forall k :: 0 <= k < n ==> entries[k] == entries[..n][k];
      CountOn(entries[..n], branch) + (if entries[n].branchName == branch then 1 else 0)
  }

  /** The count is the number of positions holding an entry on the branch. */
  lemma {:induction false} CountOnPositions(entries: seq<Entry>, branch: string)
    ensures CountOn(entries, branch) == |OnBranch(entries, branch)|
    decreases |entries|
  {
    if entries != [] {
      CountOnPositions(entries[..|entries| - 1], branch);
      Seqs.PositionsLast(entries, (e: Entry) => e.branchName == branch);
    }
  }

  /**
   * `num_entries`: -1 before loading, the number of entries when no
   * branch is given, and the number on the branch otherwise.
   */
  function NumEntries(cache: Cache, branch: Option<string>): (r: int)
    ensures r == -1 <==> cache.None?
    ensures cache.Some? && branch.None? ==> r == |cache.value|
    ensures cache.Some? && branch.Some? ==>
              0 <= r <= |cache.value| && (r == 0 <==> forall k :: 0 <= k < |cache.value| ==> cache.value[k].branchName != branch.value)
    ensures cache.Some? && branch.Some? ==> r == |OnBranch(cache.value, branch.value)|
  {
    match cache
    case None => -1
    case Some(entries) =>
      if branch.None? then |entries|
      else
        CountOnPositions(entries, branch.value);
        CountOn(entries, branch.value)
  }

  /** The position of the entry for a revision. */
  function Lookup(entries: seq<Entry>, revision: int): (r: Option<nat>)
    ensures r.Some? ==> r.value < |entries| && entries[r.value].revision == revision
    ensures r.None? <==> forall k :: 0 <= k < |entries| ==> entries[k].revision != revision
  {
    Seqs.FirstWhere(entries, (e: Entry) => e.revision == revision)
  }

  /**
   * `save_revision`: an error before loading, for a hash of seven
   * characters or fewer, and for an unknown revision.  An entry not yet
   * saved is written out first, which needs its file list.  Afterwards
   * the entry is saved and holds the given branch and hash.
   */
  function SaveRevision(cache: Cache, revision: int, gitBranch: string, gitHash: string): (r: Result<seq<Entry>>)
    ensures r.Ok? <==> cache.Some? && |gitHash| > 7 && Lookup(cache.value, revision).Some? &&
                       (cache.value[Lookup(cache.value, revision).value].saved ||
                        cache.value[Lookup(cache.value, revision).value].filelist.Some?)
    ensures r.Ok? ==> var i := Lookup(cache.value, revision).value;
                      && |r.value| == |cache.value|
                      && r.value[i] == cache.value[i].(saved := true, gitBranch := Some(gitBranch), gitHash := Some(gitHash))
                      && forall k :: 0 <= k < |cache.value| && k != i ==> r.value[k] == cache.value[k]
  {
    if cache.None? then Err("Project database has not been loaded")
    else if |gitHash| <= 7 then Err("Cannot add short hash \"" + gitHash + "\"")
    else
      var entries := cache.value;
      match Lookup(entries, revision)
      case None => Err("Cannot find revision " + IntToString(revision))
      case Some(i) =>
        var e := entries[i];
        if !e.saved && e.filelist.None? then Err("File list has not been loaded")
        else
          var stored := e.(saved := true);
          var needUpdate := stored.gitBranch != Some(gitBranch) || stored.gitHash != Some(gitHash);
          if !needUpdate then Ok(entries[i := stored])
          else Ok(entries[i := stored.(gitBranch := Some(gitBranch), gitHash := Some(gitHash))])
  }

  /** Saving the same revision twice is saving it once, and the revisions stay one per entry. */
  lemma SaveRevisionIdempotent(cache: Cache, revision: int, gitBranch: string, gitHash: string)
    requires SaveRevision(cache, revision, gitBranch, gitHash).Ok?
    ensures var once := SaveRevision(cache, revision, gitBranch, gitHash).value;
            SaveRevision(Some(once), revision, gitBranch, gitHash) == Ok(once)
    ensures Keyed(cache.value) ==> Keyed(SaveRevision(cache, revision, gitBranch, gitHash).value)
  {
    var once := SaveRevision(cache, revision, gitBranch, gitHash).value;
    var i := Lookup(cache.value, revision).value;
    assert Lookup(once, revision) == Some(i) by {
      assert forall k :: 0 <= k < |once| ==> once[k].revision == cache.value[k].revision;
    }
    assert once[i := once[i]] == once;
  }

  // ----- entries -----

  /** The branch `entries` reads: trunk when none, or an empty one, is given. */
  function EntriesBranch(branchName: Option<string>, trunkName: string): string
  {
    if branchName.None? || branchName.value == "" then trunkName else branchName.value
  }

  function ByRevision(): (Entry, Entry) -> bool
  {
    (a: Entry, b: Entry) => a.revision <= b.revision
  }

  lemma ByRevisionIsPreorder()
    ensures Sorting.IsTotalPreorder(ByRevision())
  {
  }

  function EntriesByRevision(entries: seq<Entry>): (r: seq<Entry>)
    ensures Sorting.SortedBy(r, ByRevision())
    ensures multiset(r) == multiset(entries)
  {
    ByRevisionIsPreorder();
    Sorting.SortBy(entries, ByRevision())
  }

  /** The entries `entries` yields as written: those on the branch, and only when there is an ignore function. */
  predicate YieldedAsWritten(e: Entry, branch: string, ignore: Option<string -> bool>)
  {
    e.branchName == branch && ignore.Some? && !ignore.value(e.branchName)
  }

  /** The entries `entries` is meant to yield: those on the branch that no ignore function rejects. */
  predicate Yielded(e: Entry, branch: string, ignore: Option<string -> bool>)
  {
    e.branchName == branch && (ignore.None? || !ignore.value(e.branchName))
  }

  /**
   * `entries` as written: in revision order, the entries on the branch
   * that the ignore function does not reject, and none at all when there
   * is no ignore function.  Reading an unloaded cache fails.
   */
  function EntriesAsWritten(cache: Cache, branchName: Option<string>, trunkName: string,
                            ignore: Option<string -> bool>): (r: Result<seq<Entry>>)
    ensures r.Ok? <==> cache.Some?
  {
    if cache.None? then Err("Project database has not been loaded")
    else
      var branch := EntriesBranch(branchName, trunkName);
      Ok(Seqs.Filter(EntriesByRevision(cache.value), (e: Entry) => YieldedAsWritten(e, branch, ignore)))
  }

  /** Without an ignore function the loop yields nothing, whatever the cache holds. */
  lemma NoFilterYieldsNothing(entries: seq<Entry>, branchName: Option<string>, trunkName: string)
    ensures EntriesAsWritten(Some(entries), branchName, trunkName, None) == Ok([])
  {
    var branch := EntriesBranch(branchName, trunkName);
    Seqs.FilterNone(EntriesByRevision(entries), (e: Entry) => YieldedAsWritten(e, branch, None));
  }

  /** `entries` as intended: without an ignore function every entry on the branch is yielded. */
  function Entries(cache: Cache, branchName: Option<string>, trunkName: string,
                   ignore: Option<string -> bool>): (r: Result<seq<Entry>>)
    ensures r.Ok? <==> cache.Some?
    ensures r.Ok? ==> Sorting.SortedBy(r.value, ByRevision())
    ensures r.Ok? ==> forall e :: e in r.value <==>
                        e in cache.value && Yielded(e, EntriesBranch(branchName, trunkName), ignore)
  {
    if cache.None? then Err("Project database has not been loaded")
    else
      var branch := EntriesBranch(branchName, trunkName);
      var sorted := EntriesByRevision(cache.value);
      var keep := (e: Entry) => Yielded(e, branch, ignore);
      Sorting.FilterSorted(sorted, keep, ByRevision());
      assert forall e :: e in sorted <==> e in cache.value by {
        assert forall e :: e in sorted <==> e in multiset(sorted);
      }
      Ok(Seqs.Filter(sorted, keep))
  }

  /** With an ignore function the two readings agree. */
  lemma EntriesAgreeWithFilter(cache: Cache, branchName: Option<string>, trunkName: string, ignore: string -> bool)
    ensures EntriesAsWritten(cache, branchName, trunkName, Some(ignore)) == Entries(cache, branchName, trunkName, Some(ignore))
  {
    if cache.Some? {
      var branch := EntriesBranch(branchName, trunkName);
      Seqs.FilterCongruent(EntriesByRevision(cache.value),
                           (e: Entry) => YieldedAsWritten(e, branch, Some(ignore)),
                           (e: Entry) => Yielded(e, branch, Some(ignore)));
    }
  }

  // ----- find_first_revision -----

  function ByDate(): (Entry, Entry) -> bool
  {
    ByString((e: Entry) => e.date)
  }

  /**
   * `find_first_revision`: an error before loading; else the revision of
   * the first entry on the branch once the entries are sorted by date.
   */
  function FindFirstRevision(cache: Cache, branch: string): (r: Result<Option<int>>)
    ensures r.Ok? <==> cache.Some?
  {
    if cache.None? then Err("Project database has not been loaded")
    else
      ByStringIsPreorder((e: Entry) => e.date);
      var sorted := Sorting.SortBy(cache.value, ByDate());
      match Seqs.FirstWhere(sorted, (e: Entry) => e.branchName == branch)
      case None => Ok(None)
      case Some(i) => Ok(Some(sorted[i].revision))
  }

  /**
   * The first revision is that of an entry on the branch dated no later
   * than any other entry on it, and there is none exactly when no entry
   * is on the branch.
   */
  lemma FindFirstRevisionSpec(entries: seq<Entry>, branch: string)
    ensures var r := FindFirstRevision(Some(entries), branch).value;
            && (r.None? <==> forall k :: 0 <= k < |entries| ==> entries[k].branchName != branch)
            && (r.Some? ==> exists k :: 0 <= k < |entries| && entries[k].branchName == branch &&
                                        entries[k].revision == r.value &&
                                        forall j :: 0 <= j < |entries| && entries[j].branchName == branch ==>
                                                      StrLe(entries[k].date, entries[j].date))
  {
    ByStringIsPreorder((e: Entry) => e.date);
    var sorted := Sorting.SortBy(entries, ByDate());
    SameMembers(sorted, entries);
    match Seqs.FirstWhere(sorted, (e: Entry) => e.branchName == branch)
    case None =>
      forall k | 0 <= k < |entries| ensures entries[k].branchName != branch {
        assert entries[k] in sorted;
      }
    case Some(i) =>
      FirstIsEarliest(sorted, i, branch);
      assert sorted[i] in entries;
      var k :| 0 <= k < |entries| && entries[k] == sorted[i];
      assert forall j :: 0 <= j < |entries| ==> entries[j] in sorted;
  }

  lemma SameMembers(a: seq<Entry>, b: seq<Entry>)
    requires multiset(a) == multiset(b)
    ensures forall e :: e in a <==> e in b
  {
    assert forall e :: e in a <==> e in multiset(a);
  }

  /** In date order, the first entry on a branch is dated no later than any other on it. */
  lemma FirstIsEarliest(sorted: seq<Entry>, i: nat, branch: string)
    requires Sorting.SortedBy(sorted, ByDate())
    requires i < |sorted| && sorted[i].branchName == branch
    requires forall k :: 0 <= k < i ==> sorted[k].branchName != branch
    ensures forall e :: e in sorted && e.branchName == branch ==> StrLe(sorted[i].date, e.date)
  {
    forall e | e in sorted && e.branchName == branch ensures StrLe(sorted[i].date, e.date) {
      var m :| 0 <= m < |sorted| && sorted[m] == e;
      if i < m {
        assert ByDate()(sorted[i], sorted[m]);
      }
    }
  }
}

=== FILE: pylint.dfy ===
/**
 * The bookkeeping of the pylint report tool: problems read from a lint
 * file are filed per problem id with their locations and a description,
 * and the report lists each id with its count, fewest first, and the
 * total.  Lines come already matched against the problem pattern: a line
 * that did not match is `None`.
 */
module PylintProblems {
  import opened Wrappers
  import opened StrUtil
  import Sorting

  /** Problem ids whose message text varies from one occurrence to the next. */
  const VariableMessageProblems: seq<string> := ["C0330"]
  const UnknownDescription := "?? unknown ??"

  /** One matched line: file name, line, character position, problem id and description. */
  datatype Problem = Problem(name: string, line: int, charpos: int, id: string, description: string)

  /** A description that disagrees with the one stored first for its id. */
  datatype Conflict = Conflict(id: string, stored: string, seen: string)

  /**
   * The tool's state: the file and problem filters, each problem id's
   * locations in the order ids were first seen, and each id's description.
   */
  datatype Problems = Problems(blacklist: Option<seq<string>>, ignored: Option<seq<string>>,
                               files: seq<(string, seq<string>)>, descriptions: map<string, string>)

  function NewProblems(blacklist: Option<seq<string>>, ignored: Option<seq<string>>): (r: Problems)
    ensures r.files == [] && r.descriptions == map[]
  {
    Problems(blacklist, ignored, [], map[])
  }

  /** The locations filed under `id`. */
  function Locations(files: seq<(string, seq<string>)>, id: string): seq<string>
    decreases |files|
  {
    if files == [] then [] else if files[0].0 == id then files[0].1 else Locations(files[1..], id)
  }

  predicate HasId(files: seq<(string, seq<string>)>, id: string)
  {
    exists k :: 0 <= k < |files| && files[k].0 == id
  }

  /** Each problem id is filed once. */
  predicate DistinctIds(files: seq<(string, seq<string>)>)
  {
    forall i, j :: 0 <= i < j < |files| ==> files[i].0 != files[j].0
  }

  /** A file is skipped when its name contains any blacklist entry. */
  predicate Blacklisted(blacklist: Option<seq<string>>, filename: string)
  {
    blacklist.Some? && exists k :: 0 <= k < |blacklist.value| && Contains(filename, blacklist.value[k])
  }

  predicate IsIgnored(ignored: Option<seq<string>>, id: string)
  {
    ignored.Some? && id in ignored.value
  }

  /** "name:line", with " (char c)" added when the character position is not 0. */
  function FileLoc(name: string, line: int, charpos: int): (r: string)
    ensures StartsWith(r, name + ":" + IntToString(line))
    ensures charpos == 0 <==> r == name + ":" + IntToString(line)
    ensures charpos != 0 ==> EndsWith(r, " (char " + IntToString(charpos) + ")")
  {
    var head := name + ":" + IntToString(line);
    if charpos == 0 then
      Affixes(head, "");
      assert head + "" == head;
      head
    else
      var tail := " (char " + IntToString(charpos) + ")";
      Affixes(head, tail);
      head + tail
  }

  /** `file_map[id].append(loc)`, or a new entry at the end for a new id. */
  function Append(files: seq<(string, seq<string>)>, id: string, loc: string): (r: seq<(string, seq<string>)>)
    ensures Locations(r, id) == Locations(files, id) + [loc]
    ensures forall other :: other != id ==> Locations(r, other) == Locations(files, other)
    ensures forall x :: HasId(r, x) <==> HasId(files, x) || x == id
    ensures DistinctIds(files) ==> DistinctIds(r)
    ensures |r| == |files| || |r| == |files| + 1
    decreases |files|
  {
    if files == [] then
      assert [(id, [loc])][0].0 == id;
      [(id, [loc])]
    else if files[0].0 == id then
      var r := [(id, files[0].1 + [loc])] + files[1..];
      SameIds(files, r);
      r
    else
      var rest := Append(files[1..], id, loc);
      var r := [files[0]] + rest;
      ConsIds(files, rest, r);
      if DistinctIds(files) then
        DistinctTail(files);
        ConsDistinct(files[0], rest);
        r
      else r
  }

  lemma SameIds(files: seq<(string, seq<string>)>, r: seq<(string, seq<string>)>)
    requires |r| == |files| && forall k :: 0 <= k < |r| ==> r[k].0 == files[k].0
    ensures forall x :: HasId(r, x) <==> HasId(files, x)
    ensures DistinctIds(files) ==> DistinctIds(r)
  {
    forall x ensures HasId(r, x) <==> HasId(files, x) {
      if HasId(r, x) {
        var k :| 0 <= k < |r| && r[k].0 == x;
        assert files[k].0 == x;
      }
      if HasId(files, x) {
        var k :| 0 <= k < |files| && files[k].0 == x;
        assert r[k].0 == x;
      }
    }
  }

  lemma ConsIds(files: seq<(string, seq<string>)>, rest: seq<(string, seq<string>)>, r: seq<(string, seq<string>)>)
    requires |files| > 0 && r == [files[0]] + rest
    ensures forall x :: HasId(r, x) <==> x == files[0].0 || HasId(rest, x)
    ensures forall x :: HasId(files, x) <==> x == files[0].0 || HasId(files[1..], x)
  {
    forall x ensures HasId(r, x) <==> x == files[0].0 || HasId(rest, x) {
      if HasId(rest, x) {
        var k :| 0 <= k < |rest| && rest[k].0 == x;
        assert r[k + 1].0 == x;
      }
      if HasId(r, x) && x != files[0].0 {
        var k :| 0 <= k < |r| && r[k].0 == x;
        assert rest[k - 1].0 == x;
      }
      assert r[0].0 == files[0].0;
    }
    forall x ensures HasId(files, x) <==> x == files[0].0 || HasId(files[1..], x) {
      if HasId(files[1..], x) {
        var k :| 0 <= k < |files[1..]| && files[1..][k].0 == x;
        assert files[k + 1].0 == x;
      }
      if HasId(files, x) && x != files[0].0 {
        var k :| 0 <= k < |files| && files[k].0 == x;
        assert files[1..][k - 1].0 == x;
      }
    }
  }

  lemma DistinctTail(files: seq<(string, seq<string>)>)
    requires |files| > 0 && DistinctIds(files)
    ensures DistinctIds(files[1..]) && !HasId(files[1..], files[0].0)
  {
    forall k | 0 <= k < |files[1..]| ensures files[1..][k].0 != files[0].0 {
      assert files[1..][k] == files[k + 1];
    }
  }

  lemma ConsDistinct(head: (string, seq<string>), rest: seq<(string, seq<string>)>)
    requires DistinctIds(rest) && !HasId(rest, head.0)
    ensures DistinctIds([head] + rest)
  {
    var r := [head] + rest;
    forall i, j | 0 <= i < j < |r| ensures r[i].0 != r[j].0 {
      if i == 0 {
        assert rest[j - 1].0 == r[j].0;
      } else {
        assert r[i] == rest[i - 1] && r[j] == rest[j - 1];
      }
    }
  }

  /**
   * One matched problem: an ignored id is dropped; the first description
   * of an id is kept, and a later different one is reported unless the
   * id's message is known to vary; the location is filed under the id.
   */
  function AddProblem(p: Problems, pr: Problem): (r: (Problems, seq<Conflict>))
    ensures r.0.blacklist == p.blacklist && r.0.ignored == p.ignored
    ensures IsIgnored(p.ignored, pr.id) ==> r.0 == p && r.1 == []
    ensures !IsIgnored(p.ignored, pr.id) ==>
              r.0.descriptions == (if pr.id in p.descriptions then p.descriptions else p.descriptions[pr.id := pr.description])
    ensures !IsIgnored(p.ignored, pr.id) ==> r.0.files == Append(p.files, pr.id, FileLoc(pr.name, pr.line, pr.charpos))
    ensures forall c :: c in r.1 ==>
              c.id == pr.id && c.stored == r.0.descriptions[c.id] && c.seen == pr.description &&
              c.stored != c.seen && c.id !in VariableMessageProblems
    ensures r.1 == [] <==> IsIgnored(p.ignored, pr.id) || pr.id !in p.descriptions ||
                           pr.description == p.descriptions[pr.id] || pr.id in VariableMessageProblems
  {
    if IsIgnored(p.ignored, pr.id) then (p, [])
    else
      var (descriptions, conflicts) :=
        if pr.id !in p.descriptions then (p.descriptions[pr.id := pr.description], [])
        else if pr.description != p.descriptions[pr.id] && pr.id !in VariableMessageProblems then
          (p.descriptions, [Conflict(pr.id, p.descriptions[pr.id], pr.description)])
        else (p.descriptions, []);
      var files := Append(p.files, pr.id, FileLoc(pr.name, pr.line, pr.charpos));
      (p.(files := files, descriptions := descriptions), conflicts)
  }

  /** The lines of one lint file, in order; unmatched lines are skipped. */
  function AddLines(p: Problems, lines: seq<Option<Problem>>): (r: (Problems, seq<Conflict>))
    ensures r.0.blacklist == p.blacklist && r.0.ignored == p.ignored
    ensures DistinctIds(p.files) ==> DistinctIds(r.0.files)
    decreases |lines|
  {
    if lines == [] then (p, [])
    else
      var (next, first) := match lines[0]
                           case None => (p, [])
                           case Some(pr) => AddProblem(p, pr);
      var (last, more) := AddLines(next, lines[1..]);
      (last, first + more)
  }

  /** `add_file`: a blacklisted file is skipped whole; otherwise its lines are added. */
  function AddFile(p: Problems, filename: string, lines: seq<Option<Problem>>): (r: (Problems, seq<Conflict>))
    ensures Blacklisted(p.blacklist, filename) ==> r == (p, [])
    ensures !Blacklisted(p.blacklist, filename) ==> r == AddLines(p, lines)
  {
    if p.blacklist.Some? && AnyOccurs(p.blacklist.value, filename) then (p, [])
    else AddLines(p, lines)
  }

  /** Whether some entry occurs in the file name: the blacklist loop. */
  function AnyOccurs(entries: seq<string>, filename: string): (r: bool)
    ensures r <==> exists k :: 0 <= k < |entries| && Contains(filename, entries[k])
    decreases |entries|
  {
    if entries == [] then false
    else if Find(filename, entries[0]) >= 0 then true
    else
      var r := AnyOccurs(entries[1..], filename);
      assert forall k :: 1 <= k < |entries| ==> entries[k] == entries[1..][k - 1];
      r
  }

  // ----- what the lines file under one id -----

  /** The locations the lines contribute to `id`, in order: the reference for `AddLines`. */
  function KeptLocations(lines: seq<Option<Problem>>, ignored: Option<seq<string>>, id: string): seq<string>
    decreases |lines|
  {
    if lines == [] then [] else Here(lines[0], ignored, id) + KeptLocations(lines[1..], ignored, id)
  }

  /** The location one line contributes to `id`, if any. */
  function Here(line: Option<Problem>, ignored: Option<seq<string>>, id: string): seq<string>
  {
    match line
    case Some(pr) => if pr.id == id && !IsIgnored(ignored, id) then [FileLoc(pr.name, pr.line, pr.charpos)] else []
    case None => []
  }

  /** The state after one line. */
  function Step(p: Problems, line: Option<Problem>): Problems
  {
    match line
    case None => p
    case Some(pr) => AddProblem(p, pr).0
  }

  lemma StepLocations(p: Problems, line: Option<Problem>, id: string)
    ensures Locations(Step(p, line).files, id) == Locations(p.files, id) + Here(line, p.ignored, id)
  {
  }

  /** The description of the first kept line with `id`, if any. */
  function FirstDescription(lines: seq<Option<Problem>>, ignored: Option<seq<string>>, id: string): Option<string>
    decreases |lines|
  {
    if lines == [] then None
    else match lines[0]
      case Some(pr) =>
        if pr.id == id && !IsIgnored(ignored, id) then Some(pr.description)
        else FirstDescription(lines[1..], ignored, id)
      case None => FirstDescription(lines[1..], ignored, id)
  }

  /** Adding lines files under each id exactly that id's kept locations, after those already there. */
  lemma {:induction false} AddLinesLocations(p: Problems, lines: seq<Option<Problem>>, id: string)
    ensures Locations(AddLines(p, lines).0.files, id) == Locations(p.files, id) + KeptLocations(lines, p.ignored, id)
    decreases |lines|
  {
    if lines != [] {
      var next := Step(p, lines[0]);
      AddLinesLocations(next, lines[1..], id);
      assert AddLines(p, lines).0 == AddLines(next, lines[1..]).0;
      StepLocations(p, lines[0], id);
    }
  }

  /** An id's first description stays; a new id gets the first kept line's description. */
  lemma {:induction false} AddLinesDescription(p: Problems, lines: seq<Option<Problem>>, id: string)
    ensures var d := AddLines(p, lines).0.descriptions;
            && (id in d <==> id in p.descriptions || FirstDescription(lines, p.ignored, id).Some?)
            && (id in p.descriptions ==> d[id] == p.descriptions[id])
            && (id !in p.descriptions && id in d ==> d[id] == FirstDescription(lines, p.ignored, id).value)
    decreases |lines|
  {
    if lines != [] {
      var next := Step(p, lines[0]);
      AddLinesDescription(next, lines[1..], id);
      assert AddLines(p, lines).0 == AddLines(next, lines[1..]).0;
    }
  }

  /** An ignored problem id never gains a location. */
  lemma IgnoredNeverFiled(p: Problems, lines: seq<Option<Problem>>, id: string)
    requires IsIgnored(p.ignored, id)
    ensures Locations(AddLines(p, lines).0.files, id) == Locations(p.files, id)
  {
    AddLinesLocations(p, lines, id);
    NothingKept(lines, p.ignored, id);
  }

  lemma {:induction false} NothingKept(lines: seq<Option<Problem>>, ignored: Option<seq<string>>, id: string)
    requires IsIgnored(ignored, id)
    ensures KeptLocations(lines, ignored, id) == []
    decreases |lines|
  {
    if lines != [] {
      NothingKept(lines[1..], ignored, id);
    }
  }

  // ----- report -----

  /** One report line: the count, the problem id, its description, and its sorted locations when verbose. */
  datatype Row = Row(count: nat, id: string, description: string, locations: seq<string>)

  /** `key=lambda item: (item[1], item[0])`: by count, then by id. */
  function ByCountId(): (Row, Row) -> bool
  {
    (a: Row, b: Row) => a.count < b.count || (a.count == b.count && StrLe(a.id, b.id))
  }

  lemma ByCountIdIsPreorder()
    ensures Sorting.IsTotalPreorder(ByCountId())
  {
    forall a: Row, b: Row ensures ByCountId()(a, b) || ByCountId()(b, a) {
      StrLtTrichotomy(a.id, b.id);
    }
    forall a: Row, b: Row, c: Row | ByCountId()(a, b) && ByCountId()(b, c)
      ensures ByCountId()(a, c)
    {
      if a.count == b.count == c.count && StrLt(a.id, b.id) && StrLt(b.id, c.id) {
        StrLtTransitive(a.id, b.id, c.id);
      }
    }
  }

  function Describe(descriptions: map<string, string>, id: string): (r: string)
    ensures id in descriptions ==> r == descriptions[id]
    ensures id !in descriptions ==> r == UnknownDescription
  {
    if id in descriptions then descriptions[id] else UnknownDescription
  }

  /** The unsorted report lines, one per filed id, in the order ids were first seen. */
  function RowsOf(p: Problems, verbose: bool): (r: seq<Row>)
    ensures |r| == |p.files|
    ensures forall k :: 0 <= k < |r| ==>
              r[k].id == p.files[k].0 && r[k].count == |p.files[k].1| &&
              r[k].description == Describe(p.descriptions, p.files[k].0)
  {
    seq(|p.files|, k requires 0 <= k < |p.files| =>
      Row(|p.files[k].1|, p.files[k].0, Describe(p.descriptions, p.files[k].0),
          if verbose then SortedLocations(p.files[k].1) else []))
  }

  /** `sorted(file_map[id])`. */
  function SortedLocations(locs: seq<string>): (r: seq<string>)
    ensures multiset(r) == multiset(locs)
    ensures forall i, j :: 0 <= i < j < |r| ==> StrLe(r[i], r[j])
  {
    ByStringIsPreorder((s: string) => s);
    Sorting.SortBy(locs, ByString((s: string) => s))
  }

  function Sum(rows: seq<Row>): nat
    decreases |rows|
  {
    if rows == [] then 0 else rows[0].count + Sum(rows[1..])
  }

  /**
   * `report`: the lines sorted by count and then id, and the total of
   * the counts.
   */
  function Report(p: Problems, verbose: bool): (r: (seq<Row>, nat))
    ensures Sorting.SortedBy(r.0, ByCountId())
    ensures multiset(r.0) == multiset(RowsOf(p, verbose))
    ensures r.1 == Sum(r.0)
    ensures r.1 == Sum(RowsOf(p, verbose))
  {
    ByCountIdIsPreorder();
    var rows := RowsOf(p, verbose);
    var sorted := Sorting.SortBy(rows, ByCountId());
    SumSorted(rows);
    (sorted, Sum(rows))
  }

  /** Inserting a line into sorted lines adds its count to the total. */
  lemma {:induction false} SumInsert(x: Row, s: seq<Row>)
    requires Sorting.IsTotalPreorder(ByCountId()) && Sorting.SortedBy(s, ByCountId())
    ensures Sum(Sorting.Insert(x, s, ByCountId())) == x.count + Sum(s)
    decreases |s|
  {
    if |s| > 0 && !ByCountId()(x, s[0]) {
      var rest := Sorting.Insert(x, s[1..], ByCountId());
      SumInsert(x, s[1..]);
      assert ([s[0]] + rest)[1..] == rest;
    } else if |s| > 0 {
      assert ([x] + s)[1..] == s;
    }
  }

  /** Sorting the lines keeps the total. */
  lemma {:induction false} SumSorted(s: seq<Row>)
    requires Sorting.IsTotalPreorder(ByCountId())
    ensures Sum(Sorting.SortBy(s, ByCountId())) == Sum(s)
    decreases |s|
  {
    if |s| > 0 {
      SumSorted(s[1..]);
      SumInsert(s[0], Sorting.SortBy(s[1..], ByCountId()));
    }
  }

  lemma {:induction false} SumAppend(a: seq<Row>, b: seq<Row>)
    ensures Sum(a + b) == Sum(a) + Sum(b)
    decreases |a|
  {
    if a == [] {
      assert a + b == b;
    } else {
      assert (a + b)[1..] == a[1..] + b;
      SumAppend(a[1..], b);
    }
  }

  /** The total is the number of filed locations: one per kept problem line. */
  lemma {:induction false} TotalCountsLocations(p: Problems, verbose: bool)
    ensures Report(p, verbose).1 == LocationCount(p.files)
    decreases |p.files|
  {
    if p.files != [] {
      var rows := RowsOf(p, verbose);
      TotalCountsLocations(p.(files := p.files[1..]), verbose);
      assert rows[1..] == RowsOf(p.(files := p.files[1..]), verbose);
    }
  }

  function LocationCount(files: seq<(string, seq<string>)>): nat
    decreases |files|
  {
    if files == [] then 0 else |files[0].1| + LocationCount(files[1..])
  }
}

=== FILE: repostatus.dfy ===
/**
 * The status of one project as seen from a Git sandbox and from a
 * Subversion sandbox, how it is printed, where its branch comes from, and
 * the comparison of the two sandboxes.  A sandbox is the dictionary from
 * project name to status, in insertion order.
 */
module RepoStatus {
  import opened Wrappers
  import opened StrUtil
  import Seqs

  /** A project's position in both histories; `None` prints as "None". */
  datatype Status = Status(
    gitBranch: Option<string>,
    gitHash: Option<string>,
    gitStatus: Option<string>,
    svnBranch: Option<string>,
    svnRevision: Option<int>,
    svnDate: Option<string>)

  /** The submodule status is printed unless it is missing or a blank. */
  predicate StatusShown(gitStatus: Option<string>)
  {
    gitStatus.Some? && gitStatus.value != " "
  }

  function BranchPrefix(branch: Option<string>): (r: string)
    ensures branch.None? <==> r == ""
    ensures branch.Some? ==> r == branch.value + "/"
  {
    if branch.None? then "" else branch.value + "/"
  }

  function ShowRevision(revision: Option<int>): (r: string)
    ensures ' ' !in r
  {
    match revision
    case None => "None"
    case Some(n) => NoSpaceInNumber(n); IntToString(n)
  }

  lemma NoSpaceInNumber(n: int)
    ensures ' ' !in IntToString(n)
  {
    var t := NatToString(if n >= 0 then n else -n);
    assert forall k :: 0 <= k < |t| ==> t[k] != ' ';
  }

  /** The Git half of the printed status: "[branch/]hash[(status)]". */
  function GitField(st: Status): (r: string)
    ensures StartsWith(r, BranchPrefix(st.gitBranch) + ShowOption(st.gitHash))
    ensures StatusShown(st.gitStatus) ==> EndsWith(r, "(" + st.gitStatus.value + ")")
    ensures StatusShown(st.gitStatus) ==>
              r == BranchPrefix(st.gitBranch) + ShowOption(st.gitHash) + "(" + st.gitStatus.value + ")"
    ensures !StatusShown(st.gitStatus) ==> r == BranchPrefix(st.gitBranch) + ShowOption(st.gitHash)
  {
    var head := BranchPrefix(st.gitBranch) + ShowOption(st.gitHash);
    if StatusShown(st.gitStatus) then
      Affixes(head, "(" + st.gitStatus.value + ")");
      head + "(" + st.gitStatus.value + ")"
    else head
  }

  /** The Subversion half of the printed status: "[branch/]rev[[date]]". */
  function SvnField(st: Status): (r: string)
    ensures StartsWith(r, BranchPrefix(st.svnBranch) + ShowRevision(st.svnRevision))
    ensures st.svnDate.Some? ==> EndsWith(r, "[" + st.svnDate.value + "]")
    ensures st.svnDate.Some? ==>
              r == BranchPrefix(st.svnBranch) + ShowRevision(st.svnRevision) + "[" + st.svnDate.value + "]"
    ensures st.svnDate.None? ==> r == BranchPrefix(st.svnBranch) + ShowRevision(st.svnRevision)
  {
    var head := BranchPrefix(st.svnBranch) + ShowRevision(st.svnRevision);
    if st.svnDate.Some? then
      Affixes(head, "[" + st.svnDate.value + "]");
      head + "[" + st.svnDate.value + "]"
    else head
  }

  /** `RepoStatus.__str__`. */
  function Render(st: Status): (r: string)
    ensures StartsWith(r, "git ")
    ensures r == "git " + GitField(st) + " svn " + SvnField(st)
  {
    Affixes("git ", GitField(st) + " svn " + SvnField(st));
    "git " + GitField(st) + " svn " + SvnField(st)
  }

  /** No printed piece of the status holds a space. */
  predicate NoSpaces(st: Status)
  {
    && (st.gitBranch.Some? ==> ' ' !in st.gitBranch.value)
    && ' ' !in ShowOption(st.gitHash)
    && (st.gitStatus.Some? ==> ' ' !in st.gitStatus.value)
    && (st.svnBranch.Some? ==> ' ' !in st.svnBranch.value)
    && (st.svnDate.Some? ==> ' ' !in st.svnDate.value)
  }

  /** A printed status without spaces in its pieces splits back into its four words. */
  lemma RenderSplits(st: Status)
    requires NoSpaces(st)
    ensures Split(Render(st), ' ') == ["git", GitField(st), "svn", SvnField(st)]
  {
    var g, s := GitField(st), SvnField(st);
    NoSpaceInField(st);
    var parts := ["git", g, "svn", s];
    JoinFourWords("git", g, "svn", s);
    assert "git" + " " + g + " " + "svn" + " " + s == Render(st);
    SplitOfJoin(parts, ' ');
  }

  lemma JoinFourWords(a: string, b: string, c: string, d: string)
    ensures Join([a, b, c, d], " ") == a + " " + b + " " + c + " " + d
  {
    var parts := [a, b, c, d];
    assert Join(parts[3..], " ") == d;
    assert Join(parts[2..], " ") == c + " " + d;
    assert Join(parts[1..], " ") == b + " " + c + " " + d;
  }

  lemma NoSpaceInField(st: Status)
    requires NoSpaces(st)
    ensures ' ' !in GitField(st) && ' ' !in SvnField(st)
  {
    var rev := ShowRevision(st.svnRevision);
    assert ' ' !in rev;
  }

  /** A missing status and a blank one print alike: neither shows. */
  lemma BlankStatusOmitted(st: Status)
    requires !StatusShown(st.gitStatus)
    ensures Render(st) == Render(st.(gitStatus := None))
  {
  }

  /**
   * `__extract_branch_from_rel_url`: the branch named after the first
   * occurrence of the project in the relative URL, "trunk" when the
   * project ends the URL, and an error when the project is absent or is
   * not followed by '/' and at least one character.
   */
  function ExtractBranch(name: string, relUrl: string): (r: Result<string>)
    ensures var i := Find(relUrl, name);
            r.Ok? <==> i >= 0 && (i + |name| == |relUrl| || (i + |name| + 2 <= |relUrl| && relUrl[i + |name|] == '/'))
    ensures var i := Find(relUrl, name);
            i >= 0 && i + |name| == |relUrl| ==> r == Ok("trunk")
    ensures var i := Find(relUrl, name);
            r.Ok? && i + |name| < |relUrl| ==> r.value != "" && relUrl == relUrl[..i + |name|] + "/" + r.value
  {
    var idx := Find(relUrl, name);
    if idx < 0 then Err("Cannot find \"" + name + "\" in relative URL \"" + relUrl + "\"")
    else
      var end := idx + |name|;
      if |relUrl| == end then Ok("trunk")
      else if |relUrl| < end + 2 || relUrl[end] != '/' then
        Err("No branch information found for " + name + " in relative URL \"" + relUrl + "\"")
      else
        assert relUrl == relUrl[..end] + "/" + relUrl[end + 1..];
        Ok(relUrl[end + 1..])
  }

  /** "<prefix><name>/<branch>" gives the branch when the project first occurs after the prefix. */
  lemma ExtractBranchOf(prefix: string, name: string, branch: string)
    requires branch != ""
    requires forall j :: 0 <= j < |prefix| ==> !OccursAt(prefix + name + "/" + branch, name, j)
    ensures ExtractBranch(name, prefix + name + "/" + branch) == Ok(branch)
  {
    var url := prefix + name + "/" + branch;
    assert url[|prefix|..|prefix| + |name|] == name;
    assert OccursAt(url, name, |prefix|);
    assert Find(url, name) == |prefix|;
    assert url[|prefix| + |name|] == '/';
    assert url[|prefix| + |name| + 1..] == branch;
  }

  /** "<prefix><name>" is the trunk when the project first occurs after the prefix. */
  lemma ExtractTrunkOf(prefix: string, name: string)
    requires forall j :: 0 <= j < |prefix| ==> !OccursAt(prefix + name, name, j)
    ensures ExtractBranch(name, prefix + name) == Ok("trunk")
  {
    var url := prefix + name;
    assert url[|prefix|..|prefix| + |name|] == name;
    assert OccursAt(url, name, |prefix|);
    assert Find(url, name) == |prefix|;
  }

  // ----- compare -----

  /** A sandbox: project name to status, in insertion order. */
  type Sandbox = seq<(string, Status)>

  predicate HasProject(repo: Sandbox, project: string)
  {
    exists k :: 0 <= k < |repo| && repo[k].0 == project
  }

  function Lookup(repo: Sandbox, project: string): (r: Option<Status>)
    ensures r.Some? <==> HasProject(repo, project)
    ensures r.Some? ==> exists k :: 0 <= k < |repo| && repo[k] == (project, r.value)
  {
    match Seqs.FirstWhere(repo, (e: (string, Status)) => e.0 == project)
    case None => None
    case Some(k) => Some(repo[k].1)
  }

  /** What `compare` prints: the missing projects, the extra ones, and those whose hashes disagree. */
  datatype Report = Report(missing: seq<string>, extra: seq<string>, mismatched: seq<string>)

  /** The SVN-side hash does not start with the Git-side one; both must be present to ask. */
  predicate Mismatch(svnHash: string, gitHash: string)
  {
    !StartsWith(svnHash, gitHash)
  }

  /** Comparing a shared project fails when either side has no hash to compare. */
  predicate Unhashed(svnRepo: Sandbox, entry: (string, Status))
  {
    Lookup(svnRepo, entry.0).Some? && (Lookup(svnRepo, entry.0).value.gitHash.None? || entry.1.gitHash.None?)
  }

  function Missing(metaproject: string, svnRepo: Sandbox, gitRepo: Sandbox): (r: seq<string>)
    ensures forall p :: p in r <==> HasProject(svnRepo, p) && !HasProject(gitRepo, p) && p != metaproject
    decreases |svnRepo|
  {
    if svnRepo == [] then []
    else
      var p := svnRepo[0].0;
      var rest := Missing(metaproject, svnRepo[1..], gitRepo);
      HasProjectTail(svnRepo);
      if !HasProject(gitRepo, p) && p != metaproject then [p] + rest else rest
  }

  /** Some shared project of the Git sandbox lacks a hash on one side. */
  predicate AnyUnhashed(svnRepo: Sandbox, gitRepo: Sandbox)
  {
    exists k :: 0 <= k < |gitRepo| && Unhashed(svnRepo, gitRepo[k])
  }

  /** Some entry for `p` in the Git sandbox has a hash that the Subversion-side hash does not start with. */
  predicate Mismatched(svnRepo: Sandbox, gitRepo: Sandbox, p: string)
  {
    exists k :: 0 <= k < |gitRepo| && gitRepo[k].0 == p && Lookup(svnRepo, p).Some? &&
                Lookup(svnRepo, p).value.gitHash.Some? && gitRepo[k].1.gitHash.Some? &&
                Mismatch(Lookup(svnRepo, p).value.gitHash.value, gitRepo[k].1.gitHash.value)
  }

  /** The loop over the Git sandbox: extra projects and mismatched hashes, or the failure of a comparison. */
  function ScanGit(metaproject: string, svnRepo: Sandbox, gitRepo: Sandbox): (r: Result<(seq<string>, seq<string>)>)
    ensures r.Err? <==> AnyUnhashed(svnRepo, gitRepo)
    ensures r.Ok? ==> forall p :: p in r.value.0 <==> HasProject(gitRepo, p) && !HasProject(svnRepo, p) && p != metaproject
    ensures r.Ok? ==> forall p :: p in r.value.1 <==> Mismatched(svnRepo, gitRepo, p)
    decreases |gitRepo|
  {
    if gitRepo == [] then Ok(([], []))
    else
      var (p, gstat) := gitRepo[0];
      ScanTail(svnRepo, gitRepo);
      HasProjectTail(gitRepo);
      var rest :- ScanGit(metaproject, svnRepo, gitRepo[1..]);
      match Lookup(svnRepo, p)
      case None => Ok((if p != metaproject then [p] + rest.0 else rest.0, rest.1))
      case Some(sstat) =>
        if sstat.gitHash.None? || gstat.gitHash.None? then Err("Cannot compare hashes for " + p)
        else if Mismatch(sstat.gitHash.value, gstat.gitHash.value) then Ok((rest.0, [p] + rest.1))
        else Ok(rest)
  }

  /** Both conditions of the scan, split into the first entry and the rest. */
  lemma ScanTail(svnRepo: Sandbox, gitRepo: Sandbox)
    requires gitRepo != []
    ensures AnyUnhashed(svnRepo, gitRepo) <==> Unhashed(svnRepo, gitRepo[0]) || AnyUnhashed(svnRepo, gitRepo[1..])
    ensures forall p :: Mismatched(svnRepo, gitRepo, p) <==>
              Mismatched(svnRepo, gitRepo[..1], p) || Mismatched(svnRepo, gitRepo[1..], p)
  {
    assert forall k :: 1 <= k < |gitRepo| ==> gitRepo[k] == gitRepo[1..][k - 1];
    assert gitRepo[..1][0] == gitRepo[0];
  }

  lemma HasProjectTail(repo: Sandbox)
    requires repo != []
    ensures forall q :: HasProject(repo, q) <==> q == repo[0].0 || HasProject(repo[1..], q)
  {
    forall q | HasProject(repo, q) && q != repo[0].0 ensures HasProject(repo[1..], q) {
      var k :| 0 <= k < |repo| && repo[k].0 == q;
      assert repo[1..][k - 1].0 == q;
    }
    forall q | HasProject(repo[1..], q) ensures HasProject(repo, q) {
      var k :| 0 <= k < |repo| - 1 && repo[1..][k].0 == q;
      assert repo[k + 1].0 == q;
    }
  }

  /**
   * `RepoStatus.compare`: projects only in the Subversion sandbox are
   * missing, projects only in the Git sandbox are extra, the metaproject
   * is neither, and a shared project is reported exactly when its
   * Subversion-side hash does not start with its Git-side hash.  A shared
   * project without a hash on either side cannot be compared.
   */
  function Compare(metaproject: string, svnRepo: Sandbox, gitRepo: Sandbox): (r: Result<Report>)
    ensures r.Err? <==> exists k :: 0 <= k < |gitRepo| && Unhashed(svnRepo, gitRepo[k])
    ensures r.Ok? ==> forall p :: p in r.value.missing <==>
                        HasProject(svnRepo, p) && !HasProject(gitRepo, p) && p != metaproject
    ensures r.Ok? ==> forall p :: p in r.value.extra <==>
                        HasProject(gitRepo, p) && !HasProject(svnRepo, p) && p != metaproject
    ensures r.Ok? ==> forall p :: p in r.value.mismatched ==> HasProject(gitRepo, p) && HasProject(svnRepo, p)
  {
    var (extra, mismatched) :- ScanGit(metaproject, svnRepo, gitRepo);
    Ok(Report(Missing(metaproject, svnRepo, gitRepo), extra, mismatched))
  }

  /** With one entry per project, a shared project is reported exactly when its hashes disagree. */
  lemma CompareMismatch(metaproject: string, svnRepo: Sandbox, gitRepo: Sandbox, k: nat)
    requires Compare(metaproject, svnRepo, gitRepo).Ok?
    requires k < |gitRepo| && Lookup(svnRepo, gitRepo[k].0).Some?
    requires forall j :: 0 <= j < |gitRepo| && gitRepo[j].0 == gitRepo[k].0 ==> j == k
    ensures var s := Lookup(svnRepo, gitRepo[k].0).value;
            gitRepo[k].0 in Compare(metaproject, svnRepo, gitRepo).value.mismatched <==>
            Mismatch(s.gitHash.value, gitRepo[k].1.gitHash.value)
  {
    assert !Unhashed(svnRepo, gitRepo[k]);
  }
}

=== FILE: seqs.dfy ===
/** Searching a sequence front to back, as the scripts' `for`/`while` loops with an early exit do. */
module Seqs {
  import opened Wrappers

  /** The index of the first element satisfying `p`, or `None` when there is none. */
  function FirstWhere<T>(s: seq<T>, p: T -> bool): (r: Option<nat>)
    ensures r.Some? ==> r.value < |s| && p(s[r.value])
    ensures r.Some? ==> forall k :: 0 <= k < r.value ==> !p(s[k])
    ensures r.None? <==> forall k :: 0 <= k < |s| ==> !p(s[k])
    decreases |s|
  {
    if |s| == 0 then None
    else if p(s[0]) then Some(0)
    else
      assert forall k :: 1 <= k < |s| ==> s[k] == s[1..][k - 1];
      match FirstWhere(s[1..], p)
      case None => None
      case Some(i) => Some(i + 1)
  }

  /** The index of the last element satisfying `p`, or `None` when there is none. */
  function LastWhere<T>(s: seq<T>, p: T -> bool): (r: Option<nat>)
    ensures r.Some? ==> r.value < |s| && p(s[r.value])
    ensures r.Some? ==> forall k :: r.value < k < |s| ==> !p(s[k])
    ensures r.None? <==> forall k :: 0 <= k < |s| ==> !p(s[k])
    decreases |s|
  {
    if |s| == 0 then None
    else if p(s[|s| - 1]) then Some(|s| - 1)
    else
      assert forall k :: 0 <= k < |s| - 1 ==> s[k] == s[..|s| - 1][k];
      LastWhere(s[..|s| - 1], p)
  }

  /** The elements satisfying `p`, in their order: a list comprehension with an `if`. */
  function Filter<T(!new)>(s: seq<T>, p: T -> bool): (r: seq<T>)
    ensures |r| <= |s|
    ensures forall x :: x in r <==> x in s && p(x)
    decreases |s|
  {
    if |s| == 0 then []
    else
      assert forall x :: x in s <==> x == s[0] || x in s[1..];
      (if p(s[0]) then [s[0]] else []) + Filter(s[1..], p)
  }

  /** Filtering an element in front of a sequence. */
  lemma FilterCons<T(!new)>(x: T, s: seq<T>, p: T -> bool)
    ensures Filter([x] + s, p) == (if p(x) then [x] else []) + Filter(s, p)
  {
    assert ([x] + s)[1..] == s;
  }

  /** Filtering by two predicates that agree everywhere gives the same sequence. */
  lemma {:induction false} FilterCongruent<T(!new)>(s: seq<T>, p: T -> bool, q: T -> bool)
    requires forall x :: p(x) == q(x)
    ensures Filter(s, p) == Filter(s, q)
    decreases |s|
  {
    if |s| > 0 {
      FilterCongruent(s[1..], p, q);
    }
  }

  /** Filtering by a predicate nothing satisfies leaves nothing. */
  lemma {:induction false} FilterNone<T(!new)>(s: seq<T>, p: T -> bool)
    requires forall x :: !p(x)
    ensures Filter(s, p) == []
    decreases |s|
  {
    if |s| > 0 {
      FilterNone(s[1..], p);
    }
  }

  /** The positions of `s` whose elements satisfy `p`. */
  function Positions<T>(s: seq<T>, p: T -> bool): set<nat>
  {
    set k: nat | k < |s| && p(s[k])
  }

  /** The positions in `s` are those in all but its last element, and the last position if it satisfies `p`. */
  lemma PositionsLast<T>(s: seq<T>, p: T -> bool)
    requires |s| > 0
    ensures |Positions(s, p)| == |Positions(s[..|s| - 1], p)| + if p(s[|s| - 1]) then 1 else 0
  {
    var n := |s| - 1;
    var front := Positions(s[..n], p);
    assert forall k :: 0 <= k < n ==> s[..n][k] == s[k];
    assert n !in front;
    if p(s[n]) {
      assert Positions(s, p) == front + {n};
    } else {
      assert Positions(s, p) == front;
    }
  }

  /** Two sequences that are images of two others, element by element, concatenate to the image of their concatenation. */
  lemma ImageConcat<T, U>(a: seq<T>, b: seq<T>, fa: seq<U>, fb: seq<U>, f: T -> U)
    requires |fa| == |a| && forall i :: 0 <= i < |fa| ==> fa[i] == f(a[i])
    requires |fb| == |b| && forall i :: 0 <= i < |fb| ==> fb[i] == f(b[i])
    ensures |fa + fb| == |a + b|
    ensures forall i :: 0 <= i < |fa + fb| ==> (fa + fb)[i] == f((a + b)[i])
  {
  }

  /** Moving the head of `es` onto the end of `out` keeps the concatenation. */
  lemma ConcatAssoc<T>(a: seq<T>, b: seq<T>, c: seq<T>)
    ensures a + b + c == a + (b + c)
  {
  }

  lemma SnocTail<T>(out: seq<T>, es: seq<T>)
    requires |es| > 0
    ensures out + [es[0]] + es[1..] == out + es
  {
    assert es == [es[0]] + es[1..];
  }

  /** Applying an idempotent map a second time, element by element, changes nothing. */
  lemma MapTwice<T>(a: seq<T>, b: seq<T>, c: seq<T>, f: T -> T)
    requires |b| == |a| && |c| == |b|
    requires forall k :: 0 <= k < |a| ==> b[k] == f(a[k])
    requires forall k :: 0 <= k < |b| ==> c[k] == f(b[k])
    requires forall x :: f(f(x)) == f(x)
    ensures c == b
  {
  }
}

=== FILE: sorting.dfy ===
/**
 * Python's `sorted(...)`, as used by the scripts: a sequence reordered so
 * that a total preorder holds between every earlier and later element,
 * and the sorted integers of a set (`sorted(set(...))`).
 */
module Sorting {
  import Seqs

  ghost predicate IsTotalPreorder<T(!new)>(le: (T, T) -> bool)
  {
    (forall a, b :: le(a, b) || le(b, a)) &&
    (forall a, b, c :: le(a, b) && le(b, c) ==> le(a, c))
  }

  predicate SortedBy<T>(s: seq<T>, le: (T, T) -> bool)
  {
    forall i, j :: 0 <= i < j < |s| ==> le(s[i], s[j])
  }

  /** Insert `x` before the first element it is not above, so that it stays ahead of equal elements. */
  function Insert<T(!new)>(x: T, s: seq<T>, le: (T, T) -> bool): (r: seq<T>)
    requires IsTotalPreorder(le) && SortedBy(s, le)
    ensures SortedBy(r, le)
    ensures multiset(r) == multiset(s) + multiset{x}
    ensures forall y :: y in r <==> y in s || y == x
    ensures |r| == |s| + 1
  {
    if |s| == 0 then [x]
    else if !le(x, s[0]) then
      var rest := Insert(x, s[1..], le);
      HeadBelow(s[0], x, s[1..], rest, le);
      ConsKeepsInsert(s, x, rest);
      [s[0]] + rest
    else
      assert le(x, s[0]);
      [x] + s
  }

  /** Putting back the head of `s` in front of `rest`, which holds the rest of `s` and `x`, holds all of `s` and `x`. */
  lemma ConsKeepsInsert<T>(s: seq<T>, x: T, rest: seq<T>)
    requires |s| > 0 && multiset(rest) == multiset(s[1..]) + multiset{x}
    ensures multiset([s[0]] + rest) == multiset(s) + multiset{x}
    ensures forall y :: y in [s[0]] + rest <==> y in s || y == x
  {
    assert s == [s[0]] + s[1..];
    forall y ensures y in [s[0]] + rest <==> y in s || y == x {
      assert y in [s[0]] + rest <==> y in multiset([s[0]] + rest);
      assert y in s <==> y in multiset(s);
    }
  }

  /** The head of a sorted sequence is below everything inserted after it. */
  lemma HeadBelow<T>(h: T, x: T, tail: seq<T>, rest: seq<T>, le: (T, T) -> bool)
    requires SortedBy([h] + tail, le) && le(h, x)
    requires forall y :: y in rest ==> y in tail || y == x
    ensures SortedBy([h] + rest, le) <==> SortedBy(rest, le)
  {
    assert forall y :: y in tail ==> le(h, y) by {
      forall y | y in tail ensures le(h, y) {
        var m :| 0 <= m < |tail| && tail[m] == y;
        assert ([h] + tail)[0] == h && ([h] + tail)[m + 1] == y;
      }
    }
    if SortedBy(rest, le) {
      forall i, j | 0 <= i < j < |[h] + rest| ensures le(([h] + rest)[i], ([h] + rest)[j]) {
        var y := rest[j - 1];
        assert ([h] + rest)[j] == y && y in rest;
        if i > 0 {
          assert ([h] + rest)[i] == rest[i - 1];
          assert le(rest[i - 1], y);
        } else {
          assert ([h] + rest)[i] == h;
          assert y in tail || y == x;
          assert le(h, y);
        }
      }
    }
    if SortedBy([h] + rest, le) {
      forall i, j | 0 <= i < j < |rest| ensures le(rest[i], rest[j]) {
        assert rest[i] == ([h] + rest)[i + 1] && rest[j] == ([h] + rest)[j + 1];
      }
    }
  }

  /** Insertion sort; the result is ordered by `le` and a permutation of `s`. */
  function SortBy<T(!new)>(s: seq<T>, le: (T, T) -> bool): (r: seq<T>)
    requires IsTotalPreorder(le)
    ensures SortedBy(r, le)
    ensures multiset(r) == multiset(s)
    ensures |r| == |s|
  {
    if |s| == 0 then []
    else
      assert s == [s[0]] + s[1..];
      Insert(s[0], SortBy(s[1..], le), le)
  }

  /**
   * Sorting is stable: a sequence already in order comes back unchanged,
   * equal elements included.
   */
  lemma {:induction false} SortSorted<T(!new)>(s: seq<T>, le: (T, T) -> bool)
    requires IsTotalPreorder(le) && SortedBy(s, le)
    ensures SortBy(s, le) == s
  {
    if |s| > 0 {
      SortedTail(s, le);
      SortSorted(s[1..], le);
      InsertAtFront(s[0], s[1..], le);
      assert s == [s[0]] + s[1..];
    }
  }

  lemma SortedTail<T>(s: seq<T>, le: (T, T) -> bool)
    requires |s| > 0 && SortedBy(s, le)
    ensures SortedBy(s[1..], le)
    ensures |s| > 1 ==> le(s[0], s[1..][0])
  {
    forall i, j | 0 <= i < j < |s[1..]| ensures le(s[1..][i], s[1..][j]) {
      assert s[1..][i] == s[i + 1] && s[1..][j] == s[j + 1];
    }
  }

  /** An element not above the head of a sorted sequence is inserted in front. */
  lemma InsertAtFront<T(!new)>(x: T, s: seq<T>, le: (T, T) -> bool)
    requires IsTotalPreorder(le) && SortedBy(s, le)
    requires |s| > 0 ==> le(x, s[0])
    ensures Insert(x, s, le) == [x] + s
  {
  }

  predicate StrictlyIncreasing(s: seq<int>)
  {
    forall i, j :: 0 <= i < j < |s| ==> s[i] < s[j]
  }

  /** Put `x` into an ascending sequence unless it is already there. */
  function InsertUnique(x: int, s: seq<int>): (r: seq<int>)
    requires StrictlyIncreasing(s)
    ensures StrictlyIncreasing(r)
    ensures forall y :: y in r <==> y in s || y == x
  {
    if |s| == 0 then [x]
    else if x == s[0] then s
    else if x < s[0] then [x] + s
    else
      var rest := InsertUnique(x, s[1..]);
      assert forall y :: y in s[1..] ==> s[0] < y;
      ConsIncreasing(s[0], rest);
      [s[0]] + rest
  }

  lemma ConsIncreasing(h: int, rest: seq<int>)
    requires StrictlyIncreasing(rest) && forall y :: y in rest ==> h < y
    ensures StrictlyIncreasing([h] + rest)
  {
    forall i, j | 0 <= i < j < |[h] + rest| ensures ([h] + rest)[i] < ([h] + rest)[j] {
      assert ([h] + rest)[j] == rest[j - 1] && rest[j - 1] in rest;
      if i > 0 {
        assert ([h] + rest)[i] == rest[i - 1];
      }
    }
  }

  /** `sorted(set(s))` for integers: ascending, each value of `s` once. */
  function SortedUnique(s: seq<int>): (r: seq<int>)
    ensures StrictlyIncreasing(r)
    ensures forall x :: x in r <==> x in s
  {
    if |s| == 0 then [] else InsertUnique(s[|s| - 1], SortedUnique(s[..|s| - 1]))
  }

  /** An ascending sequence without repeats is fixed by its elements: `SortedUnique` has one possible result. */
  lemma {:induction false} IncreasingUnique(a: seq<int>, b: seq<int>)
    requires StrictlyIncreasing(a) && StrictlyIncreasing(b)
    requires forall x :: x in a <==> x in b
    ensures a == b
    decreases |a|
  {
    assert |a| > 0 ==> a[0] in a && a[0] in b;
    assert |b| > 0 ==> b[0] in b && b[0] in a;
    if |a| > 0 && |b| > 0 {
      assert a[0] == b[0] by {
        assert a[0] in b && b[0] in a;
      }
      forall x ensures x in a[1..] <==> x in b[1..] {
        TailMembers(a, x);
        TailMembers(b, x);
      }
      IncreasingUnique(a[1..], b[1..]);
      assert a == [a[0]] + a[1..] && b == [b[0]] + b[1..];
    }
  }

  lemma TailMembers(s: seq<int>, x: int)
    requires StrictlyIncreasing(s) && |s| > 0
    ensures x in s[1..] <==> x in s && x != s[0]
  {
    if x in s && x != s[0] {
      var i :| 0 <= i < |s| && s[i] == x;
      assert s[1..][i - 1] == x;
    }
  }

  /** Filtering keeps a sequence in order. */
  lemma {:induction false} FilterSorted<T(!new)>(s: seq<T>, p: T -> bool, le: (T, T) -> bool)
    requires SortedBy(s, le)
    ensures SortedBy(Seqs.Filter(s, p), le)
    decreases |s|
  {
    if |s| > 0 {
      assert SortedBy(s[1..], le) by {
        forall i, j | 0 <= i < j < |s[1..]| ensures le(s[1..][i], s[1..][j]) {
          assert s[1..][i] == s[i + 1] && s[1..][j] == s[j + 1];
        }
      }
      FilterSorted(s[1..], p, le);
      var r := Seqs.Filter(s[1..], p);
      if p(s[0]) {
        var t := [s[0]] + r;
        forall i, j | 0 <= i < j < |t| ensures le(t[i], t[j]) {
          assert t[j] == r[j - 1] && r[j - 1] in r;
          if i == 0 {
            var m :| 0 <= m < |s[1..]| && s[1..][m] == r[j - 1];
            assert s[m + 1] == r[j - 1];
          } else {
            assert t[i] == r[i - 1];
          }
        }
      }
    }
  }
}

=== FILE: strutil.dfy ===
/**
 * The handful of Python string operations the scripts rely on, each
 * defined once over `seq<char>` and characterised by its contract:
 * `startswith`/`endswith`, `find`, `rstrip`, `split`/`rsplit` on a
 * single separator, `split()` on whitespace, `replace`, `"%d"` and
 * Python's lexicographic `<` on strings.
 */
module StrUtil {
  import opened Wrappers
  import Sorting
  import Seqs

  predicate StartsWith(s: string, p: string)
  {
    |p| <= |s| && s[..|p|] == p
  }

  predicate EndsWith(s: string, p: string)
  {
    |p| <= |s| && s[|s| - |p|..] == p
  }

  /** A concatenation starts with its first part and ends with its second. */
  lemma Affixes(a: string, b: string)
    ensures StartsWith(a + b, a) && EndsWith(a + b, b)
  {
    assert (a + b)[..|a|] == a && (a + b)[|a|..] == b;
  }

  /** A string starts with `p` and a separator exactly when it starts with `p` and the separator follows. */
  lemma StartsWithThen(s: string, p: string, c: char)
    ensures StartsWith(s, p + [c]) <==> StartsWith(s, p) && |s| > |p| && s[|p|] == c
  {
    if StartsWith(s, p) && |s| > |p| && s[|p|] == c {
      assert s[..|p| + 1] == s[..|p|] + [s[|p|]];
    }
    if StartsWith(s, p + [c]) {
      assert s[..|p|] == (p + [c])[..|p|];
    }
  }

  /** Text whose first character differs from a prefix's does not start with it. */
  lemma OtherStart(s: string, p: string)
    requires s != [] && p != [] && s[0] != p[0]
    ensures !StartsWith(s, p)
  {
  }

  lemma StartsWithTrans(s: string, t: string, u: string)
    requires StartsWith(s, t) && StartsWith(t, u)
    ensures StartsWith(s, u)
  {
    assert s[..|u|] == t[..|u|];
  }

  lemma EndsWithTrans(s: string, t: string, u: string)
    requires EndsWith(s, t) && EndsWith(t, u)
    ensures EndsWith(s, u)
  {
    assert s[|s| - |u|..] == t[|t| - |u|..];
  }

  /** `pat` occurs in `s` starting at index `i`. */
  predicate OccursAt(s: string, pat: string, i: int)
  {
    0 <= i && i + |pat| <= |s| && s[i..i + |pat|] == pat
  }

  function FindFrom(s: string, pat: string, i: nat): (r: int)
    requires i <= |s|
    ensures r == -1 || (i <= r && OccursAt(s, pat, r))
    ensures r == -1 ==> forall j :: i <= j ==> !OccursAt(s, pat, j)
    ensures r >= 0 ==> forall j :: i <= j < r ==> !OccursAt(s, pat, j)
    decreases |s| - i
  {
    if OccursAt(s, pat, i) then i
    else if i == |s| then -1
    else FindFrom(s, pat, i + 1)
  }

  /** Python's `s[i]`, negative indices counting from the end; `None` is an `IndexError`. */
  function PyAt(s: string, i: int): (r: Option<char>)
    ensures r.Some? <==> -|s| <= i < |s|
    ensures 0 <= i < |s| ==> r == Some(s[i])
    ensures -|s| <= i < 0 ==> r == Some(s[|s| + i])
  {
    if 0 <= i < |s| then Some(s[i]) else if -|s| <= i < 0 then Some(s[|s| + i]) else None
  }

  /** Python's `s[i:]`, negative indices counting from the end. */
  function PySliceFrom(s: string, i: int): (r: string)
    ensures EndsWith(s, r)
    ensures 0 <= i <= |s| ==> r == s[i..]
    ensures i > |s| ==> r == ""
    ensures -|s| <= i < 0 ==> r == s[|s| + i..]
    ensures i < -|s| ==> r == s
  {
    if i > |s| then "" else if i >= 0 then s[i..] else if i >= -|s| then s[|s| + i..] else s
  }

  /** `"%s" % x` for an optional string. */
  function ShowOption(o: Option<string>): string
  {
    match o
    case None => "None"
    case Some(s) => s
  }

  /** Python's `str.find`: the lowest index where `pat` occurs, or -1. */
  function Find(s: string, pat: string): (r: int)
    ensures r == -1 || OccursAt(s, pat, r)
    ensures r == -1 <==> forall j :: !OccursAt(s, pat, j)
    ensures r >= 0 ==> forall j :: 0 <= j < r ==> !OccursAt(s, pat, j)
  {
    FindFrom(s, pat, 0)
  }

  /** The first occurrence found is the one no earlier occurrence precedes. */
  lemma FindIs(s: string, pat: string, i: nat)
    requires OccursAt(s, pat, i)
    requires forall j :: 0 <= j < i ==> !OccursAt(s, pat, j)
    ensures Find(s, pat) == i
  {
  }

  /** A pattern whose first character is absent is not found. */
  lemma FindWithoutFirst(s: string, pat: string)
    requires |pat| > 0 && pat[0] !in s
    ensures Find(s, pat) == -1
  {
    forall j ensures !OccursAt(s, pat, j) {
      if 0 <= j && j + |pat| <= |s| {
        assert s[j..j + |pat|][0] == s[j];
      }
    }
  }

  /** Python's `pat in s` for strings. */
  predicate Contains(s: string, pat: string)
  {
    Find(s, pat) >= 0
  }

  /** The characters Python's `str.isspace` accepts in the ASCII range. */
  predicate IsSpace(c: char)
  {
    c == ' ' || (9 <= c as int <= 13) || (28 <= c as int <= 31)
  }

  predicate AllSpace(s: string)
  {
    forall i :: 0 <= i < |s| ==> IsSpace(s[i])
  }

  /** Python's `str.rstrip()`: drop trailing whitespace, keep the rest. */
  function RStrip(s: string): (r: string)
    ensures StartsWith(s, r)
    ensures r == [] || !IsSpace(r[|r| - 1])
    ensures forall i :: |r| <= i < |s| ==> IsSpace(s[i])
  {
    if |s| > 0 && IsSpace(s[|s| - 1]) then RStrip(s[..|s| - 1]) else s
  }

  /** Python's `str.lstrip()`, and what a regular expression's leading `\s*` consumes. */
  function LStrip(s: string): (r: string)
    ensures EndsWith(s, r)
    ensures r == [] || !IsSpace(r[0])
    ensures forall i :: 0 <= i < |s| - |r| ==> IsSpace(s[i])
  {
    if |s| > 0 && IsSpace(s[0]) then LStrip(s[1..]) else s
  }

  /** Text that opens with a non-space is left as it is. */
  lemma LStripNonSpace(s: string)
    requires |s| > 0 && !IsSpace(s[0])
    ensures LStrip(s) == s
  {
  }

  /** The text after the last `sep`, or all of `s`: Python's `s.rsplit(sep)[-1]`. */
  function LastSegment(s: string, sep: char): (r: string)
    ensures sep !in r
    ensures EndsWith(s, r)
    ensures |r| == |s| || s[|s| - |r| - 1] == sep
  {
    if |s| == 0 then ""
    else if s[|s| - 1] == sep then ""
    else LastSegment(s[..|s| - 1], sep) + [s[|s| - 1]]
  }

  /** The last segment of `a + [sep] + b` is `b` when `b` has no separator. */
  lemma {:induction false} LastSegmentAfter(a: string, sep: char, b: string)
    requires sep !in b
    ensures LastSegment(a + [sep] + b, sep) == b
    decreases |b|
  {
    var s := a + [sep] + b;
    if |b| > 0 {
      assert s[..|s| - 1] == a + [sep] + b[..|b| - 1];
      LastSegmentAfter(a, sep, b[..|b| - 1]);
      assert b == b[..|b| - 1] + [b[|b| - 1]];
    } else {
      assert s[|s| - 1] == sep;
    }
  }

  /** The text before the first `sep`, or all of `s`: Python's `s.split(sep)[0]`. */
  function FirstSegment(s: string, sep: char): (r: string)
    ensures sep !in r
    ensures StartsWith(s, r)
    ensures |r| == |s| || s[|r|] == sep
  {
    if |s| == 0 then ""
    else if s[0] == sep then ""
    else [s[0]] + FirstSegment(s[1..], sep)
  }

  /** The first segment of `a + [sep] + b` is `a` when `a` has no separator. */
  lemma {:induction false} FirstSegmentBefore(a: string, sep: char, b: string)
    requires sep !in a
    ensures FirstSegment(a + [sep] + b, sep) == a
    decreases |a|
  {
    var s := a + [sep] + b;
    if |a| > 0 {
      assert s[1..] == a[1..] + [sep] + b;
      FirstSegmentBefore(a[1..], sep, b);
      assert a == [a[0]] + a[1..];
    } else {
      assert s[0] == sep;
    }
  }

  /** Without a separator the first segment is everything. */
  lemma {:induction false} FirstSegmentWhole(a: string, sep: char)
    requires sep !in a
    ensures FirstSegment(a, sep) == a
    decreases |a|
  {
    if |a| > 0 {
      FirstSegmentWhole(a[1..], sep);
      assert a == [a[0]] + a[1..];
    }
  }

  /** Python's `s.split(sep, 1)`: `None` stands for the one-field result `[s]`. */
  function SplitOnce(s: string, sep: char): (r: Option<(string, string)>)
    ensures r.None? <==> sep !in s
    ensures r.Some? ==> r.value.0 + [sep] + r.value.1 == s && sep !in r.value.0
  {
    var head := FirstSegment(s, sep);
    if |head| == |s| then None else Some((head, s[|head| + 1..]))
  }

  /** `split(sep, 1)` undoes joining two parts when the first has no separator. */
  lemma SplitOnceAfter(a: string, sep: char, b: string)
    requires sep !in a
    ensures SplitOnce(a + [sep] + b, sep) == Some((a, b))
  {
    var s := a + [sep] + b;
    FirstSegmentBefore(a, sep, b);
    assert s[|a| + 1..] == b;
  }

  /** Python's `s.rsplit(sep, 1)`: `None` stands for the one-field result `[s]`. */
  function RSplitOnce(s: string, sep: char): (r: Option<(string, string)>)
    ensures r.None? <==> sep !in s
    ensures r.Some? ==> r.value.0 + [sep] + r.value.1 == s && sep !in r.value.1
  {
    var tail := LastSegment(s, sep);
    if |tail| == |s| then None else Some((s[..|s| - |tail| - 1], tail))
  }

  /** `rsplit(sep, 1)` undoes joining two parts when the second has no separator. */
  lemma RSplitOnceAfter(a: string, sep: char, b: string)
    requires sep !in b
    ensures RSplitOnce(a + [sep] + b, sep) == Some((a, b))
  {
    var s := a + [sep] + b;
    LastSegmentAfter(a, sep, b);
    assert s[..|s| - |b| - 1] == a;
  }

  /** `sep.join(parts)`. */
  function Join(parts: seq<string>, sep: string): string
  {
    if |parts| == 0 then ""
    else if |parts| == 1 then parts[0]
    else parts[0] + sep + Join(parts[1..], sep)
  }

  /** Joining one more part adds the separator and the part at the end. */
  lemma {:induction false} JoinSnoc(parts: seq<string>, x: string, sep: string)
    requires parts != []
    ensures Join(parts + [x], sep) == Join(parts, sep) + sep + x
    decreases |parts|
  {
    var all := parts + [x];
    assert all[0] == parts[0];
    if |parts| == 1 {
      assert all[1..] == [x];
    } else {
      assert all[1..] == parts[1..] + [x];
      JoinSnoc(parts[1..], x, sep);
      Seqs.ConcatAssoc(parts[0] + sep, Join(parts[1..], sep) + sep, x);
      Seqs.ConcatAssoc(parts[0] + sep, Join(parts[1..], sep), sep);
    }
  }

  /** Python's `s.split(sep)` on a one-character separator. */
  function Split(s: string, sep: char): (r: seq<string>)
    ensures |r| >= 1
    ensures forall k :: 0 <= k < |r| ==> sep !in r[k]
    ensures Join(r, [sep]) == s
    decreases |s|
  {
    var head := FirstSegment(s, sep);
    if |head| == |s| then [s]
    else [head] + Split(s[|head| + 1..], sep)
  }

  /** Splitting `a + [sep] + b` gives `a` and then the split of `b`, when `a` has no separator. */
  lemma SplitAfter(a: string, sep: char, b: string)
    requires sep !in a
    ensures Split(a + [sep] + b, sep) == [a] + Split(b, sep)
  {
    var s := a + [sep] + b;
    FirstSegmentBefore(a, sep, b);
    assert s[|a| + 1..] == b;
  }

  /** `split` undoes `join` on parts without the separator. */
  lemma {:induction false} SplitOfJoin(parts: seq<string>, sep: char)
    requires |parts| >= 1 && forall k :: 0 <= k < |parts| ==> sep !in parts[k]
    ensures Split(Join(parts, [sep]), sep) == parts
    decreases |parts|
  {
    if |parts| == 1 {
      FirstSegmentWhole(parts[0], sep);
    } else {
      var rest := Join(parts[1..], [sep]);
      FirstSegmentBefore(parts[0], sep, rest);
      assert (parts[0] + [sep] + rest)[|parts[0]| + 1..] == rest;
      SplitOfJoin(parts[1..], sep);
      assert parts == [parts[0]] + parts[1..];
    }
  }

  /** Python's `s.split()`: the maximal runs of non-whitespace, in order. */
  function Words(s: string): (r: seq<string>)
    ensures forall k :: 0 <= k < |r| ==> r[k] != [] && !exists i :: 0 <= i < |r[k]| && IsSpace(r[k][i])
    decreases |s|
  {
    if |s| == 0 then []
    else if IsSpace(s[0]) then Words(s[1..])
    else
      var w := WordPrefix(s);
      [w] + Words(s[|w|..])
  }

  /** The leading run of non-whitespace characters of `s`. */
  function WordPrefix(s: string): (r: string)
    ensures StartsWith(s, r)
    ensures forall i :: 0 <= i < |r| ==> !IsSpace(r[i])
    ensures |r| == |s| || IsSpace(s[|r|])
    ensures |s| > 0 && !IsSpace(s[0]) ==> |r| > 0
  {
    if |s| == 0 || IsSpace(s[0]) then "" else [s[0]] + WordPrefix(s[1..])
  }

  /** A non-empty run of non-whitespace characters, as `split()` yields them. */
  predicate IsWord(w: string)
  {
    |w| > 0 && forall i :: 0 <= i < |w| ==> !IsSpace(w[i])
  }

  lemma {:induction false} WordPrefixOfWord(w: string, rest: string)
    requires IsWord(w) && (rest == [] || IsSpace(rest[0]))
    ensures WordPrefix(w + rest) == w
    decreases |w|
  {
    if |w| > 1 {
      assert (w + rest)[1..] == w[1..] + rest;
      WordPrefixOfWord(w[1..], rest);
      assert w == [w[0]] + w[1..];
    } else {
      assert (w + rest)[1..] == rest;
    }
  }

  /** `split()` undoes `" ".join` on words. */
  lemma {:induction false} WordsOfJoin(ws: seq<string>)
    requires forall k :: 0 <= k < |ws| ==> IsWord(ws[k])
    ensures Words(Join(ws, " ")) == ws
    decreases |ws|
  {
    if |ws| == 1 {
      WordsOfWord(ws[0]);
    } else if |ws| > 1 {
      WordsOfJoin(ws[1..]);
      WordsAfterWord(ws[0], Join(ws[1..], " "));
      assert ws == [ws[0]] + ws[1..];
    }
  }

  /** A single word splits into itself. */
  lemma WordsOfWord(w: string)
    requires IsWord(w)
    ensures Words(w) == [w]
  {
    WordPrefixOfWord(w, "");
    assert w + "" == w;
    assert w[|w|..] == [];
  }

  /** A word and a space in front of any text: the word, then the text's words. */
  lemma WordsAfterWord(w: string, rest: string)
    requires IsWord(w)
    ensures Words(w + " " + rest) == [w] + Words(rest)
  {
    var s := w + " " + rest;
    assert s == w + (" " + rest);
    assert s[0] == w[0];
    WordPrefixOfWord(w, " " + rest);
    assert s[|w|..] == " " + rest;
    assert (" " + rest)[1..] == rest;
  }

  /** Python's `s.replace(old, new)`: left to right, non-overlapping. */
  function Replace(s: string, pat: string, repl: string): (r: string)
    requires |pat| > 0
    ensures (forall j :: !OccursAt(s, pat, j)) ==> r == s
    decreases |s|
  {
    if |s| == 0 then ""
    else if OccursAt(s, pat, 0) then repl + Replace(s[|pat|..], pat, repl)
    else
      assert forall j :: OccursAt(s[1..], pat, j) ==> OccursAt(s, pat, j + 1);
      [s[0]] + Replace(s[1..], pat, repl)
  }

  /** One step of `Replace` where the pattern starts the text. */
  lemma ReplaceHit(s: string, pat: string, repl: string)
    requires |pat| > 0 && |s| > 0 && OccursAt(s, pat, 0)
    ensures Replace(s, pat, repl) == repl + Replace(s[|pat|..], pat, repl)
  {
  }

  /** One step of `Replace` where it does not. */
  lemma ReplaceMiss(s: string, pat: string, repl: string)
    requires |pat| > 0 && |s| > 0 && !OccursAt(s, pat, 0)
    ensures Replace(s, pat, repl) == [s[0]] + Replace(s[1..], pat, repl)
  {
  }

  /** Text in which the pattern's first character never occurs is left as it is. */
  lemma ReplaceAbsent(s: string, pat: string, repl: string)
    requires |pat| > 0 && pat[0] !in s
    ensures Replace(s, pat, repl) == s
  {
    forall j ensures !OccursAt(s, pat, j) {
      if 0 <= j && j + |pat| <= |s| {
        assert s[j..j + |pat|][0] == s[j];
      }
    }
  }

  predicate IsDigit(c: char)
  {
    '0' <= c <= '9'
  }

  predicate AllDigits(s: string)
  {
    forall i :: 0 <= i < |s| ==> IsDigit(s[i])
  }

  /** The value of a string of decimal digits. */
  function DigitsValue(s: string): nat
    requires AllDigits(s)
  {
    if |s| == 0 then 0 else 10 * DigitsValue(s[..|s| - 1]) + (s[|s| - 1] as int - '0' as int)
  }

  /** The leading run of decimal digits of `s`: what a greedy `\d+` takes. */
  function DigitPrefix(s: string): (r: string)
    ensures StartsWith(s, r) && AllDigits(r)
    ensures |r| == |s| || !IsDigit(s[|r|])
  {
    if |s| > 0 && IsDigit(s[0]) then [s[0]] + DigitPrefix(s[1..]) else ""
  }

  lemma {:induction false} DigitPrefixOf(d: string, rest: string)
    requires AllDigits(d) && (rest == [] || !IsDigit(rest[0]))
    ensures DigitPrefix(d + rest) == d
    decreases |d|
  {
    if |d| > 0 {
      assert (d + rest)[1..] == d[1..] + rest;
      DigitPrefixOf(d[1..], rest);
      assert d == [d[0]] + d[1..];
    } else {
      assert d + rest == rest;
    }
  }

  /** Python's `"%d" % n` for a natural number. */
  function NatToString(n: nat): (r: string)
    ensures |r| >= 1 && AllDigits(r)
    ensures |r| > 1 ==> r[0] != '0'
  {
    var last := ['0' + (n % 10) as char];
    if n < 10 then last else NatToString(n / 10) + last
  }

  /** Python's `"%d" % n`. */
  function IntToString(n: int): (r: string)
    ensures |r| >= 1
    ensures n >= 0 ==> r == NatToString(n)
    ensures n < 0 ==> r == "-" + NatToString(-n)
  {
    if n >= 0 then NatToString(n) else "-" + NatToString(-n)
  }

  /**
   * Python's `int(s)` on a token without whitespace: an optional sign and
   * at least one decimal digit; anything else is a `ValueError`.
   */
  function ParseInt(s: string): (r: Option<int>)
    ensures r.Some? <==> (|s| > 0 && AllDigits(s)) ||
                         (|s| > 1 && (s[0] == '-' || s[0] == '+') && AllDigits(s[1..]))
  {
    if |s| > 0 && AllDigits(s) then Some(DigitsValue(s))
    else if |s| > 1 && s[0] == '-' && AllDigits(s[1..]) then Some(-(DigitsValue(s[1..]) as int))
    else if |s| > 1 && s[0] == '+' && AllDigits(s[1..]) then Some(DigitsValue(s[1..]))
    else None
  }

  /** `int("%d" % n) == n`. */
  lemma IntToStringThenParse(n: int)
    ensures ParseInt(IntToString(n)) == Some(n)
  {
    if n >= 0 {
      NatToStringRoundTrip(n);
    } else {
      NatToStringRoundTrip(-n);
      ParseNegative(NatToString(-n));
    }
  }

  /** A minus sign before digits reads back as the negated value. */
  lemma ParseNegative(t: string)
    requires |t| > 0 && AllDigits(t)
    ensures ParseInt("-" + t) == Some(-(DigitsValue(t) as int))
  {
    var s := "-" + t;
    assert s[0] == '-' && !IsDigit(s[0]);
    assert s[1..] == t;
  }

  /** Decimal rendering reads back as the number it renders. */
  lemma {:induction false} NatToStringRoundTrip(n: nat)
    ensures DigitsValue(NatToString(n)) == n
    decreases n
  {
    var r := NatToString(n);
    if n >= 10 {
      NatToStringRoundTrip(n / 10);
      assert r[..|r| - 1] == NatToString(n / 10);
    }
  }

  /** Different numbers render differently. */
  lemma NatToStringInjective(a: nat, b: nat)
    requires NatToString(a) == NatToString(b)
    ensures a == b
  {
    NatToStringRoundTrip(a);
    NatToStringRoundTrip(b);
  }

  /** Python's `<` on `str`: code-point lexicographic order. */
  predicate StrLt(a: string, b: string)
    decreases |a|
  {
    if |a| == 0 then |b| > 0
    else if |b| == 0 then false
    else if a[0] != b[0] then a[0] < b[0]
    else StrLt(a[1..], b[1..])
  }

  predicate StrLe(a: string, b: string)
  {
    a == b || StrLt(a, b)
  }

  lemma {:induction false} StrLtIrreflexive(a: string)
    ensures !StrLt(a, a)
    decreases |a|
  {
    if |a| > 0 {
      StrLtIrreflexive(a[1..]);
    }
  }

  lemma {:induction false} StrLtTrichotomy(a: string, b: string)
    ensures a == b || StrLt(a, b) || StrLt(b, a)
    decreases |a|
  {
    if |a| > 0 && |b| > 0 && a[0] == b[0] {
      StrLtTrichotomy(a[1..], b[1..]);
      if a[1..] == b[1..] {
        assert a == [a[0]] + a[1..] && b == [b[0]] + b[1..];
      }
    }
  }

  lemma {:induction false} StrLtTransitive(a: string, b: string, c: string)
    requires StrLt(a, b) && StrLt(b, c)
    ensures StrLt(a, c)
    decreases |a|
  {
    if |a| > 0 && a[0] == b[0] && b[0] == c[0] {
      StrLtTransitive(a[1..], b[1..], c[1..]);
    }
  }

  lemma StrLtAsymmetric(a: string, b: string)
    requires StrLt(a, b)
    ensures !StrLt(b, a)
  {
    if StrLt(b, a) {
      StrLtTransitive(a, b, a);
      StrLtIrreflexive(a);
    }
  }

  /** Items ordered by a string key, as `sorted(..., key=...)` orders them. */
  function ByString<T>(key: T -> string): (T, T) -> bool
  {
    (a: T, b: T) => StrLe(key(a), key(b))
  }

  lemma ByStringIsPreorder<T(!new)>(key: T -> string)
    ensures Sorting.IsTotalPreorder(ByString(key))
  {
    var le := ByString(key);
    forall a: T, b: T ensures le(a, b) || le(b, a) {
      StrLtTrichotomy(key(a), key(b));
    }
    forall a: T, b: T, c: T | le(a, b) && le(b, c) ensures le(a, c) {
      if key(a) != key(b) && key(b) != key(c) {
        StrLtTransitive(key(a), key(b), key(c));
      }
    }
  }
}

=== FILE: svn_externals.dfy ===
/**
 * The reader of `svn:externals` property lines (`svn_get_externals`).
 * Each non-blank line names an external URL, the subdirectory it is
 * checked out into and optionally a pinned revision ("-rN").
 */
module SvnExternals {
  import opened Wrappers
  import opened StrUtil
  import Seqs

  /** One external definition: (revision, external URL, subdirectory). */
  datatype External = External(rev: Option<int>, url: string, subdir: Option<string>)

  /**
   * The generator's `rev` variable: it is a local of the whole loop, so it
   * is unbound until some line assigns it and otherwise keeps the value the
   * last assignment gave it.
   */
  datatype RevSlot = Unbound | Bound(value: Option<int>)

  /** What the loop does with one line. */
  datatype LineResult =
    | Skip
    | Yield(rev: RevSlot, ext: External)
      /** An exception; `command` tells a `CommandException` from any other error. */
    | Raise(msg: string, command: bool)

  /** The state of the token scan of a line that does not have exactly two fields. */
  datatype Scan = Scan(rev: RevSlot, fld0: Option<string>, fld1: Option<string>)
                | BadInt(digits: string)
                | TooMany

  /** The scan over the whitespace-separated tokens of a line. */
  function ScanFields(flds: seq<string>, st: Scan): (r: Scan)
    requires st.Scan?
    ensures r.Scan? && st.fld0.Some? ==> r.fld0 == st.fld0
    ensures r.Scan? && st.fld1.Some? ==> r.fld1 == st.fld1
    ensures r.Scan? && (forall k :: 0 <= k < |flds| ==> !StartsWith(flds[k], "-r")) ==> r.rev == st.rev
    decreases |flds|
  {
    if |flds| == 0 then st
    else
      var fld := flds[0];
      if StartsWith(fld, "-r") then
        match ParseInt(fld[2..])
        case None => BadInt(fld[2..])
        case Some(n) => ScanFields(flds[1..], st.(rev := Bound(Some(n))))
      else if st.fld0.None? then ScanFields(flds[1..], st.(fld0 := Some(fld)))
      else if st.fld1.None? then ScanFields(flds[1..], st.(fld1 := Some(fld)))
      else TooMany
  }

  const NoneAttribute: string := "'NoneType' object has no attribute 'startswith'"
  const RevUnbound: string := "local variable 'rev' referenced before assignment"

  function BadDefinition(line: string, url: string): string
  {
    "Bad external definition \"" + line + "\" for " + url
  }

  /** The yield, which reads `rev` and so fails while it is still unbound. */
  function YieldExt(rev: RevSlot, extUrl: string, subdir: Option<string>): (r: LineResult)
    ensures r.Yield? <==> rev.Bound?
    ensures r.Yield? ==> r.rev == rev && r.ext == External(rev.value, extUrl, subdir)
  {
    if rev.Unbound? then Raise(RevUnbound, false) else Yield(rev, External(rev.value, extUrl, subdir))
  }

  /** One right-stripped line, given the value `rev` holds when it is read. */
  function ExternalsLine(line: string, rev: RevSlot, url: string): (r: LineResult)
    ensures r.Skip? <==> line == ""
    ensures r.Yield? ==> r.ext.url != "" && StartsWith(r.ext.url, "http")
  {
    if line == "" then Skip
    else
      var flds := Words(line);
      var sc := if |flds| == 2 then Scan(Bound(None), Some(flds[0]), Some(flds[1]))
                else ScanFields(flds, Scan(rev, None, None));
      match sc
      case BadInt(digits) => Raise("invalid literal for int(): " + digits, false)
      case TooMany => Raise(BadDefinition(line, url), true)
      case Scan(rev', fld0, fld1) =>
        if fld0.None? then Raise(NoneAttribute, false)
        else if StartsWith(fld0.value, "http") then YieldExt(rev', fld0.value, fld1)
        else if fld1.None? then Raise(NoneAttribute, false)
        else if StartsWith(fld1.value, "http") then YieldExt(rev', fld1.value, fld0)
        else
          // the message's two `%` operators bind left to right, so the
          // second one fails before the intended exception is built
          Raise("not all arguments converted during string formatting", false)
  }

  /**
   * The loop over all lines; `reset` chooses whether `rev` starts every
   * line as `None` (the evident intent) or carries over (as written).
   * A `CommandException` whose text mentions "W200017" ends the generator
   * quietly; any other exception propagates.
   */
  /** The line reader the loop applies: `ExternalsLine` for the property's own URL. */
  function Reader(url: string): (string, RevSlot) -> LineResult
  {
    (line: string, rev: RevSlot) => ExternalsLine(line, rev, url)
  }

  function Loop(read: (string, RevSlot) -> LineResult, lines: seq<string>, rev: RevSlot, reset: bool,
                acc: seq<External>): (r: Result<seq<External>>)
    ensures r.Ok? ==> |acc| <= |r.value| && r.value[..|acc|] == acc
    decreases |lines|
  {
    if |lines| == 0 then Ok(acc)
    else
      var start := if reset then Bound(None) else rev;
      match read(RStrip(lines[0]), start)
      case Skip => Loop(read, lines[1..], rev, reset, acc)
      case Yield(rev', e) =>
        assert (acc + [e])[..|acc|] == acc;
        Loop(read, lines[1..], rev', reset, acc + [e])
      case Raise(msg, command) => if command && Contains(msg, "W200017") then Ok(acc) else Err(msg)
  }

  /** `svn_get_externals` as written: `rev` carries over from earlier lines. */
  function ExternalsAsWritten(lines: seq<string>, url: string): (r: Result<seq<External>>)
    ensures r.Ok? ==> |r.value| <= |lines|
  {
    LoopBound(Reader(url), lines, Unbound, false, []);
    Loop(Reader(url), lines, Unbound, false, [])
  }

  /** `svn_get_externals` with `rev` reset to `None` on every line. */
  function Externals(lines: seq<string>, url: string): (r: Result<seq<External>>)
    ensures r.Ok? ==> |r.value| <= |lines|
  {
    LoopBound(Reader(url), lines, Unbound, true, []);
    Loop(Reader(url), lines, Unbound, true, [])
  }

  /** Each line yields at most one external. */
  lemma {:induction false} LoopBound(read: (string, RevSlot) -> LineResult, lines: seq<string>, rev: RevSlot,
                                     reset: bool, acc: seq<External>)
    ensures var r := Loop(read, lines, rev, reset, acc); r.Ok? ==> |r.value| <= |acc| + |lines|
    decreases |lines|
  {
    if |lines| > 0 {
      var start := if reset then Bound(None) else rev;
      match read(RStrip(lines[0]), start)
      case Skip => LoopBound(read, lines[1..], rev, reset, acc);
      case Yield(rev', e) => LoopBound(read, lines[1..], rev', reset, acc + [e]);
      case Raise(_, _) =>
    }
  }

  /** A line of exactly two fields has no revision; the field starting with "http" is the URL. */
  lemma TwoFields(line: string, rev: RevSlot, url: string)
    requires line != "" && |Words(line)| == 2
    ensures var a, b := Words(line)[0], Words(line)[1];
            ExternalsLine(line, rev, url) ==
              if StartsWith(a, "http") then Yield(Bound(None), External(None, a, Some(b)))
              else if StartsWith(b, "http") then Yield(Bound(None), External(None, b, Some(a)))
              else Raise("not all arguments converted during string formatting", false)
  {
  }

  /** A third field that is not a revision is a bad definition. */
  lemma ThirdFieldRejected(a: string, b: string, c: string, rev: RevSlot, url: string)
    requires IsWord(a) && IsWord(b) && IsWord(c)
    requires !StartsWith(a, "-r") && !StartsWith(b, "-r") && !StartsWith(c, "-r")
    ensures ExternalsLine(a + " " + b + " " + c, rev, url) ==
            Raise(BadDefinition(a + " " + b + " " + c, url), true)
  {
    var line := a + " " + b + " " + c;
    assert Join([a, b, c], " ") == line by {
      assert Join([c], " ") == c;
      assert [a, b, c][1..] == [b, c];
      assert [b, c][1..] == [c];
    }
    WordsOfJoin([a, b, c]);
    var s0 := Scan(rev, None, None);
    assert [a, b, c][1..] == [b, c] && [b, c][1..] == [c];
    assert ScanFields([c], s0.(fld0 := Some(a)).(fld1 := Some(b))) == TooMany;
    assert ScanFields([b, c], s0.(fld0 := Some(a))) == TooMany;
    assert ScanFields([a, b, c], s0) == TooMany;
  }

  /** A line holding one URL is read with the revision `rev` holds, and no subdirectory. */
  lemma UrlOnlyLine(w: string, rev: RevSlot, url: string)
    requires IsWord(w) && StartsWith(w, "http")
    ensures ExternalsLine(w, rev, url) == YieldExt(rev, w, None)
  {
    assert Join([w], " ") == w;
    WordsOfJoin([w]);
    assert !StartsWith(w, "-r") by {
      assert w[0] == 'h';
    }
    assert [w][1..] == [];
    assert ScanFields([w], Scan(rev, None, None)) == Scan(rev, Some(w), None);
  }

  // ----- rendering, the partner of the reader -----

  /** The property line `svn propset svn:externals` would hold for an external. */
  function FormatExternal(e: External): string
    requires e.subdir.Some?
  {
    if e.rev.None? then e.url + " " + e.subdir.value
    else "-r" + IntToString(e.rev.value) + " " + e.url + " " + e.subdir.value
  }

  /** The externals that can be written on one line and read back. */
  predicate Writable(e: External)
  {
    e.subdir.Some? && IsWord(e.url) && IsWord(e.subdir.value) &&
    StartsWith(e.url, "http") && !StartsWith(e.subdir.value, "-r")
  }

  lemma {:induction false} RevTokenIsWord(n: int)
    ensures IsWord("-r" + IntToString(n)) && StartsWith("-r" + IntToString(n), "-r")
    ensures ("-r" + IntToString(n))[2..] == IntToString(n)
  {
    var t := "-r" + IntToString(n);
    forall i | 0 <= i < |t|
      ensures !IsSpace(t[i])
    {
      if i >= 2 {
        var d := IntToString(n);
        assert t[i] == d[i - 2];
        if n < 0 {
          assert d == "-" + NatToString(-n);
          if i > 2 {
            assert d[i - 2] == NatToString(-n)[i - 3];
          }
        }
      }
    }
  }

  /** Reading a written external gives it back, whatever `rev` held before. */
  lemma FormatThenRead(e: External, rev: RevSlot, url: string)
    requires Writable(e)
    ensures ExternalsLine(FormatExternal(e), rev, url) == Yield(Bound(e.rev), e)
  {
    assert !StartsWith(e.url, "-r") by {
      assert e.url[0] == 'h';
    }
    if e.rev.None? {
      FormatThenReadPlain(e, rev, url);
    } else {
      FormatThenReadRev(e, rev, url);
    }
  }

  lemma FormatThenReadPlain(e: External, rev: RevSlot, url: string)
    requires Writable(e) && e.rev.None? && !StartsWith(e.url, "-r")
    ensures ExternalsLine(FormatExternal(e), rev, url) == Yield(Bound(e.rev), e)
  {
    var u, d := e.url, e.subdir.value;
    assert Join([u, d], " ") == u + " " + d by {
      assert [u, d][1..] == [d];
    }
    WordsOfJoin([u, d]);
  }

  lemma FormatThenReadRev(e: External, rev: RevSlot, url: string)
    requires Writable(e) && e.rev.Some? && !StartsWith(e.url, "-r")
    ensures ExternalsLine(FormatExternal(e), rev, url) == Yield(Bound(e.rev), e)
  {
    var u, d, n := e.url, e.subdir.value, e.rev.value;
    var t := "-r" + IntToString(n);
    RevTokenIsWord(n);
    IntToStringThenParse(n);
    assert Join([t, u, d], " ") == FormatExternal(e) by {
      assert [t, u, d][1..] == [u, d];
      assert [u, d][1..] == [d];
      assert Join([d], " ") == d;
      assert Join([u, d], " ") == u + " " + d;
    }
    WordsOfJoin([t, u, d]);
    assert [t, u, d][1..] == [u, d] && [u, d][1..] == [d] && [d][1..] == [];
    assert ScanFields([d], Scan(Bound(Some(n)), Some(u), None)) == Scan(Bound(Some(n)), Some(u), Some(d));
    assert ScanFields([u, d], Scan(Bound(Some(n)), None, None)) == Scan(Bound(Some(n)), Some(u), Some(d));
    assert ParseInt(t[2..]) == Some(n);
    assert ScanFields([t, u, d], Scan(rev, None, None)) == Scan(Bound(Some(n)), Some(u), Some(d));
  }

  function FormatAll(es: seq<External>): (r: seq<string>)
    requires forall k :: 0 <= k < |es| ==> es[k].subdir.Some?
    ensures |r| == |es|
    ensures forall k :: 0 <= k < |es| ==> r[k] == FormatExternal(es[k])
  {
    seq(|es|, k requires 0 <= k < |es| => FormatExternal(es[k]))
  }

  lemma {:induction false} FormatStripped(e: External)
    requires Writable(e)
    ensures RStrip(FormatExternal(e)) == FormatExternal(e)
  {
    var s := FormatExternal(e);
    var d := e.subdir.value;
    assert s[|s| - 1] == d[|d| - 1];
  }

  /** Lines that each read back as one external are read back as all of them, in order. */
  lemma {:induction false} LoopReadsAll(read: (string, RevSlot) -> LineResult, lines: seq<string>, es: seq<External>,
                                        rev: RevSlot, acc: seq<External>)
    requires |lines| == |es|
    requires forall k :: 0 <= k < |lines| ==> read(RStrip(lines[k]), Bound(None)) == Yield(Bound(es[k].rev), es[k])
    ensures Loop(read, lines, rev, true, acc) == Ok(acc + es)
    decreases |lines|
  {
    if |lines| == 0 {
      assert acc + es == acc;
    } else {
      assert forall k :: 0 <= k < |lines| - 1 ==> lines[1..][k] == lines[k + 1] && es[1..][k] == es[k + 1];
      LoopReadsAll(read, lines[1..], es[1..], Bound(es[0].rev), acc + [es[0]]);
      Seqs.SnocTail(acc, es);
    }
  }

  /** Round trip: the property text written for a list of externals reads back as that list. */
  lemma WriteThenRead(es: seq<External>, url: string)
    requires forall k :: 0 <= k < |es| ==> Writable(es[k])
    requires forall k :: 0 <= k < |es| ==> es[k].subdir.Some?
    ensures Externals(FormatAll(es), url) == Ok(es)
  {
    var lines := FormatAll(es);
    forall k | 0 <= k < |lines|
      ensures Reader(url)(RStrip(lines[k]), Bound(None)) == Yield(Bound(es[k].rev), es[k])
    {
      FormatStripped(es[k]);
      FormatThenRead(es[k], Bound(None), url);
    }
    LoopReadsAll(Reader(url), lines, es, Unbound, []);
    assert [] + es == es;
  }

  lemma {:induction false} WordStripped(w: string)
    requires IsWord(w)
    ensures RStrip(w) == w
  {
    assert !IsSpace(w[|w| - 1]);
  }

  /** Two lines that each yield an external. */
  lemma LoopTwo(l0: string, l1: string, url: string, rev: RevSlot, reset: bool)
    requires ExternalsLine(RStrip(l0), if reset then Bound(None) else rev, url).Yield?
    requires ExternalsLine(RStrip(l1), if reset then Bound(None)
                                       else ExternalsLine(RStrip(l0), rev, url).rev, url).Yield?
    ensures Loop(Reader(url), [l0, l1], rev, reset, []) ==
            Ok([ExternalsLine(RStrip(l0), if reset then Bound(None) else rev, url).ext,
                ExternalsLine(RStrip(l1), if reset then Bound(None)
                                          else ExternalsLine(RStrip(l0), rev, url).rev, url).ext])
  {
    var s0 := if reset then Bound(None) else rev;
    var y0 := ExternalsLine(RStrip(l0), s0, url);
    var s1 := if reset then Bound(None) else y0.rev;
    var y1 := ExternalsLine(RStrip(l1), s1, url);
    assert [l0, l1][1..] == [l1] && [l1][1..] == [];
    assert Loop(Reader(url), [l1], y0.rev, reset, [y0.ext]) == Loop(Reader(url), [], y1.rev, reset, [y0.ext] + [y1.ext]);
    assert Loop(Reader(url), [l0, l1], rev, reset, []) == Loop(Reader(url), [l1], y0.rev, reset, [] + [y0.ext]);
    assert [] + [y0.ext] == [y0.ext];
    assert [y0.ext] + [y1.ext] == [y0.ext, y1.ext];
    assert Loop(Reader(url), [l0, l1], rev, reset, []) == Ok([y0.ext, y1.ext]);
  }

  /** As written, a URL-only line on its own fails: `rev` was never assigned. */
  lemma UrlOnlyFirstLineFails(w: string, url: string)
    requires IsWord(w) && StartsWith(w, "http")
    ensures ExternalsAsWritten([w], url) == Err(RevUnbound)
  {
    WordStripped(w);
    UrlOnlyLine(w, Unbound, url);
  }

  /** As written, a URL-only line inherits the revision of the line before it. */
  lemma UrlOnlyInheritsRevision(e: External, w: string, url: string)
    requires Writable(e) && e.rev.Some?
    requires IsWord(w) && StartsWith(w, "http")
    ensures ExternalsAsWritten([FormatExternal(e), w], url) == Ok([e, External(e.rev, w, None)])
  {
    FormatStripped(e);
    FormatThenRead(e, Unbound, url);
    WordStripped(w);
    UrlOnlyLine(w, Bound(e.rev), url);
    LoopTwo(FormatExternal(e), w, url, Unbound, false);
  }

  /** Reset per line, the same URL-only line has no revision. */
  lemma UrlOnlyHasNoRevision(e: External, w: string, url: string)
    requires Writable(e) && e.rev.Some?
    requires IsWord(w) && StartsWith(w, "http")
    ensures Externals([FormatExternal(e), w], url) == Ok([e, External(None, w, None)])
  {
    FormatStripped(e);
    FormatThenRead(e, Bound(None), url);
    WordStripped(w);
    UrlOnlyLine(w, Bound(None), url);
    LoopTwo(FormatExternal(e), w, url, Unbound, true);
  }

  /** With `rev` reset per line, a line without a "-r" token has no revision. */
  lemma NoRevisionTokenMeansNone(line: string, url: string)
    requires forall k :: 0 <= k < |Words(line)| ==> !StartsWith(Words(line)[k], "-r")
    ensures var r := ExternalsLine(line, Bound(None), url); r.Yield? ==> r.ext.rev.None?
  {
  }
}

=== FILE: svn_log.dfy ===
/**
 * Subversion log entries and the line-driven state machine that reads
 * the output of `svn log -v`.  The two regular expressions the original
 * parser uses (the "rN | author | date | K lines" header and the
 * "  M /path" changed-path line) are parameters: `header` and `fileLine`
 * return the groups a match would capture, or `None` when the line does
 * not match.
 */
module SvnLog {
  import opened Wrappers
  import opened StrUtil
  import Seqs

  /** One `svn log` entry (a `LogEntry`). */
  datatype LogEntry = LogEntry(revision: int, author: string, dateString: string, numLines: int,
                               filedata: seq<(string, string)>, loglines: seq<string>)

  /** The groups captured from an "rN | author | date | K lines" header. */
  datatype LogHeader = LogHeader(revision: int, author: string, dateString: string, numLines: int)

  function NewEntry(h: LogHeader): (e: LogEntry)
    ensures e.filedata == [] && e.loglines == []
  {
    LogEntry(h.revision, h.author, h.dateString, h.numLines, [], [])
  }

  /** `add_filedata`: append a (modtype, filename) pair. */
  function AddFiledata(e: LogEntry, modtype: string, filename: string): (r: LogEntry)
    ensures r.filedata == e.filedata + [(modtype, filename)]
    ensures r.loglines == e.loglines
  {
    e.(filedata := e.filedata + [(modtype, filename)])
  }

  /** No trailing whitespace (what `rstrip` leaves). */
  predicate Stripped(line: string)
  {
    line == [] || !IsSpace(line[|line| - 1])
  }

  predicate AllStripped(lines: seq<string>)
  {
    forall k :: 0 <= k < |lines| ==> Stripped(lines[k])
  }

  lemma RStripIdempotent(s: string)
    ensures Stripped(RStrip(s))
    ensures Stripped(s) ==> RStrip(s) == s
  {
  }

  /** `add_log`: store the line without its trailing whitespace. */
  function AddLog(e: LogEntry, line: string): (r: LogEntry)
    requires AllStripped(e.loglines)
    ensures AllStripped(r.loglines)
    ensures r.loglines == e.loglines + [RStrip(line)]
    ensures r.filedata == e.filedata
  {
    RStripIdempotent(line);
    e.(loglines := e.loglines + [RStrip(line)])
  }

  /** No trailing empty line. */
  predicate Cleaned(lines: seq<string>)
  {
    |lines| == 0 || lines[|lines| - 1] != ""
  }

  /** `clean_data`: remove trailing empty lines, and only those. */
  function CleanLines(lines: seq<string>): (r: seq<string>)
    ensures Cleaned(r)
    ensures |r| <= |lines| && r == lines[..|r|]
    ensures forall k :: |r| <= k < |lines| ==> lines[k] == ""
  {
    if |lines| > 0 && lines[|lines| - 1] == "" then CleanLines(lines[..|lines| - 1]) else lines
  }

  /** Cleaning keeps every line up to the last non-empty one, interior blanks included. */
  lemma CleanKeepsInterior(lines: seq<string>, k: nat)
    requires k < |lines| && lines[k] != ""
    ensures k < |CleanLines(lines)| && CleanLines(lines)[k] == lines[k]
  {
  }

  lemma CleanIdempotent(lines: seq<string>)
    ensures CleanLines(CleanLines(lines)) == CleanLines(lines)
  {
  }

  lemma CleanOfCleaned(lines: seq<string>)
    requires Cleaned(lines)
    ensures CleanLines(lines) == lines
  {
  }

  function CleanData(e: LogEntry): (r: LogEntry)
    ensures r.loglines == CleanLines(e.loglines)
    ensures AllStripped(e.loglines) ==> Finished(r)
    ensures r.filedata == e.filedata
  {
    e.(loglines := CleanLines(e.loglines))
  }

  /** An entry as `svn_log` yields it: message lines stripped, no trailing blank line. */
  predicate Finished(e: LogEntry)
  {
    AllStripped(e.loglines) && Cleaned(e.loglines)
  }

  predicate AllFinished(es: seq<LogEntry>)
  {
    forall k :: 0 <= k < |es| ==> Finished(es[k])
  }

  /** A line starting with the seventy dashes the parser looks for (`line.startswith("-"*70)`). */
  predicate IsDashLine(line: string)
  {
    |line| >= 70 && forall i :: 0 <= i < 70 ==> line[i] == '-'
  }

  function Repeat(c: char, n: nat): (r: string)
    ensures |r| == n && forall i :: 0 <= i < n ==> r[i] == c
  {
    if n == 0 then "" else [c] + Repeat(c, n - 1)
  }

  /** The separator line `svn log` prints between entries: 72 dashes. */
  const Separator: string := Repeat('-', 72)

  datatype LogState = Initial | SawDashes | SawProps | FileList | LogMsg

  /** The states in which an entry is being filled in. */
  predicate Consistent(st: LogState, cur: Option<LogEntry>)
  {
    (st.SawProps? || st.FileList? || st.LogMsg? ==> cur.Some?) &&
    (cur.Some? ==> AllStripped(cur.value.loglines))
  }

  function Emit(out: seq<LogEntry>, cur: Option<LogEntry>): (r: seq<LogEntry>)
    requires cur.Some? ==> AllStripped(cur.value.loglines)
    requires AllFinished(out)
    ensures AllFinished(r)
  {
    if cur.Some? then out + [CleanData(cur.value)] else out
  }

  /** The parser's configuration between lines. */
  datatype Conf = Running(st: LogState, cur: Option<LogEntry>, out: seq<LogEntry>)
                | Stopped(entries: seq<LogEntry>)
                | Failed(msg: string)

  predicate ConfOk(c: Conf)
  {
    match c
    case Running(st, cur, out) => Consistent(st, cur) && AllFinished(out)
    case Stopped(entries) => AllFinished(entries)
    case Failed(_) => true
  }

  /** One step of the state machine on an already right-stripped line. */
  function Step(line: string, st: LogState, cur: Option<LogEntry>, out: seq<LogEntry>,
                header: string -> Option<LogHeader>,
                fileLine: string -> Option<(string, string)>): (r: Conf)
    requires Consistent(st, cur)
    requires AllFinished(out)
    ensures ConfOk(r)
  {
    match st
    case Initial =>
      if IsDashLine(line) then Running(SawDashes, cur, out) else Failed("bad initial line")
    case SawDashes =>
      if line == "" then Stopped(Emit(out, cur))
      else
        (match header(line)
         case None => Failed("bad post-dashes line")
         case Some(h) => Running(SawProps, Some(NewEntry(h)), out))
    case SawProps =>
      if Contains(line, "Changed paths") then Running(FileList, cur, out)
      else Failed("bad post-properties line")
    case FileList =>
      if line == "" then Running(LogMsg, cur, out)
      else
        (match fileLine(line)
         case None => Failed("bad file line")
         case Some((modtype, filename)) => Running(FileList, Some(AddFiledata(cur.value, modtype, filename)), out))
    case LogMsg =>
      if IsDashLine(line) then Running(SawDashes, None, Emit(out, cur))
      else Running(LogMsg, Some(AddLog(cur.value, line)), out)
  }

  /** Feed one right-stripped output line; a stopped or failed parser ignores it. */
  function Next(c: Conf, line: string, header: string -> Option<LogHeader>,
                fileLine: string -> Option<(string, string)>): (r: Conf)
    requires ConfOk(c)
    ensures ConfOk(r)
  {
    match c
    case Running(st, cur, out) => Step(line, st, cur, out, header, fileLine)
    case _ => c
  }

  /** Feed every line in order. */
  function Run(lines: seq<string>, c: Conf, header: string -> Option<LogHeader>,
               fileLine: string -> Option<(string, string)>): (r: Conf)
    requires ConfOk(c)
    ensures ConfOk(r)
    decreases |lines|
  {
    if |lines| == 0 then c else Run(lines[1..], Next(c, lines[0], header, fileLine), header, fileLine)
  }

  /**
   * The end of the output: a parser still waiting for the first dash line
   * or for "Changed paths" fails, one that just saw a dash line stops, and
   * one collecting paths or message lines yields its pending entry.
   */
  function Finish(c: Conf): (r: Result<seq<LogEntry>>)
    requires ConfOk(c)
    ensures r.Ok? ==> AllFinished(r.value)
  {
    match c
    case Running(st, cur, out) =>
      (match st
       case Initial => Err("bad initial line")
       case SawProps => Err("bad post-properties line")
       case _ => Ok(Emit(out, cur)))
    case Stopped(entries) => Ok(entries)
    case Failed(msg) => Err(msg)
  }

  /** Feeding two pieces of output one after the other is feeding their concatenation. */
  lemma {:induction false} RunAppend(a: seq<string>, b: seq<string>, c: Conf,
                                     header: string -> Option<LogHeader>,
                                     fileLine: string -> Option<(string, string)>)
    requires ConfOk(c)
    ensures Run(a + b, c, header, fileLine) == Run(b, Run(a, c, header, fileLine), header, fileLine)
    decreases |a|
  {
    if |a| == 0 {
      assert a + b == b;
    } else {
      assert (a + b)[1..] == a[1..] + b;
      RunAppend(a[1..], b, Next(c, a[0], header, fileLine), header, fileLine);
    }
  }

  const InitialConf: Conf := Running(Initial, None, [])

  /** Every line as the parser reads it, trailing whitespace removed. */
  function StripAll(lines: seq<string>): (r: seq<string>)
    ensures |r| == |lines| && AllStripped(r)
    ensures forall k :: 0 <= k < |lines| ==> r[k] == RStrip(lines[k])
  {
    seq(|lines|, k requires 0 <= k < |lines| => RStrip(lines[k]))
  }

  /** Lines that carry no trailing whitespace are read as they are. */
  lemma StripAllOfStripped(lines: seq<string>)
    requires AllStripped(lines)
    ensures StripAll(lines) == lines
  {
    forall k | 0 <= k < |lines|
      ensures StripAll(lines)[k] == lines[k]
    {
      RStripIdempotent(lines[k]);
    }
  }

  /** `svn_log`: parse the whole output of `svn log -v`. */
  function SvnLog(lines: seq<string>, header: string -> Option<LogHeader>,
                  fileLine: string -> Option<(string, string)>): (r: Result<seq<LogEntry>>)
    ensures r.Ok? ==> AllFinished(r.value)
  {
    Finish(Run(StripAll(lines), InitialConf, header, fileLine))
  }

  /** Output whose first line is not a dash line is rejected. */
  lemma FirstLineMustBeDashes(lines: seq<string>, header: string -> Option<LogHeader>,
                              fileLine: string -> Option<(string, string)>)
    requires |lines| == 0 || !IsDashLine(RStrip(lines[0]))
    ensures SvnLog(lines, header, fileLine).Err?
  {
    var ls := StripAll(lines);
    if |ls| > 0 {
      assert ls == [ls[0]] + ls[1..];
      RunAppend([ls[0]], ls[1..], InitialConf, header, fileLine);
      FailedStaysFailed(ls[1..], "bad initial line", header, fileLine);
    }
  }

  lemma {:induction false} FailedStaysFailed(lines: seq<string>, msg: string,
                                             header: string -> Option<LogHeader>,
                                             fileLine: string -> Option<(string, string)>)
    ensures Run(lines, Failed(msg), header, fileLine) == Failed(msg)
    decreases |lines|
  {
    if |lines| > 0 {
      FailedStaysFailed(lines[1..], msg, header, fileLine);
    }
  }

  lemma {:induction false} StoppedStaysStopped(lines: seq<string>, es: seq<LogEntry>,
                                               header: string -> Option<LogHeader>,
                                               fileLine: string -> Option<(string, string)>)
    requires AllFinished(es)
    ensures Run(lines, Stopped(es), header, fileLine) == Stopped(es)
    decreases |lines|
  {
    if |lines| > 0 {
      StoppedStaysStopped(lines[1..], es, header, fileLine);
    }
  }

  /** After a dash line, an empty line ends the parse: nothing after it is read. */
  lemma EmptyAfterDashesStops(rest: seq<string>, out: seq<LogEntry>,
                              header: string -> Option<LogHeader>,
                              fileLine: string -> Option<(string, string)>)
    requires AllFinished(out)
    ensures Finish(Run([""] + rest, Running(SawDashes, None, out), header, fileLine)) == Ok(out)
  {
    RunAppend([""], rest, Running(SawDashes, None, out), header, fileLine);
    StoppedStaysStopped(rest, out, header, fileLine);
  }

  /** After a dash line, a non-empty line the header pattern rejects is an error. */
  lemma BadHeaderRejected(line: string, rest: seq<string>, out: seq<LogEntry>,
                          header: string -> Option<LogHeader>,
                          fileLine: string -> Option<(string, string)>)
    requires AllFinished(out)
    requires line != "" && header(line).None?
    ensures Finish(Run([line] + rest, Running(SawDashes, None, out), header, fileLine)).Err?
  {
    RunAppend([line], rest, Running(SawDashes, None, out), header, fileLine);
    FailedStaysFailed(rest, "bad post-dashes line", header, fileLine);
  }

  // ----- rendering, the partner of the parser -----

  function HeaderOf(e: LogEntry): LogHeader
  {
    LogHeader(e.revision, e.author, e.dateString, e.numLines)
  }

  /** The header line `svn log` prints for an entry. */
  function HeaderText(e: LogEntry): string
    requires e.revision >= 0 && e.numLines >= 0
  {
    "r" + NatToString(e.revision) + " | " + e.author + " | " + e.dateString + " | " +
    NatToString(e.numLines) + " lines"
  }

  /** A changed-path line. */
  function FileText(f: (string, string)): string
  {
    "   " + f.0 + " " + f.1
  }

  function FileTexts(fs: seq<(string, string)>): seq<string>
  {
    if |fs| == 0 then [] else [FileText(fs[0])] + FileTexts(fs[1..])
  }

  const ChangedPaths: string := "Changed paths:"

  /** One entry as `svn log -v` prints it, closed by its dash line. */
  function Block(e: LogEntry): seq<string>
    requires e.revision >= 0 && e.numLines >= 0
  {
    [HeaderText(e), ChangedPaths] + FileTexts(e.filedata) + [""] + e.loglines + [Separator]
  }

  function Blocks(es: seq<LogEntry>): seq<string>
    requires forall k :: 0 <= k < |es| ==> es[k].revision >= 0 && es[k].numLines >= 0
    decreases |es|
  {
    if |es| == 0 then [] else Block(es[0]) + Blocks(es[1..])
  }

  /** The full output for a sequence of entries. */
  function Render(es: seq<LogEntry>): seq<string>
    requires forall k :: 0 <= k < |es| ==> es[k].revision >= 0 && es[k].numLines >= 0
  {
    [Separator] + Blocks(es)
  }

  /** The entries the parser can read back: the pattern parameters recognise their lines. */
  predicate Readable(e: LogEntry, header: string -> Option<LogHeader>,
                     fileLine: string -> Option<(string, string)>)
  {
    e.revision >= 0 && e.numLines >= 0 &&
    header(HeaderText(e)) == Some(HeaderOf(e)) &&
    Finished(e) &&
    (forall k :: 0 <= k < |e.loglines| ==> !IsDashLine(e.loglines[k])) &&
    (forall k :: 0 <= k < |e.filedata| ==> ReadableFile(e.filedata[k], fileLine))
  }

  /** A changed path whose printed line the path pattern reads back. */
  predicate ReadableFile(f: (string, string), fileLine: string -> Option<(string, string)>)
  {
    |f.1| > 0 && !IsSpace(f.1[|f.1| - 1]) && fileLine(FileText(f)) == Some(f)
  }


  lemma FileTextStripped(f: (string, string))
    requires |f.1| > 0 && !IsSpace(f.1[|f.1| - 1])
    ensures Stripped(FileText(f)) && FileText(f) != ""
  {
    var t := FileText(f);
    assert t[|t| - 1] == f.1[|f.1| - 1];
  }

  lemma {:induction false} RunFileLines(fs: seq<(string, string)>, e: LogEntry, out: seq<LogEntry>,
                                        header: string -> Option<LogHeader>,
                                        fileLine: string -> Option<(string, string)>)
    requires AllStripped(e.loglines) && AllFinished(out)
    requires forall k :: 0 <= k < |fs| ==> ReadableFile(fs[k], fileLine)
    ensures Run(FileTexts(fs), Running(FileList, Some(e), out), header, fileLine) ==
            Running(FileList, Some(e.(filedata := e.filedata + fs)), out)
    decreases |fs|
  {
    if |fs| == 0 {
      assert e.(filedata := e.filedata + fs) == e;
    } else {
      var e' := AddFiledata(e, fs[0].0, fs[0].1);
      FilesReadableTail(fs, fileLine);
      FileTextsTail(fs);
      FileLineStep(fs[0], e, out, header, fileLine);
      RunFileLines(fs[1..], e', out, header, fileLine);
      Seqs.SnocTail(e.filedata, fs);
    }
  }

  /** One changed-path line is added to the entry's file list. */
  lemma FileLineStep(f: (string, string), e: LogEntry, out: seq<LogEntry>,
                     header: string -> Option<LogHeader>, fileLine: string -> Option<(string, string)>)
    requires AllStripped(e.loglines) && AllFinished(out) && ReadableFile(f, fileLine)
    ensures Next(Running(FileList, Some(e), out), FileText(f), header, fileLine) ==
            Running(FileList, Some(AddFiledata(e, f.0, f.1)), out)
  {
    FileTextStripped(f);
  }

  lemma FilesReadableTail(fs: seq<(string, string)>, fileLine: string -> Option<(string, string)>)
    requires |fs| > 0 && forall k :: 0 <= k < |fs| ==> ReadableFile(fs[k], fileLine)
    ensures ReadableFile(fs[0], fileLine)
    ensures forall k :: 0 <= k < |fs[1..]| ==> ReadableFile(fs[1..][k], fileLine)
  {
    forall k | 0 <= k < |fs[1..]|
      ensures ReadableFile(fs[1..][k], fileLine)
    {
      assert fs[1..][k] == fs[k + 1];
    }
  }

  lemma FileTextsTail(fs: seq<(string, string)>)
    requires |fs| > 0
    ensures |FileTexts(fs)| > 0 && FileTexts(fs)[0] == FileText(fs[0]) && FileTexts(fs)[1..] == FileTexts(fs[1..])
  {
    assert FileTexts(fs) == [FileText(fs[0])] + FileTexts(fs[1..]);
  }

  lemma {:induction false} RunLogLines(ls: seq<string>, e: LogEntry, out: seq<LogEntry>,
                                       header: string -> Option<LogHeader>,
                                       fileLine: string -> Option<(string, string)>)
    requires AllStripped(e.loglines) && AllFinished(out)
    requires AllStripped(ls)
    requires forall k :: 0 <= k < |ls| ==> !IsDashLine(ls[k])
    ensures Run(ls, Running(LogMsg, Some(e), out), header, fileLine) ==
            Running(LogMsg, Some(e.(loglines := e.loglines + ls)), out)
    decreases |ls|
  {
    if |ls| == 0 {
      assert e.(loglines := e.loglines + ls) == e;
    } else {
      RStripIdempotent(ls[0]);
      var e' := AddLog(e, ls[0]);
      assert Next(Running(LogMsg, Some(e), out), ls[0], header, fileLine) == Running(LogMsg, Some(e'), out);
      RunLogLines(ls[1..], e', out, header, fileLine);
      assert e'.loglines + ls[1..] == e.loglines + ls by {
        assert ls == [ls[0]] + ls[1..];
      }
    }
  }

  lemma SeparatorIsDashLine()
    ensures IsDashLine(Separator) && Stripped(Separator)
  {
  }

  lemma ContainsChangedPaths()
    ensures Contains(ChangedPaths, "Changed paths")
  {
    assert OccursAt(ChangedPaths, "Changed paths", 0);
  }

  lemma {:induction false} FileTextsStripped(fs: seq<(string, string)>, fileLine: string -> Option<(string, string)>)
    requires forall k :: 0 <= k < |fs| ==> ReadableFile(fs[k], fileLine)
    ensures AllStripped(FileTexts(fs))
    decreases |fs|
  {
    if |fs| > 0 {
      assert ReadableFile(fs[0], fileLine);
      FileTextStripped(fs[0]);
      assert forall k :: 0 <= k < |fs[1..]| ==> fs[1..][k] == fs[k + 1];
      FileTextsStripped(fs[1..], fileLine);
    }
  }

  lemma BlockStripped(e: LogEntry, header: string -> Option<LogHeader>,
                      fileLine: string -> Option<(string, string)>)
    requires Readable(e, header, fileLine)
    ensures AllStripped(Block(e))
  {
    var top := [HeaderText(e), ChangedPaths];
    var fs := FileTexts(e.filedata);
    TopStripped(e);
    FileTextsStripped(e.filedata, fileLine);
    EndsStripped();
    AppendStripped(top, fs);
    AppendStripped(top + fs, [""]);
    AppendStripped(top + fs + [""], e.loglines);
    AppendStripped(top + fs + [""] + e.loglines, [Separator]);
  }

  /** The header line and the "Changed paths:" line end in a non-space. */
  lemma TopStripped(e: LogEntry)
    requires e.revision >= 0 && e.numLines >= 0
    ensures AllStripped([HeaderText(e), ChangedPaths])
  {
    var h := HeaderText(e);
    assert h[|h| - 1] == 's';
    assert ChangedPaths[|ChangedPaths| - 1] == ':';
  }

  /** The blank line and the separator are stripped. */
  lemma EndsStripped()
    ensures AllStripped([""]) && AllStripped([Separator])
  {
    SeparatorIsDashLine();
  }

  lemma {:induction false} AppendStripped(a: seq<string>, b: seq<string>)
    requires AllStripped(a) && AllStripped(b)
    ensures AllStripped(a + b)
  {
    forall k | 0 <= k < |a + b|
      ensures Stripped((a + b)[k])
    {
      if k < |a| {
        assert (a + b)[k] == a[k];
      } else {
        assert (a + b)[k] == b[k - |a|];
      }
    }
  }

  lemma {:induction false} RenderStripped(es: seq<LogEntry>, header: string -> Option<LogHeader>,
                                          fileLine: string -> Option<(string, string)>)
    requires forall k :: 0 <= k < |es| ==> es[k].revision >= 0 && es[k].numLines >= 0
    requires forall k :: 0 <= k < |es| ==> Readable(es[k], header, fileLine)
    ensures AllStripped(Blocks(es))
    decreases |es|
  {
    if |es| > 0 {
      assert Readable(es[0], header, fileLine);
      BlockStripped(es[0], header, fileLine);
      assert forall k :: 0 <= k < |es[1..]| ==> es[1..][k] == es[k + 1];
      RenderStripped(es[1..], header, fileLine);
      AppendStripped(Block(es[0]), Blocks(es[1..]));
    }
  }

  /** Running through consecutive pieces, each taking the parser to the next configuration. */
  lemma RunThrough(p1: seq<string>, p2: seq<string>, p3: seq<string>, p4: seq<string>,
                   c0: Conf, c1: Conf, c2: Conf, c3: Conf, c4: Conf,
                   header: string -> Option<LogHeader>,
                   fileLine: string -> Option<(string, string)>)
    requires ConfOk(c0) && ConfOk(c1) && ConfOk(c2) && ConfOk(c3)
    requires Run(p1, c0, header, fileLine) == c1
    requires Run(p2, c1, header, fileLine) == c2
    requires Run(p3, c2, header, fileLine) == c3
    requires Run(p4, c3, header, fileLine) == c4
    ensures Run(p1 + p2 + p3 + p4, c0, header, fileLine) == c4
  {
    RunAppend(p1, p2, c0, header, fileLine);
    RunAppend(p1 + p2, p3, c0, header, fileLine);
    RunAppend(p1 + p2 + p3, p4, c0, header, fileLine);
  }

  /** A header line and the "Changed paths:" line open an entry and start its path list. */
  lemma RunOpen(e: LogEntry, out: seq<LogEntry>, header: string -> Option<LogHeader>,
                fileLine: string -> Option<(string, string)>)
    requires Readable(e, header, fileLine) && AllFinished(out)
    ensures Run([HeaderText(e), ChangedPaths], Running(SawDashes, None, out), header, fileLine) ==
            Running(FileList, Some(NewEntry(HeaderOf(e))), out)
  {
    var h := HeaderText(e);
    assert |h| > 0;
    var c1 := Running(SawProps, Some(NewEntry(HeaderOf(e))), out);
    assert Next(Running(SawDashes, None, out), h, header, fileLine) == c1;
    ContainsChangedPaths();
    RunAppend([h], [ChangedPaths], Running(SawDashes, None, out), header, fileLine);
  }

  /** The blank line after the path list starts the message. */
  lemma RunBlank(e: LogEntry, out: seq<LogEntry>, header: string -> Option<LogHeader>,
                 fileLine: string -> Option<(string, string)>)
    requires AllStripped(e.loglines) && AllFinished(out)
    ensures Run([""], Running(FileList, Some(e), out), header, fileLine) == Running(LogMsg, Some(e), out)
  {
  }

  /** The closing dash line yields the finished entry. */
  lemma RunClose(e: LogEntry, out: seq<LogEntry>, header: string -> Option<LogHeader>,
                 fileLine: string -> Option<(string, string)>)
    requires Finished(e) && AllFinished(out)
    ensures Run([Separator], Running(LogMsg, Some(e), out), header, fileLine) == Running(SawDashes, None, out + [e])
  {
    SeparatorIsDashLine();
    CleanOfCleaned(e.loglines);
    assert CleanData(e) == e;
  }

  /** The lines of one entry take the parser from one dash line to the next, yielding the entry. */
  lemma RunBlock(e: LogEntry, out: seq<LogEntry>, header: string -> Option<LogHeader>,
                 fileLine: string -> Option<(string, string)>)
    requires Readable(e, header, fileLine) && AllFinished(out)
    ensures Run(Block(e), Running(SawDashes, None, out), header, fileLine) == Running(SawDashes, None, out + [e])
  {
    var e0 := NewEntry(HeaderOf(e));
    var e1 := e0.(filedata := e0.filedata + e.filedata);
    assert e1.(loglines := e1.loglines + e.loglines) == e;
    var c0 := Running(SawDashes, None, out);
    var c2 := Running(FileList, Some(e0), out);
    var c3 := Running(FileList, Some(e1), out);
    var c5 := Running(LogMsg, Some(e), out);
    RunOpen(e, out, header, fileLine);
    RunFileLines(e.filedata, e0, out, header, fileLine);
    RunBlank(e1, out, header, fileLine);
    RunLogLines(e.loglines, e1, out, header, fileLine);
    RunThrough([HeaderText(e), ChangedPaths], FileTexts(e.filedata), [""], e.loglines,
               c0, c2, c3, Running(LogMsg, Some(e1), out), c5, header, fileLine);
    RunClose(e, out, header, fileLine);
    RunAppend([HeaderText(e), ChangedPaths] + FileTexts(e.filedata) + [""] + e.loglines, [Separator],
              c0, header, fileLine);
  }

  lemma {:induction false} RunBlocks(es: seq<LogEntry>, out: seq<LogEntry>,
                                     header: string -> Option<LogHeader>,
                                     fileLine: string -> Option<(string, string)>)
    requires forall k :: 0 <= k < |es| ==> es[k].revision >= 0 && es[k].numLines >= 0
    requires forall k :: 0 <= k < |es| ==> Readable(es[k], header, fileLine)
    requires AllFinished(out)
    ensures Run(Blocks(es), Running(SawDashes, None, out), header, fileLine) == Running(SawDashes, None, out + es)
    decreases |es|
  {
    if |es| == 0 {
      assert out + es == out;
    } else {
      ReadableTail(es, header, fileLine);
      FinishedSnoc(out, es[0]);
      RunBlock(es[0], out, header, fileLine);
      RunBlocks(es[1..], out + [es[0]], header, fileLine);
      BlocksCons(es);
      Seqs.SnocTail(out, es);
      RunCons(Block(es[0]), Blocks(es[1..]), Blocks(es), Running(SawDashes, None, out),
              Running(SawDashes, None, out + [es[0]]), Running(SawDashes, None, out + es), header, fileLine);
    }
  }

  lemma BlocksCons(es: seq<LogEntry>)
    requires |es| > 0 && forall k :: 0 <= k < |es| ==> es[k].revision >= 0 && es[k].numLines >= 0
    ensures Blocks(es) == Block(es[0]) + Blocks(es[1..])
  {
  }

  lemma ReadableTail(es: seq<LogEntry>, header: string -> Option<LogHeader>,
                     fileLine: string -> Option<(string, string)>)
    requires |es| > 0
    requires forall k :: 0 <= k < |es| ==> es[k].revision >= 0 && es[k].numLines >= 0
    requires forall k :: 0 <= k < |es| ==> Readable(es[k], header, fileLine)
    ensures Readable(es[0], header, fileLine)
    ensures forall k :: 0 <= k < |es[1..]| ==> es[1..][k].revision >= 0 && es[1..][k].numLines >= 0
    ensures forall k :: 0 <= k < |es[1..]| ==> Readable(es[1..][k], header, fileLine)
  {
    assert forall k :: 0 <= k < |es[1..]| ==> es[1..][k] == es[k + 1];
  }

  lemma FinishedSnoc(out: seq<LogEntry>, e: LogEntry)
    requires AllFinished(out) && Finished(e)
    ensures AllFinished(out + [e])
  {
    assert forall k :: 0 <= k < |out| ==> (out + [e])[k] == out[k];
  }

  /** Running two pieces of output one after the other. */
  lemma RunCons(first: seq<string>, tail: seq<string>, all: seq<string>, c0: Conf, c1: Conf, final: Conf,
                header: string -> Option<LogHeader>, fileLine: string -> Option<(string, string)>)
    requires ConfOk(c0) && all == first + tail
    requires Run(first, c0, header, fileLine) == c1
    requires ConfOk(c1) && Run(tail, c1, header, fileLine) == final
    ensures Run(all, c0, header, fileLine) == final
  {
    RunAppend(first, tail, c0, header, fileLine);
  }

  /**
   * Round trip: the output `svn log -v` prints for a sequence of entries
   * parses back to exactly those entries, provided the two patterns
   * recognise the entries' header and path lines.
   */
  lemma RenderThenParse(es: seq<LogEntry>, header: string -> Option<LogHeader>,
                        fileLine: string -> Option<(string, string)>)
    requires forall k :: 0 <= k < |es| ==> es[k].revision >= 0 && es[k].numLines >= 0
    requires forall k :: 0 <= k < |es| ==> Readable(es[k], header, fileLine)
    ensures SvnLog(Render(es), header, fileLine) == Ok(es)
  {
    SeparatorIsDashLine();
    RenderStripped(es, header, fileLine);
    AppendStripped([Separator], Blocks(es));
    StripAllOfStripped(Render(es));
    assert Next(InitialConf, Separator, header, fileLine) == Running(SawDashes, None, []);
    RunAppend([Separator], Blocks(es), InitialConf, header, fileLine);
    RunBlocks(es, [], header, fileLine);
    assert [] + es == es;
  }

  /**
   * A revision as the callers of `svn_log` give it: a number, or a word
   * such as "HEAD" that `svn` understands.
   */
  datatype RevSpec = RevNumber(n: int) | RevWord(word: string)

  /** The text "%s" makes of a revision. */
  function RevText(rev: RevSpec): string
  {
    match rev
    case RevNumber(n) => IntToString(n)
    case RevWord(w) => w
  }

  /** The revision-range word: `-r` and the start, with `:` and the end when there is one. */
  function RevArgs(revision: Option<RevSpec>, endRevision: Option<RevSpec>): (r: seq<string>)
    ensures |r| == if revision.Some? then 1 else 0
    ensures revision.Some? && endRevision.None? ==> r[0] == "-r" + RevText(revision.value)
    ensures revision.Some? && endRevision.Some? ==>
              r[0] == "-r" + RevText(revision.value) + ":" + RevText(endRevision.value)
  {
    if revision.None? then []
    else if endRevision.None? then ["-r" + RevText(revision.value)]
    else ["-r" + RevText(revision.value) + ":" + RevText(endRevision.value)]
  }

  /** The words after the revision range: the entry limit, `--stop-on-copy`, the URL. */
  function TailArgs(url: string, numEntries: Option<int>, stopOnCopy: bool): (r: seq<string>)
    ensures |r| == 1 + (if numEntries.Some? then 1 else 0) + (if stopOnCopy then 1 else 0)
    ensures numEntries.Some? ==> r[0] == "-l" + IntToString(numEntries.value)
    ensures r[|r| - 1] == url
    ensures stopOnCopy ==> r[|r| - 2] == "--stop-on-copy"
  {
    var numArgs := if numEntries.None? then [] else ["-l" + IntToString(numEntries.value)];
    var copyArgs := if stopOnCopy then ["--stop-on-copy"] else [];
    numArgs + (copyArgs + [url])
  }

  /**
   * The arguments `svn_log` passes to `svn`: `svn log -v`, then the
   * revision range, the entry limit and `--stop-on-copy` when asked for,
   * then the URL.
   */
  function LogArgs(url: string, revision: Option<RevSpec>, endRevision: Option<RevSpec>,
                   numEntries: Option<int>, stopOnCopy: bool): (r: Result<seq<string>>)
    ensures r.Err? <==> revision.None? && endRevision.Some?
    ensures r.Ok? ==> |r.value| == 4 + (if revision.Some? then 1 else 0) +
                                     (if numEntries.Some? then 1 else 0) + (if stopOnCopy then 1 else 0)
    ensures r.Ok? ==> r.value[..3] == ["svn", "log", "-v"] && r.value[|r.value| - 1] == url
    ensures revision.Some? && endRevision.None? ==> r.Ok? && r.value[3] == "-r" + RevText(revision.value)
    ensures revision.Some? && endRevision.Some? ==>
              r.Ok? && r.value[3] == "-r" + RevText(revision.value) + ":" + RevText(endRevision.value)
    ensures r.Ok? && numEntries.Some? ==>
              r.value[3 + (if revision.Some? then 1 else 0)] == "-l" + IntToString(numEntries.value)
    ensures r.Ok? && stopOnCopy ==> r.value[|r.value| - 2] == "--stop-on-copy"
  {
    if revision.None? && endRevision.Some? then Err("end revision without start revision")
    else
      var front := ["svn", "log", "-v"] + RevArgs(revision, endRevision);
      var tail := TailArgs(url, numEntries, stopOnCopy);
      var words := front + tail;
      assert words[..3] == ["svn", "log", "-v"];
      assert words[|front|] == tail[0];
      assert words[|words| - 1] == tail[|tail| - 1];
      assert stopOnCopy ==> words[|words| - 2] == tail[|tail| - 2];
      Ok(words)
  }
}

=== FILE: svn_mantis.dfy ===
/**
 * The text and record logic of the script that replays a Subversion
 * project, revision by revision, into a Git repository with its Mantis
 * issues: the branch a URL stands for, the status lines it commits, the
 * commit message, and the map from Subversion revision to Git commit.
 */
module SvnMantisToGithub {
  import opened Wrappers
  import opened StrUtil
  import opened Porcelain
  import SvnProjects
  import ConvertSvnToGit
  import Git
  import Seqs
  import SvnDb

  // ----- the branch a URL stands for -----

  /**
   * The branch name and file prefix of one of the project's URLs: the URL
   * less the base URL must start with the project name; an empty rest is
   * the trunk, a rest after a '/' is the branch, and anything else is an
   * error.  The prefix is made to end in '/'.
   */
  function ProjectBranch(svnUrl: string, baseUrl: string, project: string, trunkName: string): (r: Result<(string, string)>)
    ensures r.Ok? ==> StartsWith(svnUrl, baseUrl + "/" + project)
    ensures r.Ok? ==> EndsWith(r.value.1, "/")
    ensures r.Ok? <==> StartsWith(svnUrl, baseUrl + "/") &&
                       var prefix := svnUrl[|baseUrl| + 1..];
                       prefix == project || StartsWith(prefix, project + "/")
    ensures r.Ok? ==> var prefix := svnUrl[|baseUrl| + 1..];
                      r.value.1 == SvnProjects.WithSlash(prefix) &&
                      r.value.0 == if prefix == project then trunkName else prefix[|project| + 1..]
  {
    var prefix :- SvnProjects.BuildBaseSuffix(svnUrl, baseUrl);
    if !StartsWith(prefix, project) then
      Err("SVN file prefix \"" + prefix + "\" does not start with project name \"" + project + "\"")
    else
      var rest := prefix[|project|..];
      assert svnUrl == baseUrl + "/" + project + rest by {
        assert prefix == project + rest;
      }
      var branch :- if rest == "" then Ok(trunkName)
                    else if rest[0] == '/' then Ok(rest[1..])
                    else Err("SVN branch name \"" + rest + "\" does not start with project name \"" + project + "\"");
      Ok((branch, SvnProjects.WithSlash(prefix)))
  }

  /** The project's own URL is its trunk, with the project name and a '/' as prefix. */
  lemma TrunkOfProjectUrl(baseUrl: string, project: string, trunkName: string)
    requires !EndsWith(project, "/")
    ensures ProjectBranch(baseUrl + "/" + project, baseUrl, project, trunkName) == Ok((trunkName, project + "/"))
  {
    SvnProjects.BaseSuffixOf(baseUrl, project);
    assert project[..|project|] == project;
    assert project[|project|..] == [];
  }

  /** A URL below the project names its branch, which comes back whole. */
  lemma BranchOfProjectUrl(baseUrl: string, project: string, branch: string, trunkName: string)
    ensures var r := ProjectBranch(baseUrl + "/" + project + "/" + branch, baseUrl, project, trunkName);
            r.Ok? && r.value.0 == branch && StartsWith(r.value.1, project + "/" + branch)
  {
    var suffix := project + "/" + branch;
    assert baseUrl + "/" + project + "/" + branch == baseUrl + "/" + suffix;
    SvnProjects.BaseSuffixOf(baseUrl, suffix);
    assert suffix[..|project|] == project;
    var rest := suffix[|project|..];
    assert rest == "/" + branch;
    assert rest[1..] == branch;
    var w := SvnProjects.WithSlash(suffix);
    assert w[..|suffix|] == suffix;
  }

  /** The Git branch a Subversion branch becomes: its last path component. */
  function GitBranchName(branchName: string): (r: string)
    ensures '/' !in r && EndsWith(branchName, r)
    ensures |r| == |branchName| || branchName[|branchName| - |r| - 1] == '/'
  {
    LastSegment(branchName, '/')
  }

  // ----- __gather_changes -----

  /**
   * `__gather_changes`' treatment of one non-blank line: lines staged
   * already (blank work-tree column) are passed over, "??" is an
   * addition, and with a blank index column 'A', 'D' and 'M' are
   * additions, deletions and modifications.
   */
  function ClassifyChange(line: string): (r: Result<Bucket>)
    ensures r.Ok? <==> |line| >= 4 && line[2] == ' ' &&
                       (line[1] == ' ' || (line[0] == '?' && line[1] == '?') || (line[0] == ' ' && line[1] in "ADM"))
    ensures r == Ok(Ignored) <==> |line| >= 4 && line[2] == ' ' && line[1] == ' '
    ensures r != Ok(Staged)
  {
    if |line| < 4 then Err("Short procelain status line \"" + line + "\"")
    else if line[2] != ' ' then Err("Bad porcelain status line \"" + line + "\"")
    else if line[1] == ' ' then Ok(Ignored)
    else if line[0] == '?' && line[1] == '?' then Ok(Added)
    else if line[0] == ' ' && line[1] == 'A' then Ok(Added)
    else if line[0] == ' ' && line[1] == 'D' then Ok(Deleted)
    else if line[0] == ' ' && line[1] == 'M' then Ok(Modified)
    else Err("Unknown porcelain line \"" + line + "\"")
  }

  /** The path of a status line, `line[3:]`, taken as it is. */
  function ChangePath(line: string): string
  {
    if |line| >= 3 then line[3..] else ""
  }

  /** `__gather_changes` over the lines of `git status --porcelain`. */
  function GatherChanges(lines: seq<string>): Result<StatusLists>
  {
    Gather(lines, ClassifyChange, ChangePath)
  }

  /**
   * The lists hold, in order, the paths of exactly the lines classified
   * into them; the staged list is never filled, and the gatherer fails
   * exactly when some non-blank line cannot be classified.
   */
  lemma GatherChangesSpec(lines: seq<string>)
    ensures GatherChanges(lines).Ok? <==> AllClassified(lines, ClassifyChange)
    ensures var r := GatherChanges(lines);
            r.Ok? ==> r.value.additions == AsList(Picked(lines, ClassifyChange, ChangePath, Added)) &&
                      r.value.deletions == AsList(Picked(lines, ClassifyChange, ChangePath, Deleted)) &&
                      r.value.modifications == AsList(Picked(lines, ClassifyChange, ChangePath, Modified)) &&
                      r.value.staged.None?
  {
    GatherSpec(lines, ClassifyChange, ChangePath);
    PickedNever(lines, ClassifyChange, ChangePath, Staged);
  }

  /**
   * This gatherer accepts a subset of what `__gather_modifications` in
   * the converter accepts, and wherever it files a line the converter
   * files it in the same list.
   */
  lemma ChangesAgreeWithConverter(line: string)
    requires ClassifyChange(line).Ok? && ClassifyChange(line) != Ok(Ignored)
    ensures ConvertSvnToGit.ClassifyModification(line) == ClassifyChange(line)
  {
  }

  // ----- the commit message -----

  function IssueNumbers(numbers: seq<nat>): (r: seq<string>)
    ensures |r| == |numbers|
    ensures forall k :: 0 <= k < |r| ==> r[k] == NatToString(numbers[k])
  {
    if numbers == [] then [] else [NatToString(numbers[0])] + IssueNumbers(numbers[1..])
  }

  /** The issue tag, "Issue N" or "Issues N, M", that goes in front of the message. */
  function IssueTag(numbers: seq<nat>): string
  {
    "Issue" + (if |numbers| == 1 then "" else "s") + " " + Join(IssueNumbers(numbers), ", ")
  }

  /**
   * `__commit_to_git`'s message: the loglines joined by newlines, and,
   * when issues are given, the issue tag, ": " and the message (the
   * string "None" when there are no loglines).
   */
  function CommitMessage(loglines: seq<string>, issues: Option<seq<nat>>): (r: Option<string>)
    ensures issues.None? ==> r == SvnDb.LogMessage(loglines)
    ensures issues.Some? ==> r.Some?
  {
    match issues
    case None => SvnDb.LogMessage(loglines)
    case Some(numbers) => Some(IssueTag(numbers) + ": " + ShowOption(SvnDb.LogMessage(loglines)))
  }

  /** Without issues, splitting the message at newlines gives the loglines back. */
  lemma MessageLines(loglines: seq<string>)
    requires loglines != [] && forall k :: 0 <= k < |loglines| ==> '\n' !in loglines[k]
    ensures Split(CommitMessage(loglines, None).value, '\n') == loglines
  {
    SvnDb.LogMessageLines(loglines);
  }

  /** With issues, the text before the first ':' is the issue tag and the rest is " " and the message. */
  lemma MessageAfterTag(loglines: seq<string>, numbers: seq<nat>)
    ensures SplitOnce(CommitMessage(loglines, Some(numbers)).value, ':') ==
            Some((IssueTag(numbers), " " + ShowOption(SvnDb.LogMessage(loglines))))
  {
    var tag := IssueTag(numbers);
    var msg := ShowOption(SvnDb.LogMessage(loglines));
    assert ':' !in tag by {
      NoColonInNumbers(IssueNumbers(numbers));
    }
    assert tag + ": " + msg == tag + [':'] + (" " + msg);
    SplitOnceAfter(tag, ':', " " + msg);
  }

  lemma {:induction false} NoColonInNumbers(parts: seq<string>)
    requires forall k :: 0 <= k < |parts| ==> AllDigits(parts[k])
    ensures ':' !in Join(parts, ", ")
    decreases |parts|
  {
    if |parts| > 0 {
      DigitsHaveNoColon(parts[0]);
    }
    if |parts| > 1 {
      NoColonInNumbers(parts[1..]);
    }
  }

  lemma DigitsHaveNoColon(s: string)
    requires AllDigits(s)
    ensures ':' !in s
  {
    assert forall i :: 0 <= i < |s| ==> s[i] != ':';
  }

  /** The counts a close message shows: all three, or zeros when any is missing. */
  function ShownCounts(c: Git.Commit): (nat, nat, nat)
  {
    if c.changed.None? || c.inserted.None? || c.deleted.None? then (0, 0, 0)
    else (c.changed.value, c.inserted.value, c.deleted.value)
  }

  /** "N changed, N inserted, N deleted". */
  function CountsText(n: (nat, nat, nat)): string
  {
    NatToString(n.0) + (" changed, " + (NatToString(n.1) + (" inserted, " + (NatToString(n.2) + " deleted"))))
  }

  /** "[branch hash] ", with "None" for a missing branch or hash. */
  function CommitHead(c: Git.Commit): string
  {
    "[" + ShowOption(c.branch) + " " + ShowOption(c.hashId) + "] "
  }

  /**
   * The message an issue is closed with, given what the commit returned:
   * a fixed complaint when nothing was committed, and otherwise the branch,
   * hash and counts in brackets-first form.
   */
  function CloseMessage(result: Option<Git.Commit>): (r: string)
    ensures r != [] && (r[0] == '[' <==> result.Some?)
    ensures result.None? ==> r == "Nothing commited to git repo!"
    ensures result.Some? ==> r == CommitHead(result.value) + CountsText(ShownCounts(result.value))
  {
    match result
    case None => "Nothing commited to git repo!"
    case Some(c) =>
      var r := CommitHead(c) + CountsText(ShownCounts(c));
      assert r[0] == CommitHead(c)[0] == '[';
      r
  }

  /** The counts read back from their text. */
  lemma CountsTextInjective(n: (nat, nat, nat), m: (nat, nat, nat))
    requires CountsText(n) == CountsText(m)
    ensures n == m
  {
    var rest1 := " inserted, " + (NatToString(n.2) + " deleted");
    var rest0 := " changed, " + (NatToString(n.1) + rest1);
    var mrest1 := " inserted, " + (NatToString(m.2) + " deleted");
    var mrest0 := " changed, " + (NatToString(m.1) + mrest1);
    DigitPrefixOf(NatToString(n.0), rest0);
    DigitPrefixOf(NatToString(m.0), mrest0);
    NatToStringInjective(n.0, m.0);
    assert rest0 == mrest0;
    assert rest0[10..] == NatToString(n.1) + rest1 && mrest0[10..] == NatToString(m.1) + mrest1;
    DigitPrefixOf(NatToString(n.1), rest1);
    DigitPrefixOf(NatToString(m.1), mrest1);
    NatToStringInjective(n.1, m.1);
    assert rest1 == mrest1;
    assert rest1[11..] == NatToString(n.2) + " deleted" && mrest1[11..] == NatToString(m.2) + " deleted";
    DigitPrefixOf(NatToString(n.2), " deleted");
    DigitPrefixOf(NatToString(m.2), " deleted");
    NatToStringInjective(n.2, m.2);
  }

  /**
   * The close message of a commit gives its counts back: two commits on the
   * same branch and hash with the same message show the same counts, which
   * are their real counts when all three are known, and zeros otherwise.
   */
  lemma CloseMessageCounts(c: Git.Commit, d: Git.Commit)
    requires c.branch == d.branch && c.hashId == d.hashId
    requires CloseMessage(Some(c)) == CloseMessage(Some(d))
    ensures ShownCounts(c) == ShownCounts(d)
    ensures c.changed.Some? && c.inserted.Some? && c.deleted.Some? ==>
              ShownCounts(d) == (c.changed.value, c.inserted.value, c.deleted.value)
    ensures c.changed.None? || c.inserted.None? || c.deleted.None? ==> ShownCounts(d) == (0, 0, 0)
  {
    var head := CommitHead(c);
    assert head + CountsText(ShownCounts(c)) == head + CountsText(ShownCounts(d));
    assert (head + CountsText(ShownCounts(c)))[|head|..] == CountsText(ShownCounts(c));
    assert (head + CountsText(ShownCounts(d)))[|head|..] == CountsText(ShownCounts(d));
    CountsTextInjective(ShownCounts(c), ShownCounts(d));
  }

  // ----- revision to commit map -----

  /** `svn2git`: Subversion revision to (Git branch, Git hash). */
  type CommitMap = map<int, (string, string)>

  /** Recording a commit: a revision already mapped is an error, and the map is left as it was. */
  function MapRevision(m: CommitMap, revision: int, branch: string, hash: string): (r: Result<CommitMap>)
    ensures r.Ok? <==> revision !in m
    ensures r.Ok? ==> r.value.Keys == m.Keys + {revision} && r.value[revision] == (branch, hash)
    ensures r.Ok? ==> forall k :: k in m ==> r.value[k] == m[k]
  {
    if revision in m then
      Err("Cannot map r" + IntToString(revision) + " to " + branch + ":" + hash + ", already mapped to " +
          m[revision].0 + ":" + m[revision].1)
    else Ok(m[revision := (branch, hash)])
  }

  /** A revision is never mapped twice: the second attempt fails whatever it maps to. */
  lemma NeverRemapped(m: CommitMap, revision: int, b1: string, h1: string, b2: string, h2: string)
    requires MapRevision(m, revision, b1, h1).Ok?
    ensures MapRevision(MapRevision(m, revision, b1, h1).value, revision, b2, h2).Err?
  {
  }

  /**
   * The walk from a branch's first entry back to the nearest ancestor
   * already committed to Git.  `chain` lists the revisions along the
   * previous links, starting with the entry's own previous one; the
   * result is the position of that ancestor in the chain.
   */
  function CommittedAncestor(chain: seq<int>, m: CommitMap): (r: Result<nat>)
    requires |chain| > 0
    ensures r.Ok? ==> r.value < |chain| && chain[r.value] in m
    ensures r.Ok? ==> forall k :: 0 <= k < r.value ==> chain[k] !in m
    ensures r.Err? <==> forall k :: 0 <= k < |chain| ==> chain[k] !in m
  {
    match Seqs.FirstWhere(chain, rev => rev in m)
    case Some(i) => Ok(i)
    case None => Err("Cannot find committed ancestor for SVN r" + IntToString(chain[0]))
  }
}

=== FILE: svn_metadata.dfy ===
/**
 * `SVNMetadata`: the repository layout (the names of the trunk, branches
 * and tags directories) and the split of a repository-relative URL into
 * project base, project name and branch.
 */
module SvnMetadata {
  import opened Wrappers
  import opened StrUtil

  /** The directory types `set_layout` accepts. */
  const DirTrunk: string := "trunk"
  const DirBranches: string := "branches"
  const DirTags: string := "tags"

  /** The current names of the three top-level directories (class attributes in the source). */
  datatype Layout = Layout(trunk: string, branches: string, tags: string)

  const DefaultLayout: Layout := Layout(DirTrunk, DirBranches, DirTags)

  /**
   * `set_layout`: rename the directory of one type.  The type is compared
   * with the fixed type names, not with the current directory names.
   */
  function SetLayout(layout: Layout, dirtype: string, name: string): (r: Result<Layout>)
    ensures r.Ok? <==> dirtype in {DirTrunk, DirBranches, DirTags}
    ensures r.Ok? && dirtype == DirTrunk ==> r.value == layout.(trunk := name)
    ensures r.Ok? && dirtype == DirBranches ==> r.value == layout.(branches := name)
    ensures r.Ok? && dirtype == DirTags ==> r.value == layout.(tags := name)
  {
    if dirtype == DirTrunk then Ok(layout.(trunk := name))
    else if dirtype == DirBranches then Ok(layout.(branches := name))
    else if dirtype == DirTags then Ok(layout.(tags := name))
    else Err("Unknown directory type \"" + dirtype + "\"")
  }

  /** Setting a type back to the name it had leaves the layout as it was. */
  lemma SetLayoutRestores(layout: Layout, dirtype: string, name: string)
    requires dirtype in {DirTrunk, DirBranches, DirTags}
    ensures var prev := if dirtype == DirTrunk then layout.trunk
                        else if dirtype == DirBranches then layout.branches
                        else layout.tags;
            SetLayout(SetLayout(layout, dirtype, name).value, dirtype, prev) == Ok(layout)
  {
  }

  /** A project and branch read from a relative URL. */
  datatype Meta = Meta(projectBase: string, projectName: string, branchName: string)

  /** The first of the three directory names (in trunk, branches, tags order) that occurs after a '/'. */
  function CutAt(rel: string, layout: Layout): (r: Option<string>)
    ensures r.Some? ==> r.value in [layout.trunk, layout.branches, layout.tags] && Find(rel, "/" + r.value) >= 0
    ensures r.None? <==> Find(rel, "/" + layout.trunk) < 0 && Find(rel, "/" + layout.branches) < 0 &&
                         Find(rel, "/" + layout.tags) < 0
    ensures Find(rel, "/" + layout.trunk) >= 0 ==> r == Some(layout.trunk)
    ensures Find(rel, "/" + layout.trunk) < 0 && Find(rel, "/" + layout.branches) >= 0 ==> r == Some(layout.branches)
  {
    if Find(rel, "/" + layout.trunk) >= 0 then Some(layout.trunk)
    else if Find(rel, "/" + layout.branches) >= 0 then Some(layout.branches)
    else if Find(rel, "/" + layout.tags) >= 0 then Some(layout.tags)
    else None
  }

  /**
   * The relative URL cut at the first occurrence of "/" and the chosen
   * directory name: the part before it, and the branch after the '/'.
   */
  function CutRel(rel: string, layout: Layout): (r: (string, string))
    ensures CutAt(rel, layout).None? ==> r == (rel, layout.trunk)
    ensures CutAt(rel, layout).Some? ==>
              rel == r.0 + "/" + r.1 && StartsWith(r.1, CutAt(rel, layout).value) &&
              |r.0| == Find(rel, "/" + CutAt(rel, layout).value)
  {
    match CutAt(rel, layout)
    case None => (rel, layout.trunk)
    case Some(sub) =>
      var idx := Find(rel, "/" + sub);
      SplitAt(rel, sub, idx);
      (rel[..idx], rel[idx + 1..])
  }

  /** Where "/" and `sub` occur, the string is the part before, a '/', and a part starting with `sub`. */
  lemma SplitAt(rel: string, sub: string, idx: int)
    requires OccursAt(rel, "/" + sub, idx)
    ensures rel == rel[..idx] + "/" + rel[idx + 1..] && StartsWith(rel[idx + 1..], sub)
  {
    assert rel[idx] == ("/" + sub)[0];
    assert rel[idx + 1..][..|sub|] == rel[idx + 1..idx + 1 + |sub|] == ("/" + sub)[1..] == sub;
  }

  /**
   * `__load_metadata` on the "Relative URL" `svn info` reports: it must
   * start with "^/"; it is cut at the first "/trunk", "/branches" or
   * "/tags" (tried in that order), the rest after the '/' being the branch
   * (the trunk name when there is no cut); what remains is split at its
   * last '/' into project base and project name.
   */
  function LoadMetadata(relUrl: string, layout: Layout): (r: Result<Meta>)
    ensures r.Ok? ==> StartsWith(relUrl, "^/")
    ensures r.Ok? ==> '/' !in r.value.projectName
    ensures StartsWith(relUrl, "^/") ==> (r.Ok? <==> '/' in CutRel(relUrl[2..], layout).0)
  {
    if !StartsWith(relUrl, "^/") then Err("Expected relative root \"" + relUrl + "\" to start with \"^/\"")
    else
      var (head, branch) := CutRel(relUrl[2..], layout);
      match RSplitOnce(head, '/')
      case None => Err("Cannot extract project name")
      case Some((base, name)) => Ok(Meta(base, name, branch))
  }

  /** The pieces a loaded URL was cut into, put back together. */
  lemma Assemble(relUrl: string, head: string, base: string, name: string, tail: string)
    requires StartsWith(relUrl, "^/") && relUrl[2..] == head + tail && head == base + ['/'] + name
    ensures relUrl == "^/" + base + "/" + name + tail
  {
    assert relUrl == relUrl[..2] + relUrl[2..];
  }

  /** Without any of the three directory names the branch is trunk and the URL is base/name. */
  lemma LoadWithoutBranch(relUrl: string, layout: Layout)
    requires StartsWith(relUrl, "^/")
    requires CutAt(relUrl[2..], layout).None?
    ensures LoadMetadata(relUrl, layout).Ok? <==> '/' in relUrl[2..]
    ensures var r := LoadMetadata(relUrl, layout);
            r.Ok? ==> r.value.branchName == layout.trunk &&
                      relUrl == "^/" + r.value.projectBase + "/" + r.value.projectName
  {
    var r := LoadMetadata(relUrl, layout);
    if r.Ok? {
      var head := relUrl[2..];
      var (base, name) := RSplitOnce(head, '/').value;
      assert head + "" == head;
      Assemble(relUrl, head, base, name, "");
      assert "^/" + base + "/" + name + "" == "^/" + base + "/" + name;
    }
  }

  /** With a cut, the URL is base/name followed by '/' and the branch, which starts with the directory name. */
  lemma LoadWithBranch(relUrl: string, layout: Layout)
    requires StartsWith(relUrl, "^/")
    requires CutAt(relUrl[2..], layout).Some?
    ensures var r := LoadMetadata(relUrl, layout);
            r.Ok? ==> relUrl == "^/" + r.value.projectBase + "/" + r.value.projectName + "/" + r.value.branchName &&
                      StartsWith(r.value.branchName, CutAt(relUrl[2..], layout).value)
  {
    var r := LoadMetadata(relUrl, layout);
    if r.Ok? {
      var (head, branch) := CutRel(relUrl[2..], layout);
      var (base, name) := RSplitOnce(head, '/').value;
      AssembleBranch(relUrl, head, base, name, branch);
    }
  }

  /** The pieces of a URL cut at a directory name, put back together. */
  lemma AssembleBranch(relUrl: string, head: string, base: string, name: string, branch: string)
    requires StartsWith(relUrl, "^/") && relUrl[2..] == head + "/" + branch && head == base + ['/'] + name
    ensures relUrl == "^/" + base + "/" + name + "/" + branch
  {
    assert relUrl[2..] == head + ("/" + branch);
    Assemble(relUrl, head, base, name, "/" + branch);
    assert "^/" + base + "/" + name + ("/" + branch) == "^/" + base + "/" + name + "/" + branch;
  }

  /** The trunk name wins over the others: "^/a/b/trunk" with a "/tags" later still gives a trunk branch. */
  lemma TrunkFirst(relUrl: string, layout: Layout)
    requires StartsWith(relUrl, "^/") && Find(relUrl[2..], "/" + layout.trunk) >= 0
    ensures var r := LoadMetadata(relUrl, layout);
            r.Ok? ==> StartsWith(r.value.branchName, layout.trunk)
  {
    LoadWithBranch(relUrl, layout);
  }

  /** Directory names are single path components. */
  predicate PlainNames(layout: Layout)
  {
    '/' !in layout.trunk && '/' !in layout.branches && '/' !in layout.tags
  }

  /**
   * Reading back a URL built from a base, a name and a branch that starts
   * with the directory name the cut picks.
   */
  lemma LoadOfBuilt(base: string, name: string, branch: string, layout: Layout, d: string)
    requires '/' !in name && PlainNames(layout)
    requires Find(base + "/" + name, "/" + layout.trunk) < 0
    requires Find(base + "/" + name, "/" + layout.branches) < 0
    requires Find(base + "/" + name, "/" + layout.tags) < 0
    requires CutAt(base + "/" + name + "/" + branch, layout) == Some(d) && StartsWith(branch, d)
    ensures LoadMetadata("^/" + base + "/" + name + "/" + branch, layout) == Ok(Meta(base, name, branch))
  {
    var head := base + "/" + name;
    var rel := head + "/" + branch;
    var relUrl := "^/" + base + "/" + name + "/" + branch;
    BuiltShape(base, name, branch);
    assert d in [layout.trunk, layout.branches, layout.tags];
    assert Find(head, "/" + d) < 0 && '/' !in d by {
      if d == layout.trunk {
      } else if d == layout.branches {
      } else {
        assert d == layout.tags;
      }
    }
    FirstCut(head, branch, d);
    var c := CutRel(rel, layout);
    SameCut(rel, c.0, c.1, head, branch);
    RSplitOnceAfter(base, '/', name);
  }

  /** The URL built from the parts, seen as "^/", the head and then "/" and the branch. */
  lemma BuiltShape(base: string, name: string, branch: string)
    ensures var relUrl := "^/" + base + "/" + name + "/" + branch;
            StartsWith(relUrl, "^/") && relUrl[2..] == base + "/" + name + "/" + branch
  {
  }

  /** The first "/d" in a head without one followed by "/" and a branch starting with `d` is at the joint. */
  lemma FirstCut(head: string, branch: string, d: string)
    requires Find(head, "/" + d) < 0 && '/' !in d && StartsWith(branch, d)
    ensures Find(head + "/" + branch, "/" + d) == |head|
  {
    var rel := head + "/" + branch;
    var pat := "/" + d;
    var rest := "/" + branch;
    assert rel == head + rest;
    assert OccursAt(rel, pat, |head|) by {
      assert rel[|head|..] == rest;
      assert rest[..|pat|] == pat;
    }
    var idx := Find(rel, pat);
    if idx < |head| {
      assert !OccursAt(head, pat, idx);
      NoStraddle(head, rest, d, idx);
    }
  }

  /** Two cuts of one string at one '/' position agree. */
  lemma SameCut(rel: string, a: string, b: string, c: string, e: string)
    requires rel == a + "/" + b && rel == c + "/" + e && |a| == |c|
    ensures a == c && b == e
  {
    assert a == rel[..|a|] && c == rel[..|c|];
    assert b == rel[|a| + 1..] && e == rel[|c| + 1..];
  }

  /** "/d" cannot start inside `a` and run on into a following "/...", when `d` has no '/'. */
  lemma NoStraddle(a: string, b: string, d: string, i: int)
    requires 0 <= i < |a| && !OccursAt(a, "/" + d, i)
    requires '/' !in d && |b| > 0 && b[0] == '/'
    ensures !OccursAt(a + b, "/" + d, i)
  {
    var pat := "/" + d;
    if i + |pat| <= |a| {
      assert (a + b)[i..i + |pat|] == a[i..i + |pat|];
    } else {
      var j := |a| - i;
      assert (a + b)[i + j] == '/';
      assert pat[j] == d[j - 1];
      assert pat[j] != '/';
    }
  }

  /**
   * `__fetch_subdirs`: among the listing entries ending in '/', the ones
   * naming the trunk, branches and tags directories; trunk defaults to "".
   * The names are checked in trunk, branches, tags order, so a name shared
   * by two types counts for the first only.
   */
  function FetchSubdirs(entries: seq<string>, layout: Layout): (r: (string, Option<string>, Option<string>))
    ensures r.0 == if (layout.trunk + "/") in entries then layout.trunk else ""
    ensures r.1 == if layout.branches != layout.trunk && (layout.branches + "/") in entries
                   then Some(layout.branches) else None
    ensures r.2 == if layout.tags != layout.trunk && layout.tags != layout.branches && (layout.tags + "/") in entries
                   then Some(layout.tags) else None
  {
    var found := FetchFrom(entries, layout, Subdirs(None, None, None));
    FetchTrunk(entries, layout, Subdirs(None, None, None));
    FetchBranches(entries, layout, Subdirs(None, None, None));
    FetchTags(entries, layout, Subdirs(None, None, None));
    (found.trunk.UnwrapOr(""), found.branches, found.tags)
  }

  /** The directories seen so far. */
  datatype Subdirs = Subdirs(trunk: Option<string>, branches: Option<string>, tags: Option<string>)

  /** One listing entry: a directory named like one of the three types is recorded for the first it names. */
  function Visit(found: Subdirs, entry: string, layout: Layout): Subdirs
  {
    if !EndsWith(entry, "/") then found
    else
      var name := entry[..|entry| - 1];
      if name == layout.trunk then found.(trunk := Some(name))
      else if name == layout.branches then found.(branches := Some(name))
      else if name == layout.tags then found.(tags := Some(name))
      else found
  }

  function FetchFrom(entries: seq<string>, layout: Layout, found: Subdirs): Subdirs
    decreases |entries|
  {
    if |entries| == 0 then found else FetchFrom(entries[1..], layout, Visit(found, entries[0], layout))
  }

  /** `name + "/"` is the entry naming directory `name`. */
  lemma EntryOf(entry: string, name: string)
    ensures EndsWith(entry, "/") && entry[..|entry| - 1] == name <==> entry == name + "/"
  {
    if entry == name + "/" {
      assert entry[..|entry| - 1] == name;
    }
    if EndsWith(entry, "/") && entry[..|entry| - 1] == name {
      assert entry == entry[..|entry| - 1] + "/";
    }
  }

  lemma {:induction false} FetchTrunk(entries: seq<string>, layout: Layout, found: Subdirs)
    requires found.trunk.None? || found.trunk == Some(layout.trunk)
    ensures var r := FetchFrom(entries, layout, found);
            r.trunk == if found.trunk.Some? || (layout.trunk + "/") in entries then Some(layout.trunk) else None
    decreases |entries|
  {
    if |entries| > 0 {
      MemberCons(entries, layout.trunk + "/");
      EntryOf(entries[0], layout.trunk);
      FetchTrunk(entries[1..], layout, Visit(found, entries[0], layout));
    }
  }

  lemma {:induction false} FetchBranches(entries: seq<string>, layout: Layout, found: Subdirs)
    requires found.branches.None? || found.branches == Some(layout.branches)
    ensures var r := FetchFrom(entries, layout, found);
            r.branches == if found.branches.Some? || (layout.branches != layout.trunk && (layout.branches + "/") in entries)
                          then Some(layout.branches) else None
    decreases |entries|
  {
    if |entries| > 0 {
      MemberCons(entries, layout.branches + "/");
      EntryOf(entries[0], layout.branches);
      FetchBranches(entries[1..], layout, Visit(found, entries[0], layout));
    }
  }

  lemma {:induction false} FetchTags(entries: seq<string>, layout: Layout, found: Subdirs)
    requires found.tags.None? || found.tags == Some(layout.tags)
    ensures var r := FetchFrom(entries, layout, found);
            r.tags == if found.tags.Some? || (layout.tags != layout.trunk && layout.tags != layout.branches &&
                                              (layout.tags + "/") in entries)
                      then Some(layout.tags) else None
    decreases |entries|
  {
    if |entries| > 0 {
      MemberCons(entries, layout.tags + "/");
      EntryOf(entries[0], layout.tags);
      FetchTags(entries[1..], layout, Visit(found, entries[0], layout));
    }
  }

  lemma MemberCons(s: seq<string>, x: string)
    requires |s| > 0
    ensures x in s <==> x == s[0] || x in s[1..]
  {
    assert s == [s[0]] + s[1..];
  }
}

=== FILE: svn_project.dfy ===
/**
 * The pieces shared by the scripts that load a Subversion project's
 * history: the tag filter, the stripping of the base URL, and the
 * `SVNProject` revision log, a dictionary from "<root URL>#<revision>" to
 * log entry kept in insertion order and listed by date.
 */
module SvnProjects {
  import opened Wrappers
  import opened StrUtil
  import Sorting
  import Seqs

  /**
   * `ignore_tag`: release candidates ("_rc") and debugging builds
   * ("_debug") are skipped, wherever in the name the marker occurs.
   */
  function IgnoreTag(name: string): (r: bool)
    ensures r <==> (exists i :: OccursAt(name, "_rc", i)) || (exists i :: OccursAt(name, "_debug", i))
  {
    Find(name, "_rc") >= 0 || Find(name, "_debug") >= 0
  }

  /**
   * The module-level `__build_base_suffix`: `svn_url` must be `base_url`
   * followed by '/', and the rest is returned.
   */
  function BuildBaseSuffix(svnUrl: string, baseUrl: string): (r: Result<string>)
    ensures r.Ok? <==> StartsWith(svnUrl, baseUrl + "/")
    ensures r.Ok? ==> baseUrl + "/" + r.value == svnUrl
  {
    if !StartsWith(svnUrl, baseUrl) then
      Err("URL \"" + svnUrl + "\" does not start with base URL \"" + baseUrl + "\"")
    else
      var prefix := svnUrl[|baseUrl|..];
      StartsWithThen(svnUrl, baseUrl, '/');
      if !StartsWith(prefix, "/") then Err("Cannot strip base URL \"" + baseUrl + "\" from \"" + svnUrl + "\"")
      else
        assert svnUrl == baseUrl + prefix;
        assert prefix == "/" + prefix[1..];
        Ok(prefix[1..])
  }

  /** Stripping the base from a URL built on it gives the suffix back. */
  lemma BaseSuffixOf(baseUrl: string, suffix: string)
    ensures BuildBaseSuffix(baseUrl + "/" + suffix, baseUrl) == Ok(suffix)
  {
    var url := baseUrl + "/" + suffix;
    assert StartsWith(url, baseUrl + "/") by {
      assert url[..|baseUrl| + 1] == baseUrl + "/";
    }
  }

  /** `s` with a '/' appended unless it already ends in one. */
  function WithSlash(s: string): (r: string)
    ensures EndsWith(r, "/")
    ensures r == s || r == s + "/"
    ensures EndsWith(s, "/") ==> r == s
  {
    if EndsWith(s, "/") then s else s + "/"
  }

  /**
   * `SVNProject.__build_base_suffix`: the same checks, and the result is
   * made to end in '/'.
   */
  function ProjectBaseSuffix(svnUrl: string, baseUrl: string): (r: Result<string>)
    ensures r.Ok? <==> StartsWith(svnUrl, baseUrl + "/")
    ensures r.Ok? ==> EndsWith(r.value, "/")
    ensures r.Ok? ==> var suffix := svnUrl[|baseUrl| + 1..];
                      r.value == suffix || r.value == suffix + "/"
  {
    var suffix :- BuildBaseSuffix(svnUrl, baseUrl);
    assert svnUrl[|baseUrl| + 1..] == suffix by {
      assert svnUrl == baseUrl + "/" + suffix;
    }
    Ok(WithSlash(suffix))
  }

  /** `make_key`: "<root URL>#<revision>". */
  function MakeKey(rootUrl: string, revision: int): (r: string)
  {
    rootUrl + "#" + IntToString(revision)
  }

  /** Reading a key back: the root URL before the last '#', the revision after it. */
  function ParseKey(key: string): (r: Option<(string, int)>)
  {
    match RSplitOnce(key, '#')
    case None => None
    case Some((root, digits)) =>
      match ParseInt(digits)
      case None => None
      case Some(rev) => Some((root, rev))
  }

  /** A key reads back as the root URL and revision it was made from. */
  lemma ParseMakeKey(rootUrl: string, revision: int)
    ensures ParseKey(MakeKey(rootUrl, revision)) == Some((rootUrl, revision))
  {
    var digits := IntToString(revision);
    assert '#' !in digits by {
      if revision >= 0 {
        assert AllDigits(digits);
      } else {
        assert AllDigits(digits[1..]) && digits[0] == '-';
        forall i | 0 <= i < |digits| ensures digits[i] != '#' {
          if i > 0 {
            assert digits[i] == digits[1..][i - 1];
          }
        }
      }
    }
    RSplitOnceAfter(rootUrl, '#', digits);
    IntToStringThenParse(revision);
  }

  /** Different (root URL, revision) pairs give different keys. */
  lemma MakeKeyInjective(root1: string, rev1: int, root2: string, rev2: int)
    requires MakeKey(root1, rev1) == MakeKey(root2, rev2)
    ensures root1 == root2 && rev1 == rev2
  {
    ParseMakeKey(root1, rev1);
    ParseMakeKey(root2, rev2);
  }

  // ----- the revision log -----

  /** A Python dictionary: its items in insertion order. */
  type Log<E(!new)> = seq<(string, E)>

  predicate DistinctKeys<E(!new)>(log: Log<E>)
  {
    forall i, j :: 0 <= i < j < |log| ==> log[i].0 != log[j].0
  }

  /** `get_entry`. */
  function GetEntry<E(!new)>(log: Log<E>, key: string): (r: Option<E>)
    ensures r.Some? <==> exists i :: 0 <= i < |log| && log[i].0 == key
    ensures r.Some? ==> exists i :: 0 <= i < |log| && log[i] == (key, r.value)
    decreases |log|
  {
    if |log| == 0 then None
    else if log[|log| - 1].0 == key then Some(log[|log| - 1].1)
    else
      var r := GetEntry(log[..|log| - 1], key);
      assert forall i :: 0 <= i < |log| - 1 ==> log[..|log| - 1][i] == log[i];
      r
  }

  /**
   * `add_entry`: a key already present is an error, and the log is left
   * as it was; a new key is appended with its entry.
   */
  function AddEntry<E(!new)>(log: Log<E>, key: string, entry: E): (r: Result<Log<E>>)
    ensures r.Ok? <==> GetEntry(log, key).None?
    ensures r.Ok? ==> r.value == log + [(key, entry)]
  {
    if GetEntry(log, key).Some? then Err("Cannot overwrite entry " + key) else Ok(log + [(key, entry)])
  }

  /** After an add, the key reads back as its entry and every other key as before; keys stay distinct. */
  lemma AddThenGet<E(!new)>(log: Log<E>, key: string, entry: E, other: string)
    requires DistinctKeys(log) && AddEntry(log, key, entry).Ok?
    ensures var log' := AddEntry(log, key, entry).value;
            && GetEntry(log', key) == Some(entry)
            && (other != key ==> GetEntry(log', other) == GetEntry(log, other))
            && DistinctKeys(log')
  {
    var log' := log + [(key, entry)];
    assert log'[..|log'| - 1] == log;
  }

  /** A second entry for the same key is always rejected. */
  lemma AddTwiceFails<E(!new)>(log: Log<E>, key: string, e1: E, e2: E)
    requires AddEntry(log, key, e1).Ok?
    ensures AddEntry(AddEntry(log, key, e1).value, key, e2).Err?
  {
    var log' := log + [(key, e1)];
    assert log'[|log'| - 1].0 == key;
  }

  /** Items ordered by the date string of their entries. */
  function ByDate<E(!new)>(date: E -> string): ((string, E), (string, E)) -> bool
  {
    ByString((p: (string, E)) => date(p.1))
  }

  lemma ByDateIsPreorder<E(!new)>(date: E -> string)
    ensures Sorting.IsTotalPreorder(ByDate(date))
  {
    ByStringIsPreorder((p: (string, E)) => date(p.1));
  }

  /**
   * `entry_pairs`: the items sorted by date string, stably, as Python's
   * `sorted` does; `entries` is their entries.
   */
  function EntryPairs<E(!new)>(log: Log<E>, date: E -> string): (r: Log<E>)
    ensures |r| == |log| && multiset(r) == multiset(log)
    ensures forall i, j :: 0 <= i < j < |r| ==> StrLe(date(r[i].1), date(r[j].1))
  {
    ByDateIsPreorder(date);
    Sorting.SortBy(log, ByDate(date))
  }

  /** A log whose entries were added in date order is listed in that order. */
  lemma EntryPairsInOrder<E(!new)>(log: Log<E>, date: E -> string)
    requires forall i, j :: 0 <= i < j < |log| ==> StrLe(date(log[i].1), date(log[j].1))
    ensures EntryPairs(log, date) == log
  {
    ByDateIsPreorder(date);
    Sorting.SortSorted(log, ByDate(date));
  }

  // ----- saving to the database -----

  /** The test of `main`'s loop: the database does not hold the item's key yet. */
  function NotSaved<E(!new)>(saved: set<string>): ((string, E)) -> bool
  {
    (item: (string, E)) => item.0 !in saved
  }

  /** The positions of the items whose key the database does not hold. */
  function Unsaved<E(!new)>(pairs: Log<E>, saved: set<string>): set<nat>
  {
    Seqs.Positions(pairs, NotSaved(saved))
  }

  /** The number of items whose key the database does not hold yet: the entries `main` saves. */
  function AddedCount<E(!new)>(pairs: Log<E>, saved: set<string>): (r: nat)
    ensures r == |Unsaved(pairs, saved)|
    ensures r <= |pairs|
    ensures r == 0 <==> forall i :: 0 <= i < |pairs| ==> pairs[i].0 in saved
    ensures r == |pairs| <==> forall i :: 0 <= i < |pairs| ==> pairs[i].0 !in saved
    decreases |pairs|
  {
    if |pairs| == 0 then 0
    else
      var init := pairs[..|pairs| - 1];
      assert forall i :: 0 <= i < |init| ==> init[i] == pairs[i];
      Seqs.PositionsLast(pairs, NotSaved(saved));
      AddedCount(init, saved) + (if pairs[|pairs| - 1].0 in saved then 0 else 1)
  }

  /**
   * The summary `main` prints after saving: "No entries added" when
   * nothing was new, otherwise "Added" and the number added, with the total
   * at the end when some entries were already there.
   */
  function SaveReport(added: nat, total: nat): (r: string)
    ensures StartsWith(r, "No entries added") <==> added == 0
    ensures added == 0 ==> EndsWith(r, ", total is " + NatToString(total))
    ensures added != 0 ==> StartsWith(r, "Added ") && DigitPrefix(r[6..]) == NatToString(added)
    ensures added != 0 && added != total ==> EndsWith(r, ", total now " + NatToString(total))
  {
    if added == 0 then
      Affixes("No entries added", ", total is " + NatToString(total));
      "No entries added" + (", total is " + NatToString(total))
    else AddedReport(added, total)
  }

  /** The report when something was added: the count after "Added ", and the total at the end unless all were new. */
  function AddedReport(added: nat, total: nat): (r: string)
    ensures !StartsWith(r, "No entries added")
    ensures StartsWith(r, "Added ") && DigitPrefix(r[6..]) == NatToString(added)
    ensures added != total ==> EndsWith(r, ", total now " + NatToString(total))
  {
    var tail := if added == total then " entries" else " new entries" + (", total now " + NatToString(total));
    CountAfter("Added ", NatToString(added), tail);
    OtherStart("Added " + (NatToString(added) + tail), "No entries added");
    if added == total then "Added " + (NatToString(added) + tail)
    else
      Affixes("Added " + NatToString(added) + " new entries", ", total now " + NatToString(total));
      "Added " + (NatToString(added) + tail)
  }

  /** A number written between a head and a tail that does not start with a digit reads back after the head. */
  lemma CountAfter(head: string, count: string, tail: string)
    requires AllDigits(count) && tail != [] && !IsDigit(tail[0])
    ensures StartsWith(head + (count + tail), head)
    ensures (head + (count + tail))[|head|..] == count + tail
    ensures DigitPrefix((head + (count + tail))[|head|..]) == count
  {
    Affixes(head, count + tail);
    DigitPrefixOf(count, tail);
  }

  /** The report reads "Added N entries" with the total N exactly when every entry was new and there was one. */
  lemma SaveReportAllNew(added: nat, total: nat)
    ensures SaveReport(added, total) == "Added " + NatToString(total) + " entries" <==> added == total && total != 0
  {
    var r := SaveReport(added, total);
    var full := "Added " + NatToString(total) + " entries";
    if r == full {
      assert full[..1] == "A" && "No entries added"[..1] == "N";
      assert added != 0;
      assert full[6..] == NatToString(total) + " entries";
      DigitPrefixOf(NatToString(total), " entries");
      NatToStringInjective(added, total);
    }
  }

  /**
   * What `main` reports after a run: "No entries added" exactly when every
   * key was already in the database, and "Added N entries" for all N pairs
   * exactly when there were pairs and none was.
   */
  lemma SaveReportOfRun<E(!new)>(pairs: Log<E>, saved: set<string>)
    ensures StartsWith(SaveReport(AddedCount(pairs, saved), |pairs|), "No entries added") <==>
            |Unsaved(pairs, saved)| == 0
    ensures SaveReport(AddedCount(pairs, saved), |pairs|) == "Added " + NatToString(|pairs|) + " entries" <==>
            pairs != [] && |Unsaved(pairs, saved)| == |pairs|
  {
    SaveReportAllNew(AddedCount(pairs, saved), |pairs|);
  }

}

=== FILE: svndb.dfy ===
/**
 * The Subversion log database's records: `SVNEntry` with its link to the
 * previous entry, its comparison key and duplicate check, and the
 * database operations on the cached entries that do not depend on SQL:
 * the project filter, recording a Git commit, and the walk back to the
 * nearest committed revision.  The cache is a map from revision number to
 * entry, and an entry's previous link is the revision it points to.
 */
module SvnDb {
  import opened Wrappers
  import opened StrUtil
  import Comparable
  import SvnProjects
  import Seqs

  /** One log entry; `previous` is the revision of the entry this one follows. */
  datatype SvnEntry = SvnEntry(tagName: string, branchName: string, revision: int, author: string,
                               dateString: string, numLines: nat, loglines: seq<string>,
                               gitBranch: Option<string>, gitHash: Option<string>, previous: Option<int>)

  /** The cached entries, by revision. */
  type Cache = map<int, SvnEntry>

  /** `log_message`: the loglines joined by newlines, `None` when there are none. */
  function LogMessage(loglines: seq<string>): (r: Option<string>)
    ensures r.None? <==> loglines == []
  {
    if loglines == [] then None else Some(Join(loglines, "\n"))
  }

  /** Splitting the message at newlines gives back loglines that hold no newline. */
  lemma LogMessageLines(loglines: seq<string>)
    requires loglines != [] && forall k :: 0 <= k < |loglines| ==> '\n' !in loglines[k]
    ensures Split(LogMessage(loglines).value, '\n') == loglines
  {
    SplitOfJoin(loglines, '\n');
  }

  /** `compare_key`: tag, branch, revision, and the previous revision or `None`. */
  function CompareKey(e: SvnEntry): (r: Comparable.Key)
  {
    [Comparable.KStr(e.tagName), Comparable.KStr(e.branchName), Comparable.KInt(e.revision),
     match e.previous case None => Comparable.KNone case Some(p) => Comparable.KInt(p)]
  }

  /** Two entries compare equal exactly when tag, branch, revision and previous link agree. */
  lemma CompareKeyEqual(a: SvnEntry, b: SvnEntry)
    ensures CompareKey(a) == CompareKey(b) <==>
            a.tagName == b.tagName && a.branchName == b.branchName && a.revision == b.revision &&
            a.previous == b.previous
  {
    if CompareKey(a) == CompareKey(b) {
      assert CompareKey(a)[3] == CompareKey(b)[3];
    }
  }

  /**
   * What `check_duplicate` is given: a log entry fresh from `svn log`
   * (which has no `previous` attribute: `hasPrevious` false) or another
   * `SVNEntry`.
   */
  datatype Candidate = Candidate(revision: int, author: string, dateString: string, numLines: nat,
                                 hasPrevious: bool, previous: Option<int>)

  /** The fields `check_duplicate` compares before it reaches the previous link. */
  predicate SameRecord(e: SvnEntry, c: Candidate)
  {
    e.revision == c.revision && e.author == c.author && e.dateString == c.dateString && e.numLines == c.numLines
  }

  /**
   * `check_duplicate` as written: the `return False` after the
   * previous-link comparison is outside its `if`, so any candidate that
   * has a `previous` attribute is reported as different.
   */
  function CheckDuplicateAsWritten(e: SvnEntry, c: Candidate): (r: bool)
    ensures r <==> SameRecord(e, c) && !c.hasPrevious
  {
    if e.revision != c.revision then false
    else if e.author != c.author then false
    else if e.dateString != c.dateString then false
    else if e.numLines != c.numLines then false
    else if c.hasPrevious then false
    else true
  }

  /** As written, an entry is not a duplicate of an exact copy of itself. */
  lemma CopyIsNotDuplicate(e: SvnEntry)
    ensures !CheckDuplicateAsWritten(e, Candidate(e.revision, e.author, e.dateString, e.numLines, true, e.previous))
  {
  }

  /** `check_duplicate` with the `return False` inside the `if`: the previous links must agree too. */
  function CheckDuplicate(e: SvnEntry, c: Candidate): (r: bool)
    ensures r <==> SameRecord(e, c) && (c.hasPrevious ==> e.previous == c.previous)
  {
    if e.revision != c.revision then false
    else if e.author != c.author then false
    else if e.dateString != c.dateString then false
    else if e.numLines != c.numLines then false
    else if c.hasPrevious && e.previous != c.previous then false
    else true
  }

  /** Corrected, every entry is a duplicate of its own copy, and the two readings agree on `svn log` entries. */
  lemma CopyIsDuplicate(e: SvnEntry, c: Candidate)
    ensures CheckDuplicate(e, Candidate(e.revision, e.author, e.dateString, e.numLines, true, e.previous))
    ensures !c.hasPrevious ==> CheckDuplicate(e, c) == CheckDuplicateAsWritten(e, c)
  {
  }

  // ----- set_previous -----

  /** The previous link of the entry at `rev`, `None` when there is no such entry or no link. */
  function PreviousOf(cache: Cache, rev: int): Option<int>
  {
    if rev in cache then cache[rev].previous else None
  }

  /**
   * `set_previous` as written.  Replacing a link with a lower revision is
   * refused; but the refusal's message reads `prev.revision`, where `prev`
   * is still `None` when the old previous entry has no previous entry of
   * its own, and that raises `AttributeError`.
   */
  function SetPreviousAsWritten(cache: Cache, rev: int, newPrev: int): (r: Result<Cache>)
    requires rev in cache
    ensures r.Err? <==> match cache[rev].previous
                        case None => false
                        case Some(p) => p > newPrev && PreviousOf(cache, p).None?
  {
    var e := cache[rev];
    match e.previous
    case Some(p) =>
      if p > newPrev then
        if PreviousOf(cache, p).None? then Err("'NoneType' object has no attribute 'revision'")
        else Ok(cache)
      else Ok(cache[rev := e.(previous := Some(newPrev))])
    case None => Ok(cache[rev := e.(previous := Some(newPrev))])
  }

  /** The input that shows it: an entry whose previous link points at a first revision, relinked lower. */
  lemma RelinkBelowFirstRaises(e: SvnEntry, first: SvnEntry, newPrev: int)
    requires e.revision != first.revision && first.previous.None?
    requires e.previous == Some(first.revision) && newPrev < first.revision
    ensures SetPreviousAsWritten(map[e.revision := e, first.revision := first], e.revision, newPrev).Err?
  {
  }

  /**
   * `set_previous` as evidently intended: a link is never moved to a
   * lower revision; otherwise it is set to the given entry.
   */
  function SetPrevious(cache: Cache, rev: int, newPrev: int): (r: Cache)
    requires rev in cache
    ensures rev in r && r.Keys == cache.Keys
    ensures forall k :: k in cache && k != rev ==> r[k] == cache[k]
    ensures r[rev] == cache[rev] || r[rev] == cache[rev].(previous := Some(newPrev))
  {
    var e := cache[rev];
    match e.previous
    case Some(p) => if p > newPrev then cache else cache[rev := e.(previous := Some(newPrev))]
    case None => cache[rev := e.(previous := Some(newPrev))]
  }

  /**
   * The link only moves up: once set it is never lowered, it is set to
   * `newPrev` exactly when that is not lower, and where the code as
   * written succeeds it does the same.
   */
  lemma PreviousNeverDecreases(cache: Cache, rev: int, newPrev: int)
    requires rev in cache
    ensures var r := SetPrevious(cache, rev, newPrev);
            && r[rev].previous.Some?
            && (cache[rev].previous.Some? ==> cache[rev].previous.value <= r[rev].previous.value)
            && (r[rev].previous == Some(newPrev) <==>
                  cache[rev].previous.None? || cache[rev].previous.value <= newPrev)
    ensures SetPreviousAsWritten(cache, rev, newPrev).Ok? ==>
              SetPreviousAsWritten(cache, rev, newPrev).value == SetPrevious(cache, rev, newPrev)
  {
  }

  // ----- the database -----

  /** `__ignore_project`: the tag contains one of the `IGNORED` markers. */
  const Ignored: seq<string> := ["_rc", "_debug"]

  function IgnoreProject(tagName: string): (r: bool)
    ensures r <==> exists k :: 0 <= k < |Ignored| && Contains(tagName, Ignored[k])
  {
    Seqs.FirstWhere(Ignored, (sub: string) => Find(tagName, sub) >= 0).Some?
  }

  /** The database's filter is the scripts' `ignore_tag`. */
  lemma IgnoreProjectIsIgnoreTag(tagName: string)
    ensures IgnoreProject(tagName) == SvnProjects.IgnoreTag(tagName)
  {
    assert Contains(tagName, Ignored[0]) <==> Find(tagName, "_rc") >= 0;
    assert Contains(tagName, Ignored[1]) <==> Find(tagName, "_debug") >= 0;
  }

  /**
   * `save_revision`: a hash of 7 characters or fewer and a revision not in
   * the cache are errors; an entry already holding this branch and hash is
   * left alone; otherwise both are recorded.
   */
  function SaveRevision(cache: Cache, revision: int, gitBranch: string, gitHash: string): (r: Result<Cache>)
    ensures r.Ok? <==> |gitHash| > 7 && revision in cache
    ensures r.Ok? ==> r.value.Keys == cache.Keys
    ensures r.Ok? ==> r.value[revision] == cache[revision].(gitBranch := Some(gitBranch), gitHash := Some(gitHash))
    ensures r.Ok? ==> forall k :: k in cache && k != revision ==> r.value[k] == cache[k]
  {
    if |gitHash| <= 7 then Err("Cannot add short hash \"" + gitHash + "\"")
    else if revision !in cache then Err("Cannot find revision " + IntToString(revision))
    else
      var e := cache[revision];
      if e.gitBranch == Some(gitBranch) && e.gitHash == Some(gitHash) then Ok(cache)
      else Ok(cache[revision := e.(gitBranch := Some(gitBranch), gitHash := Some(gitHash))])
  }

  /** Saving what is already there changes nothing, and saving twice is saving once. */
  lemma SaveRevisionIdempotent(cache: Cache, revision: int, gitBranch: string, gitHash: string)
    requires SaveRevision(cache, revision, gitBranch, gitHash).Ok?
    ensures var once := SaveRevision(cache, revision, gitBranch, gitHash).value;
            SaveRevision(once, revision, gitBranch, gitHash) == Ok(once)
    ensures cache[revision].gitBranch == Some(gitBranch) && cache[revision].gitHash == Some(gitHash) ==>
              SaveRevision(cache, revision, gitBranch, gitHash) == Ok(cache)
  {
    var once := SaveRevision(cache, revision, gitBranch, gitHash).value;
    assert once[revision].gitBranch == Some(gitBranch) && once[revision].gitHash == Some(gitHash);
  }

  /**
   * `find_revision(branch, rev, with_git_hash=True)`: the database row for
   * a revision on a branch, as (Git branch, Git hash).
   */
  type Finder = (string, int) -> Option<(Option<string>, Option<string>)>

  /**
   * One step of `find_previous_revision`: the row on the branch, falling
   * back to the trunk when there is none, or when it has neither branch nor
   * hash and the branch is not the trunk.
   */
  function LookupRevision(find: Finder, branch: string, trunkName: string, rev: int): Option<(Option<string>, Option<string>)>
  {
    var row := find(branch, rev);
    if row.None? || (row.value.0.None? && row.value.1.None? && branch != trunkName) then find(trunkName, rev)
    else row
  }

  predicate Committed(row: Option<(Option<string>, Option<string>)>)
  {
    row.Some? && row.value.0.Some? && row.value.1.Some?
  }

  /**
   * `find_previous_revision`: along `chain` (the entry's revision, then
   * its previous links), the first revision whose lookup has both a Git
   * branch and hash, returned with them; an error when the chain ends.
   */
  function FindPreviousRevision(find: Finder, branch: string, trunkName: string, chain: seq<int>): (r: Result<(int, string, string)>)
    requires |chain| > 0
    ensures r.Err? <==> forall k :: 0 <= k < |chain| ==> !Committed(LookupRevision(find, branch, trunkName, chain[k]))
    ensures r.Ok? ==> exists i :: 0 <= i < |chain| && r.value.0 == chain[i] &&
                                 LookupRevision(find, branch, trunkName, chain[i]) == Some((Some(r.value.1), Some(r.value.2))) &&
                                 forall k :: 0 <= k < i ==> !Committed(LookupRevision(find, branch, trunkName, chain[k]))
  {
    match Seqs.FirstWhere(chain, (rev: int) => Committed(LookupRevision(find, branch, trunkName, rev)))
    case None => Err("Cannot find committed ancestor for SVN r" + IntToString(chain[0]))
    case Some(i) =>
      var row := LookupRevision(find, branch, trunkName, chain[i]).value;
      Ok((chain[i], row.0.value, row.1.value))
  }
}

=== FILE: wrappers.dfy ===
/**
 * Option and Result types shared by every module.  A Python exception
 * raised by the original scripts becomes an `Err` carrying a short
 * description; a Python `None` becomes `None`.
 */
module Wrappers {

  datatype Option<+T> = None | Some(value: T)
  {
    function UnwrapOr(default: T): (r: T)
      ensures Some? ==> r == value
      ensures None? ==> r == default
    {
      match this
      case Some(v) => v
      case None => default
    }
  }

  datatype Result<+T> = Ok(value: T) | Err(error: string)
  {
    predicate IsFailure()
    {
      Err?
    }

    function PropagateFailure<U>(): Result<U>
      requires Err?
    {
      Err(error)
    }

    function Extract(): T
      requires Ok?
    {
      value
    }
  }
}
